=== FILE: README.md ===
# AtlasXmlSerializer in Dafny

A model of the core of AtlasXmlSerializer, a reflective XML serializer for
.NET. For each type it meets, the library decides how every member is
written: as an attribute, a child element, text or CDATA, or not at all.
Attributes on the types and members, plus a run-time table of overrides
and defaults, drive that choice. The library then generates one
serializer class per type and caches it.

This model keeps the decisions and what the generated code writes and
reads. It leaves out the C# text of the generated classes and their
compilation.

The modules follow the source files:

- `ArgumentCheck`, `AttributeBase`, `Options` and `NodeTypes`: argument
  guards, the child names shared by the serialization attributes, the
  serialization options, and the node kinds.
- `MemberAttribute`, `TypeAttribute`, `AttributeOverrides` and
  `AttributeResolution`: the attributes, their fill-only `Merge`, the
  override and default tables, and the precedence by which a member's
  effective attribute is assembled.
- `Folds`: the laws of merging layers one after another, which both
  attribute kinds share.
- `Reflection`, `TypeNames` and `TextSearch`: an abstract universe of
  types (base chains, interfaces, declared attributes), the names
  `CachedTypeResolver` produces and caches, and the string searches they
  use.
- `CompilerTypeInfo`, `CompilerPropertyInfo`, `PropertyCompiler` and
  `Compiler`: the per-type conversion choices, the per-member
  preferences, the member plan and its ordering (attributes first, then
  inheritance depth, then order), and the dispatch to the five kinds of
  serializer (array, dictionary, enumerable, value type, object).
- `TemplateBlocks`: the removal or replacement of marked blocks in a code
  template.
- `XmlModel`, `Codecs` and `StringConversion`: the elements the generated
  code writes and reads, and the text conversions of values.
- `ValueTypeCompiler`, `EnumerableCompiler`, `DictionaryCompiler`,
  `ObjectSerializer`, `ByteArrayHelper`, `ByteArraySerializer` and
  `SerializerFactory`: what each serializer writes and reads back, the
  hexadecimal helpers, and the serializer registry.
- `XmlHelper`: the two reader-navigation helpers, over a token-level
  reader model.

Elements are trees: a fragment is a list of attributes and either a
self-closed body or a list of element, text and CDATA nodes. `<v></v>`
and `<v />` differ, and the generated code uses that difference to tell
the empty string from null. Conversions to and from text are `Codec`
parameters, and the round-trip lemmas assume the codec reads back what it
writes. Reflection, the type-name resolver, base64 and the compiler
produced for a nested type are likewise parameters.

## Model

| member | source | states |
|---|---|---|
| ArgumentCheck.NotNull | Sources/Atlas.Xml/ArgumentCheck.cs:21-25 | passes exactly for a non-null argument; a null one fails with ArgumentNullException naming the argument |
| ArgumentCheck.NotEmptyNullable | Sources/Atlas.Xml/ArgumentCheck.cs:36-43 | passes exactly when the value is present and not the type's default; null is ArgumentNullException, the default is ArgumentException "must not be empty" |
| ArgumentCheck.NotEmptyValue | Sources/Atlas.Xml/ArgumentCheck.cs:53-57 | passes exactly when the value differs from the type's default; otherwise ArgumentException naming the argument |
| ArgumentCheck.NotEmptyString | Sources/Atlas.Xml/ArgumentCheck.cs:68-75 | passes exactly for a non-empty string; null and "" fail with the two distinct exceptions |
| ArgumentCheck.NotEmptySequence | Sources/Atlas.Xml/ArgumentCheck.cs:86-93 | passes exactly for a sequence with an item; null and no items fail with the two distinct exceptions |
| ArgumentCheck.Ensure | Sources/Atlas.Xml/ArgumentCheck.cs:102-111 | passes exactly when the condition holds; the exception has no parameter name and carries the default, the given or the formatted message as the nulls decide; a message that string.Format rejects for its arguments raises FormatException instead |
| AttributeBase.FillName | Sources/Atlas.Xml/XmlSerializationAttributeBase.cs:77-84 | a name that is neither null nor empty is kept; otherwise the other attribute's name is taken, null or empty included |
| AttributeBase.MergeBase | Sources/Atlas.Xml/XmlSerializationAttributeBase.cs:75-85 | for each of the three child names: a given name is kept, an unset one is replaced by the other's |
| AttributeBase.ToOptions | Sources/Atlas.Xml/XmlSerializationAttributeBase.cs:60-73 | the shared default options exactly when all three names are null; otherwise each null name falls back to "item", "k" or "v" and an empty name stays empty |
| AttributeBase.MergeBaseIdempotent | Sources/Atlas.Xml/XmlSerializationAttributeBase.cs:75-85 | merging the same attribute again changes nothing, and a name given on either side is given after the merge |
| AttributeBase.FoldMergeBaseName | Sources/Atlas.Xml/XmlSerializationAttributeBase.cs:75-85 | after a series of name merges each child name is the first given one, accumulator first; otherwise it stays unset |
| Folds.FoldAppend | Sources/Atlas.Xml/XmlSerializationMemberAttribute.cs:43-56 | merging two lists of layers one after the other is merging their concatenation, so the default merged after the declared attributes is one more layer |
| Folds.MergeInFront | Sources/Atlas.Xml/XmlSerializationMemberAttribute.cs:59-65 | for an associative merge, an override merged in front of the finished result equals merging the override before every other layer |
| Folds.FoldProjects | Sources/Atlas.Xml/XmlSerializationMemberAttribute.cs:147-149 | when a merge merges the child names with MergeBase, the names of a series of merges are the series of name merges |
| Options.Custom | Sources/Atlas.Xml/SerializationOptions.cs:19-37 | options built field by field are never the shared default instance and carry the names they were given |
| MemberAttribute.Merge | Sources/Atlas.Xml/XmlSerializationMemberAttribute.cs:147-159 | each of the names, the node name, the order and the kind is taken from the other attribute only while unset here (empty name, negative order, Auto) |
| MemberAttribute.MergeType | Sources/Atlas.Xml/XmlSerializationMemberAttribute.cs:165-171 | a type attribute supplies only the child names and the kind; node name and order are untouched |
| MemberAttribute.MergeIdempotent | Sources/Atlas.Xml/XmlSerializationMemberAttribute.cs:147-159 | merging the same attribute a second time changes nothing |
| MemberAttribute.FoldMergeKind | Sources/Atlas.Xml/XmlSerializationMemberAttribute.cs:157-158 | after a series of merges the kind is the accumulator's when chosen, else the first chosen by a layer, else Auto |
| MemberAttribute.FoldMergeOrder | Sources/Atlas.Xml/XmlSerializationMemberAttribute.cs:154-155 | after a series of merges the order is the accumulator's when not negative, else the first non-negative one of the layers, else negative |
| MemberAttribute.FoldMergeNodeName | Sources/Atlas.Xml/XmlSerializationMemberAttribute.cs:151-152 | after a series of merges the node name is the first given one, accumulator first; otherwise it stays unset |
| MemberAttribute.FoldFromFreshResolves | Sources/Atlas.Xml/XmlSerializationMemberAttribute.cs:43-56 | merges into a fresh attribute give every field the value of the first layer that sets it, and leave unset what no layer sets |
| MemberAttribute.CloneInFrontResolves | Sources/Atlas.Xml/XmlSerializationMemberAttribute.cs:59-65 | with an override in front, every field comes from the override when it sets it, else from the earlier resolution |
| MemberAttribute.SystemAttributesOnFresh | Sources/Atlas.Xml/XmlSerializationMemberAttribute.cs:80-141 | on a fresh attribute the framework's XML attributes give the kind by priority (ignore, text, element or array, attribute), the first non-empty name, the first strictly positive order and the array item name as child element name |
| TypeAttribute.Merge | Sources/Atlas.Xml/XmlSerializationTypeAttribute.cs:75-87 | the child names merge as the base class says; each of the three kinds is taken from the other attribute only while still Auto |
| TypeAttribute.FoldMergeKind | Sources/Atlas.Xml/XmlSerializationTypeAttribute.cs:79-86 | after a series of merges each kind is the accumulator's when chosen, else the first chosen by a layer |
| TypeAttribute.FoldFromFreshResolves | Sources/Atlas.Xml/XmlSerializationTypeAttribute.cs:45-52 | merges into a fresh attribute give every kind and name the value of the first layer that sets it |
| TypeAttribute.CloneInFrontResolves | Sources/Atlas.Xml/XmlSerializationTypeAttribute.cs:60-66 | with an override in front, every kind and name comes from the override when it sets it, else from the earlier resolution |
| AttributeResolution.FromType | Sources/Atlas.Xml/XmlSerializationTypeAttribute.cs:43-69 | field by field, the type's attribute is the first said by the override, the attributes along the type hierarchy (type, bases, interfaces) or the default, in that order |
| AttributeResolution.DerivedKindWins | Sources/Atlas.Xml/XmlSerializationTypeAttribute.cs:43-57 | with no override, a kind the type declares itself is the kind of its attribute, whatever its base types, interfaces or default say |
| AttributeResolution.ExceptKeepsFirstKind | Sources/Atlas.Xml/ReflectionHelper.cs:512-520 | leaving out attributes already collected that choose no kind keeps the first kind chosen |
| AttributeResolution.OwnAttribute | Sources/Atlas.Xml/XmlSerializationMemberAttribute.cs:41-65 | field by field, the member's own attribute is the first said by the override, the framework's XML attributes, the declared attributes or the default, in that order |
| AttributeResolution.FromMember | Sources/Atlas.Xml/XmlSerializationMemberAttribute.cs:41-78 | order and node name come only from the member's own layers; the kind and each child name from those layers when one sets them, else from the value type's attribute |
| AttributeResolution.OverrideWins | Sources/Atlas.Xml/XmlSerializationMemberAttribute.cs:58-65 | a member override that chooses a kind decides the member's kind, whatever the member declares |
| AttributeResolution.IgnoredMemberStaysIgnored | Sources/Atlas.Xml/XmlSerializationMemberAttribute.cs:82-87 | a member with XmlIgnore or NonSerialized and no override is not serialized, whatever else it or its type declares |
| AttributeResolution.ListCapacityIgnored | Sources/Atlas.Xml/SerializationAttributeOverrides.cs:21-25 | with the tables the program starts with, the Capacity member of every List<T> is not serialized |
| AttributeOverrides.AddToMemberTable | Sources/Atlas.Xml/SerializationAttributeOverrides.cs:51-69 | afterwards the member's lookup gives exactly the attribute passed (none for null), every other lookup is unchanged, and the type's inner table exists |
| AttributeOverrides.RemovalCreatesEmptyEntry | Sources/Atlas.Xml/SerializationAttributeOverrides.cs:57-62 | removing from a type not yet filed leaves an empty inner table behind, although no lookup changes |
| AttributeOverrides.CheckMemberArguments | Sources/Atlas.Xml/SerializationAttributeOverrides.cs:45-46 | passes exactly for a type and a non-empty member name; the type is checked first, then null and empty names fail differently |
| AttributeOverrides.OverrideMember | Sources/Atlas.Xml/SerializationAttributeOverrides.cs:43-49 | fails exactly when the argument checks fail; otherwise files the override (or removes it for null) and changes no other entry or table |
| AttributeOverrides.SetMemberDefault | Sources/Atlas.Xml/SerializationAttributeOverrides.cs:77-83 | fails exactly when the argument checks fail; otherwise files the default (or removes it for null) and changes no other entry or table |
| AttributeOverrides.GetMemberOverride | Sources/Atlas.Xml/SerializationAttributeOverrides.cs:85-98 | after the argument checks, an attribute is returned exactly when one is filed for the member under the type's key, and it is that one |
| AttributeOverrides.GetMemberDefault | Sources/Atlas.Xml/SerializationAttributeOverrides.cs:100-113 | after the argument checks, an attribute is returned exactly when a default is filed for the member under the type's key, and it is that one |
| AttributeOverrides.OverrideReachesEveryInstantiation | Sources/Atlas.Xml/SerializationAttributeOverrides.cs:53 | an override filed through one instantiation of a generic type is returned for any other instantiation of it |
| AttributeOverrides.InitialOverridesIgnoreInternals | Sources/Atlas.Xml/SerializationAttributeOverrides.cs:20-35 | the initial overrides ignore List and ArrayList Capacity and Dictionary Keys and Values, hold nothing else, and no defaults are filed |
| AttributeOverrides.SetOrRemove | Sources/Atlas.Xml/SerializationAttributeOverrides.cs:135-138 | afterwards the key's lookup gives exactly the attribute passed (none for null) and every other key is unchanged |
| AttributeOverrides.OverrideType | Sources/Atlas.Xml/SerializationAttributeOverrides.cs:127-140 | fails exactly for a null type; otherwise files the type override (or removes it) and changes no other table |
| AttributeOverrides.SetTypeDefaultAsWritten | Sources/Atlas.Xml/SerializationAttributeOverrides.cs:147-160 | behaves exactly as the type-level Override: it writes the overrides table |
| AttributeOverrides.SetTypeDefault | Sources/Atlas.Xml/SerializationAttributeOverrides.cs:142-160 | fails exactly for a null type; otherwise files the type default (or removes it) and leaves the overrides alone |
| AttributeOverrides.GetTypeOverride | Sources/Atlas.Xml/SerializationAttributeOverrides.cs:162-171 | fails exactly for a null type; returns the override filed under the type's key, or none |
| AttributeOverrides.GetTypeDefault | Sources/Atlas.Xml/SerializationAttributeOverrides.cs:173-182 | fails exactly for a null type; returns the default filed under the type's key, or none |
| AttributeOverrides.TypeDefaultsNeverSeen | Sources/Atlas.Xml/SerializationAttributeOverrides.cs:147-182 | as written, no sequence of public calls ever makes GetDefault(type) return an attribute |
| AttributeOverrides.SetTypeDefaultCounterexample | Sources/Atlas.Xml/SerializationAttributeOverrides.cs:147-160 | a default set on a type is returned as its override and not as its default; the corrected call files it as the default |
| AttributeOverrides.CorrectedDefaultIsLastSet | Sources/Atlas.Xml/SerializationAttributeOverrides.cs:142-146 | with the corrected call, GetDefault returns the last default set for the type, whatever other calls follow |
| Reflection.BaseChain | Sources/Atlas.Xml/ReflectionHelper.cs:489-494 | the walk starts at the type, follows base types one step at a time with strictly decreasing numbers, never includes object, and is empty for object |
| Reflection.Except | Sources/Atlas.Xml/ReflectionHelper.cs:496 | the result has no duplicates, holds only elements of the input outside the excluded set, and every such element |
| Reflection.GetTypeHierarchy | Sources/Atlas.Xml/ReflectionHelper.cs:483-500 | empty for null; otherwise the type first (unless it is object), then its base chain in order, then only interfaces of the type that are not on the chain; no duplicates, every implemented interface included, and only known types |
| Reflection.CollectAttributes | Sources/Atlas.Xml/ReflectionHelper.cs:512-520 | extends what was collected, stays duplicate-free, includes every attribute declared on the listed types and nothing else |
| Reflection.GetAttributesCollectsEach | Sources/Atlas.Xml/ReflectionHelper.cs:512-520 | the collected attributes are duplicate-free and are exactly those declared on some listed type |
| Reflection.GetAttributesKeepsTypeOrder | Sources/Atlas.Xml/ReflectionHelper.cs:516-517 | adding a type at the end appends its new attributes after all those collected before |
| Reflection.InheritanceDepth | Sources/Atlas.Xml/SerializationCompiler/PropertyCompiler.cs:85-93 | the number of base-type steps from the declaring type to object, which is the length of its base chain; no depth when a type without a base is reached first |
| TypeNames.GetNameForGetType | Sources/Atlas.Xml/CachedTypeResolver.cs:87-108 | the result is the name with every `, mscorlib` removed in one pass and then each `, Version=` block cut by the reference scanner `Stripped` (a block runs to the next `]`, which stays, or to the end); no version block survives unless the cleaned name starts with one; every `]` is kept; the name never grows; a name with neither marker comes back unchanged |
| TypeNames.StripVersions | Sources/Atlas.Xml/CachedTypeResolver.cs:91-105 | the cutting loop computes what the reference scanner `Stripped` keeps: each version block removed up to its `]` or to the end; every `]` kept; the name never lengthens; a marker-free name left alone |
| TypeNames.CutBlock | Sources/Atlas.Xml/CachedTypeResolver.cs:94-98 | one cut removes exactly the span from the marker to the next `]`, shortens the name, the next search starts just after the cut point, and the name cut so far still agrees with the reference scanner |
| TypeNames.CorlibTypeName | Sources/Atlas.Xml/CachedTypeResolver.cs:87-108 | a non-empty type name without commas followed by `, mscorlib, Version=` and a version without `]` or `m` comes back as the bare type name |
| TypeNames.Int32Name | Sources/Atlas.Xml.UnitTests/DictionaryTests.cs:114 | the assembly-qualified name of System.Int32 in mscorlib 4.0.0.0 comes back as `System.Int32`, the `_type` the test expects |
| TextSearch.RemovalIsOnePass | Sources/Atlas.Xml/CachedTypeResolver.cs:89 | the removal of `, mscorlib` is a single pass: removing the occurrence inside `, msc, mscorliborlib` leaves a new `, mscorlib` behind |
| TypeNames.CutStep | Sources/Atlas.Xml/CachedTypeResolver.cs:94-98 | one cut keeps every `]`, shortens the name, and leaves no marker at or before the cut point |
| TypeNames.TruncateStep | Sources/Atlas.Xml/CachedTypeResolver.cs:100-103 | truncating at a marker with no `]` after it keeps every `]` and leaves no marker |
| TypeNames.GetNonGenericName | Sources/Atlas.Xml/CachedTypeResolver.cs:125-128 | "Array" for arrays; otherwise the longest prefix of the name without a backquote, which is the whole name when it has none |
| TypeNames.InstantiationsShareKey | Sources/Atlas.Xml/CachedTypeResolver.cs:115-128 | two instantiations of one generic definition in one namespace get the same table key, the name before the arity suffix |
| TypeNames.GetOrAdd | Sources/Atlas.Xml/CachedTypeResolver.cs:24 | a cached key answers from the cache and changes nothing; otherwise the factory's answer is returned and stored unless it throws |
| TypeNames.GetOrAddIsStable | Sources/Atlas.Xml/CachedTypeResolver.cs:54 | once a lookup succeeds, later lookups return the same value whatever the factory would now answer, and the cache only grows |
| TypeNames.GetType | Sources/Atlas.Xml/CachedTypeResolver.cs:52-55 | a cached name answers from the cache and changes nothing; an uncached name is resolved, a success is added to the cache under that name, and a failure leaves the cache as it was |
| TypeNames.GetFriendlyNameForCode | Sources/Atlas.Xml/CachedTypeResolver.cs:22-25 | a cached type answers from the cache; otherwise the rendered name is returned and cached |
| TextSearch.IndexOf | Sources/Atlas.Xml/CachedTypeResolver.cs:91-98 | the first index at or after the start where the pattern occurs, and -1 exactly when it occurs nowhere from there |
| TextSearch.IndexOfChar | Sources/Atlas.Xml/SerializationCompiler/Compiler.cs:306-309 | the first index at or after the start holding the character, and -1 exactly when none does |
| TextSearch.IndexOfCharIsIndexOf | Sources/Atlas.Xml/SerializationCompiler/Compiler.cs:306-309 | searching for a one-character string finds the same index as searching for the character |
| TextSearch.RemoveAllChangesIffOccurs | Sources/Atlas.Xml/CachedTypeResolver.cs:89 | removing every occurrence of a pattern changes the string exactly when the pattern occurs in it |
| TextSearch.RemoveAllKeepsChar | Sources/Atlas.Xml/CachedTypeResolver.cs:89 | removing a pattern that does not contain a character keeps every occurrence of that character |
| TemplateBlocks.Step | Sources/Atlas.Xml/SerializationCompiler/Compiler.cs:301-318 | a pass fails only with ArgumentOutOfRange; in keeping mode a missing end marker always fails; in replacing mode a found end marker never fails, and a missing one fails exactly unless the start marker is before `\|en\|` and the code is at least `\|en\| - 1` long |
| TemplateBlocks.KeepPass | Sources/Atlas.Xml/SerializationCompiler/Compiler.cs:306-310 | the keeping half of a pass fails only with ArgumentOutOfRange |
| TemplateBlocks.ReplacePass | Sources/Atlas.Xml/SerializationCompiler/Compiler.cs:314-315 | the removal fails exactly when its count is negative or runs past the end; otherwise the code changes length by the replacement minus the span removed |
| TemplateBlocks.StepProgress | Sources/Atlas.Xml/SerializationCompiler/Compiler.cs:299-318 | a pass keeps the code before the start marker, the next search starts no earlier, finds a real marker and skips the replacement; unless the pass changes nothing, the code left to search shrinks or the search moves past `\|en\|`; keeping mode shortens the code; only an empty replacement can change nothing |
| TemplateBlocks.BlocksFrom | Sources/Atlas.Xml/SerializationCompiler/Compiler.cs:299-319 | the loop from a marker keeps the code before it, returns the code unchanged when there is no marker, shortens it in keeping mode, fails only with ArgumentOutOfRange, and can run forever only with an empty replacement |
| TemplateBlocks.RemoveCodeBetweenComments | Sources/Atlas.Xml/SerializationCompiler/Compiler.cs:295-322 | code without the start marker comes back unchanged; otherwise the code before the first marker is kept, keeping mode shortens the code, the only failure is ArgumentOutOfRange, and only an empty replacement can make the loop run forever |
| TemplateBlocks.RemoveBlocks | Sources/Atlas.Xml/SerializationCompiler/Compiler.cs:295-322 | the imperative loop, which rewrites one string pass by pass, computes the same outcome as the recursive definition, stopping at a pass that changes nothing |
| TemplateBlocks.KeepOneBlock | Sources/Atlas.Xml/SerializationCompiler/Compiler.cs:304-311 | keeping a block removes exactly the start marker's line and the end marker's line and keeps the body between them and the code around them |
| TemplateBlocks.ReplaceOneBlock | Sources/Atlas.Xml/SerializationCompiler/Compiler.cs:312-316 | replacing a block puts the replacement exactly where the span from the start marker to the end of the end marker was |
| TemplateBlocks.ReplaceFirstBlock | Sources/Atlas.Xml/SerializationCompiler/Compiler.cs:312-318 | each block in turn: the block at the search position is replaced, and the loop goes on from the first start marker after the replacement |
| TemplateBlocks.KeepFirstBlock | Sources/Atlas.Xml/SerializationCompiler/Compiler.cs:304-318 | each block in turn: the block at the search position loses its two marker lines, and the loop goes on from the first start marker at or after that position |
| TemplateBlocks.ReplaceWithoutEndMarker | Sources/Atlas.Xml/SerializationCompiler/Compiler.cs:302-315 | a block with no end marker is still replaced: `//BEGIN: X\nfoo` with `R` gives `R: X\nfoo`, the count being `\|en\| - 1` |
| TemplateBlocks.EmptyReplacementSpins | Sources/Atlas.Xml/SerializationCompiler/Compiler.cs:299-319 | an empty replacement of a block without an end marker starting at `\|en\| - 1` leaves the code and the search as they were, so the loop never ends |
| TemplateBlocks.MarkerRebuilt | Sources/Atlas.Xml/SerializationCompiler/Compiler.cs:299-319 | removing blocks one after another can join text into a new start marker that the loop never revisits, even at the first marker's position |
| CompilerTypeInfo.UseXmlConvertOnGet | Sources/Atlas.Xml/SerializationCompiler/CompilerTypeInfo.cs:137-145 | XmlConvert writes the value exactly when it can and no custom method does |
| CompilerTypeInfo.UseXmlConvertOnSet | Sources/Atlas.Xml/SerializationCompiler/CompilerTypeInfo.cs:147-155 | XmlConvert reads the value exactly when it can and no custom method does |
| CompilerTypeInfo.StripNullable | Sources/Atlas.Xml/SerializationCompiler/CompilerTypeInfo.cs:211-225 | a value can be null exactly when it is a reference type or a Nullable<T>; a Nullable<T> is then handled as T and marked nullable; nothing else changes |
| CompilerTypeInfo.NewTypeInfo | Sources/Atlas.Xml/SerializationCompiler/CompilerTypeInfo.cs:23-109 | finalized once, the choices follow from the type's conversions: nullability, which conversions read and write the value, every type with a writer also has a reader, a culture-aware ToString is kept only with a way back, strings need nothing |
| CompilerTypeInfo.NewTypeInfoAsWritten | Sources/Atlas.Xml/SerializationCompiler/CompilerTypeInfo.cs:23-27 | the constructor as written, finalizing twice: a Nullable<T> stays marked nullable yet only reference types can be null; the value type's conversions and the collection flags come out as with one finalize |
| CompilerTypeInfo.DoubleFinalize | Sources/Atlas.Xml/SerializationCompiler/CompilerTypeInfo.cs:23-27 | the second FinalizeValueType of the constructor changes exactly two things: a Nullable<T> becomes unable to be null, and a dropped culture-aware ToString comes back |
| CompilerTypeInfo.ChooseTwice | Sources/Atlas.Xml/SerializationCompiler/CompilerTypeInfo.cs:53-109 | choosing the conversions a second time only brings back a culture-aware ToString that the first pass dropped |
| CompilerTypeInfo.DoubleFinalizeCounterexample | Sources/Atlas.Xml/SerializationCompiler/CompilerTypeInfo.cs:23-27 | int? comes out of the constructor as written marked nullable but unable to be null; a type with only ToString(IFormatProvider) and Parse(string) gets a writer the single finalize does not give it |
| CompilerPropertyInfo.Describe | Sources/Atlas.Xml/SerializationCompiler/CompilerPropertyInfo.cs:19-81 | hooks make the member readable (and able to be null) or writable; an indexer can be neither read nor written; a property's readability, visibility and staticness follow its accessors, the setter deciding staticness; a field is always readable and writable unless readonly or const |
| CompilerPropertyInfo.PreferredKind | Sources/Atlas.Xml/SerializationCompiler/CompilerPropertyInfo.cs:93-120 | not serialized exactly when the member does not seem serialized; an attribute exactly when it does and a conversion to or from text is chosen; otherwise an element |
| CompilerPropertyInfo.HookedMemberPrefersAttribute | Sources/Atlas.Xml/SerializationCompiler/CompilerPropertyInfo.cs:22-27 | a member with a custom serialization method prefers to be an attribute |
| CompilerPropertyInfo.PrivateFieldNotSerialized | Sources/Atlas.Xml/SerializationCompiler/CompilerPropertyInfo.cs:93-103 | a private field without hooks is not serialized by preference |
| CompilerPropertyInfo.PublicPropertyKind | Sources/Atlas.Xml/SerializationCompiler/CompilerPropertyInfo.cs:105-120 | a public read-write instance property is always serialized, as an attribute exactly when its type can be read back from text |
| PropertyCompiler.SerializationTypeOrder | Sources/Atlas.Xml/SerializationCompiler/PropertyCompiler.cs:30-36 | attributes, and only attributes, sort first |
| PropertyCompiler.PlanFrom | Sources/Atlas.Xml/SerializationCompiler/PropertyCompiler.cs:62-111 | no plan exactly when the resolved kind (Auto left to the member's preference) is None; otherwise a concrete kind, the attribute's node name or else the member name, the attribute's order when it is not negative or else the member's position, and the depth of the declaring type; a failed depth walk is a null reference |
| PropertyCompiler.Plan | Sources/Atlas.Xml/SerializationCompiler/PropertyCompiler.cs:14-22 | the same decision stated about the member's resolved attribute, its accessors and its declaring type's depth |
| PropertyCompiler.ExplicitKindKept | Sources/Atlas.Xml/SerializationCompiler/PropertyCompiler.cs:66-73 | a kind set explicitly on the member is kept whatever the member's visibility; None drops the member |
| PropertyCompiler.DepthAlongBaseChain | Sources/Atlas.Xml/SerializationCompiler/PropertyCompiler.cs:85-93 | each step along the base chain lowers the inheritance depth by exactly one |
| PropertyCompiler.WriteMember | Sources/Atlas.Xml/SerializationCompiler/PropertyCompiler.cs:358-453 | a null value writes nothing; an attribute member appends one attribute with the value's text; an element member appends one element named after the member; writing only appends, and the only failure is an attribute after content |
| PropertyCompiler.ReadAttributeCase | Sources/Atlas.Xml/SerializationCompiler/PropertyCompiler.cs:464-473 | without a text conversion nothing is assigned; an assigned value is what the conversion reads from the attribute's text |
| PropertyCompiler.ReadElementCase | Sources/Atlas.Xml/SerializationCompiler/PropertyCompiler.cs:511-545 | the value type's serializer reads the element when there is no text conversion; otherwise the element's text is converted, an empty element reading as "" |
| PropertyCompiler.ReadTextCase | Sources/Atlas.Xml/SerializationCompiler/PropertyCompiler.cs:474-495 | the first text or CDATA node is converted; a member left null is not a string or the element was self-closed, and a self-closed element leaves every text member null |
| PropertyCompiler.MemberRoundTrip | Sources/Atlas.Xml/SerializationCompiler/PropertyCompiler.cs:358-545 | for every kind, what a member writes into an empty element its read case reads back as the same value |
| PropertyCompiler.AttributesFirstWriteSucceeds | Sources/Atlas.Xml/SerializationCompiler/PropertyCompiler.cs:30-36 | with attribute members sorted first, writing all members of an object never writes an attribute after content, so it cannot fail |
| PropertyCompiler.NullTextMemberStaysNull | Sources/Atlas.Xml/SerializationCompiler/PropertyCompiler.cs:480-495 | a null text member writes nothing and reads back null, the empty-string fix not applying to a self-closed element |
| PropertyCompiler.WriteStringMembers | Sources/Atlas.Xml/SerializationCompiler/PropertyCompiler.cs:358-431 | a string attribute and a string text member write the attribute when set and then the text when set |
| PropertyCompiler.StringMembersExample | Sources/Atlas.Xml/SerializationCompiler/PropertyCompiler.cs:480-495 | concrete values: both set, both empty and both null, with the empty text reading back as "" |
| Compiler.Dispatch | Sources/Atlas.Xml/SerializationCompiler/Compiler.cs:70-85 | arrays exactly when the type is an array; dictionaries exactly for the other IDictionary types; enumerables exactly for the remaining IEnumerable types other than string; of the rest, value types exactly when a text conversion is configured in either direction |
| Compiler.StringAndPlainObjects | Sources/Atlas.Xml/SerializationCompiler/Compiler.cs:76-84 | string, although enumerable, gets the value-type serializer; a type that is neither a collection nor convertible gets the object serializer |
| Compiler.KeptPlans | Sources/Atlas.Xml/SerializationCompiler/Compiler.cs:331-341 | the kept members carry consecutive indices from the first free one, each with a concrete kind; a failed depth walk fails the whole with a null reference |
| Compiler.KeptPlansKeepsNamed | Sources/Atlas.Xml/SerializationCompiler/Compiler.cs:333-341 | the kept members are exactly the members whose resolved kind is not None, in declaration order |
| Compiler.InsertPlan | Sources/Atlas.Xml/SerializationCompiler/Compiler.cs:343 | inserting into a sorted list gives a sorted permutation of the list and the new plan |
| Compiler.InsertPlanStable | Sources/Atlas.Xml/SerializationCompiler/Compiler.cs:343 | insertion keeps the plans of every key in order, with the new plan first among its own key |
| Compiler.SortPlans | Sources/Atlas.Xml/SerializationCompiler/Compiler.cs:343 | the result is a permutation of the plans ordered by type order, then inheritance depth, then order |
| Compiler.SortPlansStable | Sources/Atlas.Xml/SerializationCompiler/Compiler.cs:343 | the sort is stable, as OrderBy/ThenBy are: plans with equal keys keep their declaration order |
| Compiler.SortedPutsAttributesFirst | Sources/Atlas.Xml/SerializationCompiler/Compiler.cs:343 | in a sorted list every attribute member comes before every other member |
| Compiler.ResolveAll | Sources/Atlas.Xml/SerializationCompiler/Compiler.cs:328-335 | one resolution per member, in order, each under the member's own name |
| Compiler.GetPropertyCompilers | Sources/Atlas.Xml/SerializationCompiler/Compiler.cs:324-344 | succeeds exactly when planning succeeds; the result is a stable sorted permutation of the kept plans, with attributes first, concrete kinds and positive indices |
| Compiler.TextMember | Sources/Atlas.Xml/SerializationCompiler/Compiler.cs:399-422 | the first member of a text kind in sorted order, and none exactly when no member has a text kind |
| StringConversion.Write | Sources/Atlas.Xml/SerializationCompiler/Compiler.cs:489-529 | XmlConvert exactly when the type info asks for it on get, with the round-trip mode exactly for DateTime; the type converter exactly when XmlConvert is not used and a converter is configured; the string itself exactly for strings otherwise; ToString with the invariant culture exactly when configured |
| StringConversion.Read | Sources/Atlas.Xml/SerializationCompiler/Compiler.cs:531-578 | XmlConvert exactly when asked for on set, with the round-trip mode exactly for DateTime; the converter and the string itself under the same precedence as writing; Parse only when configured, with the invariant culture exactly when configured |
| StringConversion.ConfiguredWriterHasConversion | Sources/Atlas.Xml/SerializationCompiler/CompilerTypeInfo.cs:157-160 | a type whose serializer is configured without a custom method is never written through ToString without a culture |
| StringConversion.ReaderExistsIffConfigured | Sources/Atlas.Xml/SerializationCompiler/CompilerTypeInfo.cs:162-167 | without a custom method, some conversion reads the value from text exactly when its deserializer is configured |
| StringConversion.StringIsIdentity | Sources/Atlas.Xml/SerializationCompiler/Compiler.cs:512-516 | a string is written as itself and read as itself |
| StringConversion.CultureWriteHasReader | Sources/Atlas.Xml/SerializationCompiler/CompilerTypeInfo.cs:74-109 | a type written with the culture-aware ToString always has a conversion that reads it back |
| EnumerableCompiler.ElementType | Sources/Atlas.Xml/SerializationCompiler/EnumerableCompiler.cs:64-98 | the array's element type or the argument of the implemented IEnumerable<T>, object when there is none; a type that is not enumerable is an InvalidOperationException |
| EnumerableCompiler.ChildKind | Sources/Atlas.Xml/SerializationCompiler/EnumerableCompiler.cs:100-111 | never Auto: the collection's child value kind, else the element type's own kind, else Text |
| EnumerableCompiler.WriteItem | Sources/Atlas.Xml/SerializationCompiler/EnumerableCompiler.cs:169-226 | a null item is the `_type="null"` marker in text mode and nothing otherwise; an attribute item is one value attribute; a text item is its value alone; any other item is one value element around the value |
| EnumerableCompiler.ReadItem | Sources/Atlas.Xml/SerializationCompiler/EnumerableCompiler.cs:232-358 | the null marker reads as null; a missing value attribute or value element is null for a type that can be null and otherwise the matching missing-value exception; an empty text item converts "" unless the type can be null |
| EnumerableCompiler.ItemRoundTrip | Sources/Atlas.Xml/SerializationCompiler/EnumerableCompiler.cs:169-358 | every item, null and the empty string included, reads back as exactly what was written |
| EnumerableCompiler.WriteItems | Sources/Atlas.Xml/SerializationCompiler/EnumerableCompiler.cs:169-208 | one child element per item, in order, each named by the options' child element name |
| EnumerableCompiler.Serialize | Sources/Atlas.Xml/SerializationCompiler/Compiler.cs:120-151 | the items add no attributes to the collection element, and the element is self-closed exactly for an empty sequence |
| EnumerableCompiler.SequenceRoundTrip | Sources/Atlas.Xml/SerializationCompiler/Compiler.cs:120-151 | a sequence reads back with the same number of items in the same order, keeping "" and null apart |
| EnumerableCompiler.ItemsRoundTrip | Sources/Atlas.Xml/SerializationCompiler/EnumerableCompiler.cs:169-358 | the item elements read back, one after another, as the items written |
| EnumerableCompiler.ListOfStringExample | Sources/Atlas.Xml/SerializationCompiler/EnumerableCompiler.cs:169-208 | a list of "A", "" and null writes a text item, an empty but not self-closed item, and a self-closed item carrying only the null marker |
| DictionaryCompiler.KeyKind | Sources/Atlas.Xml/SerializationCompiler/DictionaryCompiler.cs:104-112 | a key is always an attribute or element kind; a declared Attribute, Element or ElementAsCData is kept; any other setting becomes Attribute exactly when the key type has a text conversion |
| DictionaryCompiler.ValueKind | Sources/Atlas.Xml/SerializationCompiler/DictionaryCompiler.cs:120-147 | never Auto; a text kind only for a value type with a text conversion and an attribute key; an element key forces an element kind, ElementAsCData surviving; Auto is Text or Element by the conversion |
| DictionaryCompiler.ResolutionIsResolved | Sources/Atlas.Xml/SerializationCompiler/DictionaryCompiler.cs:104-147 | the two resolutions together give a key of attribute or element kind, and an element value whenever the key is an element |
| DictionaryCompiler.WriteEntry | Sources/Atlas.Xml/SerializationCompiler/DictionaryCompiler.cs:240-349 | the corrected writer: the key comes first unless the value is text; a present text value is its text after the key attribute, whether or not the type can be null; a null text value is the null marker followed by the key; a null value of another kind leaves only the key; an attribute value follows the key attribute; an element value follows the key element |
| DictionaryCompiler.WriteEntryAsWritten | Sources/Atlas.Xml/SerializationCompiler/DictionaryCompiler.cs:235-293 | as written, a present text value of a type that cannot be null is written without its key, and with no attributes at all; every other entry is what the corrected writer writes |
| DictionaryCompiler.KeylessTextEntryFails | Sources/Atlas.Xml/SerializationCompiler/DictionaryCompiler.cs:247-254 | as written, every entry with a text value of a type that cannot be null fails to read back |
| DictionaryCompiler.ReadAttributes | Sources/Atlas.Xml/SerializationCompiler/DictionaryCompiler.cs:423-469 | reading the attributes finds null only for a value type that can be null |
| DictionaryCompiler.ReadText | Sources/Atlas.Xml/SerializationCompiler/DictionaryCompiler.cs:471-495 | reading the text finds null only for a value type that can be null; a value type without a text conversion is deserialized but never marked found; an empty element leaves the value unfound; otherwise the parsed text is the value found, and a parse failure is the error |
| DictionaryCompiler.ReadElements | Sources/Atlas.Xml/SerializationCompiler/DictionaryCompiler.cs:497-553 | reading the child elements finds null only for a value type that can be null |
| DictionaryCompiler.ReadEntry | Sources/Atlas.Xml/SerializationCompiler/DictionaryCompiler.cs:368-421 | a value read back is null only for a value type that can be null |
| DictionaryCompiler.MissingKeyRejected | Sources/Atlas.Xml/SerializationCompiler/DictionaryCompiler.cs:382-391 | an entry without a key is rejected |
| DictionaryCompiler.KeyElementReadsBack | Sources/Atlas.Xml/SerializationCompiler/DictionaryCompiler.cs:505-533 | a key element written first reads back as the key, and reading continues with the rest of the children |
| DictionaryCompiler.EntryRoundTrip | Sources/Atlas.Xml/SerializationCompiler/DictionaryCompiler.cs:240-553 | with the corrected writer and the corrected value-element reader, every entry reads back as its key and value, null and "" included |
| DictionaryCompiler.WriteEntries | Sources/Atlas.Xml/SerializationCompiler/Compiler.cs:87-118 | one item element per entry, in enumeration order, named by the options' child element name |
| DictionaryCompiler.Serialize | Sources/Atlas.Xml/SerializationCompiler/Compiler.cs:87-118 | the entries add no attributes to the dictionary element, and the element is self-closed exactly for an empty dictionary |
| DictionaryCompiler.Assign | Sources/Atlas.Xml/SerializationCompiler/DictionaryCompiler.cs:420 | after assigning the entries read in order, every key read is present and holds the value of its last entry, and other keys keep their values |
| DictionaryCompiler.DictionaryRoundTrip | Sources/Atlas.Xml/SerializationCompiler/Compiler.cs:87-118 | with the corrected writer and the corrected value-element reader, a dictionary reads back as the same entries in the same order |
| DictionaryCompiler.EntriesRoundTrip | Sources/Atlas.Xml/SerializationCompiler/DictionaryCompiler.cs:240-553 | with the corrected writer and reader, the item elements read back, one after another, as the entries written |
| DictionaryCompiler.ElementValueReadAsWritten | Sources/Atlas.Xml/SerializationCompiler/DictionaryCompiler.cs:535-542 | as written, a value element of a type with a text conversion is read as the conversion of "", so a type that cannot convert "" fails whatever the element holds |
| DictionaryCompiler.ElementValueCounterexample | Sources/Atlas.Xml/SerializationCompiler/DictionaryCompiler.cs:535-542 | the entry "a" to true with an element key is written as a key element and a value element; as written reading it fails, corrected it reads back |
| DictionaryCompiler.KeylessTextEntryCounterexample | Sources/Atlas.Xml/SerializationCompiler/DictionaryCompiler.cs:247-254 | with default kinds for string to bool, the entry "a" to true is written, as written, as `<item>true</item>` and rejected for its missing key; the corrected writer gives `<item k="a">true</item>`, which reads back |
| DictionaryCompiler.DictionaryOfIntStringNodes | Sources/Atlas.Xml/SerializationCompiler/DictionaryCompiler.cs:240-291 | 1, 2 and 3 mapped to "A", "" and null write a text item, an empty but not self-closed item, and a self-closed item with the null marker before the key |
| DictionaryCompiler.DictionaryOfIntStringExample | Sources/Atlas.Xml/SerializationCompiler/DictionaryCompiler.cs:368-421 | that dictionary reads back as the same entries |
| XmlModel.WriteAttribute | Sources/Atlas.Xml/SerializationCompiler/PropertyCompiler.cs:396-405 | an attribute is written exactly while the start tag is still open, after the attributes already there; afterwards the writer refuses with InvalidOperationException |
| XmlModel.WriteString | Sources/Atlas.Xml/SerializationCompiler/PropertyCompiler.cs:441-446 | writing text closes the start tag even when the text is empty, so "" leaves a non-empty element with no text node |
| XmlModel.WriteCData | Sources/Atlas.Xml/SerializationCompiler/Compiler.cs:584-590 | a CDATA section is appended even when its text is empty |
| XmlModel.WriteElement | Sources/Atlas.Xml/SerializationCompiler/PropertyCompiler.cs:408-423 | a start element, its content and the end element append exactly one child element, leaving the attributes alone |
| XmlModel.WriteInto | Sources/Atlas.Xml/SerializationCompiler/PropertyCompiler.cs:432-440 | a nested serializer writing into the current element succeeds exactly when it writes no attribute after content; its attributes follow the element's and its nodes follow the element's nodes |
| XmlModel.FirstAttribute | Sources/Atlas.Xml/SerializationCompiler/EnumerableCompiler.cs:336-358 | an attribute is found exactly when the element has one, and it is the first |
| XmlModel.FirstChildElement | Sources/Atlas.Xml/XmlHelper.cs:39-57 | the child found is an element of the content, and none is found exactly when no node of the content is an element |
| XmlModel.FirstElementIn | Sources/Atlas.Xml/XmlHelper.cs:43-50 | the element found is the first element node, every node before it being text |
| XmlModel.TextReadsBack | Sources/Atlas.Xml/SerializationCompiler/PropertyCompiler.cs:524-538 | text written plain or as CDATA is what one Read then Value gives back, and never leaves the element empty |
| XmlHelper.Next | Sources/Atlas.Xml/XmlHelper.cs:19 | Read moves one node on, and stays at the end of input |
| XmlHelper.EndOfLevel | Sources/Atlas.Xml/XmlHelper.cs:15-33 | the position found is the end of input or an end tag at or after the start |
| XmlHelper.Skip | Sources/Atlas.Xml/XmlHelper.cs:27 | from the start tag of an element with content, Skip moves past its matching end tag; from any other node it reads once |
| XmlHelper.SkipElements | Sources/Atlas.Xml/XmlHelper.cs:26-27 | skipping never moves back and stops on a node that is not a start tag |
| XmlHelper.ChildLoop | Sources/Atlas.Xml/XmlHelper.cs:43-50 | the loop passes over text only and stops on a start tag, an end tag or the end of input |
| XmlHelper.MoveToFirstChild | Sources/Atlas.Xml/XmlHelper.cs:39-57 | true only on a start tag reached over text alone, never from an empty element; false one node past an empty element, and otherwise just past the end tag or at the end of input |
| XmlHelper.FindsFirstChild | Sources/Atlas.Xml/XmlHelper.cs:39-57 | on a serialized element, true exactly when the element has a child element, the reader then standing on that child; false just past the element |
| XmlHelper.FirstChildScan | Sources/Atlas.Xml/XmlHelper.cs:43-50 | the loop over an element's children stops on the first child element, or on the closing end tag when there is none |
| XmlHelper.UpLoopAsWritten | Sources/Atlas.Xml/XmlHelper.cs:19-28 | the loop as written stops on an end tag or at the end of input |
| XmlHelper.MoveUpToNextElementAsWritten | Sources/Atlas.Xml/XmlHelper.cs:15-33 | returns true exactly when input remains; from an end tag it reads once; otherwise it ends just past some end tag or at the end of input |
| XmlHelper.UpLoopEndsLevel | Sources/Atlas.Xml/XmlHelper.cs:19-28 | the corrected loop stops exactly on the end tag that closes the level it starts on |
| XmlHelper.MoveUpToNextElement | Sources/Atlas.Xml/XmlHelper.cs:15-33 | from an end tag one node on; from anywhere else just past the end tag that closes the current level, child elements skipped whole; true exactly when input remains |
| XmlHelper.AsWrittenAgreesWithoutChildren | Sources/Atlas.Xml/XmlHelper.cs:19-28 | where the current level holds no child element, the method as written stops where the corrected one does |
| XmlHelper.ConsumesFromStart | Sources/Atlas.Xml/XmlHelper.cs:15-33 | from an element's start tag, the corrected method stops on the node after the element |
| XmlHelper.ConsumesFromChild | Sources/Atlas.Xml/XmlHelper.cs:15-33 | from a text node or an empty child inside an element, the corrected method stops on the node after the element |
| XmlHelper.MoveUpCounterexample | Sources/Atlas.Xml/XmlHelper.cs:19-28 | from the text of `<p>a<c /></p><q />`, the method as written passes the end of p and the following `<q />` as well, while the corrected one stops on `<q />` |
| XmlHelper.SkipElementsKeepsLevel | Sources/Atlas.Xml/XmlHelper.cs:26-27 | skipping the elements the reader stands on never changes which end tag closes the current level |
| ValueTypeCompiler.SerializationMethod | Sources/Atlas.Xml/SerializationCompiler/ValueTypeCompiler.cs:46-51 | never Auto: Auto reads as Text and every other kind is kept |
| ValueTypeCompiler.Compile | Sources/Atlas.Xml/SerializationCompiler/ValueTypeCompiler.cs:44-60 | the corrected compiler: fails, with a null reference, exactly for kind None, whose type information is never built; otherwise a concrete kind, the declared one unless Auto, with the type's information finalized once |
| ValueTypeCompiler.CompileAsWritten | Sources/Atlas.Xml/SerializationCompiler/ValueTypeCompiler.cs:44-60 | the compiler as written: the same failure and kind, with the type information of the constructor that finalizes twice |
| ValueTypeCompiler.UnwrapsNullable | Sources/Atlas.Xml/SerializationCompiler/ValueTypeCompiler.cs:62-71 | the getter reads .Value exactly for a Nullable<T> without a custom serialization method |
| ValueTypeCompiler.UnwrapIsGuarded | Sources/Atlas.Xml/SerializationCompiler/ValueTypeCompiler.cs:62-71 | with type information finalized once, the getter of a bare type unwraps exactly a Nullable<T>, and only a type that can be null is unwrapped, so the unwrap is behind the null check |
| ValueTypeCompiler.UnwrapUnguardedAsWritten | Sources/Atlas.Xml/SerializationCompiler/ValueTypeCompiler.cs:100-110 | as written, a Nullable<T> is unwrapped while marked as unable to be null, so no null check guards the unwrap and null is outside what the writer handles; an empty element is a missing-value exception where the corrected compiler reads null |
| ValueTypeCompiler.Write | Sources/Atlas.Xml/SerializationCompiler/ValueTypeCompiler.cs:96-126 | no attributes; self-closed exactly for null; otherwise the value's text is what one Read gives back, except that plain empty text leaves no node |
| ValueTypeCompiler.Read | Sources/Atlas.Xml/SerializationCompiler/ValueTypeCompiler.cs:132-167 | text present is converted; without text a type that cannot be null is a missing-value exception; a self-closed element, or an element without text of a type other than string, is null; null only for a type that can be null |
| ValueTypeCompiler.RoundTrip | Sources/Atlas.Xml/SerializationCompiler/Compiler.cs:173-193 | a value reads back as itself, null and "" included, whenever the conversion inverts itself and an empty text form is CDATA or a string |
| ValueTypeCompiler.StringExample | Sources/Atlas.Xml/SerializationCompiler/ValueTypeCompiler.cs:149-160 | a null string is `<x />`, "" is `<x></x>` and "A" is `<x>A</x>`, and the first two read back as null and "" |
| ObjectSerializer.Serialize | Sources/Atlas.Xml/SerializationCompiler/ObjectSerializer.cs:17-23 | a null instance is a null reference; otherwise `_type` naming the runtime type follows the element's attributes, then what that type's serializer writes, nothing for a plain object; it succeeds exactly on an element whose start tag is still open |
| ObjectSerializer.Deserialize | Sources/Atlas.Xml/SerializationCompiler/ObjectSerializer.cs:32-50 | an element whose first attribute is not `_type` is a missing-type-attribute exception; otherwise the named type is resolved, a plain object is a fresh one and any other type's serializer reads the element |
| ObjectSerializer.RoundTrip | Sources/Atlas.Xml/SerializationCompiler/ObjectSerializer.cs:17-50 | a boxed value written into a fresh element reads back as itself whenever names resolve to their types and each type's serializer reads back what it writes |
| ByteArraySerializer.Serialize | Sources/Atlas.Xml/SerializationCompiler/ByteArraySerializer.cs:16-24 | no attributes; base64 always ends the start tag, even for an empty buffer, and the element's text is the library's base64 text; BinHex and Elements write nothing for an empty buffer; for a non-empty buffer BinHex writes an element whose text is the buffer's hexadecimal digits; Elements writes what the byte[] sequence serializer writes |
| ByteArraySerializer.Deserialize | Sources/Atlas.Xml/SerializationCompiler/ByteArraySerializer.cs:26-47 | an empty element is an empty buffer; otherwise the element's text is decoded as base64 or BinHex as the options choose, and Elements succeeds exactly when the sequence reader does and returns the bytes it read, in order |
| ByteArraySerializer.DeserializeInto | Sources/Atlas.Xml/SerializationCompiler/ByteArraySerializer.cs:49-52 | always refused with NotSupportedException |
| ByteArraySerializer.RoundTrip | Sources/Atlas.Xml/SerializationCompiler/ByteArraySerializer.cs:16-47 | every buffer, the empty one included, reads back as itself in every encoding, given library conversions that invert themselves |
| ByteArraySerializer.WriteXml | Sources/Atlas.Xml/SerializationCompiler/ByteArraySerializer.cs:59-62 | the typed Serialize for a buffer, and an invalid cast for any other object |
| ByteArraySerializer.ReadXml | Sources/Atlas.Xml/SerializationCompiler/ByteArraySerializer.cs:64-67 | the typed Deserialize, boxed, with the same success and error |
| ByteArraySerializer.ReadXmlInto | Sources/Atlas.Xml/SerializationCompiler/ByteArraySerializer.cs:69-72 | always fails: an invalid cast for anything but a buffer, and NotSupportedException for a buffer |
| ByteArraySerializer.UntypedRoundTrip | Sources/Atlas.Xml/SerializationCompiler/ByteArraySerializer.cs:59-67 | the untyped write and read round-trip every buffer as the typed ones do |
| ByteArrayHelper.ToByte | Sources/Atlas.Xml/ByteArrayHelper.cs:31 | the unchecked (byte) cast keeps every value that fits in a byte |
| ByteArrayHelper.HexDigit | Sources/Atlas.Xml/ByteArrayHelper.cs:78 | each nibble has an upper-case hexadecimal digit, as "X2" formats it |
| ByteArrayHelper.HexValue | Sources/Atlas.Xml/ByteArrayHelper.cs:31 | decimal digits, upper-case and lower-case letters each decode to their hexadecimal value, always a nibble |
| ByteArrayHelper.HexValueOfDigit | Sources/Atlas.Xml/ByteArrayHelper.cs:31 | decoding the digit of a nibble gives the nibble back |
| ByteArrayHelper.Lookup | Sources/Atlas.Xml/ByteArrayHelper.cs:73-82 | each byte's table entry is two upper-case digits, high nibble first, whose values make up the byte |
| ByteArrayHelper.ToHexStringSpells | Sources/Atlas.Xml/ByteArrayHelper.cs:157-170 | the hex string has two characters per byte, the two digits of byte i at positions 2i and 2i+1 |
| ByteArrayHelper.BufferLength | Sources/Atlas.Xml/ByteArrayHelper.cs:96 | the buffer never exceeds ConversionBufferSize or the array, and is not empty for a non-empty array |
| ByteArrayHelper.WriteBinHex | Sources/Atlas.Xml/ByteArrayHelper.cs:91-117 | the flushes, in order, spell ToHexString of the bytes; nothing is written for an empty array; every flush but the last is a full buffer and none exceeds twice ConversionBufferSize |
| ByteArrayHelper.PutPair | Sources/Atlas.Xml/ByteArrayHelper.cs:103-110 | storing one pair adds exactly that pair to the text written so far plus the buffer's used part, flushing only a full buffer |
| ByteArrayHelper.ToByteArrayAsWritten | Sources/Atlas.Xml/ByteArrayHelper.cs:20-40 | half as many bytes as characters, byte i being the value of the second digit of its pair alone |
| ByteArrayHelper.ToByteArray | Sources/Atlas.Xml/ByteArrayHelper.cs:15-20 | half as many bytes as characters, the trailing odd character dropped |
| ByteArrayHelper.ToByteArrayDecodesPairs | Sources/Atlas.Xml/ByteArrayHelper.cs:15-20 | with the high nibble or-ed with the low one, each pair of digits in either case decodes to sixteen times the first plus the second |
| ByteArrayHelper.HexRoundTrip | Sources/Atlas.Xml/ByteArrayHelper.cs:15-20 | decoding ToHexString gives the bytes back |
| ByteArrayHelper.BitOrNibbles | Sources/Atlas.Xml/ByteArrayHelper.cs:31-35 | or-ing a low nibble into a shifted high nibble adds them |
| ByteArrayHelper.ToByteArrayCounterexample | Sources/Atlas.Xml/ByteArrayHelper.cs:16 | the documented "15A4C2" is ToHexString of 21, 164, 194 and decodes back to them when corrected, but as written decodes to 5, 4, 2 |
| ByteArrayHelper.DocumentedHex | Sources/Atlas.Xml/ByteArrayHelper.cs:153-157 | ToHexString of 21, 164, 194 is "15A4C2" |
| ByteArrayHelper.AsWrittenExample | Sources/Atlas.Xml/ByteArrayHelper.cs:27-36 | as written, "15A4C2" decodes to 5, 4, 2 |
| SerializerFactory.Initial | Sources/Atlas.Xml/SerializerFactory.cs:34-38 | the cache starts with exactly object and byte[], holding their two serializers, and no typed holder has been set |
| SerializerFactory.GetSerializer | Sources/Atlas.Xml/SerializerFactory.cs:46-51 | a null type is ArgumentNullException; a cached type gets its cached serializer and nothing changes; otherwise the compiled serializer is returned and cached, a failed compile caching nothing; no cached entry and no typed holder changes |
| SerializerFactory.GetSerializerIsStable | Sources/Atlas.Xml/SerializerFactory.cs:50 | once a type's serializer is cached, later calls return it whatever the compiler would produce |
| SerializerFactory.GetSerializerKeepsCoherent | Sources/Atlas.Xml/SerializerFactory.cs:46-51 | every typed holder still agrees with the cache after GetSerializer |
| SerializerFactory.Instance | Sources/Atlas.Xml/SerializerFactory.cs:19-24 | a holder already set keeps its serializer; otherwise it is set once from GetSerializer; with the holders coherent before, they stay coherent and the holder's serializer is the cached one |
| SerializerFactory.RegisterAsWritten | Sources/Atlas.Xml/SerializerFactory.cs:58-75 | null arguments are ArgumentNullException; an uncached type is cached with the serializer; for a cached type the cache keeps its old serializer while a resolvable typed holder is switched to the new one |
| SerializerFactory.Register | Sources/Atlas.Xml/SerializerFactory.cs:53-58 | null arguments are ArgumentNullException; otherwise the serializer replaces the cached one and other typed holders are untouched |
| SerializerFactory.RegisterIsSeen | Sources/Atlas.Xml/SerializerFactory.cs:62-74 | after registering, GetSerializer returns the registered serializer and every typed holder still agrees with the cache |
| SerializerFactory.RegisterAsWrittenCounterexample | Sources/Atlas.Xml/SerializerFactory.cs:73 | registering a new serializer for object after its typed holder was set leaves GetSerializer returning the old one while the holder has the new one |
| DictionaryCompiler.AttributeKeyValueRoundTrip | Sources/Atlas.Xml/SerializationCompiler/DictionaryCompiler.cs:240-495 | an entry whose key is an attribute and whose value is present reads back as its key and value |
| DictionaryCompiler.AttributeKeyNullRoundTrip | Sources/Atlas.Xml/SerializationCompiler/DictionaryCompiler.cs:279-290 | an entry whose key is an attribute and whose value is null (the `_type="null"` marker) reads back as its key and null |
| DictionaryCompiler.ElementKeyRoundTrip | Sources/Atlas.Xml/SerializationCompiler/DictionaryCompiler.cs:497-553 | with the corrected value-element reader, an entry whose key is written as a child element reads back as its key and value |

## Left out

- Compilation: the C# text of the generated serializers (the `Resources.CodeTemplateFor*` templates and the code builders' string output) and its compilation are not part of this model. The model states what the generated code does. The item loops and the order of the null check and the empty-string fix are taken from the code builders.
- `Serializer.cs`, the public entry points: they are not part of this model. They are thin wrappers over the factory and the serializers. Its `Deserialize` overload that takes options ignores them at line 120.
- Reflection: the reflection queries (`GetProperties`, `GetCustomAttributes`, `GetInterfaces`, `Type.GetType`) are replaced by an abstract universe of types, or passed in as functions.
- Type-name rendering: `GetTypeNoCache` (`CachedTypeResolver.cs:62-80`) and `GetFriendlyNameForCodeNoCache` are the `resolve` and `render` parameters.
- Locks: concurrency, the `ConcurrentDictionary` locks and the factory's static constructors are not modelled. Every call runs alone.
- Exception messages: errors are modelled as exception kinds, without message text.
- `ArgumentCheck.Ensure`: whether `string.Format` accepts a message for its arguments is the `formatAccepts` parameter. .NET's composite-format parsing is not modelled.
- Culture: `string.IndexOf` is culture-sensitive in the source. The model compares characters ordinally.
- Primitive conversions: floating point, primitive formatting, `XmlConvert`, type converters and base64 are `Codec` or `Encoders` parameters, not modelled conversions.
- XML reader and writer: `XmlReader` and `XmlWriter` are left out, including their throwing on malformed input, namespaces and whitespace handling. `XmlHelper` sees only token kinds: element start (empty or not), end tag, text. Names and values are not in its tokens.
- Byte-array reads: after one `reader.Read()`, the `ReadBinHex` and `ReadBase64` helpers loop over `ReadContentAsBinHex` and `ReadContentAsBase64` (ByteArrayHelper.cs:42-64). The model replaces those loops with the `readBinHex` and `readBase64` parameters, which are applied to the text inside the element. A null buffer is not modelled.
- `ByteArrayHelper.WriteBinHex`: the `StreamWriter` overload shares the model of the `XmlWriter` one. Both flush the same digits.
- `ObjectSerializer.Deserialize`: deserializing into an existing object, which only skips the element, is not modelled. The same goes for `DefaultSerializationOptions`.
- `SerializerFactory`: the `as IXmlSerializer<T>` cast is not modelled. The registry holds serializers of the right type.
- `SerializerFactory.Register`: the doc comment promises an exception when the type is already registered, but the code does not throw. The model follows the code.
- `TemplateBlocks.RemoveCodeBetweenComments` requires that the replacement cannot start a new block (`CannotStartMarker`). As written, a replacement containing the start marker is found again by the next search: with no end marker after it the next pass throws whenever that marker starts at position `|en|` or later (the count of the removal turns negative), and when it also carries the end marker the loop runs forever, which a terminating model function cannot follow. The one non-terminating case the model keeps is the empty replacement that leaves a pass unchanged, reported as `Spins`.
- `DictionaryCompiler.ReadAttributes` states only that null is found just for value types that can be null. What it reads is stated by `DictionaryCompiler.EntryRoundTrip`.
- `DictionaryCompiler.ReadElements` states only that null is found just for value types that can be null. What it reads is stated by `DictionaryCompiler.EntryRoundTrip` and `DictionaryCompiler.ElementValueReadAsWritten`. As written, when the conversion accepts "", the generated inner loop can stay on the value element without advancing. The model records one conversion of "" instead.
- `DictionaryCompiler.ReadEntry` states only that null is found just for value types that can be null. Its full behaviour is stated through the round-trip lemmas.
- `EnumerableCompiler.Serialize` writes only the items. The collection type's own serialized members are not modelled. The generated code writes them next to the items (`Compiler.cs:123-128`), so a `List<string>` subclass with a read-write property marked as an attribute gets that attribute on its element. The model's empty attribute list holds only for collection types without such members, which include the built-in ones: the initial overrides ignore `Capacity`, `Keys` and `Values`, and `Count` is read-only.
- `DictionaryCompiler.Serialize` writes only the entries. The dictionary type's own serialized members are not modelled, for the same reason (`Compiler.cs:90-95`).
- `ValueTypeCompiler.Write`, `EnumerableCompiler.WriteItem` and `DictionaryCompiler.WriteEntry` take the corrected type information, in which a `Nullable<T>` can be null. As written, every compiler builds its information with the constructor that finalizes twice (`ValueTypeCompiler.cs:49`, `EnumerableCompiler.cs:96`, `DictionaryCompiler.cs:118`), so a `Nullable<T>` is marked as unable to be null. The generated writer then reads `.Value` of a null with no check before it, and throws InvalidOperationException. Their `Admissible` requirement leaves that null out; `ValueTypeCompiler.UnwrapUnguardedAsWritten` states the as-written behaviour for the value-type compiler.
- `EnumerableCompiler.ReadItem`: for an attribute item without a text conversion, the generated code calls the nested deserializer while the reader is on the first attribute (`EnumerableCompiler.cs:152-156`, `:336-342`). The model hands that deserializer the item element, because reader positions are not modelled. `EnumerableCompiler.ItemsRoundTrip` excludes that case.

## Findings

| source | as written | input that shows it | evidently intended | confidence | as-written member | corrected member |
|---|---|---|---|---|---|---|
| Sources/Atlas.Xml/ByteArrayHelper.cs:35 | the second nibble is stored with `=`, overwriting the first, so each byte keeps only its low nibble | "15A4C2", the string the doc comment shows for 21, 164, 194, decodes to 5, 4, 2 | OR the low nibble into the shifted high one, so `ToByteArray` inverts `ToHexString` | not executed | ByteArrayHelper.ToByteArrayAsWritten, ByteArrayHelper.ToByteArrayCounterexample | ByteArrayHelper.ToByteArray, ByteArrayHelper.HexRoundTrip |
| Sources/Atlas.Xml/SerializationAttributeOverrides.cs:155-158 | the type-level `SetDefault` writes the overrides table | a type default set for a type is returned by `GetOverride(type)`, and `GetDefault(type)` stays null forever | write the defaults table, as the member-level `SetDefault` does | not executed | AttributeOverrides.SetTypeDefaultAsWritten, AttributeOverrides.SetTypeDefaultCounterexample | AttributeOverrides.SetTypeDefault, AttributeOverrides.CorrectedDefaultIsLastSet |
| Sources/Atlas.Xml/SerializationCompiler/CompilerTypeInfo.cs:23-27 | the constructor calls `FinalizeValueType` again after `InitializeValueType` has called it (line 50); the second call strips `Nullable<T>` a second time | `int?` ends with `IsNullableType` set but `CanBeNull` false | finalize once | not executed | CompilerTypeInfo.NewTypeInfoAsWritten, CompilerTypeInfo.DoubleFinalizeCounterexample | CompilerTypeInfo.NewTypeInfo, CompilerTypeInfo.DoubleFinalize |
| Sources/Atlas.Xml/SerializationCompiler/ValueTypeCompiler.cs:100-110 | line 49 takes its type information from the constructor that finalizes twice, so a `Nullable<T>` is marked as unable to be null; the writer generates no null check and appends `.Value` | serializing a null `int?` throws InvalidOperationException, and `<x />` reads as the missing-value exception instead of null | build the information with one finalization, so that the `.Value` is behind the null check | not executed | ValueTypeCompiler.CompileAsWritten, ValueTypeCompiler.UnwrapUnguardedAsWritten | ValueTypeCompiler.Compile, ValueTypeCompiler.UnwrapIsGuarded |
| Sources/Atlas.Xml/SerializerFactory.cs:73 | the update function of `AddOrUpdate` returns the old value | registering a new serializer for `object` after its typed holder was set leaves the cache on the old one while the holder has the new one | return the new serializer, so that Register overrides, as its summary says | not executed | SerializerFactory.RegisterAsWritten, SerializerFactory.RegisterAsWrittenCounterexample | SerializerFactory.Register, SerializerFactory.RegisterIsSeen |
| Sources/Atlas.Xml/XmlHelper.cs:19-28 | the end-tag test runs before the child elements are skipped, so an end tag right after a skipped child is passed over | from the text inside `<p>a<c /></p><q />`, the method passes the end of p and the following `<q />`, reaching the end of input | stop past the end tag that closes the current level | not executed | XmlHelper.MoveUpToNextElementAsWritten, XmlHelper.MoveUpCounterexample | XmlHelper.MoveUpToNextElement, XmlHelper.UpLoopEndsLevel |
| Sources/Atlas.Xml/SerializationCompiler/DictionaryCompiler.cs:535-542 | a value element of a type with a text conversion is parsed from `reader.Value` while the reader is on the element node, which is "" | the entry "a" to true of a dictionary of string to bool with element keys and values fails to read back | read the element's content, as the key element is read | not executed | DictionaryCompiler.ElementValueReadAsWritten, DictionaryCompiler.ElementValueCounterexample | DictionaryCompiler.EntryRoundTrip, DictionaryCompiler.ElementKeyRoundTrip |
| Sources/Atlas.Xml/SerializationCompiler/DictionaryCompiler.cs:247-254 | a text value's key is written only inside the `CanBeNull` block, so for a value type that cannot be null the entry has no key | the entry "a" to 5 of a `Dictionary<string, int>` with default kinds is written as `<item>5</item>`, and reading it throws the missing-key exception (the model shows it with `bool` values) | write the key before a text value whatever its nullability, as a null value's key is written | not executed | DictionaryCompiler.WriteEntryAsWritten, DictionaryCompiler.KeylessTextEntryCounterexample | DictionaryCompiler.WriteEntry, DictionaryCompiler.EntryRoundTrip |

=== FILE: argument_check.dfy ===
/** Argument validation used at the public entry points (ArgumentCheck.cs,
    class ArgumentValidation). Each check passes or names the exception. */
module ArgumentCheck {
  import opened Wrappers

  /** NotNull: a null argument raises ArgumentNullException naming it. */
  function NotNull<T>(argument: Option<T>, argumentName: string): (r: Outcome)
    ensures r.Pass? <==> argument.Some?
    ensures r.Fail? ==> r.error == ArgumentNull(argumentName)
  {
    if argument.None? then Fail(ArgumentNull(argumentName)) else Pass
  }

  /** NotEmpty for a nullable struct: null raises ArgumentNullException, the
      type's default value raises ArgumentException. */
  function NotEmptyNullable<T(==)>(argument: Option<T>, defaultValue: T, argumentName: string): (r: Outcome)
    ensures r.Pass? <==> argument.Some? && argument.value != defaultValue
    ensures argument.None? ==> r == Fail(ArgumentNull(argumentName))
    ensures argument == Some(defaultValue) ==> r == Fail(ArgumentInvalid(argumentName, MustNotBeEmpty))
  {
    if argument.None? then Fail(ArgumentNull(argumentName))
    else if argument.value == defaultValue then Fail(ArgumentInvalid(argumentName, MustNotBeEmpty))
    else Pass
  }

  /** NotEmpty for a struct: the type's default value raises
      ArgumentException. */
  function NotEmptyValue<T(==)>(argument: T, defaultValue: T, argumentName: string): (r: Outcome)
    ensures r.Pass? <==> argument != defaultValue
    ensures r.Fail? ==> r.error == ArgumentInvalid(argumentName, MustNotBeEmpty)
  {
    if argument == defaultValue then Fail(ArgumentInvalid(argumentName, MustNotBeEmpty)) else Pass
  }

  /** NotEmpty for a string: null raises ArgumentNullException, the empty
      string raises ArgumentException. */
  function NotEmptyString(argument: Option<string>, argumentName: string): (r: Outcome)
    ensures r.Pass? <==> argument.Some? && |argument.value| > 0
    ensures argument.None? ==> r == Fail(ArgumentNull(argumentName))
    ensures argument == Some("") ==> r == Fail(ArgumentInvalid(argumentName, MustNotBeEmpty))
  {
    if argument.None? then Fail(ArgumentNull(argumentName))
    else if |argument.value| == 0 then Fail(ArgumentInvalid(argumentName, MustNotBeEmpty))
    else Pass
  }

  /** NotEmpty for a sequence: null raises ArgumentNullException, no items
      raises ArgumentException. */
  function NotEmptySequence<T>(argument: Option<seq<T>>, argumentName: string): (r: Outcome)
    ensures r.Pass? <==> argument.Some? && |argument.value| > 0
    ensures argument.None? ==> r == Fail(ArgumentNull(argumentName))
    ensures argument.Some? && |argument.value| == 0 ==> r == Fail(ArgumentInvalid(argumentName, MustNotBeEmpty))
  {
    if argument.None? then Fail(ArgumentNull(argumentName))
    else if |argument.value| == 0 then Fail(ArgumentInvalid(argumentName, MustNotBeEmpty))
    else Pass
  }

  /** Ensure: a false condition raises ArgumentException with no parameter
      name; the message is the given one, formatted only when both the
      message and the format arguments are present, and the default
      validation message when none is given. `formatAccepts` says whether
      string.Format accepts the message for these arguments; when it does
      not (a placeholder beyond the arguments, an unbalanced brace), the
      formatting itself raises FormatException instead. */
  function Ensure(condition: bool, message: Option<string>, formatParameters: Option<seq<string>>, formatAccepts: bool): (r: Outcome)
    ensures r.Pass? <==> condition
    ensures !condition && message.None? ==> r == Fail(ArgumentInvalid("", ValidationFailed))
    ensures !condition && message.Some? && formatParameters.None? ==> r == Fail(ArgumentInvalid("", Custom(message.value)))
    ensures !condition && message.Some? && formatParameters.Some? && formatAccepts ==>
              r == Fail(ArgumentInvalid("", Formatted(message.value, formatParameters.value)))
    ensures !condition && message.Some? && formatParameters.Some? && !formatAccepts ==> r == Fail(Format)
    ensures r.Fail? && r.error != Format ==> r.error.ArgumentInvalid? && r.error.parameter == ""
  {
    if condition then Pass
    else if formatParameters.None? || message.None? then
      Fail(ArgumentInvalid("", if message.Some? then Custom(message.value) else ValidationFailed))
    else if !formatAccepts then Fail(Format)
    else
      Fail(ArgumentInvalid("", Formatted(message.value, formatParameters.value)))
  }
}

=== FILE: attribute_base.dfy ===
/** The part shared by member and type serialization attributes: the three
    optional child names and how they merge and turn into options
    (XmlSerializationAttributeBase.cs). */
module AttributeBase {
  import opened Wrappers
  import Options
  import Folds

  /** A C# string that may be null; `None` is null. */
  type NullableString = Option<string>

  /** A name counts as given only when it is neither null nor empty. */
  predicate IsSet(s: NullableString) {
    s.Some? && s.value != ""
  }

  /** Fill-only merge of one name: keep ours when given, else take theirs. */
  function FillName(mine: NullableString, other: NullableString): (r: NullableString)
    ensures IsSet(mine) ==> r == mine
    ensures !IsSet(mine) ==> r == other
  {
    if IsSet(mine) then mine else other
  }

  datatype ChildNames = ChildNames(
    childElementName: NullableString,
    childKeyNodeName: NullableString,
    childValueNodeName: NullableString)

  /** All three names unset and null: the state of a fresh attribute. */
  const NoNames: ChildNames := ChildNames(None, None, None)

  datatype NameField = ChildElementField | ChildKeyField | ChildValueField

  function NameOf(n: ChildNames, f: NameField): NullableString {
    match f
    case ChildElementField => n.childElementName
    case ChildKeyField => n.childKeyNodeName
    case ChildValueField => n.childValueNodeName
  }

  /** MergeBase: every name we have not given is taken from `other`; every
      name we have given is kept. */
  function MergeBase(mine: ChildNames, other: ChildNames): (r: ChildNames)
    ensures forall f: NameField :: IsSet(NameOf(mine, f)) ==> NameOf(r, f) == NameOf(mine, f)
    ensures forall f: NameField :: !IsSet(NameOf(mine, f)) ==> NameOf(r, f) == NameOf(other, f)
  {
    ChildNames(
      FillName(mine.childElementName, other.childElementName),
      FillName(mine.childKeyNodeName, other.childKeyNodeName),
      FillName(mine.childValueNodeName, other.childValueNodeName))
  }

  /** ToOptions: the shared default options when no name was ever assigned
      (all three null), otherwise fresh options in which each null name falls
      back to its default. An empty name is kept as it is. */
  function ToOptions(n: ChildNames): (o: Options.SerializationOptions)
    ensures o.isDefault <==> n == NoNames
    ensures o.childElementName == n.childElementName.GetOr(Options.DefaultChildElementName)
    ensures o.valueNodeName == n.childValueNodeName.GetOr(Options.DefaultValueNodeName)
    ensures o.keyNodeName == n.childKeyNodeName.GetOr(Options.DefaultKeyNodeName)
    ensures o.byteArrayEncoding == Options.Default.byteArrayEncoding
  {
    if n.childElementName.None? && n.childKeyNodeName.None? && n.childValueNodeName.None? then
      Options.Default
    else
      Options.Custom(
        n.childElementName.GetOr(Options.DefaultChildElementName),
        n.childValueNodeName.GetOr(Options.DefaultValueNodeName),
        n.childKeyNodeName.GetOr(Options.DefaultKeyNodeName))
  }

  /** Merging the same names twice changes nothing the second time, and a
      merge never loses a name that was given. */
  lemma MergeBaseIdempotent(mine: ChildNames, other: ChildNames)
    ensures MergeBase(MergeBase(mine, other), other) == MergeBase(mine, other)
    ensures forall f: NameField :: IsSet(NameOf(mine, f)) || IsSet(NameOf(other, f)) ==> IsSet(NameOf(MergeBase(mine, other), f))
  {
  }

  /** The first given name among the layers, `None` when none gave one. */
  function FirstName(layers: seq<ChildNames>, f: NameField): (n: NullableString)
    ensures n.Some? <==> exists i :: 0 <= i < |layers| && IsSet(NameOf(layers[i], f))
    ensures n.Some? ==> IsSet(n)
    decreases |layers|
  {
    if |layers| == 0 then None
    else if IsSet(NameOf(layers[0], f)) then NameOf(layers[0], f)
    else
      var n := FirstName(layers[1..], f);
      assert forall i :: 1 <= i < |layers| ==> layers[i] == layers[1..][i - 1];
      n
  }

  /** Precedence of a fold of MergeBase, name by name: a given name in the
      accumulator wins, then the earliest layer that gave one; when nobody
      gave one the result is still unset. */
  lemma {:induction false} FoldMergeBaseName(acc: ChildNames, layers: seq<ChildNames>, f: NameField)
    ensures IsSet(NameOf(acc, f)) ==> NameOf(Folds.FoldLeft(MergeBase, acc, layers), f) == NameOf(acc, f)
    ensures !IsSet(NameOf(acc, f)) && FirstName(layers, f).Some? ==>
              NameOf(Folds.FoldLeft(MergeBase, acc, layers), f) == FirstName(layers, f)
    ensures !IsSet(NameOf(acc, f)) && FirstName(layers, f).None? ==>
              !IsSet(NameOf(Folds.FoldLeft(MergeBase, acc, layers), f))
    decreases |layers|
  {
    if |layers| > 0 {
      FoldMergeBaseName(MergeBase(acc, layers[0]), layers[1..], f);
    }
  }

  /** The child names of a fold that starts by merging `first` into an
      attribute with no names, for either attribute class, whose merges
      act on the names as MergeBase does: each name is the first one given
      by `first` or a layer. */
  lemma FrontNames<A(!new)>(merge: (A, A) -> A, namesOf: A -> ChildNames, empty: A, first: A, layers: seq<A>)
    requires forall a, b :: namesOf(merge(a, b)) == MergeBase(namesOf(a), namesOf(b))
    requires namesOf(empty) == NoNames
    ensures var r := namesOf(Folds.FoldLeft(merge, merge(first, empty), layers));
            var all := Folds.Project(namesOf, [first] + layers);
            && (forall f: NameField :: FirstName(all, f).Some? ==> NameOf(r, f) == FirstName(all, f))
            && (forall f: NameField :: FirstName(all, f).None? ==> !IsSet(NameOf(r, f)))
  {
    var acc := merge(first, empty);
    var all := [first] + layers;
    assert all[0] == first && all[1..] == layers;
    assert Folds.Project(namesOf, all)[0] == namesOf(first) && Folds.Project(namesOf, all)[1..] == Folds.Project(namesOf, layers);
    Folds.FoldProjects(merge, MergeBase, namesOf, acc, layers);
    forall f: NameField
      ensures FirstName(Folds.Project(namesOf, all), f).Some? ==>
                NameOf(namesOf(Folds.FoldLeft(merge, acc, layers)), f) == FirstName(Folds.Project(namesOf, all), f)
      ensures FirstName(Folds.Project(namesOf, all), f).None? ==> !IsSet(NameOf(namesOf(Folds.FoldLeft(merge, acc, layers)), f))
    {
      FoldMergeBaseName(namesOf(acc), Folds.Project(namesOf, layers), f);
    }
  }
}

=== FILE: attribute_overrides.dfy ===
/** Run-time overrides and defaults of serialization attributes, kept per
    generic type definition (SerializationAttributeOverrides.cs). The static
    dictionaries are a value of `Tables`; every public call maps the tables
    before the call to the tables after it. */
module AttributeOverrides {
  import opened Wrappers
  import opened ArgumentCheck
  import Reflection
  import TypeNames
  import MemberAttribute
  import TypeAttribute

  type MemberAttr = MemberAttribute.MemberAttr
  type TypeAttr = TypeAttribute.TypeAttr

  /** Per type key, the attributes given to members by name. */
  type MemberTable = map<string, map<string, MemberAttr>>

  datatype Tables = Tables(
    memberOverrides: MemberTable,
    memberDefaults: MemberTable,
    typeOverrides: map<string, TypeAttr>,
    typeDefaults: map<string, TypeAttr>)

  const ListKey: string := "System.Collections.Generic.List"
  const ArrayListKey: string := "System.Collections.ArrayList"
  const DictionaryKey: string := "System.Collections.Generic.Dictionary"

  /** The tables as the program starts: the collection members that must not
      be serialized are ignored, and nothing else is set. */
  const Initial: Tables := Tables(
    map[ListKey := map["Capacity" := MemberAttribute.Ignore],
        ArrayListKey := map["Capacity" := MemberAttribute.Ignore],
        DictionaryKey := map["Keys" := MemberAttribute.Ignore, "Values" := MemberAttribute.Ignore]],
    map[], map[], map[])

  /** The key a type is filed under: every instantiation of a generic type
      shares it. */
  function Key(t: Reflection.TypeDesc): string {
    TypeNames.GetNonGenericNameWithNamespace(t)
  }

  /** The attribute filed for a member of the types under `typeName`. */
  function Lookup(table: MemberTable, typeName: string, memberName: string): Option<MemberAttr> {
    if typeName in table && memberName in table[typeName] then Some(table[typeName][memberName]) else Option.None
  }

  function LookupType(table: map<string, TypeAttr>, typeName: string): Option<TypeAttr> {
    if typeName in table then Some(table[typeName]) else Option.None
  }

  /** AddAttributeToMemberDictionary: a present attribute is filed for the
      member, an absent one removes what was filed; the inner dictionary of
      the type is created in either case. */
  function AddToMemberTable(table: MemberTable, typeName: string, memberName: string, attribute: Option<MemberAttr>): (r: MemberTable)
    ensures typeName in r && r.Keys == table.Keys + {typeName}
    ensures Lookup(r, typeName, memberName) == attribute
    ensures forall k, m :: (k, m) != (typeName, memberName) ==> Lookup(r, k, m) == Lookup(table, k, m)
  {
    var attributes := if typeName in table then table[typeName] else map[];
    var updated := match attribute
      case Some(a) => attributes[memberName := a]
      case None => attributes - {memberName};
    table[typeName := updated]
  }

  /** Storing an absent attribute for a member of a type not yet seen leaves
      an empty entry behind: the table grows although no lookup changes. */
  lemma RemovalCreatesEmptyEntry(table: MemberTable, typeName: string, memberName: string)
    requires typeName !in table
    ensures var r := AddToMemberTable(table, typeName, memberName, Option.None);
            r != table && r[typeName] == map[] && forall k, m :: Lookup(r, k, m) == Lookup(table, k, m)
  {
  }

  /** The argument checks of every member-level call: the type must not be
      null, then the member name must not be null or empty. */
  function CheckMemberArguments(t: Option<Reflection.TypeDesc>, memberName: Option<string>): (r: Outcome)
    ensures r.Pass? <==> t.Some? && memberName.Some? && |memberName.value| > 0
    ensures t.None? ==> r == Fail(ArgumentNull("type"))
    ensures t.Some? && memberName.None? ==> r == Fail(ArgumentNull("memberName"))
    ensures t.Some? && memberName == Some("") ==> r == Fail(ArgumentInvalid("memberName", MustNotBeEmpty))
  {
    var typeChecked := NotNull(t, "type");
    if typeChecked.Fail? then typeChecked else NotEmptyString(memberName, "memberName")
  }

  /** Override(type, memberName, attribute): files an override that takes
      precedence over everything declared; an absent attribute removes it.
      No other table changes. */
  function OverrideMember(tables: Tables, t: Option<Reflection.TypeDesc>, memberName: Option<string>, attribute: Option<MemberAttr>)
    : (r: Result<Tables>)
    ensures r.Failure? <==> CheckMemberArguments(t, memberName).Fail?
    ensures r.Failure? ==> r.error == CheckMemberArguments(t, memberName).error
    ensures r.Success? ==>
              && Lookup(r.value.memberOverrides, Key(t.value), memberName.value) == attribute
              && (forall k, m :: (k, m) != (Key(t.value), memberName.value) ==>
                    Lookup(r.value.memberOverrides, k, m) == Lookup(tables.memberOverrides, k, m))
              && r.value.memberDefaults == tables.memberDefaults
              && r.value.typeOverrides == tables.typeOverrides
              && r.value.typeDefaults == tables.typeDefaults
  {
    var checked := CheckMemberArguments(t, memberName);
    :- checked;
    Success(tables.(memberOverrides := AddToMemberTable(tables.memberOverrides, Key(t.value), memberName.value, attribute)))
  }

  /** SetDefault(type, memberName, attribute): files a default that only
      fills what nothing else sets; an absent attribute removes it. No other
      table changes. */
  function SetMemberDefault(tables: Tables, t: Option<Reflection.TypeDesc>, memberName: Option<string>, attribute: Option<MemberAttr>)
    : (r: Result<Tables>)
    ensures r.Failure? <==> CheckMemberArguments(t, memberName).Fail?
    ensures r.Failure? ==> r.error == CheckMemberArguments(t, memberName).error
    ensures r.Success? ==>
              && Lookup(r.value.memberDefaults, Key(t.value), memberName.value) == attribute
              && (forall k, m :: (k, m) != (Key(t.value), memberName.value) ==>
                    Lookup(r.value.memberDefaults, k, m) == Lookup(tables.memberDefaults, k, m))
              && r.value.memberOverrides == tables.memberOverrides
              && r.value.typeOverrides == tables.typeOverrides
              && r.value.typeDefaults == tables.typeDefaults
  {
    var checked := CheckMemberArguments(t, memberName);
    :- checked;
    Success(tables.(memberDefaults := AddToMemberTable(tables.memberDefaults, Key(t.value), memberName.value, attribute)))
  }

  /** GetOverride(type, memberName): the override filed for the member under
      the type's key, or null. */
  function GetMemberOverride(tables: Tables, t: Option<Reflection.TypeDesc>, memberName: Option<string>): (r: Result<Option<MemberAttr>>)
    ensures r.Failure? <==> CheckMemberArguments(t, memberName).Fail?
    ensures r.Failure? ==> r.error == CheckMemberArguments(t, memberName).error
    ensures r.Success? ==> (r.value.Some? <==>
              Key(t.value) in tables.memberOverrides && memberName.value in tables.memberOverrides[Key(t.value)])
    ensures r.Success? && r.value.Some? ==> r.value.value == tables.memberOverrides[Key(t.value)][memberName.value]
  {
    var checked := CheckMemberArguments(t, memberName);
    :- checked;
    Success(Lookup(tables.memberOverrides, Key(t.value), memberName.value))
  }

  /** GetDefault(type, memberName): the default filed for the member under
      the type's key, or null. */
  function GetMemberDefault(tables: Tables, t: Option<Reflection.TypeDesc>, memberName: Option<string>): (r: Result<Option<MemberAttr>>)
    ensures r.Failure? <==> CheckMemberArguments(t, memberName).Fail?
    ensures r.Failure? ==> r.error == CheckMemberArguments(t, memberName).error
    ensures r.Success? ==> (r.value.Some? <==>
              Key(t.value) in tables.memberDefaults && memberName.value in tables.memberDefaults[Key(t.value)])
    ensures r.Success? && r.value.Some? ==> r.value.value == tables.memberDefaults[Key(t.value)][memberName.value]
  {
    var checked := CheckMemberArguments(t, memberName);
    :- checked;
    Success(Lookup(tables.memberDefaults, Key(t.value), memberName.value))
  }

  /** What is filed for one instantiation of a generic type is seen by every
      other instantiation of it. */
  lemma OverrideReachesEveryInstantiation(tables: Tables, a: Reflection.TypeDesc, b: Reflection.TypeDesc,
                                          stem: string, arityA: string, arityB: string, memberName: string, attribute: MemberAttr)
    requires !a.isArray && !b.isArray && a.namespace == b.namespace && '`' !in stem
    requires a.name == stem + "`" + arityA && b.name == stem + "`" + arityB
    requires |memberName| > 0
    ensures OverrideMember(tables, Some(a), Some(memberName), Some(attribute)).Success?
    ensures GetMemberOverride(OverrideMember(tables, Some(a), Some(memberName), Some(attribute)).value, Some(b), Some(memberName))
         == Success(Some(attribute))
  {
    TypeNames.InstantiationsShareKey(a, b, stem, arityA, arityB);
  }

  /** Every list, array list and dictionary starts with the members that
      only expose the collection's internals ignored. */
  lemma InitialOverridesIgnoreInternals()
    ensures Lookup(Initial.memberOverrides, ListKey, "Capacity") == Some(MemberAttribute.Ignore)
    ensures Lookup(Initial.memberOverrides, ArrayListKey, "Capacity") == Some(MemberAttribute.Ignore)
    ensures Lookup(Initial.memberOverrides, DictionaryKey, "Keys") == Some(MemberAttribute.Ignore)
    ensures Lookup(Initial.memberOverrides, DictionaryKey, "Values") == Some(MemberAttribute.Ignore)
    ensures forall k, m :: Lookup(Initial.memberOverrides, k, m).Some? ==> Lookup(Initial.memberOverrides, k, m) == Some(MemberAttribute.Ignore)
    ensures forall k, m :: Lookup(Initial.memberDefaults, k, m) == Option.None
  {
  }

  /** A present attribute replaces the one filed under `typeName`, an
      absent one removes it. */
  function SetOrRemove(table: map<string, TypeAttr>, typeName: string, attribute: Option<TypeAttr>): (r: map<string, TypeAttr>)
    ensures LookupType(r, typeName) == attribute
    ensures forall k :: k != typeName ==> LookupType(r, k) == LookupType(table, k)
  {
    match attribute
    case Some(a) => table[typeName := a]
    case None => table - {typeName}
  }

  /** Override(type, attribute): files a type-level override. */
  function OverrideType(tables: Tables, t: Option<Reflection.TypeDesc>, attribute: Option<TypeAttr>): (r: Result<Tables>)
    ensures r.Failure? <==> t.None?
    ensures r.Failure? ==> r.error == ArgumentNull("type")
    ensures r.Success? ==>
              && LookupType(r.value.typeOverrides, Key(t.value)) == attribute
              && (forall k :: k != Key(t.value) ==> LookupType(r.value.typeOverrides, k) == LookupType(tables.typeOverrides, k))
              && r.value.typeDefaults == tables.typeDefaults
              && r.value.memberOverrides == tables.memberOverrides
              && r.value.memberDefaults == tables.memberDefaults
  {
    var checked := NotNull(t, "type");
    :- checked;
    Success(tables.(typeOverrides := SetOrRemove(tables.typeOverrides, Key(t.value), attribute)))
  }

  /** SetDefault(type, attribute) as written: it files into the overrides
      table, so the default is never seen as a default and replaces any
      override the type had. */
  function SetTypeDefaultAsWritten(tables: Tables, t: Option<Reflection.TypeDesc>, attribute: Option<TypeAttr>): (r: Result<Tables>)
    ensures r == OverrideType(tables, t, attribute)
  {
    var checked := NotNull(t, "type");
    :- checked;
    Success(tables.(typeOverrides := SetOrRemove(tables.typeOverrides, Key(t.value), attribute)))
  }

  /** SetDefault(type, attribute) as its documentation describes it: files a
      type-level default and leaves the overrides alone. */
  function SetTypeDefault(tables: Tables, t: Option<Reflection.TypeDesc>, attribute: Option<TypeAttr>): (r: Result<Tables>)
    ensures r.Failure? <==> t.None?
    ensures r.Failure? ==> r.error == ArgumentNull("type")
    ensures r.Success? ==>
              && LookupType(r.value.typeDefaults, Key(t.value)) == attribute
              && (forall k :: k != Key(t.value) ==> LookupType(r.value.typeDefaults, k) == LookupType(tables.typeDefaults, k))
              && r.value.typeOverrides == tables.typeOverrides
              && r.value.memberOverrides == tables.memberOverrides
              && r.value.memberDefaults == tables.memberDefaults
  {
    var checked := NotNull(t, "type");
    :- checked;
    Success(tables.(typeDefaults := SetOrRemove(tables.typeDefaults, Key(t.value), attribute)))
  }

  /** GetOverride(type): the type-level override filed under the type's
      key, or null. */
  function GetTypeOverride(tables: Tables, t: Option<Reflection.TypeDesc>): (r: Result<Option<TypeAttr>>)
    ensures r.Failure? <==> t.None?
    ensures r.Failure? ==> r.error == ArgumentNull("type")
    ensures r.Success? ==> (r.value.Some? <==> Key(t.value) in tables.typeOverrides)
    ensures r.Success? && r.value.Some? ==> r.value.value == tables.typeOverrides[Key(t.value)]
  {
    var checked := NotNull(t, "type");
    :- checked;
    Success(LookupType(tables.typeOverrides, Key(t.value)))
  }

  /** GetDefault(type): the type-level default filed under the type's key,
      or null. */
  function GetTypeDefault(tables: Tables, t: Option<Reflection.TypeDesc>): (r: Result<Option<TypeAttr>>)
    ensures r.Failure? <==> t.None?
    ensures r.Failure? ==> r.error == ArgumentNull("type")
    ensures r.Success? ==> (r.value.Some? <==> Key(t.value) in tables.typeDefaults)
    ensures r.Success? && r.value.Some? ==> r.value.value == tables.typeDefaults[Key(t.value)]
  {
    var checked := NotNull(t, "type");
    :- checked;
    Success(LookupType(tables.typeDefaults, Key(t.value)))
  }

  /** The public calls that change the tables. */
  datatype Call =
    | OverrideMemberCall(t: Option<Reflection.TypeDesc>, memberName: Option<string>, member: Option<MemberAttr>)
    | SetMemberDefaultCall(t: Option<Reflection.TypeDesc>, memberName: Option<string>, member: Option<MemberAttr>)
    | OverrideTypeCall(t: Option<Reflection.TypeDesc>, typeAttribute: Option<TypeAttr>)
    | SetTypeDefaultCall(t: Option<Reflection.TypeDesc>, typeAttribute: Option<TypeAttr>)

  /** One call; a call that throws leaves the tables as they were. */
  function Apply(tables: Tables, c: Call, corrected: bool): Tables {
    var r := match c
      case OverrideMemberCall(t, n, a) => OverrideMember(tables, t, n, a)
      case SetMemberDefaultCall(t, n, a) => SetMemberDefault(tables, t, n, a)
      case OverrideTypeCall(t, a) => OverrideType(tables, t, a)
      case SetTypeDefaultCall(t, a) =>
        if corrected then SetTypeDefault(tables, t, a) else SetTypeDefaultAsWritten(tables, t, a);
    if r.Success? then r.value else tables
  }

  function Run(tables: Tables, calls: seq<Call>, corrected: bool): Tables
    decreases |calls|
  {
    if |calls| == 0 then tables else Run(Apply(tables, calls[0], corrected), calls[1..], corrected)
  }

  /** With SetDefault(type, attribute) as written, no sequence of public
      calls ever makes GetDefault(type) answer anything but null. */
  lemma {:induction false} TypeDefaultsNeverSeen(tables: Tables, calls: seq<Call>, t: Reflection.TypeDesc)
    requires tables.typeDefaults == map[]
    ensures Run(tables, calls, false).typeDefaults == map[]
    ensures GetTypeDefault(Run(tables, calls, false), Some(t)) == Success(Option.None)
    decreases |calls|
  {
    if |calls| > 0 {
      TypeDefaultsNeverSeen(Apply(tables, calls[0], false), calls[1..], t);
    }
  }

  /** The input that shows it: a default set on a type from the initial
      tables is not returned as its default, and it shadows as an override;
      the corrected call files it as the default. */
  lemma SetTypeDefaultCounterexample(t: Reflection.TypeDesc, a: TypeAttr)
    ensures var asWritten := SetTypeDefaultAsWritten(Initial, Some(t), Some(a)).value;
            GetTypeDefault(asWritten, Some(t)) == Success(Option.None)
            && GetTypeOverride(asWritten, Some(t)) == Success(Some(a))
    ensures var corrected := SetTypeDefault(Initial, Some(t), Some(a)).value;
            GetTypeDefault(corrected, Some(t)) == Success(Some(a))
            && GetTypeOverride(corrected, Some(t)) == Success(Option.None)
  {
  }

  /** With the corrected call, the last type-level default set for a key is
      what GetDefault returns, whatever overrides were set around it. */
  lemma CorrectedDefaultIsLastSet(tables: Tables, calls: seq<Call>, t: Reflection.TypeDesc, a: TypeAttr)
    requires forall i :: 0 <= i < |calls| && calls[i].SetTypeDefaultCall? && calls[i].t.Some? ==> Key(calls[i].t.value) != Key(t)
    ensures GetTypeDefault(Run(SetTypeDefault(tables, Some(t), Some(a)).value, calls, true), Some(t)) == Success(Some(a))
  {
    CorrectedDefaultKept(SetTypeDefault(tables, Some(t), Some(a)).value, calls, t, a);
  }

  lemma {:induction false} CorrectedDefaultKept(tables: Tables, calls: seq<Call>, t: Reflection.TypeDesc, a: TypeAttr)
    requires LookupType(tables.typeDefaults, Key(t)) == Some(a)
    requires forall i :: 0 <= i < |calls| && calls[i].SetTypeDefaultCall? && calls[i].t.Some? ==> Key(calls[i].t.value) != Key(t)
    ensures LookupType(Run(tables, calls, true).typeDefaults, Key(t)) == Some(a)
    decreases |calls|
  {
    if |calls| > 0 {
      assert LookupType(Apply(tables, calls[0], true).typeDefaults, Key(t)) == Some(a);
      CorrectedDefaultKept(Apply(tables, calls[0], true), calls[1..], t, a);
    }
  }
}

=== FILE: attribute_resolution.dfy ===
/** How the attribute that governs a type or a member is put together from
    everything that can say something about it
    (XmlSerializationTypeAttribute.FromType and
    XmlSerializationMemberAttribute.FromMember). */
module AttributeResolution {
  import opened Wrappers
  import opened NodeTypes
  import opened AttributeBase
  import opened Reflection
  import TypeAttribute
  import MemberAttribute
  import AttributeOverrides
  import Folds

  function OptionalLayer<T>(o: Option<T>): seq<T> {
    if o.Some? then [o.value] else []
  }

  /** The type-level layers, strongest first: the override, the attributes
      declared along the type hierarchy (the type itself, its bases, then
      its interfaces), the default. */
  function TypeLayers(u: Universe, tables: AttributeOverrides.Tables, t: TypeId): seq<TypeAttribute.TypeAttr>
    requires Valid(u) && t in u.types
  {
    var key := AttributeOverrides.Key(u.types[t]);
    OptionalLayer(AttributeOverrides.LookupType(tables.typeOverrides, key)) + DeclaredTypeLayers(u, tables, t)
  }

  /** The type-level layers below the override. */
  function DeclaredTypeLayers(u: Universe, tables: AttributeOverrides.Tables, t: TypeId): seq<TypeAttribute.TypeAttr>
    requires Valid(u) && t in u.types
  {
    GetAttributes(u, GetTypeHierarchy(u, Some(t)))
      + OptionalLayer(AttributeOverrides.LookupType(tables.typeDefaults, AttributeOverrides.Key(u.types[t])))
  }

  /** FromType: start fresh, merge the declared attributes in hierarchy
      order, merge the default, then put a clone of the override in front.
      Kind by kind and name by name, the first layer that says something
      wins. */
  function FromType(u: Universe, tables: AttributeOverrides.Tables, t: TypeId): (r: TypeAttribute.TypeAttr)
    requires Valid(u) && t in u.types
    ensures TypeAttribute.Resolves(r, TypeLayers(u, tables, t))
  {
    var declared := GetAttributes(u, GetTypeHierarchy(u, Some(t)));
    var merged := TypeAttribute.FoldMerge(TypeAttribute.Fresh, declared);
    var withDefault :=
      match AttributeOverrides.GetTypeDefault(tables, Some(u.types[t])).value
      case Some(d) => TypeAttribute.Merge(merged, d)
      case None => merged;
    var r :=
      match AttributeOverrides.GetTypeOverride(tables, Some(u.types[t])).value
      case Some(o) => TypeAttribute.Merge(TypeAttribute.Clone(o), withDefault)
      case None => withDefault;
    assert TypeAttribute.Resolves(r, TypeLayers(u, tables, t)) by {
      var key := AttributeOverrides.Key(u.types[t]);
      var rest := DeclaredTypeLayers(u, tables, t);
      Folds.FoldAppend(TypeAttribute.Merge, TypeAttribute.Fresh, declared, OptionalLayer(AttributeOverrides.LookupType(tables.typeDefaults, key)));
      assert withDefault == TypeAttribute.FoldMerge(TypeAttribute.Fresh, rest);
      var o := AttributeOverrides.LookupType(tables.typeOverrides, key);
      if o.Some? {
        TypeAttribute.CloneInFrontResolves(o.value, rest);
        assert TypeLayers(u, tables, t) == [o.value] + rest;
      } else {
        TypeAttribute.FoldFromFreshResolves(rest);
        assert TypeLayers(u, tables, t) == rest;
      }
    }
    r
  }

  /** The layers a member has on its own, strongest first: the override,
      what the framework's XML attributes make of a fresh attribute, the
      member's declared attributes, the default. */
  function MemberLayers(u: Universe, tables: AttributeOverrides.Tables, m: MemberDesc): seq<MemberAttribute.MemberAttr>
    requires m.declaringType in u.types
  {
    var key := AttributeOverrides.Key(u.types[m.declaringType]);
    OptionalLayer(AttributeOverrides.Lookup(tables.memberOverrides, key, m.name)) + DeclaredLayers(u, tables, m)
  }

  /** The member's layers below the override. */
  function DeclaredLayers(u: Universe, tables: AttributeOverrides.Tables, m: MemberDesc): seq<MemberAttribute.MemberAttr>
    requires m.declaringType in u.types
  {
    var key := AttributeOverrides.Key(u.types[m.declaringType]);
    [MemberAttribute.MergeSystemAttributes(MemberAttribute.Fresh, m.markers)]
      + m.attributes
      + OptionalLayer(AttributeOverrides.Lookup(tables.memberDefaults, key, m.name))
  }

  /** The member's own attribute, before the value type is consulted: the
      framework's XML attributes on a fresh attribute, the declared
      attributes merged in, the default merged in, and a clone of the
      override put in front. The first of the member's layers that says
      something wins. */
  function OwnAttribute(u: Universe, tables: AttributeOverrides.Tables, m: MemberDesc): (own: MemberAttribute.MemberAttr)
    requires m.declaringType in u.types && |m.name| > 0
    ensures MemberAttribute.Resolves(own, MemberLayers(u, tables, m))
  {
    var declaring := Some(u.types[m.declaringType]);
    var system := MemberAttribute.MergeSystemAttributes(MemberAttribute.Fresh, m.markers);
    var merged := MemberAttribute.FoldMerge(system, m.attributes);
    var withDefault :=
      match AttributeOverrides.GetMemberDefault(tables, declaring, Some(m.name)).value
      case Some(d) => MemberAttribute.Merge(merged, d)
      case None => merged;
    var own :=
      match AttributeOverrides.GetMemberOverride(tables, declaring, Some(m.name)).value
      case Some(o) => MemberAttribute.Merge(MemberAttribute.Clone(o), withDefault)
      case None => withDefault;
    assert MemberAttribute.Resolves(own, MemberLayers(u, tables, m)) by {
      var key := AttributeOverrides.Key(u.types[m.declaringType]);
      var dflt := OptionalLayer(AttributeOverrides.Lookup(tables.memberDefaults, key, m.name));
      var rest := DeclaredLayers(u, tables, m);
      assert merged == MemberAttribute.FoldMerge(MemberAttribute.Fresh, [system] + m.attributes) by {
        assert ([system] + m.attributes)[0] == system && ([system] + m.attributes)[1..] == m.attributes;
      }
      Folds.FoldAppend(MemberAttribute.Merge, MemberAttribute.Fresh, [system] + m.attributes, dflt);
      assert withDefault == MemberAttribute.FoldMerge(MemberAttribute.Fresh, rest);
      var o := AttributeOverrides.Lookup(tables.memberOverrides, key, m.name);
      if o.Some? {
        MemberAttribute.CloneInFrontResolves(o.value, rest);
        assert MemberLayers(u, tables, m) == [o.value] + rest;
      } else {
        MemberAttribute.FoldFromFreshResolves(rest);
        assert MemberLayers(u, tables, m) == rest;
      }
    }
    own
  }

  /** FromMember: the member's own attribute, then the attribute of its
      value type, which can only supply a kind and child names. Order and
      node name come from the member's own layers; the kind and each child
      name from the first of those that gives one, else from the value
      type. */
  function FromMember(u: Universe, tables: AttributeOverrides.Tables, m: MemberDesc): (r: MemberAttribute.MemberAttr)
    requires Valid(u) && m.declaringType in u.types && m.valueType in u.types && |m.name| > 0
    ensures r.nodeType == TypeAttribute.FillKind(MemberAttribute.FirstKind(MemberLayers(u, tables, m)), FromType(u, tables, m.valueType).nodeType)
    ensures MemberAttribute.FirstOrder(MemberLayers(u, tables, m)).Some? ==> r.order == MemberAttribute.FirstOrder(MemberLayers(u, tables, m)).value
    ensures MemberAttribute.FirstOrder(MemberLayers(u, tables, m)).None? ==> !MemberAttribute.OrderSet(r.order)
    ensures MemberAttribute.FirstNodeName(MemberLayers(u, tables, m)).Some? ==> r.nodeName == MemberAttribute.FirstNodeName(MemberLayers(u, tables, m))
    ensures MemberAttribute.FirstNodeName(MemberLayers(u, tables, m)).None? ==> !IsSet(r.nodeName)
    ensures forall f: NameField ::
              NameOf(r.names, f) == if FirstName(MemberAttribute.Names(MemberLayers(u, tables, m)), f).Some?
                                    then FirstName(MemberAttribute.Names(MemberLayers(u, tables, m)), f)
                                    else NameOf(FromType(u, tables, m.valueType).names, f)
  {
    MemberAttribute.MergeType(OwnAttribute(u, tables, m), FromType(u, tables, m.valueType))
  }

  /** An override for a member beats everything else about it: whatever
      kind it chooses is the member's kind. */
  lemma OverrideWins(u: Universe, tables: AttributeOverrides.Tables, m: MemberDesc)
    requires Valid(u) && m.declaringType in u.types && m.valueType in u.types && |m.name| > 0
    requires AttributeOverrides.Lookup(tables.memberOverrides, AttributeOverrides.Key(u.types[m.declaringType]), m.name).Some?
    requires AttributeOverrides.Lookup(tables.memberOverrides, AttributeOverrides.Key(u.types[m.declaringType]), m.name).value.nodeType != Auto
    ensures FromMember(u, tables, m).nodeType
         == AttributeOverrides.Lookup(tables.memberOverrides, AttributeOverrides.Key(u.types[m.declaringType]), m.name).value.nodeType
  {
    var own := MemberLayers(u, tables, m);
    assert own[0] == AttributeOverrides.Lookup(tables.memberOverrides, AttributeOverrides.Key(u.types[m.declaringType]), m.name).value;
  }

  /** A member the framework's attributes mark as ignored, with no override
      for it, is not serialized whatever it declares. */
  lemma IgnoredMemberStaysIgnored(u: Universe, tables: AttributeOverrides.Tables, m: MemberDesc)
    requires Valid(u) && m.declaringType in u.types && m.valueType in u.types && |m.name| > 0
    requires m.markers.xmlIgnore || m.markers.nonSerialized
    requires AttributeOverrides.Lookup(tables.memberOverrides, AttributeOverrides.Key(u.types[m.declaringType]), m.name).None?
    ensures FromMember(u, tables, m).nodeType == NodeType.None
  {
    MemberAttribute.SystemAttributesOnFresh(m.markers);
    var own := MemberLayers(u, tables, m);
    assert own[0] == MemberAttribute.MergeSystemAttributes(MemberAttribute.Fresh, m.markers);
  }

  /** Every `List<T>` leaves its Capacity out, from the initial tables on. */
  lemma ListCapacityIgnored(u: Universe, m: MemberDesc)
    requires Valid(u) && m.declaringType in u.types && m.valueType in u.types
    requires AttributeOverrides.Key(u.types[m.declaringType]) == AttributeOverrides.ListKey && m.name == "Capacity"
    ensures FromMember(u, AttributeOverrides.Initial, m).nodeType == NodeType.None
  {
    var own := MemberLayers(u, AttributeOverrides.Initial, m);
    assert own[0] == MemberAttribute.Ignore;
  }

  /** Dropping attributes that choose no kind, and repeats, leaves the
      first chosen kind as it was. */
  lemma {:induction false} ExceptKeepsFirstKind(xs: seq<TypeAttribute.TypeAttr>, excluded: set<TypeAttribute.TypeAttr>, f: TypeAttribute.KindField)
    requires forall a :: a in excluded ==> TypeAttribute.KindOf(a, f) == Auto
    ensures TypeAttribute.FirstKind(Except(xs, excluded), f) == TypeAttribute.FirstKind(xs, f)
    decreases |xs|
  {
    if |xs| > 0 {
      if xs[0] in excluded {
        ExceptKeepsFirstKind(xs[1..], excluded, f);
      } else if TypeAttribute.KindOf(xs[0], f) == Auto {
        ExceptKeepsFirstKind(xs[1..], excluded + {xs[0]}, f);
      }
    }
  }

  /** The attributes collected along a list of types start with those the
      first type declares itself. */
  lemma CollectedStartsWithOwn(u: Universe, ts: seq<TypeId>)
    requires |ts| > 0
    ensures var own := Except(Declared(u, ts[0]), {});
            |own| <= |GetAttributes(u, ts)| && GetAttributes(u, ts)[..|own|] == own
  {
    var empty: seq<TypeAttribute.TypeAttr> := [];
    var none: set<TypeAttribute.TypeAttr> := {};
    assert (set a | a in empty) == none;
    assert empty + Except(Declared(u, ts[0]), none) == Except(Declared(u, ts[0]), none);
  }

  /** Layers that begin with `own` take the first kind `own` chooses,
      whatever follows. */
  lemma LeadingKindWins(own: seq<TypeAttribute.TypeAttr>, collected: seq<TypeAttribute.TypeAttr>, dflt: seq<TypeAttribute.TypeAttr>, f: TypeAttribute.KindField)
    requires |own| <= |collected| && collected[..|own|] == own
    requires TypeAttribute.FirstKind(own, f) != Auto
    ensures TypeAttribute.FirstKind(collected + dflt, f) == TypeAttribute.FirstKind(own, f)
  {
    assert collected + dflt == own + (collected[|own|..] + dflt);
    TypeAttribute.FirstKindConcat(own, collected[|own|..] + dflt, f);
  }

  /** A kind a type declares itself wins over whatever its base types and
      interfaces declare and over the default; only an override replaces
      it. */
  lemma DerivedKindWins(u: Universe, tables: AttributeOverrides.Tables, t: TypeId, f: TypeAttribute.KindField)
    requires Valid(u) && t in u.types && t != ObjectType
    requires AttributeOverrides.LookupType(tables.typeOverrides, AttributeOverrides.Key(u.types[t])).None?
    requires TypeAttribute.FirstKind(Declared(u, t), f) != Auto
    ensures TypeAttribute.KindOf(FromType(u, tables, t), f) == TypeAttribute.FirstKind(Declared(u, t), f)
  {
    var h := GetTypeHierarchy(u, Some(t));
    var none: set<TypeAttribute.TypeAttr> := {};
    var own := Except(Declared(u, t), none);
    var collected := GetAttributes(u, h);
    var dflt := OptionalLayer(AttributeOverrides.LookupType(tables.typeDefaults, AttributeOverrides.Key(u.types[t])));
    CollectedStartsWithOwn(u, h);
    ExceptKeepsFirstKind(Declared(u, t), none, f);
    assert TypeLayers(u, tables, t) == collected + dflt;
    LeadingKindWins(own, collected, dflt, f);
  }
}

=== FILE: byte_array_helper.dfy ===
/** Hexadecimal text for byte buffers (ByteArrayHelper.cs), the base16
    alphabet of section 8 of RFC 4648 in upper case: every byte is two
    digits, high nibble first. The writer emits the digits through a
    buffer of ConversionBufferSize bytes, flushing it whenever it fills. */
module ByteArrayHelper {

  type Byte = b: int | 0 <= b < 256

  const ConversionBufferSize: nat := 4080

  /** A truncating `(byte)` cast of an `int`. */
  function ToByte(x: int): (b: Byte)
    ensures 0 <= x < 256 ==> b == x
  {
    x % 256
  }

  /** The digit of a nibble, as `ToString("X2")` writes it. */
  function HexDigit(n: nat): (c: char)
    requires n < 16
    ensures IsUpperHex(c)
  {
    if n < 10 then ('0' as int + n) as char else ('A' as int + n - 10) as char
  }

  predicate IsUpperHex(c: char) {
    '0' <= c <= '9' || 'A' <= c <= 'F'
  }

  predicate IsHex(c: char) {
    IsUpperHex(c) || 'a' <= c <= 'f'
  }

  /** The value ToByteArray gives a character: `c - '0'` below `@`,
      `c - '7'` below `G`, and `c - 'W'` from there on. */
  function HexValue(c: char): (v: int)
    ensures '0' <= c <= '9' ==> v == c as int - '0' as int
    ensures 'A' <= c <= 'F' ==> v == c as int - 'A' as int + 10
    ensures 'a' <= c <= 'f' ==> v == c as int - 'a' as int + 10
    ensures IsHex(c) ==> 0 <= v < 16
  {
    if c as int < 0x40 then c as int - 0x30
    else if c as int < 0x47 then c as int - 0x37
    else c as int - 0x57
  }

  /** Reading a digit gives back the nibble it was written from. */
  lemma HexValueOfDigit(n: nat)
    requires n < 16
    ensures HexValue(HexDigit(n)) == n
  {
  }

  /** The lookup table: the two digits of a byte, high nibble first. */
  function Lookup(b: Byte): (s: string)
    ensures |s| == 2 && IsUpperHex(s[0]) && IsUpperHex(s[1])
    ensures 16 * HexValue(s[0]) + HexValue(s[1]) == b
  {
    HexValueOfDigit(b / 16);
    HexValueOfDigit(b % 16);
    [HexDigit(b / 16), HexDigit(b % 16)]
  }

  /** ToHexString: the digit pairs of the bytes, in order. */
  function ToHexString(bytes: seq<Byte>): string
    decreases |bytes|
  {
    if |bytes| == 0 then "" else ToHexString(bytes[..|bytes| - 1]) + Lookup(bytes[|bytes| - 1])
  }

  /** ToHexString has two characters per byte: the digits of byte `i` at
      positions `2i` and `2i + 1`. */
  lemma {:induction false} ToHexStringSpells(bytes: seq<Byte>)
    ensures |ToHexString(bytes)| == 2 * |bytes|
    ensures forall i :: 0 <= i < |bytes| ==>
              ToHexString(bytes)[2 * i] == Lookup(bytes[i])[0] && ToHexString(bytes)[2 * i + 1] == Lookup(bytes[i])[1]
    decreases |bytes|
  {
    if |bytes| > 0 {
      var init := bytes[..|bytes| - 1];
      ToHexStringSpells(init);
      assert forall i :: 0 <= i < |init| ==> bytes[i] == init[i];
    }
  }

  lemma ToHexStringAppend(bytes: seq<Byte>, i: nat)
    requires i < |bytes|
    ensures ToHexString(bytes[..i + 1]) == ToHexString(bytes[..i]) + Lookup(bytes[i])
  {
    assert bytes[..i + 1][..i] == bytes[..i];
  }

  /** The strings written, one after the other. */
  function Concat(parts: seq<string>): (s: string)
    decreases |parts|
  {
    if |parts| == 0 then "" else Concat(parts[..|parts| - 1]) + parts[|parts| - 1]
  }

  lemma ConcatAppend(parts: seq<string>, x: string)
    ensures Concat(parts + [x]) == Concat(parts) + x
  {
    assert (parts + [x])[..|parts|] == parts;
  }

  /** The buffer size WriteBinHex uses: the whole array when it is
      shorter than ConversionBufferSize. */
  function BufferLength(n: nat): (k: nat)
    ensures k <= ConversionBufferSize && k <= n
    ensures n > 0 ==> k > 0
  {
    if n < ConversionBufferSize then n else ConversionBufferSize
  }

  /** Both WriteBinHex overloads: the flushes, in order, of a buffer of
      `2 * BufferLength` characters; they spell ToHexString, every flush
      but the last is a full buffer, and an empty array writes nothing. */
  method WriteBinHex(bytes: seq<Byte>) returns (flushes: seq<string>)
    ensures Concat(flushes) == ToHexString(bytes)
    ensures |flushes| == 0 <==> |bytes| == 0
    ensures forall k :: 0 <= k < |flushes| ==> 0 < |flushes[k]| <= 2 * ConversionBufferSize
    ensures forall k :: 0 <= k < |flushes| - 1 ==> |flushes[k]| == 2 * BufferLength(|bytes|)
  {
    var bufferIndex := 0;
    var bufferLength := BufferLength(|bytes|);
    var charBuffer: seq<char> := seq(bufferLength * 2, _ => 0 as char);
    flushes := [];
    for i := 0 to |bytes|
      invariant |charBuffer| == 2 * bufferLength
      invariant bufferIndex == 0 || bufferIndex < bufferLength
      invariant Concat(flushes) + charBuffer[..2 * bufferIndex] == ToHexString(bytes[..i])
      invariant i > 0 ==> |flushes| > 0 || bufferIndex > 0
      invariant |flushes| <= i
      invariant forall k :: 0 <= k < |flushes| ==> |flushes[k]| == 2 * bufferLength
    {
      ToHexStringAppend(bytes, i);
      flushes, charBuffer, bufferIndex := PutPair(flushes, charBuffer, bufferIndex, bufferLength, Lookup(bytes[i]));
    }
    assert bytes[..|bytes|] == bytes;
    if bufferIndex > 0 {
      ConcatAppend(flushes, charBuffer[..2 * bufferIndex]);
      flushes := flushes + [charBuffer[..2 * bufferIndex]];
    }
  }

  /** One byte of WriteBinHex: its digit pair goes into the buffer at
      `index`, and a buffer that fills up is flushed and starts again. */
  method PutPair(flushes: seq<string>, buf: seq<char>, index: nat, length: nat, pair: string)
      returns (flushes': seq<string>, buf': seq<char>, index': nat)
    requires |pair| == 2 && |buf| == 2 * length && index < length
    requires forall k :: 0 <= k < |flushes| ==> |flushes[k]| == 2 * length
    ensures |buf'| == 2 * length && (index' == 0 || index' < length)
    ensures Concat(flushes') + buf'[..2 * index'] == Concat(flushes) + buf[..2 * index] + pair
    ensures |flushes'| > 0 || index' > 0
    ensures |flushes| <= |flushes'| <= |flushes| + 1
    ensures forall k :: 0 <= k < |flushes'| ==> |flushes'[k]| == 2 * length
  {
    buf' := buf[2 * index := pair[0]][2 * index + 1 := pair[1]];
    assert buf'[..2 * index + 2] == buf[..2 * index] + pair;
    index' := index + 1;
    flushes' := flushes;
    if index' == length {
      assert buf'[..2 * index'] == buf';
      ConcatAppend(flushes, buf');
      flushes' := flushes + [buf'];
      index' := 0;
    }
  }

  /** Bitwise or of two non-negative numbers. */
  function BitOr(a: nat, b: nat): nat
    decreases a + b
  {
    if a == 0 then b
    else if b == 0 then a
    else 2 * BitOr(a / 2, b / 2) + (if a % 2 == 1 || b % 2 == 1 then 1 else 0)
  }

  function Pow2(k: nat): (p: nat)
    ensures p > 0
  {
    if k == 0 then 1 else 2 * Pow2(k - 1)
  }

  /** Or-ing a number below `2^k` into a multiple of `2^k` adds it. */
  lemma {:induction false} BitOrShifted(a: nat, l: nat, k: nat)
    requires l < Pow2(k)
    ensures BitOr(a * Pow2(k), l) == a * Pow2(k) + l
    decreases k
  {
    if k > 0 && a != 0 && l != 0 {
      var m := Pow2(k - 1);
      assert a * Pow2(k) == 2 * (a * m);
      assert (a * Pow2(k)) / 2 == a * m && (a * Pow2(k)) % 2 == 0;
      BitOrShifted(a, l / 2, k - 1);
    }
  }

  lemma BitOrNibbles(h: nat, l: nat)
    requires h < 16 && l < 16
    ensures BitOr(16 * h, l) == 16 * h + l
  {
    assert Pow2(4) == 16;
    BitOrShifted(h, l, 4);
  }

  /** ToByteArray as written: the loop stores the high nibble, then
      overwrites the byte with the low nibble. */
  function ToByteArrayAsWritten(s: string): (r: seq<Byte>)
    ensures |r| == |s| / 2
    ensures forall i :: 0 <= i < |r| ==> r[i] == ToByte(HexValue(s[2 * i + 1]))
  {
    seq(|s| / 2, i requires 0 <= i < |s| / 2 =>
      var high := ToByte(HexValue(s[2 * i]) * 16);
      var low := ToByte(HexValue(s[2 * i + 1]));
      low)
  }

  /** ToByteArray with the low nibble or-ed into the byte the high nibble
      was stored in, which the documented example "15A4C2" requires. */
  function ToByteArray(s: string): (r: seq<Byte>)
    ensures |r| == |s| / 2
  {
    seq(|s| / 2, i requires 0 <= i < |s| / 2 =>
      ToByte(BitOr(ToByte(HexValue(s[2 * i]) * 16), ToByte(HexValue(s[2 * i + 1])))))
  }

  /** Each pair of digits, in either case, decodes to its value. */
  lemma ToByteArrayDecodesPairs(s: string)
    ensures forall i :: 0 <= i < |s| / 2 && IsHex(s[2 * i]) && IsHex(s[2 * i + 1]) ==>
              ToByteArray(s)[i] == 16 * HexValue(s[2 * i]) + HexValue(s[2 * i + 1])
  {
    forall i | 0 <= i < |s| / 2 && IsHex(s[2 * i]) && IsHex(s[2 * i + 1])
      ensures ToByteArray(s)[i] == 16 * HexValue(s[2 * i]) + HexValue(s[2 * i + 1])
    {
      BitOrNibbles(HexValue(s[2 * i]), HexValue(s[2 * i + 1]));
    }
  }

  /** ToByteArray inverts ToHexString. */
  lemma HexRoundTrip(bytes: seq<Byte>)
    ensures ToByteArray(ToHexString(bytes)) == bytes
  {
    var s := ToHexString(bytes);
    ToHexStringSpells(bytes);
    ToByteArrayDecodesPairs(s);
    forall i | 0 <= i < |bytes| ensures ToByteArray(s)[i] == bytes[i] {
      assert s[2 * i] == Lookup(bytes[i])[0] && s[2 * i + 1] == Lookup(bytes[i])[1];
    }
  }

  /** The documented example: "15A4C2" is meant to be 21, 164, 194, which
      ToHexString writes as "15A4C2"; the loop as written gives 5, 4, 2. */
  lemma ToByteArrayCounterexample()
    ensures ToHexString([21, 164, 194]) == "15A4C2"
    ensures ToByteArray("15A4C2") == [21, 164, 194]
    ensures ToByteArrayAsWritten("15A4C2") == [5, 4, 2]
  {
    DocumentedHex();
    HexRoundTrip([21, 164, 194]);
    AsWrittenExample();
  }

  lemma DocumentedHex()
    ensures ToHexString([21, 164, 194]) == "15A4C2"
  {
    var b: seq<Byte> := [21, 164, 194];
    assert Lookup(21) == "15" && Lookup(164) == "A4" && Lookup(194) == "C2";
    assert [21][..0] == [] && ToHexString([21]) == "15";
    assert b[..2][..1] == [21] && ToHexString(b[..2]) == "15A4";
  }

  lemma AsWrittenExample()
    ensures ToByteArrayAsWritten("15A4C2") == [5, 4, 2]
  {
    var r := ToByteArrayAsWritten("15A4C2");
    assert r[0] == ToByte(HexValue('5')) == 5;
    assert r[1] == ToByte(HexValue('4')) == 4;
    assert r[2] == ToByte(HexValue('2')) == 2;
  }
}

=== FILE: byte_array_serializer.dfy ===
/** The serializer of byte buffers (ByteArraySerializer.cs): the options
    choose base64 text, hexadecimal text, or one child element per byte,
    the last written by the sequence serializer of `byte[]`. An element
    without content is an empty buffer whatever the encoding. */
module ByteArraySerializer {
  import opened Wrappers
  import opened NodeTypes
  import opened Options
  import opened XmlModel
  import opened Codecs
  import opened ByteArrayHelper
  import EnumerableCompiler

  /** The library conversions the serializer calls: base64 in both
      directions, the reader's hexadecimal decoding, and the text form of
      one byte used by the per-byte elements. */
  datatype Encoders = Encoders(
    base64: seq<Byte> -> string,
    readBase64: string -> Result<seq<Byte>>,
    readBinHex: string -> Result<seq<Byte>>,
    decimal: Codec<Byte>)

  /** The items of `byte[]`: text items of a type that cannot be null and
      has a text conversion both ways. */
  const ByteItems: EnumerableCompiler.ChildConfig := EnumerableCompiler.ChildConfig(NodeType.Text, false, true, true)

  function Boxes(bytes: seq<Byte>): (xs: seq<Option<Byte>>)
    ensures |xs| == |bytes| && forall i :: 0 <= i < |bytes| ==> xs[i] == Some(bytes[i])
  {
    seq(|bytes|, i requires 0 <= i < |bytes| => Some(bytes[i]))
  }

  function Unbox(xs: seq<Option<Byte>>): (bytes: seq<Byte>)
    ensures |bytes| == |xs| && forall i :: 0 <= i < |xs| && xs[i].Some? ==> bytes[i] == xs[i].value
  {
    seq(|xs|, i requires 0 <= i < |xs| => xs[i].GetOr(0))
  }

  /** Serialize: base64 text, the digits of ToHexString (what WriteBinHex
      flushes), or the per-byte elements, chosen by the options alone.
      WriteBase64 ends the start tag even for an empty buffer; the other
      encodings write nothing for one. */
  function Serialize(opts: SerializationOptions, enc: Encoders, bytes: seq<Byte>): (f: Fragment)
    ensures f.attrs == []
    ensures opts.byteArrayEncoding == Base64 ==>
              !IsEmptyElement(f) && ValueAfterRead(f) == enc.base64(bytes)
    ensures |bytes| == 0 && opts.byteArrayEncoding != Base64 ==> f == EmptyFragment
    ensures |bytes| > 0 && opts.byteArrayEncoding == BinHex ==>
              !IsEmptyElement(f) && ValueAfterRead(f) == ToHexString(bytes)
    ensures opts.byteArrayEncoding == Elements ==>
              f == EnumerableCompiler.Serialize(ByteItems, enc.decimal, opts, Boxes(bytes))
  {
    if opts.byteArrayEncoding == Base64 then
      TextReadsBack(enc.base64(bytes));
      WriteString(EmptyFragment, enc.base64(bytes))
    else if opts.byteArrayEncoding == BinHex then
      if |bytes| == 0 then EmptyFragment
      else
        ToHexStringSpells(bytes);
        TextReadsBack(ToHexString(bytes));
        WriteString(EmptyFragment, ToHexString(bytes))
    else EnumerableCompiler.Serialize(ByteItems, enc.decimal, opts, Boxes(bytes))
  }

  /** Deserialize: an empty element is an empty buffer; otherwise the
      content is read in the encoding the options choose. */
  function Deserialize(opts: SerializationOptions, enc: Encoders, f: Fragment): (r: Result<seq<Byte>>)
    ensures IsEmptyElement(f) ==> r == Success([])
    ensures !IsEmptyElement(f) && opts.byteArrayEncoding == Base64 ==> r == enc.readBase64(ValueAfterRead(f))
    ensures !IsEmptyElement(f) && opts.byteArrayEncoding == BinHex ==> r == enc.readBinHex(ValueAfterRead(f))
    ensures !IsEmptyElement(f) && opts.byteArrayEncoding == Elements ==>
              (r.Success? <==> EnumerableCompiler.Deserialize(ByteItems, enc.decimal, f).Success?)
    ensures !IsEmptyElement(f) && opts.byteArrayEncoding == Elements && r.Success? ==>
              r.value == Unbox(EnumerableCompiler.Deserialize(ByteItems, enc.decimal, f).value)
  {
    if IsEmptyElement(f) then Success([])
    else if opts.byteArrayEncoding == Base64 then enc.readBase64(ValueAfterRead(f))
    else if opts.byteArrayEncoding == BinHex then enc.readBinHex(ValueAfterRead(f))
    else
      var xs :- EnumerableCompiler.Deserialize(ByteItems, enc.decimal, f);
      Success(Unbox(xs))
  }

  /** Deserializing into an existing buffer is not supported. */
  function DeserializeInto(opts: SerializationOptions, f: Fragment, existing: seq<Byte>): (r: Result<()>)
    ensures r.Failure? && r.error == NotSupported
  {
    Failure(NotSupported)
  }

  /** The library conversions read back what they write (the helper's
      own ToByteArray meets the hexadecimal half: HexRoundTrip). */
  ghost predicate Consistent(enc: Encoders) {
    && (forall b :: enc.readBase64(enc.base64(b)) == Success(b))
    && (forall b :: enc.readBinHex(ToHexString(b)) == Success(b))
    && TextRoundTrip(enc.decimal)
  }

  /** Every buffer reads back as itself in every encoding. */
  lemma RoundTrip(opts: SerializationOptions, enc: Encoders, bytes: seq<Byte>)
    requires Consistent(enc)
    ensures Deserialize(opts, enc, Serialize(opts, enc, bytes)) == Success(bytes)
  {
    if opts.byteArrayEncoding == Base64 {
      assert enc.readBase64(enc.base64(bytes)) == Success(bytes);
    } else if |bytes| > 0 {
      var f := Serialize(opts, enc, bytes);
      if opts.byteArrayEncoding == BinHex {
        assert enc.readBinHex(ToHexString(bytes)) == Success(bytes);
      } else {
        assert EnumerableCompiler.RoundTripConfig(ByteItems, enc.decimal);
        EnumerableCompiler.SequenceRoundTrip(ByteItems, enc.decimal, opts, Boxes(bytes));
        assert !IsEmptyElement(f);
        assert Unbox(Boxes(bytes)) == bytes;
      }
    }
  }

  /** The value WriteXml and ReadXml see: a buffer or some other object. */
  datatype Boxed = BoxedBytes(bytes: seq<Byte>) | BoxedOther

  /** WriteXml: the typed Serialize, after a cast that refuses anything
      but a buffer. */
  function WriteXml(opts: SerializationOptions, enc: Encoders, o: Boxed): (r: Result<Fragment>)
    ensures o.BoxedBytes? ==> r == Success(Serialize(opts, enc, o.bytes))
    ensures o.BoxedOther? ==> r == Failure(InvalidCast)
  {
    match o
    case BoxedBytes(b) => Success(Serialize(opts, enc, b))
    case BoxedOther => Failure(InvalidCast)
  }

  /** ReadXml: the typed Deserialize, boxed. */
  function ReadXml(opts: SerializationOptions, enc: Encoders, f: Fragment): (r: Result<Boxed>)
    ensures r.Success? <==> Deserialize(opts, enc, f).Success?
    ensures r.Success? ==> r.value == BoxedBytes(Deserialize(opts, enc, f).value)
    ensures r.Failure? ==> r.error == Deserialize(opts, enc, f).error
  {
    var b :- Deserialize(opts, enc, f);
    Success(BoxedBytes(b))
  }

  /** ReadXml into an existing object: the cast, then the unsupported
      in-place read. */
  function ReadXmlInto(opts: SerializationOptions, f: Fragment, o: Boxed): (r: Result<()>)
    ensures r.Failure?
    ensures r.error == (if o.BoxedOther? then InvalidCast else NotSupported)
  {
    match o
    case BoxedBytes(b) => DeserializeInto(opts, f, b)
    case BoxedOther => Failure(InvalidCast)
  }

  /** The untyped methods round-trip exactly as the typed ones do. */
  lemma UntypedRoundTrip(opts: SerializationOptions, enc: Encoders, bytes: seq<Byte>)
    requires Consistent(enc)
    ensures WriteXml(opts, enc, BoxedBytes(bytes)).Success?
    ensures ReadXml(opts, enc, WriteXml(opts, enc, BoxedBytes(bytes)).value) == Success(BoxedBytes(bytes))
  {
    RoundTrip(opts, enc, bytes);
  }
}

=== FILE: codec.dfy ===
/** The conversions a generated serializer calls for one value type, taken
    as parameters: the text conversion the compiler chose (ToString or
    XmlConvert or a converter, and the matching Parse), and the serializer
    of the type itself, which the generated code calls when no text
    conversion is configured. */
module Codecs {
  import opened Wrappers
  import opened XmlModel

  datatype Codec<!T> = Codec(
    format: T -> string,
    parse: string -> Result<T>,
    serialize: T -> Fragment,
    deserialize: Fragment -> Result<T>)

  /** Parsing what was formatted gives the value back. */
  ghost predicate TextRoundTrip<T(!new)>(c: Codec<T>) {
    forall v :: c.parse(c.format(v)) == Success(v)
  }

  /** The nested serializer reads back what it wrote. */
  ghost predicate NestedRoundTrip<T(!new)>(c: Codec<T>) {
    forall v :: c.deserialize(c.serialize(v)) == Success(v)
  }

  /** A string is its own text, read back as the text of its element. */
  function StringCodec(): (c: Codec<string>)
    ensures TextRoundTrip(c)
  {
    Codec(s => s, s => Success(s), s => WriteString(EmptyFragment, s), f => Success(ValueAfterRead(f)))
  }
}

=== FILE: compiler.dfy ===
/** The compiler's top-level decisions (Compiler.cs): which kind of
    serializer a type gets, which members an object serializer handles and
    in what order, and which member reads the element's text. */
module Compiler {
  import opened Wrappers
  import opened NodeTypes
  import opened Reflection
  import opened CompilerTypeInfo
  import opened PropertyCompiler
  import AttributeOverrides

  datatype SerializerKind =
    | ArraySerializer
    | DictionarySerializer
    | EnumerableSerializer
    | ValueTypeSerializer
    | StandardSerializer

  /** GenerateSerializerCode: arrays, then dictionaries, then enumerables
      other than `string`; of the rest, a type with a text conversion in
      either direction is a value type and anything else an object. */
  function Dispatch(t: TypeDesc): (k: SerializerKind)
    ensures k == ArraySerializer <==> t.isArray
    ensures k == DictionarySerializer <==> !t.isArray && t.implementsIDictionary
    ensures k == EnumerableSerializer <==> !t.isArray && !t.implementsIDictionary && t.shape.isEnumerable && !t.shape.caps.isString
    ensures k == ValueTypeSerializer <==>
              && !t.isArray && !t.implementsIDictionary && !(t.shape.isEnumerable && !t.shape.caps.isString)
              && (SerializerConfigured(NewTypeInfo(t.shape)) || DeserializerConfigured(NewTypeInfo(t.shape)))
  {
    if t.isArray then ArraySerializer
    else if t.implementsIDictionary then DictionarySerializer
    else if t.shape.isEnumerable && !t.shape.caps.isString then EnumerableSerializer
    else
      var info := NewTypeInfo(t.shape);
      if SerializerConfigured(info) || DeserializerConfigured(info) then ValueTypeSerializer
      else StandardSerializer
  }

  /** `string` is enumerable but gets the value-type serializer; a type
      that is neither a collection nor convertible to or from text gets the
      object serializer. */
  lemma StringAndPlainObjects(t: TypeDesc)
    requires !t.isArray && !t.implementsIDictionary
    ensures t.shape.caps.isString && !t.shape.isValueType ==> Dispatch(t) == ValueTypeSerializer
    ensures !t.shape.isEnumerable && !t.shape.isValueType && t.shape.caps == Caps(false, false, false, false, false, false, false, false)
            ==> Dispatch(t) == StandardSerializer
  {
  }

  /** The members kept by GetPropertyCompilers, in declaration order: a
      member is planned with the next free index, which only a kept member
      uses up; the first member whose depth walk fails fails the whole. */
  function KeptPlans(rs: seq<Resolved>, next: int): (r: Result<seq<MemberPlan>>)
    requires forall i :: 0 <= i < |rs| ==> |rs[i].name| > 0
    ensures r.Success? ==> |r.value| <= |rs|
    ensures r.Success? ==> forall i :: 0 <= i < |r.value| ==> r.value[i].index == next + i && IsConcrete(r.value[i].kind)
    ensures r.Failure? ==> r.error == NullReference
    decreases |rs|
  {
    if |rs| == 0 then Success([])
    else
      var p :- PlanFrom(rs[0], next);
      if p.None? then KeptPlans(rs[1..], next)
      else
        var rest :- KeptPlans(rs[1..], next + 1);
        var kept := [p.value] + rest;
        assert forall i :: 1 <= i < |kept| ==> kept[i] == rest[i - 1];
        Success(kept)
  }

  /** A member is dropped exactly when its resolved kind is `None`: the
      plans kept are those of the other members, in order. */
  lemma {:induction false} KeptPlansKeepsNamed(rs: seq<Resolved>, next: int)
    requires forall i :: 0 <= i < |rs| ==> |rs[i].name| > 0
    ensures KeptPlans(rs, next).Success? ==>
              |KeptPlans(rs, next).value| == |Serialized(rs)|
              && forall i :: 0 <= i < |Serialized(rs)| ==> KeptPlans(rs, next).value[i].name == Serialized(rs)[i].name
    decreases |rs|
  {
    if |rs| > 0 {
      var p := PlanFrom(rs[0], next);
      if p.Success? && p.value.Some? {
        KeptPlansKeepsNamed(rs[1..], next + 1);
      } else if p.Success? {
        KeptPlansKeepsNamed(rs[1..], next);
      }
    }
  }

  /** The members whose resolved kind is not `None`. */
  function Serialized(rs: seq<Resolved>): seq<Resolved>
    decreases |rs|
  {
    if |rs| == 0 then []
    else if ResolveKind(rs[0].attr.nodeType, rs[0].member) == NodeType.None then Serialized(rs[1..])
    else [rs[0]] + Serialized(rs[1..])
  }

  /** The sort key: attributes first, then base-declared members, then the
      configured order or declaration index. */
  function Key(p: MemberPlan): (nat, nat, int) {
    (SerializationTypeOrder(p.kind), p.depth, p.order)
  }

  /** Lexicographic order on keys. */
  predicate KeyLess(a: (nat, nat, int), b: (nat, nat, int)) {
    a.0 < b.0 || (a.0 == b.0 && (a.1 < b.1 || (a.1 == b.1 && a.2 < b.2)))
  }

  predicate Sorted(s: seq<MemberPlan>) {
    forall i, j :: 0 <= i < j < |s| ==> !KeyLess(Key(s[j]), Key(s[i]))
  }

  /** The plans with a given key, in their order in `s`. */
  function WithKey(s: seq<MemberPlan>, k: (nat, nat, int)): seq<MemberPlan>
    decreases |s|
  {
    if |s| == 0 then []
    else (if Key(s[0]) == k then [s[0]] else []) + WithKey(s[1..], k)
  }

  /** Puts `p` in front of the first plan whose key is not smaller, which
      is in front of every plan with the same key. */
  function InsertPlan(p: MemberPlan, s: seq<MemberPlan>): (r: seq<MemberPlan>)
    requires Sorted(s)
    ensures Sorted(r)
    ensures multiset(r) == multiset(s) + multiset{p}
    decreases |s|
  {
    if |s| == 0 then [p]
    else if KeyLess(Key(s[0]), Key(p)) then
      var rest := InsertPlan(p, s[1..]);
      assert s == [s[0]] + s[1..];
      NoneBelow(s[0], p, s[1..], rest);
      var r := [s[0]] + rest;
      assert r[1..] == rest;
      r
    else
      var r := [p] + s;
      assert r[1..] == s;
      r
  }

  /** Every plan of a permutation of `s` and `p` has a key no smaller than
      `q`'s when `p` and every plan of `s` do. */
  lemma NoneBelow(q: MemberPlan, p: MemberPlan, s: seq<MemberPlan>, rest: seq<MemberPlan>)
    requires !KeyLess(Key(p), Key(q))
    requires forall i :: 0 <= i < |s| ==> !KeyLess(Key(s[i]), Key(q))
    requires multiset(rest) == multiset(s) + multiset{p}
    ensures forall i :: 0 <= i < |rest| ==> !KeyLess(Key(rest[i]), Key(q))
  {
    forall i | 0 <= i < |rest| ensures !KeyLess(Key(rest[i]), Key(q)) {
      assert rest[i] in multiset(rest);
      if rest[i] != p {
        assert rest[i] in multiset(s);
        var j :| 0 <= j < |s| && s[j] == rest[i];
      }
    }
  }

  /** Inserting keeps, for every key, the plans of that key in order, with
      `p` first among its own key. */
  lemma {:induction false} InsertPlanStable(p: MemberPlan, s: seq<MemberPlan>, k: (nat, nat, int))
    requires Sorted(s)
    ensures WithKey(InsertPlan(p, s), k) == (if Key(p) == k then [p] else []) + WithKey(s, k)
    decreases |s|
  {
    if |s| == 0 {
    } else if KeyLess(Key(s[0]), Key(p)) {
      assert Sorted(s[1..]) by {
        assert forall i :: 0 <= i < |s[1..]| ==> s[1..][i] == s[i + 1];
      }
      var rest := InsertPlan(p, s[1..]);
      InsertPlanStable(p, s[1..], k);
      var r := InsertPlan(p, s);
      assert r == [s[0]] + rest;
      assert r[0] == s[0] && r[1..] == rest;
      var own := if Key(s[0]) == k then [s[0]] else [];
      var ins := if Key(p) == k then [p] else [];
      assert WithKey(r, k) == own + WithKey(rest, k);
      assert WithKey(s, k) == own + WithKey(s[1..], k);
      assert Key(s[0]) != Key(p);
      assert own == [] || ins == [];
      assert own + (ins + WithKey(s[1..], k)) == ins + (own + WithKey(s[1..], k));
    } else {
      var r := [p] + s;
      assert r[1..] == s;
    }
  }

  /** OrderBy(type order).ThenBy(depth).ThenBy(order). */
  function SortPlans(s: seq<MemberPlan>): (r: seq<MemberPlan>)
    ensures Sorted(r)
    ensures multiset(r) == multiset(s)
    decreases |s|
  {
    if |s| == 0 then []
    else
      assert s == [s[0]] + s[1..];
      InsertPlan(s[0], SortPlans(s[1..]))
  }

  /** The sort is stable: plans with equal keys keep their relative order. */
  lemma {:induction false} SortPlansStable(s: seq<MemberPlan>, k: (nat, nat, int))
    ensures WithKey(SortPlans(s), k) == WithKey(s, k)
    decreases |s|
  {
    if |s| > 0 {
      SortPlansStable(s[1..], k);
      InsertPlanStable(s[0], SortPlans(s[1..]), k);
    }
  }

  /** A sorted plan list has its attribute members first, which is what
      lets the object writer put every attribute on an open start tag. */
  lemma SortedPutsAttributesFirst(s: seq<MemberPlan>)
    requires Sorted(s)
    ensures AttributesFirst(s)
  {
    forall i, j | 0 <= i < j < |s|
      ensures SerializationTypeOrder(s[i].kind) <= SerializationTypeOrder(s[j].kind)
    {
      assert !KeyLess(Key(s[j]), Key(s[i]));
    }
  }

  /** The lookups GetPropertyCompilers makes for each member. */
  function ResolveAll(u: Universe, tables: AttributeOverrides.Tables, ms: seq<MemberDesc>): (rs: seq<Resolved>)
    requires Valid(u)
    requires forall i :: 0 <= i < |ms| ==> ms[i].declaringType in u.types && ms[i].valueType in u.types && |ms[i].name| > 0
    ensures |rs| == |ms|
    ensures forall i :: 0 <= i < |ms| ==> rs[i] == Resolve(u, tables, ms[i]) && rs[i].name == ms[i].name
  {
    seq(|ms|, i requires 0 <= i < |ms| => Resolve(u, tables, ms[i]))
  }

  /** GetPropertyCompilers: the kept members, indexed from 1, sorted. */
  function GetPropertyCompilers(rs: seq<Resolved>): (r: Result<seq<MemberPlan>>)
    requires forall i :: 0 <= i < |rs| ==> |rs[i].name| > 0
    ensures r.Success? <==> KeptPlans(rs, 1).Success?
    ensures r.Success? ==> Sorted(r.value) && AttributesFirst(r.value)
    ensures r.Success? ==> forall i :: 0 <= i < |r.value| ==> IsConcrete(r.value[i].kind) && r.value[i].index > 0
    ensures r.Success? ==> multiset(r.value) == multiset(KeptPlans(rs, 1).value)
    ensures r.Success? ==> forall k :: WithKey(r.value, k) == WithKey(KeptPlans(rs, 1).value, k)
  {
    var kept :- KeptPlans(rs, 1);
    var sorted := SortPlans(kept);
    SortedPutsAttributesFirst(sorted);
    forall k ensures WithKey(sorted, k) == WithKey(kept, k) {
      SortPlansStable(kept, k);
    }
    assert forall i :: 0 <= i < |sorted| ==> sorted[i] in multiset(kept);
    Success(sorted)
  }

  /** GenerateTextReaderCode: the first member, in sorted order, whose
      kind is Text or TextAsCData; only that member reads the text. */
  function TextMember(ps: seq<MemberPlan>): (r: Option<nat>)
    ensures r.Some? ==> r.value < |ps| && IsText(ps[r.value].kind)
    ensures r.Some? ==> forall i :: 0 <= i < r.value ==> !IsText(ps[i].kind)
    ensures r.None? <==> forall i :: 0 <= i < |ps| ==> !IsText(ps[i].kind)
    decreases |ps|
  {
    if |ps| == 0 then Option.None
    else if IsText(ps[0].kind) then Some(0)
    else
      match TextMember(ps[1..])
      case None => Option.None
      case Some(i) => Some(i + 1)
  }
}

=== FILE: compiler_property_info.dfy ===
/** What the compiler decides about a property or field: the decisions about
    its value type, whether and how publicly it can be read and written,
    custom serialization hooks, and the node kind it prefers when nothing
    else says (CompilerPropertyInfo.cs). */
module CompilerPropertyInfo {
  import opened Wrappers
  import opened NodeTypes
  import opened Reflection
  import opened CompilerTypeInfo

  const CustomSerializationMethodSuffix: string := "_CustomXmlSerialize"
  const CustomDeserializationMethodSuffix: string := "_CustomXmlDeserialize"

  datatype MemberInfo = MemberInfo(
    info: TypeInfo,
    isStatic: bool,
    isPublicGet: bool,
    isPublicSet: bool,
    canGet: bool,
    canSet: bool)

  /** The hooks are looked up first: a `<Name>_CustomXmlSerialize()` method
      makes the member readable and able to be null, a
      `<Name>_CustomXmlDeserialize(string)` method makes it writable. Then
      the value type is described, and the accessors or field modifiers are
      read. An indexer can be neither read nor written. */
  function Describe(m: MemberDesc, valueShape: TypeShape): (r: MemberInfo)
    ensures r.info.customSer == m.hasSerializeHook && r.info.customDeser == m.hasDeserializeHook
    ensures m.hasSerializeHook ==> r.info.canBeNull
    ensures m.hasSerializeHook ==> r.info == Initialize(Blank(valueShape).(customSer := true, canBeNull := true, customDeser := m.hasDeserializeHook), valueShape)
    ensures !m.hasSerializeHook ==> r.info == NewTypeInfo(valueShape).(customDeser := m.hasDeserializeHook, conv := r.info.conv)
    ensures m.shape.PropertyMember? ==>
              && (r.canGet <==> !m.shape.indexed && (m.shape.getter.Some? || m.hasSerializeHook))
              && (r.canSet <==> !m.shape.indexed && (m.shape.setter.Some? || m.hasDeserializeHook))
              && (r.isPublicGet <==> !m.shape.indexed && m.shape.getter.Some? && m.shape.getter.value.isPublic)
              && (r.isPublicSet <==> !m.shape.indexed && m.shape.setter.Some? && m.shape.setter.value.isPublic)
              && (r.isStatic <==> (!m.shape.indexed && (if m.shape.setter.Some? then m.shape.setter.value.isStatic
                                                         else m.shape.getter.Some? && m.shape.getter.value.isStatic)))
    ensures m.shape.FieldMember? ==>
              && r.canGet && r.isPublicGet == m.shape.isPublic && r.isStatic == m.shape.isStatic
              && (r.canSet <==> (!m.shape.initOnly && !m.shape.literal) || m.hasDeserializeHook)
              && (r.isPublicSet <==> !m.shape.initOnly && !m.shape.literal && m.shape.isPublic)
  {
    var hooked := MemberInfo(Blank(valueShape), false, false, false, false, false);
    var withSer :=
      if m.hasSerializeHook then hooked.(info := hooked.info.(customSer := true, canBeNull := true), canGet := true)
      else hooked;
    var withDeser :=
      if m.hasDeserializeHook then withSer.(info := withSer.info.(customDeser := true), canSet := true)
      else withSer;
    var described := withDeser.(info := Initialize(withDeser.info, valueShape));
    match m.shape
    case PropertyMember(indexed, getter, setter) =>
      if indexed then described.(canGet := false, canSet := false)
      else
        var read :=
          if getter.Some? then described.(canGet := true, isPublicGet := getter.value.isPublic, isStatic := getter.value.isStatic)
          else described;
        if setter.Some? then read.(canSet := true, isPublicSet := setter.value.isPublic, isStatic := setter.value.isStatic)
        else read
    case FieldMember(isPublic, isStatic, initOnly, literal) =>
      var field := described.(isStatic := isStatic, canGet := true, isPublicGet := isPublic);
      if !initOnly && !literal then field.(canSet := true, isPublicSet := isPublic) else field
  }

  /** SeemsLikeToBeSerialized: public read-write instance members,
      members with a custom hook, and publicly readable collections. */
  predicate SeemsSerialized(p: MemberInfo) {
    (p.isPublicGet && p.isPublicSet && !p.isStatic) || p.info.customDeser || p.info.customSer
      || (p.info.isCollection && p.isPublicGet)
  }

  /** PrefferedSerializationType: a member that seems serialized is an
      attribute when a conversion to or from text is chosen, an element
      otherwise; any other member is not serialized. */
  function PreferredKind(p: MemberInfo): (k: NodeType)
    ensures k == NodeType.None <==> !SeemsSerialized(p)
    ensures k == Attribute <==> SeemsSerialized(p) && (SerializerConfigured(p.info) || DeserializerConfigured(p.info))
    ensures k in {NodeType.None, Attribute, Element}
  {
    if SeemsSerialized(p) then
      if SerializerConfigured(p.info) || DeserializerConfigured(p.info) then Attribute else Element
    else NodeType.None
  }

  /** A member with a custom serialization hook is an attribute unless
      something else says otherwise. */
  lemma HookedMemberPrefersAttribute(m: MemberDesc, valueShape: TypeShape)
    requires m.hasSerializeHook
    ensures PreferredKind(Describe(m, valueShape)) == Attribute
  {
  }

  /** A private field without hooks that is not a collection is not
      serialized unless something else says so. */
  lemma PrivateFieldNotSerialized(m: MemberDesc, valueShape: TypeShape)
    requires m.shape.FieldMember? && !m.shape.isPublic
    requires !m.hasSerializeHook && !m.hasDeserializeHook
    ensures PreferredKind(Describe(m, valueShape)) == NodeType.None
  {
  }

  /** A public read-write instance property is an attribute when its type
      can be read back from text (a string, an XmlConvert type, a type with
      a converter or a Parse method), and an element otherwise. */
  lemma PublicPropertyKind(m: MemberDesc, valueShape: TypeShape)
    requires m.shape.PropertyMember? && !m.shape.indexed
    requires m.shape.getter == Some(Accessor(true, false)) && m.shape.setter == Some(Accessor(true, false))
    requires !m.hasSerializeHook && !m.hasDeserializeHook
    ensures PreferredKind(Describe(m, valueShape)) == Attribute <==> DeserializerConfigured(NewTypeInfo(valueShape))
    ensures PreferredKind(Describe(m, valueShape)) != NodeType.None
  {
    var d := Describe(m, valueShape);
    assert ValueCaps(d.info) == ValueCaps(NewTypeInfo(valueShape));
  }
}

=== FILE: compiler_type_info.dfy ===
/** What the compiler decides about a value type before generating code for
    it: whether a value can be null, which string conversions write and read
    it, and whether it is a collection (CompilerTypeInfo.cs). */
module CompilerTypeInfo {
  import opened Wrappers
  import opened Reflection

  /** Which conversions were chosen to write and read the value. */
  datatype Conversions = Conversions(
    isXmlConvertible: bool,
    converterOnSer: bool,
    converterOnDeser: bool,
    toStringCulture: bool,
    parse: bool,
    parseWithCulture: bool)

  const NoConversions: Conversions := Conversions(false, false, false, false, false, false)

  /** The state of a CompilerTypeInfo (and the part of a
      CompilerPropertyInfo it inherits). `stripped` records that the value
      type was replaced by the underlying type of a `Nullable<T>`;
      `customSer` and `customDeser` stay false for a bare type. */
  datatype TypeInfo = TypeInfo(
    shape: TypeShape,            // the real value type, as declared
    stripped: bool,
    canBeNull: bool,
    isNullableType: bool,
    customSer: bool,
    customDeser: bool,
    conv: Conversions,
    isEnumerable: bool,
    isCollection: bool)

  /** Nothing decided yet, about a type whose shape is not yet known. */
  function Blank(shape: TypeShape): TypeInfo {
    TypeInfo(shape, false, false, false, false, false, NoConversions, false, false)
  }

  /** The conversions of the value type: of the underlying type once a
      nullable type was stripped. */
  function ValueCaps(i: TypeInfo): Caps {
    if i.stripped && i.shape.nullableOf.Some? then i.shape.nullableOf.value else i.shape.caps
  }

  function ValueIsValueType(i: TypeInfo): bool {
    i.stripped || i.shape.isValueType
  }

  function ValueNullableOf(i: TypeInfo): Option<Caps> {
    if i.stripped then Option.None else i.shape.nullableOf
  }

  predicate WriterChosen(caps: Caps, customSer: bool, c: Conversions) {
    customSer || caps.isString || c.isXmlConvertible || c.converterOnSer || c.toStringCulture
  }

  predicate ReaderChosen(caps: Caps, customDeser: bool, c: Conversions) {
    customDeser || caps.isString || c.isXmlConvertible || c.converterOnDeser || c.parse
  }

  /** SerializerConfigured: a custom method, a string, XmlConvert, a type
      converter or a culture-aware ToString writes the value. */
  predicate SerializerConfigured(i: TypeInfo) {
    WriterChosen(ValueCaps(i), i.customSer, i.conv)
  }

  /** DeserializerConfigured: a custom method, a string, XmlConvert, a type
      converter or a Parse method reads the value. */
  predicate DeserializerConfigured(i: TypeInfo) {
    ReaderChosen(ValueCaps(i), i.customDeser, i.conv)
  }

  /** ShouldUseXmlConvertOnGet: XmlConvert writes the value unless a custom
      method does. */
  function UseXmlConvertOnGet(i: TypeInfo): (b: bool)
    ensures b <==> i.conv.isXmlConvertible && !i.customSer
  {
    if i.customSer || !i.conv.isXmlConvertible then false else true
  }

  /** ShouldUseXmlConvertOnSet: XmlConvert reads the value unless a custom
      method does. */
  function UseXmlConvertOnSet(i: TypeInfo): (b: bool)
    ensures b <==> i.conv.isXmlConvertible && !i.customDeser
  {
    if i.customDeser || !i.conv.isXmlConvertible then false else true
  }

  /** StripNullable: a reference type can be null; `Nullable<T>` can be
      null and is handled as `T`; other value types cannot be null. A
      member with a custom serialization method is left as it is. */
  function StripNullable(i: TypeInfo): (r: TypeInfo)
    ensures i.customSer ==> r == i
    ensures !i.customSer ==> (r.canBeNull <==> !ValueIsValueType(i) || ValueNullableOf(i).Some?)
    ensures !i.customSer ==> (r.stripped <==> i.stripped || (ValueIsValueType(i) && ValueNullableOf(i).Some?))
    ensures !i.customSer && r.stripped && !i.stripped ==> r.isNullableType
    ensures r.shape == i.shape && r.conv == i.conv && r.customSer == i.customSer && r.customDeser == i.customDeser
    ensures r.isEnumerable == i.isEnumerable && r.isCollection == i.isCollection
    ensures !r.stripped || r.isNullableType == true || r.isNullableType == i.isNullableType
  {
    if i.customSer then i
    else
      var canBeNull := !ValueIsValueType(i);
      if !canBeNull && ValueNullableOf(i).Some? then i.(isNullableType := true, canBeNull := true, stripped := true)
      else i.(canBeNull := canBeNull)
  }

  /** The conversion choice of FinalizeValueType, in the source's order:
      XmlConvert, then a type converter for whatever is still missing, then
      a culture-aware ToString, then a culture-aware Parse if ToString is
      culture-aware, then plain Parse, dropping the culture-aware ToString
      when neither a converter nor a culture-aware Parse reads the value
      back. A choice once made is never undone, except that dropping. */
  function Choose(caps: Caps, customSer: bool, customDeser: bool, c: Conversions): Conversions {
    var c2 := c.(isXmlConvertible := caps.xmlConvertible);
    var c3 :=
      if (!WriterChosen(caps, customSer, c2) || !ReaderChosen(caps, customDeser, c2)) && caps.converterFromString then
        c2.(converterOnSer := c2.converterOnSer || (!WriterChosen(caps, customSer, c2) && caps.converterToString),
            converterOnDeser := c2.converterOnDeser || !ReaderChosen(caps, customDeser, c2))
      else c2;
    var c4 := if !WriterChosen(caps, customSer, c3) && caps.cultureToString then c3.(toStringCulture := true) else c3;
    if ReaderChosen(caps, customDeser, c4) then c4
    else
      var c5 := if c4.toStringCulture && caps.cultureParse then c4.(parse := true, parseWithCulture := true) else c4;
      if ReaderChosen(caps, customDeser, c5) then c5
      else c5.(toStringCulture := false, parse := c5.parse || caps.plainParse)
  }

  /** FinalizeValueType: strip a nullable, then choose the conversions of
      the value type. */
  function Finalize(i: TypeInfo): TypeInfo {
    var s := StripNullable(i);
    s.(conv := Choose(ValueCaps(s), s.customSer, s.customDeser, s.conv))
  }

  /** InitializeValueType: record the type and whether it is a collection,
      then finalize. The collection test covers ICollection<T> and IList. */
  function Initialize(i: TypeInfo, shape: TypeShape): TypeInfo {
    var described := i.(shape := shape, stripped := false,
                        isEnumerable := i.isEnumerable || shape.isEnumerable,
                        isCollection := if shape.isEnumerable then shape.isCollection else i.isCollection);
    Finalize(described)
  }

  /** The public constructor as written: InitializeValueType already
      finalizes, and the constructor finalizes once more. The second
      stripping sees the underlying value type, so a `Nullable<T>` stays
      marked nullable but no longer counts as able to be null: only
      reference types can. */
  function NewTypeInfoAsWritten(shape: TypeShape): (r: TypeInfo)
    ensures r.isNullableType <==> shape.isValueType && shape.nullableOf.Some?
    ensures r.canBeNull <==> !shape.isValueType
    ensures ValueCaps(r) == if shape.isValueType && shape.nullableOf.Some? then shape.nullableOf.value else shape.caps
    ensures r.isEnumerable == shape.isEnumerable && (r.isCollection <==> shape.isEnumerable && shape.isCollection)
  {
    var once := NewTypeInfo(shape);
    Finalize(once)
  }

  /** The constructor with the value type finalized once. What the compiler
      chooses follows from the type's conversions alone: it can read what
      it can write, a nullable value type can be null, and a culture-aware
      ToString is kept only with a way back. */
  function NewTypeInfo(shape: TypeShape): (r: TypeInfo)
    ensures r.canBeNull <==> !shape.isValueType || shape.nullableOf.Some?
    ensures r.isNullableType <==> shape.isValueType && shape.nullableOf.Some?
    ensures r.isNullableType ==> r.canBeNull
    ensures ValueCaps(r) == if shape.isValueType && shape.nullableOf.Some? then shape.nullableOf.value else shape.caps
    ensures DeserializerConfigured(r) <==>
              ValueCaps(r).isString || ValueCaps(r).xmlConvertible || ValueCaps(r).converterFromString
              || (ValueCaps(r).cultureToString && ValueCaps(r).cultureParse) || ValueCaps(r).plainParse
    ensures SerializerConfigured(r) <==>
              ValueCaps(r).isString || ValueCaps(r).xmlConvertible
              || (ValueCaps(r).converterFromString && ValueCaps(r).converterToString)
              || (ValueCaps(r).cultureToString && (ValueCaps(r).converterFromString || ValueCaps(r).cultureParse))
    ensures SerializerConfigured(r) ==> DeserializerConfigured(r)
    ensures r.conv.parseWithCulture ==> r.conv.parse && r.conv.toStringCulture
    ensures r.conv.toStringCulture ==> DeserializerConfigured(r)
    ensures r.conv.converterOnSer <==>
              ValueCaps(r).converterFromString && ValueCaps(r).converterToString
              && !ValueCaps(r).isString && !ValueCaps(r).xmlConvertible
    ensures ValueCaps(r).isString ==> SerializerConfigured(r) && DeserializerConfigured(r)
    ensures r.isEnumerable == shape.isEnumerable && (r.isCollection <==> shape.isEnumerable && shape.isCollection)
  {
    Initialize(Blank(shape), shape)
  }

  /** The second finalize changes two things: a `Nullable<T>` ends up
      marked nullable but unable to be null, and a culture-aware ToString
      that the first pass dropped (because only a plain Parse reads the
      value) is chosen again. */
  lemma DoubleFinalize(shape: TypeShape)
    ensures NewTypeInfoAsWritten(shape).canBeNull == (NewTypeInfo(shape).canBeNull && !NewTypeInfo(shape).isNullableType)
    ensures NewTypeInfoAsWritten(shape).conv.toStringCulture
         == (NewTypeInfo(shape).conv.toStringCulture
             || (!SerializerConfigured(NewTypeInfo(shape)) && ValueCaps(NewTypeInfo(shape)).cultureToString
                 && DeserializerConfigured(NewTypeInfo(shape))))
    ensures NewTypeInfoAsWritten(shape)
         == NewTypeInfo(shape).(canBeNull := NewTypeInfoAsWritten(shape).canBeNull,
                                conv := NewTypeInfo(shape).conv.(toStringCulture := NewTypeInfoAsWritten(shape).conv.toStringCulture))
  {
    var once := NewTypeInfo(shape);
    var stripped := StripNullable(once);
    assert stripped == once.(canBeNull := once.canBeNull && !once.isNullableType);
    assert ValueCaps(stripped) == ValueCaps(once);
    ChooseTwice(ValueCaps(once), false, false);
  }

  /** Choosing the conversions a second time only brings back a dropped
      culture-aware ToString. */
  lemma ChooseTwice(caps: Caps, customSer: bool, customDeser: bool)
    ensures var once := Choose(caps, customSer, customDeser, NoConversions);
            Choose(caps, customSer, customDeser, once)
            == once.(toStringCulture := once.toStringCulture
                       || (!WriterChosen(caps, customSer, once) && caps.cultureToString && ReaderChosen(caps, customDeser, once)))
  {
  }

  /** The inputs that show it: `int?` (whose underlying type XmlConvert
      handles) comes out nullable yet unable to be null; a class with only
      ToString(IFormatProvider) and Parse(string) is written with the
      culture-aware ToString although the single finalize finds no
      writer for it. */
  lemma DoubleFinalizeCounterexample()
    ensures var intCaps := Caps(false, false, true, true, true, true, true, true);
            var nullableInt := TypeShape(Caps(false, false, false, true, true, false, false, false), true, Some(intCaps), false, false);
            && NewTypeInfoAsWritten(nullableInt).isNullableType
            && !NewTypeInfoAsWritten(nullableInt).canBeNull
            && NewTypeInfo(nullableInt).isNullableType
            && NewTypeInfo(nullableInt).canBeNull
    ensures var cultureOnly := TypeShape(Caps(false, false, false, false, false, true, false, true), false, Option.None, false, false);
            && SerializerConfigured(NewTypeInfoAsWritten(cultureOnly))
            && !SerializerConfigured(NewTypeInfo(cultureOnly))
  {
  }
}

=== FILE: dictionary_compiler.dfy ===
/** Dictionaries (DictionaryCompiler.cs): how the kinds of keys and values
    are chosen, and what the generated code writes for each entry and reads
    back from it. Every entry is an item element; the key is an attribute
    or a key element, the value is the item's text, an attribute, or a
    value element. */
module DictionaryCompiler {
  import opened Wrappers
  import opened NodeTypes
  import opened Options
  import opened XmlModel
  import opened Codecs
  import EnumerableCompiler

  /** The key kind is Attribute, Element or ElementAsCData: any other
      setting becomes Attribute for a key type with a text conversion and
      Element otherwise. */
  function KeyKind(declared: NodeType, keyConfigured: bool): (k: NodeType)
    ensures k == Attribute || IsElementShaped(k)
    ensures (declared == Attribute || IsElementShaped(declared)) ==> k == declared
    ensures !(declared == Attribute || IsElementShaped(declared)) ==> (k == Attribute <==> keyConfigured)
  {
    if declared == Element || declared == Attribute || declared == ElementAsCData then declared
    else if keyConfigured then Attribute
    else Element
  }

  /** The value kind: Auto becomes Text for a value type with a text
      conversion and Element otherwise; text kinds on a type without one
      become the matching element kinds; and an element key makes the
      value an element unless it is ElementAsCData. */
  function ValueKind(declared: NodeType, valueConfigured: bool, keyKind: NodeType): (k: NodeType)
    ensures k != Auto
    ensures IsText(k) ==> valueConfigured && !IsElementShaped(keyKind)
    ensures IsElementShaped(keyKind) ==> IsElementShaped(k)
    ensures declared == Auto && !IsElementShaped(keyKind) ==> k == (if valueConfigured then Text else Element)
    ensures declared == ElementAsCData ==> k == ElementAsCData
    ensures declared == TextAsCData && !valueConfigured ==> k == ElementAsCData
    ensures declared !in {Auto, Text, TextAsCData} && !IsElementShaped(keyKind) ==> k == declared
  {
    var chosen := if declared == Auto then (if valueConfigured then Text else Element) else declared;
    var fixedText :=
      if IsText(chosen) && !valueConfigured then (if chosen == TextAsCData then ElementAsCData else Element)
      else chosen;
    if IsElementShaped(keyKind) && fixedText != ElementAsCData then Element else fixedText
  }

  /** The decisions the generated entry code depends on. `valueIsString`
      marks a string value type, whose missing text reads as "". */
  datatype EntryConfig = EntryConfig(
    keyKind: NodeType,
    keySerializerConfigured: bool,
    keyDeserializerConfigured: bool,
    value: EnumerableCompiler.ChildConfig,
    valueIsString: bool)

  /** What kind resolution guarantees. */
  predicate Resolved(cfg: EntryConfig) {
    && (cfg.keyKind == Attribute || IsElementShaped(cfg.keyKind))
    && (IsElementShaped(cfg.keyKind) ==> IsElementShaped(cfg.value.kind))
  }

  /** Configurations built by the two resolution functions are resolved. */
  lemma ResolutionIsResolved(keyDeclared: NodeType, keyConfigured: bool, valueDeclared: NodeType, valueConfigured: bool,
                             value: EnumerableCompiler.ChildConfig, keySC: bool, keyDC: bool, valueIsString: bool)
    requires value.kind == ValueKind(valueDeclared, valueConfigured, KeyKind(keyDeclared, keyConfigured))
    ensures Resolved(EntryConfig(KeyKind(keyDeclared, keyConfigured), keySC, keyDC, value, valueIsString))
  {
  }

  /** The key written into its own element. */
  function KeyContent<K(!new)>(cfg: EntryConfig, kc: Codec<K>, key: K): Fragment {
    if cfg.keyKind == ElementAsCData then WriteCData(EmptyFragment, kc.format(key))
    else if !cfg.keySerializerConfigured then kc.serialize(key)
    else WriteString(EmptyFragment, kc.format(key))
  }

  function KeyAttrs<K(!new)>(cfg: EntryConfig, kc: Codec<K>, opts: SerializationOptions, key: K): seq<Attr> {
    if cfg.keyKind == Attribute then [Attr(opts.keyNodeName, kc.format(key))] else []
  }

  function KeyNodes<K(!new)>(cfg: EntryConfig, kc: Codec<K>, opts: SerializationOptions, key: K): seq<Node> {
    if cfg.keyKind == Attribute then [] else [AsElement(opts.keyNodeName, KeyContent(cfg, kc, key))]
  }

  function ContentOf(nodes: seq<Node>): Content {
    if |nodes| == 0 then SelfClosed else Body(nodes)
  }

  /** AppendWriteChildToXml, corrected: the key comes first unless the
      value is text; a present text value is preceded by its key whether
      or not the type can be null; a null text value is the `_type="null"`
      marker followed by the key, and a null value of any other kind leaves
      only the key. */
  function WriteEntry<K(!new), V(!new)>(cfg: EntryConfig, kc: Codec<K>, vc: Codec<V>, opts: SerializationOptions, key: K, x: Option<V>): (f: Fragment)
    requires Resolved(cfg) && EnumerableCompiler.Admissible(cfg.value, x)
    ensures x.None? && IsText(cfg.value.kind) ==> f.attrs == [EnumerableCompiler.NullAttr] + KeyAttrs(cfg, kc, opts, key) && f.content == SelfClosed
    ensures x.None? && !IsText(cfg.value.kind) ==> f == Fragment(KeyAttrs(cfg, kc, opts, key), ContentOf(KeyNodes(cfg, kc, opts, key)))
    ensures x.Some? && IsText(cfg.value.kind) ==>
              var inner := EnumerableCompiler.ValueContent(cfg.value, vc, x.value);
              f == Fragment(KeyAttrs(cfg, kc, opts, key) + inner.attrs, inner.content)
    ensures x.Some? && cfg.value.kind == Attribute ==>
              f == Fragment(KeyAttrs(cfg, kc, opts, key) + [Attr(opts.valueNodeName, vc.format(x.value))], SelfClosed)
    ensures x.Some? && !IsText(cfg.value.kind) && cfg.value.kind != Attribute ==>
              NodesOf(f.content) == KeyNodes(cfg, kc, opts, key)
                 + [AsElement(opts.valueNodeName, EnumerableCompiler.ValueContent(cfg.value, vc, x.value))]
  {
    var keyAttrs := KeyAttrs(cfg, kc, opts, key);
    var keyNodes := KeyNodes(cfg, kc, opts, key);
    if IsText(cfg.value.kind) then
      match x
      case None => Fragment([EnumerableCompiler.NullAttr] + keyAttrs, SelfClosed)
      case Some(v) =>
        var inner := EnumerableCompiler.ValueContent(cfg.value, vc, v);
        Fragment(keyAttrs + inner.attrs, inner.content)
    else
      match x
      case None => Fragment(keyAttrs, ContentOf(keyNodes))
      case Some(v) =>
        if cfg.value.kind == Attribute then Fragment(keyAttrs + [Attr(opts.valueNodeName, vc.format(v))], SelfClosed)
        else Fragment(keyAttrs, Body(keyNodes + [AsElement(opts.valueNodeName, EnumerableCompiler.ValueContent(cfg.value, vc, v))]))
  }

  /** AppendWriteChildToXml as written: a text value's key is written only
      inside the generated null check, so for a value type that cannot be
      null, where no check is generated, the entry carries the value alone.
      Every other entry is written as the corrected writer writes it. */
  function WriteEntryAsWritten<K(!new), V(!new)>(cfg: EntryConfig, kc: Codec<K>, vc: Codec<V>, opts: SerializationOptions, key: K, x: Option<V>): (f: Fragment)
    requires Resolved(cfg) && EnumerableCompiler.Admissible(cfg.value, x)
    ensures !IsText(cfg.value.kind) || cfg.value.canBeNull ==> f == WriteEntry(cfg, kc, vc, opts, key, x)
    ensures IsText(cfg.value.kind) && !cfg.value.canBeNull ==>
              f == EnumerableCompiler.ValueContent(cfg.value, vc, x.value)
    ensures IsText(cfg.value.kind) && !cfg.value.canBeNull && cfg.value.serializerConfigured ==> f.attrs == []
  {
    if IsText(cfg.value.kind) && !cfg.value.canBeNull then EnumerableCompiler.ValueContent(cfg.value, vc, x.value)
    else WriteEntry(cfg, kc, vc, opts, key, x)
  }

  /** As written, an entry whose text value cannot be null has no key, and
      reading it fails, whatever the key and value. */
  lemma KeylessTextEntryFails<K(!new), V(!new)>(cfg: EntryConfig, kc: Codec<K>, vc: Codec<V>, opts: SerializationOptions, key: K, v: V, corrected: bool)
    requires RoundTripConfig(cfg, kc, vc, opts) && IsText(cfg.value.kind) && !cfg.value.canBeNull
    ensures ReadEntry(cfg, kc, vc, opts, WriteEntryAsWritten(cfg, kc, vc, opts, key, Some(v)), corrected).Failure?
  {
  }

  /** What the reader has found so far: the key, and the value (itself
      possibly null) once found. */
  datatype Found<K, V> = Found(key: Option<K>, value: Option<Option<V>>)

  /** A value is found to be null only for a type that can be null. */
  predicate NullOnlyIfNullable<K, V>(cfg: EntryConfig, found: Found<K, V>) {
    found.value == Some(Option.None) ==> cfg.value.canBeNull
  }

  /** AppendReadXmlAttributes: only when the key is an attribute, every
      attribute in turn; the key by name, an attribute value by name, and
      the null marker of a nullable text value. */
  function ReadAttributes<K(!new), V(!new)>(cfg: EntryConfig, kc: Codec<K>, vc: Codec<V>, opts: SerializationOptions,
                                           f: Fragment, attrs: seq<Attr>, found: Found<K, V>): (r: Result<Found<K, V>>)
    requires NullOnlyIfNullable(cfg, found)
    ensures r.Success? ==> NullOnlyIfNullable(cfg, r.value)
    decreases |attrs|
  {
    if |attrs| == 0 then Success(found)
    else
      var a := attrs[0];
      var next :-
        if a.name == opts.keyNodeName then
          var k :- if cfg.keyDeserializerConfigured then kc.parse(a.value) else kc.deserialize(f);
          Success(found.(key := Some(k)))
        else if cfg.value.kind == Attribute && a.name == opts.valueNodeName then
          var v :- if cfg.value.deserializerConfigured then vc.parse(a.value) else vc.deserialize(f);
          Success(found.(value := Some(Some(v))))
        else if cfg.value.canBeNull && IsText(cfg.value.kind) && a == EnumerableCompiler.NullAttr then
          Success(found.(value := Some(Option.None)))
        else Success(found);
      ReadAttributes(cfg, kc, vc, opts, f, attrs[1..], next)
  }

  /** AppendReadValueFromXmlText. A value type without a text conversion
      is handed to its own deserializer, but the generated code never sets
      `valueFound` there, so what it reads is dropped; an empty element
      leaves the value unfound. */
  function ReadText<K(!new), V(!new)>(cfg: EntryConfig, vc: Codec<V>, f: Fragment, found: Found<K, V>): (r: Result<Found<K, V>>)
    requires NullOnlyIfNullable(cfg, found)
    ensures r.Success? ==> NullOnlyIfNullable(cfg, r.value)
    ensures !cfg.value.deserializerConfigured && r.Success? ==> r.value == found
    ensures cfg.value.deserializerConfigured && IsEmptyElement(f) ==> r == Success(found)
    ensures cfg.value.deserializerConfigured && !IsEmptyElement(f) ==>
              (r.Success? <==> vc.parse(ValueAfterRead(f)).Success?)
              && (r.Success? ==> r.value == found.(value := Some(Some(vc.parse(ValueAfterRead(f)).value))))
  {
    if !cfg.value.deserializerConfigured then
      if cfg.value.canBeNull && found.value.Some? then Success(found)
      else
        var checked := vc.deserialize(f);
        var _ :- checked;
        Success(found)
    else if !IsEmptyElement(f) then
      var v :- vc.parse(ValueAfterRead(f));
      Success(found.(value := Some(Some(v))))
    else Success(found)
  }

  /** The text of a key or value element: an empty element is skipped and
      leaves the field unfound. */
  function ReadElementText<T(!new)>(c: Codec<T>, e: Fragment): Result<Option<T>> {
    if IsEmptyElement(e) then Success(Option.None)
    else
      var v :- c.parse(ValueAfterRead(e));
      Success(Some(v))
  }

  /** AppendReadXmlElements: every child element in turn; the key element
      (unless the key is an attribute) and the value element by name,
      anything else skipped. A value element of a type with a text
      conversion is read, as written, from the `Value` of the element node
      itself, which is always ""; `corrected` reads its text as the key
      element's text is read. */
  function ReadElements<K(!new), V(!new)>(cfg: EntryConfig, kc: Codec<K>, vc: Codec<V>, opts: SerializationOptions,
                                         nodes: seq<Node>, found: Found<K, V>, corrected: bool): (r: Result<Found<K, V>>)
    requires NullOnlyIfNullable(cfg, found)
    ensures r.Success? ==> NullOnlyIfNullable(cfg, r.value)
    decreases |nodes|
  {
    if |nodes| == 0 then Success(found)
    else if !nodes[0].ElementNode? then ReadElements(cfg, kc, vc, opts, nodes[1..], found, corrected)
    else
      var e := FragmentOf(nodes[0]);
      var next :-
        if cfg.keyKind != Attribute && nodes[0].name == opts.keyNodeName then
          if !cfg.keyDeserializerConfigured then
            var k :- kc.deserialize(e);
            Success(found.(key := Some(k)))
          else
            var k :- ReadElementText(kc, e);
            Success(if k.Some? then found.(key := k) else found)
        else if nodes[0].name == opts.valueNodeName then
          if !cfg.value.deserializerConfigured then
            var v :- vc.deserialize(e);
            Success(found.(value := Some(Some(v))))
          else if corrected then
            var v :- ReadElementText(vc, e);
            Success(if v.Some? then found.(value := Some(v)) else found)
          else
            var v :- vc.parse("");
            Success(found.(value := Some(Some(v))))
        else Success(found);
      ReadElements(cfg, kc, vc, opts, nodes[1..], next, corrected)
  }

  /** AppendReadChildFromXml: attributes, then the text, then the child
      elements; a missing key is an error, and a missing value is an error
      for a type that cannot be null, "" for a string text value and null
      otherwise. */
  function ReadEntry<K(!new), V(!new)>(cfg: EntryConfig, kc: Codec<K>, vc: Codec<V>, opts: SerializationOptions,
                                      f: Fragment, corrected: bool): (r: Result<(K, Option<V>)>)
    ensures r.Success? ==> EnumerableCompiler.Admissible(cfg.value, r.value.1)
  {
    var fromAttrs :- if cfg.keyKind == Attribute then ReadAttributes(cfg, kc, vc, opts, f, f.attrs, Found(Option.None, Option.None))
                     else Success(Found(Option.None, Option.None));
    var fromText :- if IsText(cfg.value.kind) then ReadText(cfg, vc, f, fromAttrs) else Success(fromAttrs);
    var found :- if IsElementShaped(cfg.value.kind) && !IsEmptyElement(f)
                 then ReadElements(cfg, kc, vc, opts, NodesOf(f.content), fromText, corrected)
                 else Success(fromText);
    if found.key.None? then Failure(Serialization(MissingKey))
    else if found.value.Some? then Success((found.key.value, found.value.value))
    else if !cfg.value.canBeNull then Failure(Serialization(MissingValue))
    else if IsText(cfg.value.kind) && cfg.valueIsString then
      var v :- vc.parse("");
      Success((found.key.value, Some(v)))
    else Success((found.key.value, Option.None))
  }

  /** An entry without a key is rejected, whatever else it holds. */
  lemma MissingKeyRejected<K(!new), V(!new)>(cfg: EntryConfig, kc: Codec<K>, vc: Codec<V>, opts: SerializationOptions, corrected: bool)
    requires Resolved(cfg)
    ensures ReadEntry(cfg, kc, vc, opts, EmptyFragment, corrected).Failure?
  {
  }

  /** When an entry round-trips: keys and values read what they write,
      through a text conversion when they have one and through their own
      serializer otherwise; the key, value and marker names differ. */
  ghost predicate RoundTripConfig<K(!new), V(!new)>(cfg: EntryConfig, kc: Codec<K>, vc: Codec<V>, opts: SerializationOptions) {
    && Resolved(cfg)
    && cfg.value.kind != NodeType.None
    && EnumerableCompiler.RoundTripConfig(cfg.value, vc)
    && cfg.keySerializerConfigured == cfg.keyDeserializerConfigured
    && (cfg.keySerializerConfigured ==> TextRoundTrip(kc))
    && (!cfg.keySerializerConfigured ==> NestedRoundTrip(kc) && cfg.keyKind == Element)
    && (IsText(cfg.value.kind) ==> cfg.value.serializerConfigured)
    && opts.keyNodeName != opts.valueNodeName
    && opts.keyNodeName != TypeAttributeName
    && opts.valueNodeName != TypeAttributeName
  }

  lemma KeyElementReadsBack<K(!new), V(!new)>(cfg: EntryConfig, kc: Codec<K>, vc: Codec<V>, opts: SerializationOptions,
                                              key: K, rest: seq<Node>, found: Found<K, V>, corrected: bool)
    requires RoundTripConfig(cfg, kc, vc, opts) && cfg.keyKind != Attribute
    requires NullOnlyIfNullable(cfg, found)
    ensures ReadElements(cfg, kc, vc, opts, KeyNodes(cfg, kc, opts, key) + rest, found, corrected)
         == ReadElements(cfg, kc, vc, opts, rest, found.(key := Some(key)), corrected)
  {
    var nodes := KeyNodes(cfg, kc, opts, key) + rest;
    assert nodes[1..] == rest;
    var e := KeyContent(cfg, kc, key);
    if cfg.keySerializerConfigured {
      assert kc.parse(kc.format(key)) == Success(key);
      TextReadsBack(kc.format(key));
    } else {
      assert kc.deserialize(kc.serialize(key)) == Success(key);
    }
  }

  /** Reading an entry gives back the key and value written, null and ""
      included. */
  lemma EntryRoundTrip<K(!new), V(!new)>(cfg: EntryConfig, kc: Codec<K>, vc: Codec<V>, opts: SerializationOptions, key: K, x: Option<V>)
    requires RoundTripConfig(cfg, kc, vc, opts) && EnumerableCompiler.Admissible(cfg.value, x)
    ensures ReadEntry(cfg, kc, vc, opts, WriteEntry(cfg, kc, vc, opts, key, x), true) == Success((key, x))
  {
    if cfg.keyKind != Attribute {
      ElementKeyRoundTrip(cfg, kc, vc, opts, key, x);
    } else if x.Some? {
      AttributeKeyValueRoundTrip(cfg, kc, vc, opts, key, x);
    } else {
      AttributeKeyNullRoundTrip(cfg, kc, vc, opts, key, x);
    }
  }

  /** A key attribute and a value, in each of the value's kinds. */
  lemma AttributeKeyValueRoundTrip<K(!new), V(!new)>(cfg: EntryConfig, kc: Codec<K>, vc: Codec<V>, opts: SerializationOptions, key: K, x: Option<V>)
    requires RoundTripConfig(cfg, kc, vc, opts) && cfg.keyKind == Attribute && x.Some?
    ensures ReadEntry(cfg, kc, vc, opts, WriteEntry(cfg, kc, vc, opts, key, x), true) == Success((key, x))
  {
    var f := WriteEntry(cfg, kc, vc, opts, key, x);
    var none: Found<K, V> := Found(Option.None, Option.None);
    assert kc.parse(kc.format(key)) == Success(key);
    var keyAttr := Attr(opts.keyNodeName, kc.format(key));
    var v := x.value;
    if cfg.value.serializerConfigured {
      assert vc.parse(vc.format(v)) == Success(v);
      TextReadsBack(vc.format(v));
    } else {
      assert vc.deserialize(vc.serialize(v)) == Success(v);
    }
    if IsText(cfg.value.kind) {
      assert f.attrs == [keyAttr];
      assert ReadAttributes(cfg, kc, vc, opts, f, f.attrs, none) == Success(Found(Some(key), Option.None));
    } else if cfg.value.kind == Attribute {
      var valueAttr := Attr(opts.valueNodeName, vc.format(v));
      assert f.attrs == [keyAttr, valueAttr];
      assert f.attrs[1..] == [valueAttr];
      var afterKey: Found<K, V> := Found(Some(key), Option.None);
      assert ReadAttributes(cfg, kc, vc, opts, f, f.attrs, none) == ReadAttributes(cfg, kc, vc, opts, f, [valueAttr], afterKey);
      assert ReadAttributes(cfg, kc, vc, opts, f, [valueAttr], afterKey)
          == ReadAttributes(cfg, kc, vc, opts, f, [], Found(Some(key), Some(Some(v))));
      assert ReadAttributes(cfg, kc, vc, opts, f, f.attrs, none) == Success(Found(Some(key), Some(Some(v))));
    } else {
      assert f.attrs == [keyAttr];
      assert ReadAttributes(cfg, kc, vc, opts, f, f.attrs, none) == Success(Found(Some(key), Option.None));
      var inner := EnumerableCompiler.ValueContent(cfg.value, vc, v);
      var nodes := [AsElement(opts.valueNodeName, inner)];
      assert NodesOf(f.content) == nodes;
      assert nodes[1..] == [];
      var afterKey: Found<K, V> := Found(Some(key), Option.None);
      assert ReadElements(cfg, kc, vc, opts, nodes, afterKey, true)
          == ReadElements(cfg, kc, vc, opts, [], Found(Some(key), Some(Some(v))), true);
    }
  }

  /** A key attribute and a null value: the marker attribute in text
      mode, nothing at all otherwise. */
  lemma AttributeKeyNullRoundTrip<K(!new), V(!new)>(cfg: EntryConfig, kc: Codec<K>, vc: Codec<V>, opts: SerializationOptions, key: K, x: Option<V>)
    requires RoundTripConfig(cfg, kc, vc, opts) && EnumerableCompiler.Admissible(cfg.value, x)
    requires cfg.keyKind == Attribute && x.None?
    ensures ReadEntry(cfg, kc, vc, opts, WriteEntry(cfg, kc, vc, opts, key, x), true) == Success((key, x))
  {
    var f := WriteEntry(cfg, kc, vc, opts, key, x);
    var none: Found<K, V> := Found(Option.None, Option.None);
    assert kc.parse(kc.format(key)) == Success(key);
    var keyAttr := Attr(opts.keyNodeName, kc.format(key));
    if IsText(cfg.value.kind) {
      assert f.attrs == [EnumerableCompiler.NullAttr, keyAttr];
      assert f.attrs[1..] == [keyAttr];
      var afterMarker: Found<K, V> := Found(Option.None, Some(Option.None));
      assert ReadAttributes(cfg, kc, vc, opts, f, f.attrs, none) == ReadAttributes(cfg, kc, vc, opts, f, [keyAttr], afterMarker);
      assert ReadAttributes(cfg, kc, vc, opts, f, [keyAttr], afterMarker)
          == ReadAttributes(cfg, kc, vc, opts, f, [], Found(Some(key), Some(Option.None)));
      assert ReadAttributes(cfg, kc, vc, opts, f, f.attrs, none) == Success(Found(Some(key), Some(Option.None)));
    } else {
      assert f.attrs == [keyAttr];
      assert ReadAttributes(cfg, kc, vc, opts, f, f.attrs, none) == Success(Found(Some(key), Option.None));
    }
  }

  /** A key element, then the value element when there is a value. */
  lemma ElementKeyRoundTrip<K(!new), V(!new)>(cfg: EntryConfig, kc: Codec<K>, vc: Codec<V>, opts: SerializationOptions, key: K, x: Option<V>)
    requires RoundTripConfig(cfg, kc, vc, opts) && EnumerableCompiler.Admissible(cfg.value, x)
    requires cfg.keyKind != Attribute
    ensures ReadEntry(cfg, kc, vc, opts, WriteEntry(cfg, kc, vc, opts, key, x), true) == Success((key, x))
  {
    var none: Found<K, V> := Found(Option.None, Option.None);
    var keyNodes := KeyNodes(cfg, kc, opts, key);
    if x.Some? {
      var v := x.value;
      var inner := EnumerableCompiler.ValueContent(cfg.value, vc, v);
      var valueNode := AsElement(opts.valueNodeName, inner);
      KeyElementReadsBack(cfg, kc, vc, opts, key, [valueNode], none, true);
      if cfg.value.serializerConfigured {
        assert vc.parse(vc.format(v)) == Success(v);
        TextReadsBack(vc.format(v));
      } else {
        assert vc.deserialize(vc.serialize(v)) == Success(v);
      }
      assert [valueNode][1..] == [];
    } else {
      KeyElementReadsBack(cfg, kc, vc, opts, key, [], none, true);
      assert keyNodes + [] == keyNodes;
    }
  }

  /** The item elements of a dictionary, in enumeration order. */
  function WriteEntries<K(!new), V(!new)>(cfg: EntryConfig, kc: Codec<K>, vc: Codec<V>, opts: SerializationOptions,
                                         es: seq<(K, Option<V>)>): (nodes: seq<Node>)
    requires Resolved(cfg)
    requires forall i :: 0 <= i < |es| ==> EnumerableCompiler.Admissible(cfg.value, es[i].1)
    ensures |nodes| == |es|
    ensures forall i :: 0 <= i < |es| ==> nodes[i] == AsElement(opts.childElementName, WriteEntry(cfg, kc, vc, opts, es[i].0, es[i].1))
    decreases |es|
  {
    if |es| == 0 then []
    else [AsElement(opts.childElementName, WriteEntry(cfg, kc, vc, opts, es[0].0, es[0].1))] + WriteEntries(cfg, kc, vc, opts, es[1..])
  }

  /** The entries' part of the dictionary's element: one entry element per
      pair, and nothing at all for an empty dictionary. The members the
      dictionary type itself declares are not part of this model. */
  function Serialize<K(!new), V(!new)>(cfg: EntryConfig, kc: Codec<K>, vc: Codec<V>, opts: SerializationOptions,
                                      es: seq<(K, Option<V>)>): (f: Fragment)
    requires Resolved(cfg)
    requires forall i :: 0 <= i < |es| ==> EnumerableCompiler.Admissible(cfg.value, es[i].1)
    ensures f.attrs == [] && (|es| == 0 <==> f.content == SelfClosed)
  {
    Fragment([], ContentOf(WriteEntries(cfg, kc, vc, opts, es)))
  }

  /** Every child element is an entry, read in document order. */
  function ReadEntries<K(!new), V(!new)>(cfg: EntryConfig, kc: Codec<K>, vc: Codec<V>, opts: SerializationOptions,
                                        nodes: seq<Node>, corrected: bool): Result<seq<(K, Option<V>)>>
    decreases |nodes|
  {
    if |nodes| == 0 then Success([])
    else if !nodes[0].ElementNode? then ReadEntries(cfg, kc, vc, opts, nodes[1..], corrected)
    else
      var e :- ReadEntry(cfg, kc, vc, opts, FragmentOf(nodes[0]), corrected);
      var rest :- ReadEntries(cfg, kc, vc, opts, nodes[1..], corrected);
      Success([e] + rest)
  }

  function Deserialize<K(!new), V(!new)>(cfg: EntryConfig, kc: Codec<K>, vc: Codec<V>, opts: SerializationOptions,
                                        f: Fragment, corrected: bool): Result<seq<(K, Option<V>)>> {
    ReadEntries(cfg, kc, vc, opts, NodesOf(f.content), corrected)
  }

  function KeysOf<K, V>(es: seq<(K, Option<V>)>): set<K> {
    set i | 0 <= i < |es| :: es[i].0
  }

  /** `instance[key] = value` for each entry read, in order: every key
      read is present, and holds the value of its last entry. */
  lemma KeysOfCons<K, V>(es: seq<(K, Option<V>)>)
    requires |es| > 0
    ensures KeysOf(es) == {es[0].0} + KeysOf(es[1..])
  {
    forall k | k in KeysOf(es) ensures k in {es[0].0} + KeysOf(es[1..]) {
      var i :| 0 <= i < |es| && es[i].0 == k;
      if i > 0 {
        assert es[1..][i - 1].0 == k;
      }
    }
    forall k | k in KeysOf(es[1..]) ensures k in KeysOf(es) {
      var i :| 0 <= i < |es[1..]| && es[1..][i].0 == k;
      assert es[i + 1].0 == k;
    }
  }

  lemma HeadNotLater<K, V>(es: seq<(K, Option<V>)>)
    requires |es| > 0
    ensures (forall j :: 0 < j < |es| ==> es[j].0 != es[0].0) ==> es[0].0 !in KeysOf(es[1..])
  {
    if forall j :: 0 < j < |es| ==> es[j].0 != es[0].0 {
      forall i | 0 <= i < |es[1..]| ensures es[1..][i].0 != es[0].0 {
        assert es[1..][i] == es[i + 1];
      }
    }
  }

  function Assign<K, V>(m: map<K, Option<V>>, es: seq<(K, Option<V>)>): (r: map<K, Option<V>>)
    ensures r.Keys == m.Keys + KeysOf(es)
    ensures forall i :: 0 <= i < |es| && (forall j :: i < j < |es| ==> es[j].0 != es[i].0) ==> r[es[i].0] == es[i].1
    ensures forall k :: k in m && k !in KeysOf(es) ==> r[k] == m[k]
    decreases |es|
  {
    if |es| == 0 then m
    else
      var r := Assign(m[es[0].0 := es[0].1], es[1..]);
      KeysOfCons(es);
      assert forall i :: 1 <= i < |es| ==> es[i] == es[1..][i - 1];
      assert forall i :: 1 <= i < |es| && (forall j :: i < j < |es| ==> es[j].0 != es[i].0) ==> r[es[i].0] == es[i].1 by {
        forall i | 1 <= i < |es| && (forall j :: i < j < |es| ==> es[j].0 != es[i].0)
          ensures r[es[i].0] == es[i].1
        {
          assert forall j :: i - 1 < j < |es[1..]| ==> es[1..][j].0 != es[1..][i - 1].0 by {
            forall j | i - 1 < j < |es[1..]| ensures es[1..][j].0 != es[1..][i - 1].0 {
              assert es[1..][j] == es[j + 1];
            }
          }
        }
      }
      HeadNotLater(es);
      r
  }

  /** Serialize then Deserialize gives back every entry in order, null and
      "" values included. */
  lemma {:induction false} DictionaryRoundTrip<K(!new), V(!new)>(cfg: EntryConfig, kc: Codec<K>, vc: Codec<V>, opts: SerializationOptions,
                                                                es: seq<(K, Option<V>)>)
    requires RoundTripConfig(cfg, kc, vc, opts)
    requires forall i :: 0 <= i < |es| ==> EnumerableCompiler.Admissible(cfg.value, es[i].1)
    ensures Deserialize(cfg, kc, vc, opts, Serialize(cfg, kc, vc, opts, es), true) == Success(es)
  {
    EntriesRoundTrip(cfg, kc, vc, opts, es);
  }

  lemma {:induction false} EntriesRoundTrip<K(!new), V(!new)>(cfg: EntryConfig, kc: Codec<K>, vc: Codec<V>, opts: SerializationOptions,
                                                             es: seq<(K, Option<V>)>)
    requires RoundTripConfig(cfg, kc, vc, opts)
    requires forall i :: 0 <= i < |es| ==> EnumerableCompiler.Admissible(cfg.value, es[i].1)
    ensures ReadEntries(cfg, kc, vc, opts, WriteEntries(cfg, kc, vc, opts, es), true) == Success(es)
    decreases |es|
  {
    if |es| > 0 {
      var nodes := WriteEntries(cfg, kc, vc, opts, es);
      var first := WriteEntry(cfg, kc, vc, opts, es[0].0, es[0].1);
      EntryRoundTrip(cfg, kc, vc, opts, es[0].0, es[0].1);
      assert nodes[0].ElementNode? && FragmentOf(nodes[0]) == first;
      assert nodes[1..] == WriteEntries(cfg, kc, vc, opts, es[1..]);
      EntriesRoundTrip(cfg, kc, vc, opts, es[1..]);
      assert [es[0]] + es[1..] == es;
    }
  }

  /** As written, a value element of a type with a text conversion is
      read as the conversion of "", whatever the element holds. */
  lemma ElementValueReadAsWritten<K(!new), V(!new)>(cfg: EntryConfig, kc: Codec<K>, vc: Codec<V>, opts: SerializationOptions, key: K, v: V)
    requires RoundTripConfig(cfg, kc, vc, opts)
    requires IsElementShaped(cfg.value.kind) && cfg.value.deserializerConfigured && cfg.keyKind != Attribute
    requires vc.parse("").Failure?
    ensures ReadEntry(cfg, kc, vc, opts, WriteEntry(cfg, kc, vc, opts, key, Some(v)), false) == Failure(vc.parse("").error)
  {
    var inner := EnumerableCompiler.ValueContent(cfg.value, vc, v);
    var valueNode := AsElement(opts.valueNodeName, inner);
    var none: Found<K, V> := Found(Option.None, Option.None);
    KeyElementReadsBack(cfg, kc, vc, opts, key, [valueNode], none, false);
    assert [valueNode][1..] == [];
  }

  /** XmlConvert's text for booleans, which reads nothing from "". */
  function BoolCodec(): (c: Codec<bool>)
    ensures TextRoundTrip(c) && c.parse("").Failure?
  {
    Codec(b => if b then "true" else "false",
          s => if s == "true" then Success(true) else if s == "false" then Success(false) else Failure(Format),
          b => WriteString(EmptyFragment, if b then "true" else "false"),
          f => Failure(NotSupported))
  }

  /** An entry with an element key and the boolean value true is written
      as `<item><k>a</k><v>true</v></item>`; as written it cannot be read
      back, and the corrected reader gives back the entry. */
  lemma ElementValueCounterexample()
    ensures var cfg := EntryConfig(Element, true, true, EnumerableCompiler.ChildConfig(Element, false, true, true), false);
            var f := WriteEntry(cfg, StringCodec(), BoolCodec(), Default, "a", Some(true));
            && f == Fragment([], Body([ElementNode("k", [], Body([TextNode("a")])), ElementNode("v", [], Body([TextNode("true")]))]))
            && ReadEntry(cfg, StringCodec(), BoolCodec(), Default, f, false) == Failure(Format)
            && ReadEntry(cfg, StringCodec(), BoolCodec(), Default, f, true) == Success(("a", Some(true)))
  {
    var cfg := EntryConfig(Element, true, true, EnumerableCompiler.ChildConfig(Element, false, true, true), false);
    assert StringCodec().format("a") == "a";
    assert BoolCodec().format(true) == "true";
    assert KeyContent(cfg, StringCodec(), "a") == WriteString(EmptyFragment, "a");
    assert WriteString(EmptyFragment, "a") == Fragment([], Body([TextNode("a")]));
    assert KeyNodes(cfg, StringCodec(), Default, "a") == [ElementNode("k", [], Body([TextNode("a")]))];
    assert EnumerableCompiler.ValueContent(cfg.value, BoolCodec(), true) == Fragment([], Body([TextNode("true")]));
    var f := WriteEntry(cfg, StringCodec(), BoolCodec(), Default, "a", Some(true));
    assert NodesOf(f.content) == [ElementNode("k", [], Body([TextNode("a")])), ElementNode("v", [], Body([TextNode("true")]))];
    assert BoolCodec().parse("") == Failure(Format);
    ElementValueReadAsWritten(cfg, StringCodec(), BoolCodec(), Default, "a", true);
    EntryRoundTrip(cfg, StringCodec(), BoolCodec(), Default, "a", Some(true));
  }

  /** A dictionary of string to bool with the default kinds: the key is
      an attribute and the value text that cannot be null. As written, the
      entry "a" to true is `<item>true</item>` and is rejected for its
      missing key; the corrected writer adds `k="a"`, and the entry reads
      back. */
  lemma KeylessTextEntryCounterexample()
    ensures var cfg := EntryConfig(KeyKind(Auto, true), true, true,
                                   EnumerableCompiler.ChildConfig(ValueKind(Auto, true, Attribute), false, true, true), false);
            && WriteEntryAsWritten(cfg, StringCodec(), BoolCodec(), Default, "a", Some(true)) == Fragment([], Body([TextNode("true")]))
            && ReadEntry(cfg, StringCodec(), BoolCodec(), Default, WriteEntryAsWritten(cfg, StringCodec(), BoolCodec(), Default, "a", Some(true)), true)
               == Failure(Serialization(MissingKey))
            && WriteEntry(cfg, StringCodec(), BoolCodec(), Default, "a", Some(true)) == Fragment([Attr("k", "a")], Body([TextNode("true")]))
            && ReadEntry(cfg, StringCodec(), BoolCodec(), Default, WriteEntry(cfg, StringCodec(), BoolCodec(), Default, "a", Some(true)), true)
               == Success(("a", Some(true)))
  {
    var cfg := EntryConfig(Attribute, true, true, EnumerableCompiler.ChildConfig(NodeType.Text, false, true, true), false);
    assert BoolCodec().format(true) == "true";
    assert StringCodec().format("a") == "a";
    assert EnumerableCompiler.ValueContent(cfg.value, BoolCodec(), true) == Fragment([], Body([TextNode("true")]));
    var f := WriteEntryAsWritten(cfg, StringCodec(), BoolCodec(), Default, "a", Some(true));
    assert f == Fragment([], Body([TextNode("true")]));
    TextReadsBack("true");
    EntryRoundTrip(cfg, StringCodec(), BoolCodec(), Default, "a", Some(true));
  }

  /** A dictionary from 1, 2 and 3 to A, "" and null, with integer keys
      written as attributes and string values as text: a text item, an
      item closed by the empty string, and an item carrying the null marker
      before its key; and it reads back to the same entries. */
  lemma DictionaryOfIntStringNodes(kc: Codec<int>)
    requires kc.format(1) == "1" && kc.format(2) == "2" && kc.format(3) == "3"
    ensures var cfg := EntryConfig(Attribute, true, true, EnumerableCompiler.ChildConfig(NodeType.Text, true, true, true), true);
            var es: seq<(int, Option<string>)> := [(1, Some("A")), (2, Some("")), (3, Option.None)];
            WriteEntries(cfg, kc, StringCodec(), Default, es)
            == [ElementNode("item", [Attr("k", "1")], Body([TextNode("A")])),
                ElementNode("item", [Attr("k", "2")], Body([])),
                ElementNode("item", [Attr("_type", "null"), Attr("k", "3")], SelfClosed)]
  {
    var cfg := EntryConfig(Attribute, true, true, EnumerableCompiler.ChildConfig(NodeType.Text, true, true, true), true);
    var es: seq<(int, Option<string>)> := [(1, Some("A")), (2, Some("")), (3, Option.None)];
    var nodes := WriteEntries(cfg, kc, StringCodec(), Default, es);
    assert nodes[0] == ElementNode("item", [Attr("k", "1")], Body([TextNode("A")]));
    assert nodes[1] == ElementNode("item", [Attr("k", "2")], Body([]));
    assert nodes[2] == ElementNode("item", [Attr("_type", "null"), Attr("k", "3")], SelfClosed);
  }

  lemma DictionaryOfIntStringExample(kc: Codec<int>)
    requires kc.format(1) == "1" && kc.format(2) == "2" && kc.format(3) == "3"
    requires TextRoundTrip(kc)
    ensures var cfg := EntryConfig(Attribute, true, true, EnumerableCompiler.ChildConfig(NodeType.Text, true, true, true), true);
            var es: seq<(int, Option<string>)> := [(1, Some("A")), (2, Some("")), (3, Option.None)];
            && Serialize(cfg, kc, StringCodec(), Default, es)
               == Fragment([], Body([
                    ElementNode("item", [Attr("k", "1")], Body([TextNode("A")])),
                    ElementNode("item", [Attr("k", "2")], Body([])),
                    ElementNode("item", [Attr("_type", "null"), Attr("k", "3")], SelfClosed)]))
            && Deserialize(cfg, kc, StringCodec(), Default, Serialize(cfg, kc, StringCodec(), Default, es), true) == Success(es)
  {
    var cfg := EntryConfig(Attribute, true, true, EnumerableCompiler.ChildConfig(NodeType.Text, true, true, true), true);
    var es: seq<(int, Option<string>)> := [(1, Some("A")), (2, Some("")), (3, Option.None)];
    DictionaryOfIntStringNodes(kc);
    DictionaryRoundTrip(cfg, kc, StringCodec(), Default, es);
  }
}

=== FILE: enumerable_compiler.dfy ===
/** Arrays and other sequences (EnumerableCompiler.cs): how the kind of the
    items is chosen, and what the generated code writes for each item and
    reads back from it. Every item is an element of its own, named by the
    options' child element name; the value sits in its text, in one
    attribute, or in a value element inside it. */
module EnumerableCompiler {
  import opened Wrappers
  import opened NodeTypes
  import opened Options
  import opened XmlModel
  import opened Codecs
  import TypeAttribute
  import CompilerTypeInfo

  /** The decisions the generated item code depends on. */
  datatype ChildConfig = ChildConfig(
    kind: NodeType,
    canBeNull: bool,
    serializerConfigured: bool,
    deserializerConfigured: bool)

  /** The element type: of the array, or `T` of the `IEnumerable<T>` the
      type implements, `object` when it implements none. A type that is not
      enumerable at all is rejected. */
  function ElementType(isArray: bool, isEnumerable: bool, declaredElement: Option<nat>): (r: Result<nat>)
    ensures r.Failure? <==> !isArray && !isEnumerable
    ensures r.Failure? ==> r.error == InvalidOperation
    ensures r.Success? && declaredElement.Some? ==> r.value == declaredElement.value
    ensures r.Success? && declaredElement.None? ==> r.value == 0
  {
    if isArray || isEnumerable then Success(declaredElement.GetOr(0))
    else Failure(InvalidOperation)
  }

  /** The item kind: the collection's ChildValueNodeType, else the element
      type's own NodeType, else Text. */
  function ChildKind(collection: TypeAttribute.TypeAttr, element: TypeAttribute.TypeAttr): (k: NodeType)
    ensures k != Auto
    ensures collection.childValueNodeType != Auto ==> k == collection.childValueNodeType
    ensures collection.childValueNodeType == Auto && element.nodeType != Auto ==> k == element.nodeType
    ensures collection.childValueNodeType == Auto && element.nodeType == Auto ==> k == Text
  {
    var k := collection.childValueNodeType;
    if k != Auto then k
    else if element.nodeType != Auto then element.nodeType
    else Text
  }

  function Configure(kind: NodeType, element: CompilerTypeInfo.TypeInfo): ChildConfig {
    ChildConfig(kind, element.canBeNull,
                CompilerTypeInfo.SerializerConfigured(element),
                CompilerTypeInfo.DeserializerConfigured(element))
  }

  /** A value of a type that cannot be null is never null. */
  predicate Admissible<T(!new)>(cfg: ChildConfig, x: Option<T>) {
    x.None? ==> cfg.canBeNull
  }

  /** The marker attribute of a null item in text mode. */
  const NullAttr: Attr := Attr(TypeAttributeName, NullMarker)

  predicate NullMarked(f: Fragment) {
    |f.attrs| > 0 && f.attrs[0] == NullAttr
  }

  /** The value written into an element by itself: as CDATA for the CDATA
      kinds, by the nested serializer when no text conversion is
      configured, and as text otherwise. */
  function ValueContent<T(!new)>(cfg: ChildConfig, c: Codec<T>, v: T): Fragment {
    if IsCData(cfg.kind) then WriteCData(EmptyFragment, c.format(v))
    else if !cfg.serializerConfigured then c.serialize(v)
    else WriteString(EmptyFragment, c.format(v))
  }

  /** AppendWriteChildToXml: what goes into one item element. A null item
      is the `_type="null"` marker in text mode and nothing otherwise. */
  function WriteItem<T(!new)>(cfg: ChildConfig, c: Codec<T>, opts: SerializationOptions, x: Option<T>): (f: Fragment)
    requires Admissible(cfg, x)
    ensures x.None? && IsText(cfg.kind) ==> f == Fragment([NullAttr], SelfClosed)
    ensures x.None? && !IsText(cfg.kind) ==> f == EmptyFragment
    ensures x.Some? && cfg.kind == Attribute ==> f == Fragment([Attr(opts.valueNodeName, c.format(x.value))], SelfClosed)
    ensures x.Some? && IsText(cfg.kind) ==> f == ValueContent(cfg, c, x.value)
    ensures x.Some? && cfg.kind != Attribute && !IsText(cfg.kind) ==>
              f == Fragment([], Body([AsElement(opts.valueNodeName, ValueContent(cfg, c, x.value))]))
  {
    match x
    case None => if IsText(cfg.kind) then Fragment([NullAttr], SelfClosed) else EmptyFragment
    case Some(v) =>
      if cfg.kind == Attribute then Fragment([Attr(opts.valueNodeName, c.format(v))], SelfClosed)
      else if IsText(cfg.kind) then ValueContent(cfg, c, v)
      else WriteElement(EmptyFragment, opts.valueNodeName, ValueContent(cfg, c, v))
  }

  /** The text branch of AppendReadChildFromXml. */
  function ReadTextItem<T(!new)>(cfg: ChildConfig, c: Codec<T>, f: Fragment): Result<Option<T>> {
    if cfg.canBeNull && NullMarked(f) then Success(Option.None)
    else if !cfg.deserializerConfigured then
      var v :- c.deserialize(f);
      Success(Some(v))
    else if !IsEmptyElement(f) then
      var v :- c.parse(ValueAfterRead(f));
      Success(Some(v))
    else if cfg.canBeNull then Success(Option.None)
    else
      var v :- c.parse("");
      Success(Some(v))
  }

  /** The attribute branch: the first attribute, whatever its name. */
  function ReadAttributeItem<T(!new)>(cfg: ChildConfig, c: Codec<T>, f: Fragment): Result<Option<T>> {
    match FirstAttribute(f)
    case Some(a) =>
      var v :- if cfg.deserializerConfigured then c.parse(a.value) else c.deserialize(f);
      Success(Some(v))
    case None =>
      if cfg.canBeNull then Success(Option.None) else Failure(Serialization(MissingValueAttribute))
  }

  /** The element branch: the first child element, whatever its name. */
  function ReadElementItem<T(!new)>(cfg: ChildConfig, c: Codec<T>, f: Fragment): Result<Option<T>> {
    match FirstChildElement(f)
    case Some(e) =>
      var inner := FragmentOf(e);
      var v :- if !cfg.deserializerConfigured then c.deserialize(inner)
               else if !IsEmptyElement(inner) then c.parse(ValueAfterRead(inner))
               else c.parse("");
      Success(Some(v))
    case None =>
      if cfg.canBeNull then Success(Option.None) else Failure(Serialization(MissingValueElement))
  }

  /** AppendReadChildFromXml: the branch is chosen by the item kind. */
  function ReadItem<T(!new)>(cfg: ChildConfig, c: Codec<T>, f: Fragment): (r: Result<Option<T>>)
    ensures IsText(cfg.kind) && cfg.canBeNull && NullMarked(f) ==> r == Success(Option.None)
    ensures cfg.kind == Attribute && |f.attrs| == 0 ==>
              r == if cfg.canBeNull then Success(Option.None) else Failure(Serialization(MissingValueAttribute))
    ensures cfg.kind != Attribute && !IsText(cfg.kind) && FirstChildElement(f).None? ==>
              r == if cfg.canBeNull then Success(Option.None) else Failure(Serialization(MissingValueElement))
    ensures IsText(cfg.kind) && cfg.deserializerConfigured && IsEmptyElement(f) && !(cfg.canBeNull && NullMarked(f)) ==>
              r == if cfg.canBeNull then Success(Option.None) else (var v :- c.parse(""); Success(Some(v)))
  {
    if IsText(cfg.kind) then ReadTextItem(cfg, c, f)
    else if cfg.kind == Attribute then ReadAttributeItem(cfg, c, f)
    else ReadElementItem(cfg, c, f)
  }

  /** When the round trip of an item holds: the type reads what it
      writes, through its text conversion when it has one and through its
      own serializer otherwise, and only a configured type is written as
      an attribute or as CDATA. */
  ghost predicate RoundTripConfig<T(!new)>(cfg: ChildConfig, c: Codec<T>) {
    && cfg.kind != Auto
    && cfg.serializerConfigured == cfg.deserializerConfigured
    && (cfg.serializerConfigured ==> TextRoundTrip(c))
    && (!cfg.serializerConfigured ==>
          && NestedRoundTrip(c) && cfg.kind != Attribute && !IsCData(cfg.kind)
          && (forall v :: !NullMarked(c.serialize(v))))
  }

  /** Reading an item gives back exactly the value written, null and the
      empty string included. */
  lemma ItemRoundTrip<T(!new)>(cfg: ChildConfig, c: Codec<T>, opts: SerializationOptions, x: Option<T>)
    requires RoundTripConfig(cfg, c) && Admissible(cfg, x)
    ensures ReadItem(cfg, c, WriteItem(cfg, c, opts, x)) == Success(x)
  {
    var f := WriteItem(cfg, c, opts, x);
    if x.Some? {
      var v := x.value;
      var inner := ValueContent(cfg, c, v);
      if cfg.serializerConfigured {
        assert c.parse(c.format(v)) == Success(v);
        TextReadsBack(c.format(v));
      } else {
        assert c.deserialize(c.serialize(v)) == Success(v);
        assert !NullMarked(c.serialize(v));
      }
      if cfg.kind != Attribute && !IsText(cfg.kind) {
        assert NodesOf(f.content) == [AsElement(opts.valueNodeName, inner)];
        assert FirstChildElement(f) == Some(AsElement(opts.valueNodeName, inner));
      }
    }
  }

  /** The item elements of a sequence, in order. */
  function WriteItems<T(!new)>(cfg: ChildConfig, c: Codec<T>, opts: SerializationOptions, xs: seq<Option<T>>): (nodes: seq<Node>)
    requires forall i :: 0 <= i < |xs| ==> Admissible(cfg, xs[i])
    ensures |nodes| == |xs|
    ensures forall i :: 0 <= i < |xs| ==> nodes[i] == AsElement(opts.childElementName, WriteItem(cfg, c, opts, xs[i]))
    decreases |xs|
  {
    if |xs| == 0 then []
    else [AsElement(opts.childElementName, WriteItem(cfg, c, opts, xs[0]))] + WriteItems(cfg, c, opts, xs[1..])
  }

  /** The items' part of the sequence's element: one item element per
      value, and nothing at all for an empty sequence. The members the
      collection type itself declares are not part of this model. */
  function Serialize<T(!new)>(cfg: ChildConfig, c: Codec<T>, opts: SerializationOptions, xs: seq<Option<T>>): (f: Fragment)
    requires forall i :: 0 <= i < |xs| ==> Admissible(cfg, xs[i])
    ensures f.attrs == []
    ensures |xs| == 0 <==> f.content == SelfClosed
  {
    if |xs| == 0 then EmptyFragment else Fragment([], Body(WriteItems(cfg, c, opts, xs)))
  }

  /** Every child element is an item, read in document order; text between
      them is passed over; the first failure ends the read. */
  function ReadItems<T(!new)>(cfg: ChildConfig, c: Codec<T>, nodes: seq<Node>): Result<seq<Option<T>>>
    decreases |nodes|
  {
    if |nodes| == 0 then Success([])
    else if !nodes[0].ElementNode? then ReadItems(cfg, c, nodes[1..])
    else
      var x :- ReadItem(cfg, c, FragmentOf(nodes[0]));
      var rest :- ReadItems(cfg, c, nodes[1..]);
      Success([x] + rest)
  }

  function Deserialize<T(!new)>(cfg: ChildConfig, c: Codec<T>, f: Fragment): Result<seq<Option<T>>> {
    ReadItems(cfg, c, NodesOf(f.content))
  }

  /** Serialize then Deserialize keeps the number of items, their order,
      and the difference between "" and null. */
  lemma {:induction false} SequenceRoundTrip<T(!new)>(cfg: ChildConfig, c: Codec<T>, opts: SerializationOptions, xs: seq<Option<T>>)
    requires RoundTripConfig(cfg, c)
    requires forall i :: 0 <= i < |xs| ==> Admissible(cfg, xs[i])
    ensures Deserialize(cfg, c, Serialize(cfg, c, opts, xs)) == Success(xs)
  {
    ItemsRoundTrip(cfg, c, opts, xs);
  }

  lemma {:induction false} ItemsRoundTrip<T(!new)>(cfg: ChildConfig, c: Codec<T>, opts: SerializationOptions, xs: seq<Option<T>>)
    requires RoundTripConfig(cfg, c)
    requires forall i :: 0 <= i < |xs| ==> Admissible(cfg, xs[i])
    ensures ReadItems(cfg, c, WriteItems(cfg, c, opts, xs)) == Success(xs)
    decreases |xs|
  {
    if |xs| > 0 {
      var nodes := WriteItems(cfg, c, opts, xs);
      var first := WriteItem(cfg, c, opts, xs[0]);
      ItemRoundTrip(cfg, c, opts, xs[0]);
      assert nodes[0].ElementNode? && FragmentOf(nodes[0]) == first;
      assert nodes[1..] == WriteItems(cfg, c, opts, xs[1..]);
      assert forall i :: 0 <= i < |xs[1..]| ==> xs[1..][i] == xs[i + 1];
      ItemsRoundTrip(cfg, c, opts, xs[1..]);
      assert [xs[0]] + xs[1..] == xs;
    }
  }

  /** The items of a list of strings A, "" and null: the text A, an element
      closed by the empty string, and a self-closed element carrying only
      the null marker. */
  lemma ListOfStringExample()
    ensures Serialize(ChildConfig(NodeType.Text, true, true, true), StringCodec(), Default, [Some("A"), Some(""), Option.None])
         == Fragment([], Body([
              ElementNode("item", [], Body([TextNode("A")])),
              ElementNode("item", [], Body([])),
              ElementNode("item", [Attr("_type", "null")], SelfClosed)]))
  {
    var xs: seq<Option<string>> := [Some("A"), Some(""), Option.None];
    var nodes := WriteItems(ChildConfig(NodeType.Text, true, true, true), StringCodec(), Default, xs);
    assert nodes[0] == ElementNode("item", [], Body([TextNode("A")]));
    assert nodes[1] == ElementNode("item", [], Body([]));
  }
}

=== FILE: folds.dfy ===
/** Folding layers of attributes into an accumulator, one merge after
    another: the shape shared by the member and type attributes, which
    resolve their layers the same way with their own merges. */
module Folds {
  /** Merges `layers` into `acc` from first to last. */
  function FoldLeft<T>(merge: (T, T) -> T, acc: T, layers: seq<T>): T
    decreases |layers|
  {
    if |layers| == 0 then acc else FoldLeft(merge, merge(acc, layers[0]), layers[1..])
  }

  /** The same projection of every layer, in order. */
  function Project<T, U>(proj: T -> U, layers: seq<T>): (r: seq<U>)
    ensures |r| == |layers| && forall i :: 0 <= i < |layers| ==> r[i] == proj(layers[i])
  {
    seq(|layers|, i requires 0 <= i < |layers| => proj(layers[i]))
  }

  ghost predicate Associative<T(!new)>(merge: (T, T) -> T) {
    forall a, b, c :: merge(merge(a, b), c) == merge(a, merge(b, c))
  }

  /** Merging `a` and then `b` is merging their concatenation. */
  lemma {:induction false} FoldAppend<T>(merge: (T, T) -> T, acc: T, a: seq<T>, b: seq<T>)
    ensures FoldLeft(merge, acc, a + b) == FoldLeft(merge, FoldLeft(merge, acc, a), b)
    decreases |a|
  {
    if |a| == 0 {
      assert a + b == b;
    } else {
      assert (a + b)[0] == a[0] && (a + b)[1..] == a[1..] + b;
      FoldAppend(merge, merge(acc, a[0]), a[1..], b);
    }
  }

  /** With an associative merge, merging `first` in front of a finished
      fold is the fold that starts by merging `first` into the accumulator. */
  lemma {:induction false} MergeInFront<T(!new)>(merge: (T, T) -> T, first: T, acc: T, layers: seq<T>)
    requires Associative(merge)
    ensures merge(first, FoldLeft(merge, acc, layers)) == FoldLeft(merge, merge(first, acc), layers)
    decreases |layers|
  {
    if |layers| > 0 {
      assert merge(merge(first, acc), layers[0]) == merge(first, merge(acc, layers[0]));
      MergeInFront(merge, first, merge(acc, layers[0]), layers[1..]);
    }
  }

  /** A projection that commutes with the merges turns the fold of the
      layers into the fold of their projections. */
  lemma {:induction false} FoldProjects<T(!new), U>(merge: (T, T) -> T, mergeProjected: (U, U) -> U, proj: T -> U, acc: T, layers: seq<T>)
    requires forall a, b :: proj(merge(a, b)) == mergeProjected(proj(a), proj(b))
    ensures proj(FoldLeft(merge, acc, layers)) == FoldLeft(mergeProjected, proj(acc), Project(proj, layers))
    decreases |layers|
  {
    if |layers| > 0 {
      assert Project(proj, layers)[1..] == Project(proj, layers[1..]);
      FoldProjects(merge, mergeProjected, proj, merge(acc, layers[0]), layers[1..]);
    }
  }
}

=== FILE: member_attribute.dfy ===
/** The serialization attribute placed on a property or field: its node
    kind, node name and order, the merges between attributes, and how the
    framework's own XML attributes are read into it
    (XmlSerializationMemberAttribute.cs). */
module MemberAttribute {
  import opened Wrappers
  import opened NodeTypes
  import opened AttributeBase
  import TypeAttribute
  import Folds

  datatype MemberAttr = MemberAttr(
    names: ChildNames,
    nodeName: NullableString,
    order: int,
    nodeType: NodeType)

  /** A freshly constructed attribute: no names, order -1, kind `Auto`. */
  const Fresh: MemberAttr := MemberAttr(NoNames, Option.None, -1, Auto)

  /** The shared instance that switches a member off. */
  const Ignore: MemberAttr := MemberAttr(NoNames, Option.None, -1, NodeType.None)

  /** An order is given only when it is not negative. */
  predicate OrderSet(order: int) {
    order >= 0
  }

  /** Merge with another member attribute: names, node name, order and kind
      are each taken from `other` only while still unset here. */
  function Merge(mine: MemberAttr, other: MemberAttr): (r: MemberAttr)
    ensures r.names == MergeBase(mine.names, other.names)
    ensures r.nodeName == (if IsSet(mine.nodeName) then mine.nodeName else other.nodeName)
    ensures r.order == (if OrderSet(mine.order) then mine.order else other.order)
    ensures r.nodeType == (if mine.nodeType != Auto then mine.nodeType else other.nodeType)
  {
    MemberAttr(
      MergeBase(mine.names, other.names),
      FillName(mine.nodeName, other.nodeName),
      if mine.order < 0 then other.order else mine.order,
      if mine.nodeType == Auto then other.nodeType else mine.nodeType)
  }

  /** Merge with a type attribute: only the names and the kind can come from
      the type; node name and order stay as they are. */
  function MergeType(mine: MemberAttr, other: TypeAttribute.TypeAttr): (r: MemberAttr)
    ensures r.names == MergeBase(mine.names, other.names)
    ensures r.nodeName == mine.nodeName && r.order == mine.order
    ensures r.nodeType == (if mine.nodeType != Auto then mine.nodeType else other.nodeType)
  {
    MemberAttr(
      MergeBase(mine.names, other.names),
      mine.nodeName,
      mine.order,
      if mine.nodeType == Auto then other.nodeType else mine.nodeType)
  }

  /** Clone: a fresh attribute merged with this one. */
  function Clone(a: MemberAttr): MemberAttr {
    Merge(Fresh, a)
  }

  /** Merging twice with the same attribute changes nothing more. */
  lemma MergeIdempotent(a: MemberAttr, b: MemberAttr)
    ensures Merge(Merge(a, b), b) == Merge(a, b)
  {
  }

  /** Merging in a list of attributes one after another. */
  function FoldMerge(acc: MemberAttr, layers: seq<MemberAttr>): MemberAttr {
    Folds.FoldLeft(Merge, acc, layers)
  }

  function NamesOf(a: MemberAttr): ChildNames {
    a.names
  }

  /** The child names of each layer, in order. */
  function Names(layers: seq<MemberAttr>): seq<ChildNames> {
    Folds.Project(NamesOf, layers)
  }

  /** The first chosen kind among the layers, `Auto` when none chose. */
  function FirstKind(layers: seq<MemberAttr>): (k: NodeType)
    ensures k != Auto <==> exists i :: 0 <= i < |layers| && layers[i].nodeType != Auto
    decreases |layers|
  {
    if |layers| == 0 then Auto
    else if layers[0].nodeType != Auto then layers[0].nodeType
    else
      var k := FirstKind(layers[1..]);
      assert forall i :: 1 <= i < |layers| ==> layers[i] == layers[1..][i - 1];
      k
  }

  /** The first given order among the layers, if any. */
  function FirstOrder(layers: seq<MemberAttr>): (o: Option<int>)
    ensures o.Some? <==> exists i :: 0 <= i < |layers| && OrderSet(layers[i].order)
    ensures o.Some? ==> OrderSet(o.value)
    decreases |layers|
  {
    if |layers| == 0 then Option.None
    else if OrderSet(layers[0].order) then Some(layers[0].order)
    else
      var o := FirstOrder(layers[1..]);
      assert forall i :: 1 <= i < |layers| ==> layers[i] == layers[1..][i - 1];
      o
  }

  /** The first given node name among the layers, `None` if none. */
  function FirstNodeName(layers: seq<MemberAttr>): (n: NullableString)
    ensures n.Some? <==> exists i :: 0 <= i < |layers| && IsSet(layers[i].nodeName)
    ensures n.Some? ==> IsSet(n)
    decreases |layers|
  {
    if |layers| == 0 then Option.None
    else if IsSet(layers[0].nodeName) then layers[0].nodeName
    else
      var n := FirstNodeName(layers[1..]);
      assert forall i :: 1 <= i < |layers| ==> layers[i] == layers[1..][i - 1];
      n
  }

  /** Precedence of a fold of merges: for the kind, the accumulator's choice
      wins, then the earliest layer's. */
  lemma {:induction false} FoldMergeKind(acc: MemberAttr, layers: seq<MemberAttr>)
    ensures FoldMerge(acc, layers).nodeType == (if acc.nodeType != Auto then acc.nodeType else FirstKind(layers))
    decreases |layers|
  {
    if |layers| > 0 {
      FoldMergeKind(Merge(acc, layers[0]), layers[1..]);
    }
  }

  /** Precedence of a fold of merges for the order: a given order in the
      accumulator wins, then the earliest given one; otherwise it stays
      negative. */
  lemma {:induction false} FoldMergeOrder(acc: MemberAttr, layers: seq<MemberAttr>)
    ensures OrderSet(acc.order) ==> FoldMerge(acc, layers).order == acc.order
    ensures !OrderSet(acc.order) && FirstOrder(layers).Some? ==> FoldMerge(acc, layers).order == FirstOrder(layers).value
    ensures !OrderSet(acc.order) && FirstOrder(layers).None? ==> !OrderSet(FoldMerge(acc, layers).order)
    decreases |layers|
  {
    if |layers| > 0 {
      FoldMergeOrder(Merge(acc, layers[0]), layers[1..]);
    }
  }

  /** Precedence of a fold of merges for the node name. */
  lemma {:induction false} FoldMergeNodeName(acc: MemberAttr, layers: seq<MemberAttr>)
    ensures IsSet(acc.nodeName) ==> FoldMerge(acc, layers).nodeName == acc.nodeName
    ensures !IsSet(acc.nodeName) && FirstNodeName(layers).Some? ==> FoldMerge(acc, layers).nodeName == FirstNodeName(layers)
    ensures !IsSet(acc.nodeName) && FirstNodeName(layers).None? ==> !IsSet(FoldMerge(acc, layers).nodeName)
    decreases |layers|
  {
    if |layers| > 0 {
      FoldMergeNodeName(Merge(acc, layers[0]), layers[1..]);
    }
  }

  /** `r` is what the layers give when the first layer that chooses a kind,
      an order, a node name or a child name wins; what nobody gave stays
      unset. */
  ghost predicate Resolves(r: MemberAttr, layers: seq<MemberAttr>) {
    && r.nodeType == FirstKind(layers)
    && (FirstOrder(layers).Some? ==> r.order == FirstOrder(layers).value)
    && (FirstOrder(layers).None? ==> !OrderSet(r.order))
    && (FirstNodeName(layers).Some? ==> r.nodeName == FirstNodeName(layers))
    && (FirstNodeName(layers).None? ==> !IsSet(r.nodeName))
    && (forall f: NameField :: FirstName(Names(layers), f).Some? ==> NameOf(r.names, f) == FirstName(Names(layers), f))
    && (forall f: NameField :: FirstName(Names(layers), f).None? ==> !IsSet(NameOf(r.names, f)))
  }

  /** A fold of merges from a fresh attribute resolves its layers. */
  lemma FoldFromFreshResolves(layers: seq<MemberAttr>)
    ensures Resolves(FoldMerge(Fresh, layers), layers)
  {
    FoldMergeKind(Fresh, layers);
    FoldMergeOrder(Fresh, layers);
    FoldMergeNodeName(Fresh, layers);
    Folds.FoldProjects(Merge, MergeBase, NamesOf, Fresh, layers);
    forall f: NameField
      ensures FirstName(Names(layers), f).Some? ==> NameOf(FoldMerge(Fresh, layers).names, f) == FirstName(Names(layers), f)
      ensures FirstName(Names(layers), f).None? ==> !IsSet(NameOf(FoldMerge(Fresh, layers).names, f))
    {
      FoldMergeBaseName(NoNames, Names(layers), f);
    }
  }

  /** A clone of `first` merged with the fold of the other layers resolves
      all the layers with `first` in front. */
  lemma CloneInFrontResolves(first: MemberAttr, layers: seq<MemberAttr>)
    ensures Resolves(Merge(Clone(first), FoldMerge(Fresh, layers)), [first] + layers)
  {
    assert Clone(first) == first;
    Folds.MergeInFront(Merge, first, Fresh, layers);
    var acc := Merge(first, Fresh);
    var all := [first] + layers;
    assert all[0] == first && all[1..] == layers;
    FoldMergeKind(acc, layers);
    FoldMergeOrder(acc, layers);
    FoldMergeNodeName(acc, layers);
    AttributeBase.FrontNames(Merge, NamesOf, Fresh, first, layers);
  }


  /** The framework's own XML attribute that names an element or array. */
  datatype NamedMarker = NamedMarker(elementName: string, order: int)

  /** Which of the framework's XML attributes a member carries; for the
      named ones, the first instance found. */
  datatype SystemMarkers = SystemMarkers(
    xmlIgnore: bool,
    nonSerialized: bool,
    xmlText: bool,
    xmlElement: Option<NamedMarker>,
    xmlArray: Option<NamedMarker>,
    xmlArrayItem: Option<string>,
    xmlAttribute: Option<string>)

  const NoMarkers: SystemMarkers := SystemMarkers(false, false, false, Option.None, Option.None, Option.None, Option.None)

  function ApplyNamedMarker(a: MemberAttr, m: NamedMarker): MemberAttr {
    a.(nodeType := if a.nodeType == Auto then Element else a.nodeType,
       nodeName := if IsSet(a.nodeName) then a.nodeName else Some(m.elementName),
       order := if a.order < 0 && m.order > 0 then m.order else a.order)
  }

  /** MergeSystemAttributes, step by step in the source's order: ignore,
      text, element, array, array item, attribute. Each step only fills in
      what is still unset. */
  function MergeSystemAttributes(a: MemberAttr, m: SystemMarkers): MemberAttr {
    var ignored := if a.nodeType == Auto && (m.xmlIgnore || m.nonSerialized) then a.(nodeType := NodeType.None) else a;
    var text := if ignored.nodeType == Auto && m.xmlText then ignored.(nodeType := Text) else ignored;
    var element := if m.xmlElement.Some? then ApplyNamedMarker(text, m.xmlElement.value) else text;
    var arrayed := if m.xmlArray.Some? then ApplyNamedMarker(element, m.xmlArray.value) else element;
    var item :=
      if m.xmlArrayItem.Some? && !IsSet(arrayed.names.childElementName)
      then arrayed.(names := arrayed.names.(childElementName := Some(m.xmlArrayItem.value)))
      else arrayed;
    if m.xmlAttribute.Some? then
      item.(nodeType := if item.nodeType == Auto then Attribute else item.nodeType,
            nodeName := if IsSet(item.nodeName) then item.nodeName else Some(m.xmlAttribute.value))
    else item
  }

  /** The kind the framework's attributes give a fresh member attribute:
      ignore beats text beats element or array beats attribute. */
  function MarkerKind(m: SystemMarkers): NodeType {
    if m.xmlIgnore || m.nonSerialized then NodeType.None
    else if m.xmlText then Text
    else if m.xmlElement.Some? || m.xmlArray.Some? then Element
    else if m.xmlAttribute.Some? then Attribute
    else Auto
  }

  /** The first non-empty name among element, array and attribute markers. */
  function MarkerName(m: SystemMarkers): NullableString {
    if m.xmlElement.Some? && m.xmlElement.value.elementName != "" then Some(m.xmlElement.value.elementName)
    else if m.xmlArray.Some? && m.xmlArray.value.elementName != "" then Some(m.xmlArray.value.elementName)
    else if m.xmlAttribute.Some? && m.xmlAttribute.value != "" then Some(m.xmlAttribute.value)
    else Option.None
  }

  /** The first strictly positive order among element and array markers. */
  function MarkerOrder(m: SystemMarkers): Option<int> {
    if m.xmlElement.Some? && m.xmlElement.value.order > 0 then Some(m.xmlElement.value.order)
    else if m.xmlArray.Some? && m.xmlArray.value.order > 0 then Some(m.xmlArray.value.order)
    else Option.None
  }

  /** What the framework's attributes make of a fresh member attribute:
      the kind by priority, the first non-empty name, the first positive
      order (an order of 0 is not taken), and the array item name as the
      child element name. */
  lemma SystemAttributesOnFresh(m: SystemMarkers)
    ensures MergeSystemAttributes(Fresh, m).nodeType == MarkerKind(m)
    ensures IsSet(MergeSystemAttributes(Fresh, m).nodeName) <==> MarkerName(m).Some?
    ensures MarkerName(m).Some? ==> MergeSystemAttributes(Fresh, m).nodeName == MarkerName(m)
    ensures MergeSystemAttributes(Fresh, m).order == MarkerOrder(m).GetOr(-1)
    ensures MergeSystemAttributes(Fresh, m).names.childElementName == m.xmlArrayItem
    ensures MergeSystemAttributes(Fresh, m).names.childKeyNodeName.None?
    ensures MergeSystemAttributes(Fresh, m).names.childValueNodeName.None?
  {
  }
}

=== FILE: node_types.dfy ===
/** How a member or a collection item is represented in the document
    (SerializationNodeType.cs), and how a byte buffer is encoded
    (ByteArraySerializationType.cs). */
module NodeTypes {

  /** The node kinds in declaration order; `Auto` lets the compiler choose. */
  datatype NodeType =
    | None
    | Auto
    | Attribute
    | Element
    | ElementAsCData
    | Text
    | TextAsCData

  datatype ByteArrayEncoding = Base64 | BinHex | Elements

  /** Kinds written as the text content of the surrounding element. */
  predicate IsText(k: NodeType) {
    k == Text || k == TextAsCData
  }

  /** Kinds written as a child element of their own. */
  predicate IsElementShaped(k: NodeType) {
    k == Element || k == ElementAsCData
  }

  /** Kinds whose value is wrapped in a CDATA section. */
  predicate IsCData(k: NodeType) {
    k == ElementAsCData || k == TextAsCData
  }

  /** A concrete kind is one a member can actually be written as. */
  predicate IsConcrete(k: NodeType) {
    k == Attribute || IsElementShaped(k) || IsText(k)
  }
}

=== FILE: object_serializer.dfy ===
/** The serializer of boxed values (ObjectSerializer.cs): a value whose
    declared type is `object` carries its runtime type in a `_type`
    attribute, and the serializer of that type writes and reads the rest. */
module ObjectSerializer {
  import opened Wrappers
  import opened Options
  import opened XmlModel
  import opened Reflection

  /** What the boxed serializer asks the runtime: the type of a value, the
      name GetNameForGetType gives a type, the type CachedTypeResolver
      finds for a name, and the registered serializer of each type, which
      writes into the element it is handed and reads that element back.
      A plain `object` has no state, so every one of them is
      `plainObject`. */
  datatype Runtime<!V> = Runtime(
    typeOf: V -> TypeId,
    nameOf: TypeId -> string,
    resolve: string -> Result<TypeId>,
    write: TypeId -> V -> Fragment,
    read: TypeId -> Fragment -> Result<V>,
    plainObject: V)

  function TypeAttr<V>(rt: Runtime<V>, t: TypeId): Attr {
    Attr(TypeAttributeName, rt.nameOf(t))
  }

  /** Serialize: `_type` first, naming the runtime type, then the body
      written by that type's serializer, except for a plain `object`,
      which has none. A null instance is dereferenced. */
  function Serialize<V>(rt: Runtime<V>, x: Option<V>, f: Fragment): (r: Result<Fragment>)
    ensures x.None? ==> r == Failure(NullReference)
    ensures x.Some? ==> (r.Success? <==> f.content == SelfClosed)
    ensures r.Failure? && x.Some? ==> r.error == InvalidOperation
    ensures r.Success? ==> |r.value.attrs| > |f.attrs| && r.value.attrs[..|f.attrs|] == f.attrs
    ensures r.Success? ==> r.value.attrs[|f.attrs|] == TypeAttr(rt, rt.typeOf(x.value))
    ensures r.Success? && rt.typeOf(x.value) == ObjectType ==> r.value == Fragment(f.attrs + [TypeAttr(rt, ObjectType)], SelfClosed)
    ensures r.Success? && rt.typeOf(x.value) != ObjectType ==>
              var inner := rt.write(rt.typeOf(x.value))(x.value);
              r.value.attrs == f.attrs + [TypeAttr(rt, rt.typeOf(x.value))] + inner.attrs && r.value.content == inner.content
  {
    match x
    case None => Failure(NullReference)
    case Some(v) =>
      var t := rt.typeOf(v);
      var g :- WriteAttribute(f, TypeAttributeName, rt.nameOf(t));
      if t == ObjectType then Success(g)
      else
        var inner := rt.write(t)(v);
        var h := WriteInto(g, inner);
        assert h.Success?;
        assert (f.attrs + [TypeAttr(rt, t)] + inner.attrs)[..|f.attrs|] == f.attrs;
        h
  }

  /** Deserialize: the first attribute must be `_type`; the type it names
      reads the element, and a plain `object` is a fresh one, the element
      being skipped. */
  function Deserialize<V>(rt: Runtime<V>, f: Fragment): (r: Result<V>)
    ensures (|f.attrs| == 0 || f.attrs[0].name != TypeAttributeName) ==> r == Failure(Serialization(MissingTypeAttribute))
    ensures |f.attrs| > 0 && f.attrs[0].name == TypeAttributeName ==>
              r == match rt.resolve(f.attrs[0].value)
                   case Failure(e) => Failure(e)
                   case Success(t) => if t == ObjectType then Success(rt.plainObject) else rt.read(t)(f)
  {
    match FirstAttribute(f)
    case Some(a) =>
      if a.name == TypeAttributeName then
        var t :- rt.resolve(a.value);
        if t != ObjectType then rt.read(t)(f) else Success(rt.plainObject)
      else Failure(Serialization(MissingTypeAttribute))
    case None => Failure(Serialization(MissingTypeAttribute))
  }

  /** The runtime reads back what it writes: names resolve to the types
      they name, a plain `object` is the one plain object, and the
      serializer of every other type reads the element it wrote after the
      `_type` attribute. */
  ghost predicate Consistent<V(!new)>(rt: Runtime<V>) {
    && (forall t: TypeId :: rt.resolve(rt.nameOf(t)) == Success(t))
    && (forall v :: rt.typeOf(v) == ObjectType ==> v == rt.plainObject)
    && (forall v :: rt.typeOf(v) != ObjectType ==>
          var inner := rt.write(rt.typeOf(v))(v);
          rt.read(rt.typeOf(v))(Fragment([TypeAttr(rt, rt.typeOf(v))] + inner.attrs, inner.content)) == Success(v))
  }

  /** A boxed value written into a fresh element reads back as itself. */
  lemma RoundTrip<V(!new)>(rt: Runtime<V>, v: V)
    requires Consistent(rt)
    ensures Serialize(rt, Some(v), EmptyFragment).Success?
    ensures Deserialize(rt, Serialize(rt, Some(v), EmptyFragment).value) == Success(v)
  {
    var t := rt.typeOf(v);
    var f := Serialize(rt, Some(v), EmptyFragment).value;
    assert f.attrs[0] == TypeAttr(rt, t);
    assert rt.resolve(rt.nameOf(t)) == Success(t);
    if t != ObjectType {
      var inner := rt.write(t)(v);
      assert [] + [TypeAttr(rt, t)] + inner.attrs == [TypeAttr(rt, t)] + inner.attrs;
    }
  }
}

=== FILE: options.dfy ===
/** The names a collection uses for its items, keys and values
    (SerializationOptions.cs), plus the byte-buffer encoding. */
module Options {
  import opened NodeTypes

  const DefaultChildElementName: string := "item"
  const DefaultValueNodeName: string := "v"
  const DefaultKeyNodeName: string := "k"

  /** The attribute that carries the runtime type of a boxed value, and the
      marker value that stands for a null item. */
  const TypeAttributeName: string := "_type"
  const NullMarker: string := "null"

  datatype SerializationOptions = SerializationOptions(
    isDefault: bool,
    childElementName: string,
    valueNodeName: string,
    keyNodeName: string,
    byteArrayEncoding: ByteArrayEncoding)

  /** The shared default instance: items `item`, values `v`, keys `k`, and
      buffers as base64. */
  const Default: SerializationOptions :=
    SerializationOptions(true, DefaultChildElementName, DefaultValueNodeName, DefaultKeyNodeName, Base64)

  /** Options built from explicit names are never the default instance. */
  function Custom(childElementName: string, valueNodeName: string, keyNodeName: string): (o: SerializationOptions)
    ensures !o.isDefault && o.byteArrayEncoding == Base64
    ensures o.childElementName == childElementName && o.valueNodeName == valueNodeName && o.keyNodeName == keyNodeName
  {
    SerializationOptions(false, childElementName, valueNodeName, keyNodeName, Base64)
  }
}

=== FILE: property_compiler.dfy ===
/** One serialized property or field (PropertyCompiler.cs): the kind, XML
    name, order and inheritance depth the compiler settles on, and what the
    code generated for it writes and reads. */
module PropertyCompiler {
  import opened Wrappers
  import opened NodeTypes
  import opened AttributeBase
  import opened Reflection
  import opened CompilerTypeInfo
  import opened CompilerPropertyInfo
  import opened XmlModel
  import opened Codecs
  import MemberAttribute
  import AttributeOverrides
  import AttributeResolution

  /** Attributes are written before everything else. */
  function SerializationTypeOrder(kind: NodeType): (o: nat)
    ensures o == 0 <==> kind == Attribute
    ensures o <= 1
  {
    if kind == Attribute then 0 else 1
  }

  /** What the compiler keeps about a serialized member: `index` is the
      position it was given among the serialized members of its type, and
      `order` the configured order that replaces it when there is one. */
  datatype MemberPlan = MemberPlan(
    name: string,
    xmlName: string,
    kind: NodeType,
    index: int,
    order: int,
    depth: nat,
    member: MemberInfo)

  /** The kind from the attribute, with `Auto` left to the member. */
  function ResolveKind(declared: NodeType, p: MemberInfo): NodeType {
    if declared == Auto then PreferredKind(p) else declared
  }

  /** What the PropertyCompiler constructor looks up about a member: its
      resolved attribute, its accessors, and the depth of its declaring
      type. */
  datatype Resolved = Resolved(name: string, attr: MemberAttribute.MemberAttr, member: MemberInfo, depth: Option<nat>)

  function Resolve(u: Universe, tables: AttributeOverrides.Tables, m: MemberDesc): Resolved
    requires Valid(u) && m.declaringType in u.types && m.valueType in u.types && |m.name| > 0
  {
    Resolved(m.name, AttributeResolution.FromMember(u, tables, m), Describe(m, u.types[m.valueType].shape),
             InheritanceDepth(u, m.declaringType))
  }

  /** The constructor's decision once the lookups are done: `None` when the
      member is not serialized, a null reference when the depth walk
      failed, and otherwise the plan. */
  function PlanFrom(res: Resolved, index: int): (r: Result<Option<MemberPlan>>)
    requires |res.name| > 0
    ensures var kind := ResolveKind(res.attr.nodeType, res.member);
            && (r == Success(Option.None) <==> kind == NodeType.None)
            && (r.Failure? <==> kind != NodeType.None && res.depth.None?)
            && (r.Failure? ==> r.error == NullReference)
            && (r.Success? && r.value.Some? ==>
                  && r.value.value.kind == kind && IsConcrete(kind)
                  && r.value.value.member == res.member && r.value.value.name == res.name && r.value.value.index == index
                  && r.value.value.xmlName == (if IsSet(res.attr.nodeName) then res.attr.nodeName.value else res.name)
                  && |r.value.value.xmlName| > 0
                  && r.value.value.order == (if MemberAttribute.OrderSet(res.attr.order) then res.attr.order else index)
                  && res.depth == Some(r.value.value.depth))
  {
    var a := res.attr;
    var kind := ResolveKind(a.nodeType, res.member);
    if kind == NodeType.None then Success(Option.None)
    else
      match res.depth
      case None => Failure(NullReference)
      case Some(depth) =>
        var xmlName := if IsSet(a.nodeName) then a.nodeName.value else res.name;
        var order := if MemberAttribute.OrderSet(a.order) then a.order else index;
        Success(Some(MemberPlan(res.name, xmlName, kind, index, order, depth, res.member)))
  }

  /** The PropertyCompiler constructor: `None` when the member is not
      serialized. The depth walk dereferences the base type of every type
      up to `object`, so a declaring type whose base chain stops short of
      `object` is a null reference. */
  function Plan(u: Universe, tables: AttributeOverrides.Tables, m: MemberDesc, index: int): (r: Result<Option<MemberPlan>>)
    requires Valid(u) && m.declaringType in u.types && m.valueType in u.types && |m.name| > 0
    ensures var a := AttributeResolution.FromMember(u, tables, m);
            var info := Describe(m, u.types[m.valueType].shape);
            var kind := ResolveKind(a.nodeType, info);
            && (r == Success(Option.None) <==> kind == NodeType.None)
            && (r.Failure? <==> kind != NodeType.None && InheritanceDepth(u, m.declaringType).None?)
            && (r.Failure? ==> r.error == NullReference)
            && (r.Success? && r.value.Some? ==>
                  && r.value.value.kind == kind && IsConcrete(kind)
                  && r.value.value.member == info && r.value.value.name == m.name && r.value.value.index == index
                  && r.value.value.xmlName == (if IsSet(a.nodeName) then a.nodeName.value else m.name)
                  && |r.value.value.xmlName| > 0
                  && r.value.value.order == (if MemberAttribute.OrderSet(a.order) then a.order else index)
                  && InheritanceDepth(u, m.declaringType) == Some(r.value.value.depth))
  {
    PlanFrom(Resolve(u, tables, m), index)
  }

  /** A kind set explicitly is kept whatever the member's visibility, and
      a member whose attribute says `None` is dropped. */
  lemma ExplicitKindKept(u: Universe, tables: AttributeOverrides.Tables, m: MemberDesc, index: int)
    requires Valid(u) && m.declaringType in u.types && m.valueType in u.types && |m.name| > 0
    requires InheritanceDepth(u, m.declaringType).Some?
    ensures var k := AttributeResolution.FromMember(u, tables, m).nodeType;
            && (IsConcrete(k) ==> Plan(u, tables, m, index).Success? && Plan(u, tables, m, index).value.Some?
                                  && Plan(u, tables, m, index).value.value.kind == k)
            && (k == NodeType.None ==> Plan(u, tables, m, index) == Success(Option.None))
  {
    ExplicitKindKeptFrom(Resolve(u, tables, m), index);
  }

  /** ExplicitKindKept for what the constructor looked up. */
  lemma ExplicitKindKeptFrom(res: Resolved, index: int)
    requires |res.name| > 0 && res.depth.Some?
    ensures IsConcrete(res.attr.nodeType) ==>
              PlanFrom(res, index).Success? && PlanFrom(res, index).value.Some?
              && PlanFrom(res, index).value.value.kind == res.attr.nodeType
    ensures res.attr.nodeType == NodeType.None ==> PlanFrom(res, index) == Success(Option.None)
  {
  }

  /** Every type on a base chain sits one step closer to `object` than the
      type before it, so a member declared in a base type has a smaller
      depth than one declared in a type derived from it. */
  lemma {:induction false} DepthAlongBaseChain(u: Universe, t: TypeId)
    requires Valid(u) && t in u.types && InheritanceDepth(u, t).Some?
    ensures forall i :: 0 <= i < |BaseChain(u, t)| ==>
              && InheritanceDepth(u, BaseChain(u, t)[i]).Some?
              && InheritanceDepth(u, BaseChain(u, t)[i]).value + i == InheritanceDepth(u, t).value
    decreases t
  {
    if t != ObjectType {
      var b := u.types[t].baseType.value;
      DepthAlongBaseChain(u, b);
      assert BaseChain(u, t) == [t] + BaseChain(u, b);
      forall i | 1 <= i < |BaseChain(u, t)|
        ensures InheritanceDepth(u, BaseChain(u, t)[i]).Some?
        ensures InheritanceDepth(u, BaseChain(u, t)[i]).value + i == InheritanceDepth(u, t).value
      {
        assert BaseChain(u, t)[i] == BaseChain(u, b)[i - 1];
      }
    }
  }

  /** A member may be written when its kind is settled and it can be read;
      only a type that can be null has null values. */
  predicate Writable<V>(p: MemberPlan, x: Option<V>) {
    IsConcrete(p.kind) && p.member.canGet && (x.None? ==> p.member.info.canBeNull)
  }

  /** What goes inside the member's own element. */
  function ElementInner<V(!new)>(p: MemberPlan, c: Codec<V>, v: V): Fragment {
    if p.kind == ElementAsCData then WriteCData(EmptyFragment, c.format(v))
    else if !SerializerConfigured(p.member.info) then c.serialize(v)
    else WriteString(EmptyFragment, c.format(v))
  }

  /** AppendWriteToXml: a null value writes nothing; an attribute carries
      the value's text; an element kind wraps the value in an element named
      after the member; a text kind writes the value into the surrounding
      element, as CDATA for TextAsCData and through the value type's own
      serializer when it has no text conversion. Writing only ever appends,
      and the one way to fail is an attribute after content. */
  function WriteMember<V(!new)>(p: MemberPlan, c: Codec<V>, x: Option<V>, f: Fragment): (r: Result<Fragment>)
    requires Writable(p, x)
    ensures x.None? ==> r == Success(f)
    ensures r.Failure? ==> r.error == InvalidOperation && f.content.Body?
                           && (p.kind == Attribute || (p.kind == Text && !SerializerConfigured(p.member.info)))
    ensures r.Success? ==> |f.attrs| <= |r.value.attrs| && r.value.attrs[..|f.attrs|] == f.attrs
    ensures r.Success? ==> |NodesOf(f.content)| <= |NodesOf(r.value.content)|
                           && NodesOf(r.value.content)[..|NodesOf(f.content)|] == NodesOf(f.content)
    ensures r.Success? && x.Some? && p.kind == Attribute ==>
              r.value == Fragment(f.attrs + [Attr(p.xmlName, c.format(x.value))], SelfClosed)
    ensures r.Success? && x.Some? && IsElementShaped(p.kind) ==>
              r.value.attrs == f.attrs && NodesOf(r.value.content) == NodesOf(f.content) + [AsElement(p.xmlName, ElementInner(p, c, x.value))]
  {
    match x
    case None => Success(f)
    case Some(v) =>
      if p.kind == Attribute then WriteAttribute(f, p.xmlName, c.format(v))
      else if IsElementShaped(p.kind) then Success(WriteElement(f, p.xmlName, ElementInner(p, c, v)))
      else if p.kind == TextAsCData then Success(WriteCData(f, c.format(v)))
      else if SerializerConfigured(p.member.info) then Success(WriteString(f, c.format(v)))
      else WriteInto(f, c.serialize(v))
  }

  /** AppendReadAttributeCase: only a settable attribute member has a case. */
  predicate HasAttributeCase(p: MemberPlan) {
    p.member.canSet && p.kind == Attribute
  }

  /** AppendReadElementCase: a settable member, or a collection filled
      through its getter, with an element kind. */
  predicate HasElementCase(p: MemberPlan) {
    (p.member.canSet || p.member.info.isCollection) && IsElementShaped(p.kind)
  }

  /** AppendReadText: a settable member with a text kind. */
  predicate ReadsText(p: MemberPlan) {
    p.member.canSet && IsText(p.kind)
  }

  /** The attribute case: the attribute's value is converted when the
      value type can be read from text, and otherwise nothing is assigned. */
  function ReadAttributeCase<V(!new)>(p: MemberPlan, c: Codec<V>, value: string): (r: Result<Option<V>>)
    requires HasAttributeCase(p)
    ensures !DeserializerConfigured(p.member.info) ==> r == Success(Option.None)
    ensures r.Success? && r.value.Some? ==> c.parse(value) == Success(r.value.value)
  {
    if !DeserializerConfigured(p.member.info) then Success(Option.None)
    else
      var v :- c.parse(value);
      Success(Some(v))
  }

  /** The element case: the value type's serializer reads the element, or
      the element's text is converted; an empty element converts "". */
  function ReadElementCase<V(!new)>(p: MemberPlan, c: Codec<V>, e: Fragment): (r: Result<V>)
    requires HasElementCase(p)
    ensures !DeserializerConfigured(p.member.info) ==> r == c.deserialize(e)
    ensures DeserializerConfigured(p.member.info) ==> r == c.parse(ValueAfterRead(e))
  {
    if !DeserializerConfigured(p.member.info) then c.deserialize(e)
    else if !IsEmptyElement(e) then c.parse(ValueAfterRead(e))
    else c.parse("")
  }

  /** The text reader, run when the reader stands on a text or CDATA
      node, followed by the empty-string fix: a string member still null
      after reading an element that is not empty gets "" (the conversion of
      "" for a string). A self-closed element leaves it null. */
  function ReadTextCase<V(!new)>(p: MemberPlan, c: Codec<V>, f: Fragment): (r: Result<Option<V>>)
    requires ReadsText(p)
    ensures var nodes := NodesOf(f.content);
            DeserializerConfigured(p.member.info) && |nodes| > 0 && (nodes[0].TextNode? || nodes[0].CDataNode?) ==>
              r == (match c.parse(nodes[0].text) case Success(v) => Success(Some(v)) case Failure(e) => Failure(e))
    ensures r.Success? && r.value.None? ==> !ValueCaps(p.member.info).isString || IsEmptyElement(f)
    ensures IsEmptyElement(f) ==> r == Success(Option.None)
  {
    var nodes := NodesOf(f.content);
    var read :-
      if DeserializerConfigured(p.member.info) && |nodes| > 0 && (nodes[0].TextNode? || nodes[0].CDataNode?) then
        var v :- c.parse(nodes[0].text);
        Success(Some(v))
      else Success(Option.None);
    if read.None? && ValueCaps(p.member.info).isString && !IsEmptyElement(f) then
      var v :- c.parse("");
      Success(Some(v))
    else Success(read)
  }

  /** A member whose value type reads back what it writes, through text
      when it has a conversion and through its own serializer otherwise. */
  ghost predicate MemberRoundTrips<V(!new)>(p: MemberPlan, c: Codec<V>) {
    && IsConcrete(p.kind) && p.member.canGet && p.member.canSet
    && SerializerConfigured(p.member.info) == DeserializerConfigured(p.member.info)
    && (SerializerConfigured(p.member.info) ==> TextRoundTrip(c))
    && (!SerializerConfigured(p.member.info) ==> NestedRoundTrip(c) && p.kind == Element)
  }

  /** Each kind reads back what it wrote into an empty element: the
      attribute by its name, the element by its name, the text as the
      element's first node, where a string written as "" comes back
      through the empty-string fix. */
  lemma MemberRoundTrip<V(!new)>(p: MemberPlan, c: Codec<V>, v: V)
    requires MemberRoundTrips(p, c)
    requires IsText(p.kind) ==> c.format(v) != "" || ValueCaps(p.member.info).isString || p.kind == TextAsCData
    ensures WriteMember(p, c, Some(v), EmptyFragment).Success?
    ensures p.kind == Attribute ==>
              && WriteMember(p, c, Some(v), EmptyFragment).value.attrs == [Attr(p.xmlName, c.format(v))]
              && ReadAttributeCase(p, c, c.format(v)) == Success(Some(v))
    ensures IsElementShaped(p.kind) ==>
              && NodesOf(WriteMember(p, c, Some(v), EmptyFragment).value.content) == [AsElement(p.xmlName, ElementInner(p, c, v))]
              && ReadElementCase(p, c, ElementInner(p, c, v)) == Success(v)
    ensures IsText(p.kind) ==> ReadTextCase(p, c, WriteMember(p, c, Some(v), EmptyFragment).value) == Success(Some(v))
  {
    if SerializerConfigured(p.member.info) {
      assert c.parse(c.format(v)) == Success(v);
      TextReadsBack(c.format(v));
    } else {
      assert c.deserialize(c.serialize(v)) == Success(v);
    }
  }

  /** The members of one object written in turn into its element. */
  function WriteMembers<V(!new)>(ps: seq<MemberPlan>, cs: seq<Codec<V>>, xs: seq<Option<V>>, f: Fragment): (r: Result<Fragment>)
    requires |cs| == |ps| && |xs| == |ps|
    requires forall i :: 0 <= i < |ps| ==> Writable(ps[i], xs[i])
    decreases |ps|
  {
    if |ps| == 0 then Success(f)
    else
      var g :- WriteMember(ps[0], cs[0], xs[0], f);
      WriteMembers(ps[1..], cs[1..], xs[1..], g)
  }

  /** Attribute members come before every other member. */
  predicate AttributesFirst(ps: seq<MemberPlan>) {
    forall i, j :: 0 <= i < j < |ps| ==> SerializationTypeOrder(ps[i].kind) <= SerializationTypeOrder(ps[j].kind)
  }

  /** A text member without a text conversion hands the element to its
      value type's serializer, which must then write no attribute. */
  predicate NestedTextWritesNoAttribute<V>(p: MemberPlan, c: Codec<V>, x: Option<V>) {
    p.kind == Text && !SerializerConfigured(p.member.info) && x.Some? ==> |c.serialize(x.value).attrs| == 0
  }

  /** Because attribute members are ordered first, every attribute is
      written while the start tag is still open, and writing an object
      cannot fail. */
  lemma {:induction false} AttributesFirstWriteSucceeds<V(!new)>(ps: seq<MemberPlan>, cs: seq<Codec<V>>, xs: seq<Option<V>>, f: Fragment)
    requires |cs| == |ps| && |xs| == |ps|
    requires forall i :: 0 <= i < |ps| ==> Writable(ps[i], xs[i]) && NestedTextWritesNoAttribute(ps[i], cs[i], xs[i])
    requires AttributesFirst(ps)
    requires f.content == SelfClosed || forall i :: 0 <= i < |ps| ==> ps[i].kind != Attribute
    ensures WriteMembers(ps, cs, xs, f).Success?
    decreases |ps|
  {
    if |ps| > 0 {
      var r := WriteMember(ps[0], cs[0], xs[0], f);
      assert NestedTextWritesNoAttribute(ps[0], cs[0], xs[0]);
      assert r.Success?;
      var g := r.value;
      assert forall i :: 0 <= i < |ps| - 1 ==> ps[1..][i] == ps[i + 1] && cs[1..][i] == cs[i + 1] && xs[1..][i] == xs[i + 1];
      if ps[0].kind == Attribute {
        assert g.content == f.content;
      } else {
        forall i | 0 <= i < |ps[1..]| ensures ps[1..][i].kind != Attribute {
          assert SerializationTypeOrder(ps[0].kind) <= SerializationTypeOrder(ps[i + 1].kind);
        }
      }
      AttributesFirstWriteSucceeds(ps[1..], cs[1..], xs[1..], g);
    }
  }

  /** A text member never written reads back as null. */
  lemma NullTextMemberStaysNull<V(!new)>(p: MemberPlan, c: Codec<V>)
    requires Writable(p, Option<V>.None) && ReadsText(p)
    ensures WriteMember(p, c, Option.None, EmptyFragment) == Success(EmptyFragment)
    ensures ReadTextCase(p, c, EmptyFragment) == Success(Option.None)
  {
  }

  /** The shape of `string`: a reference type that is enumerable. */
  const StringShape: TypeShape :=
    TypeShape(Caps(true, false, false, false, false, false, false, false), false, Option.None, true, false)

  /** A public read-write string property. */
  const StringMember: MemberInfo := MemberInfo(NewTypeInfo(StringShape), false, true, true, true, true)

  const AttributeA: MemberPlan := MemberPlan("A", "A", Attribute, 1, 1, 1, StringMember)
  const TextB: MemberPlan := MemberPlan("B", "B", Text, 2, 2, 1, StringMember)

  /** Writing the two members of that class. */
  lemma WriteStringMembers(x: Option<string>, y: Option<string>)
    ensures WriteMembers([AttributeA, TextB], [StringCodec(), StringCodec()], [x, y], EmptyFragment)
         == Success(var g := Fragment(if x.Some? then [Attr("A", x.value)] else [], SelfClosed);
                    if y.Some? then WriteString(g, y.value) else g)
  {
    var info := NewTypeInfo(StringShape);
    assert SerializerConfigured(info) && info.canBeNull;
    var cs := [StringCodec(), StringCodec()];
    var xs := [x, y];
    var g := Fragment(if x.Some? then [Attr("A", x.value)] else [], SelfClosed);
    assert WriteMember(AttributeA, StringCodec(), x, EmptyFragment) == Success(g);
    assert [AttributeA, TextB][1..] == [TextB] && cs[1..] == [StringCodec()] && xs[1..] == [y];
    assert WriteMembers([TextB], [StringCodec()], [y], g) == WriteMember(TextB, StringCodec(), y, g);
  }

  /** A class with a string attribute `A` and a string text member `B`:
      "AA" and "BB" give `<x A="AA">BB</x>`, "" and "" give
      `<x A=""></x>`, and two nulls give `<x />`; each reads back, the
      empty text through the empty-string fix. */
  lemma StringMembersExample()
    ensures WriteMembers([AttributeA, TextB], [StringCodec(), StringCodec()], [Some("AA"), Some("BB")], EmptyFragment)
         == Success(Fragment([Attr("A", "AA")], Body([TextNode("BB")])))
    ensures WriteMembers([AttributeA, TextB], [StringCodec(), StringCodec()], [Some(""), Some("")], EmptyFragment)
         == Success(Fragment([Attr("A", "")], Body([])))
    ensures WriteMembers([AttributeA, TextB], [StringCodec(), StringCodec()], [Option.None, Option.None], EmptyFragment)
         == Success(EmptyFragment)
    ensures ReadAttributeCase(AttributeA, StringCodec(), "AA") == Success(Some("AA"))
    ensures ReadTextCase(TextB, StringCodec(), Fragment([Attr("A", "AA")], Body([TextNode("BB")]))) == Success(Some("BB"))
    ensures ReadTextCase(TextB, StringCodec(), Fragment([Attr("A", "")], Body([]))) == Success(Some(""))
    ensures ReadTextCase(TextB, StringCodec(), EmptyFragment) == Success(Option.None)
  {
    var info := NewTypeInfo(StringShape);
    assert SerializerConfigured(info) && DeserializerConfigured(info) && info.canBeNull && ValueCaps(info).isString;
    WriteStringMembers(Some("AA"), Some("BB"));
    WriteStringMembers(Some(""), Some(""));
    WriteStringMembers(Option.None, Option.None);
  }
}

=== FILE: reflection.dfy ===
/** What the serializer learns about types and members through reflection,
    given as data, and the two reflection helpers it builds on: the type
    hierarchy walk and the collection of declared attributes along it
    (ReflectionHelper.cs). */
module Reflection {
  import opened Wrappers
  import TypeAttribute
  import MemberAttribute

  /** Types are numbered so that a base type always has a smaller number
      than the types derived from it; `object` is number 0. */
  type TypeId = nat

  const ObjectType: TypeId := 0

  /** The string conversions reflection finds on one type. */
  datatype Caps = Caps(
    isString: bool,              // the type is `string`
    isDateTime: bool,            // the type is `DateTime`
    xmlConvertible: bool,        // XmlConvert has a ToString overload for it
    converterFromString: bool,   // its TypeConverter converts from string
    converterToString: bool,     // its TypeConverter converts to string
    cultureToString: bool,       // an instance ToString(IFormatProvider or CultureInfo)
    cultureParse: bool,          // a static Parse(string, IFormatProvider or CultureInfo)
    plainParse: bool)            // a static Parse(string)

  /** The facts about a value type that CompilerTypeInfo looks at:
      its conversions, whether it is a value type, the conversions of the
      underlying type when it is `Nullable<T>`, and the collection interfaces
      it implements. */
  datatype TypeShape = TypeShape(
    caps: Caps,
    isValueType: bool,
    nullableOf: Option<Caps>,
    isEnumerable: bool,
    isCollection: bool)

  datatype Accessor = Accessor(isPublic: bool, isStatic: bool)

  /** A property (with its accessors, when it can be read or written) or a
      field (with its modifiers). */
  datatype MemberShape =
    | PropertyMember(indexed: bool, getter: Option<Accessor>, setter: Option<Accessor>)
    | FieldMember(isPublic: bool, isStatic: bool, initOnly: bool, literal: bool)

  datatype TypeDesc = TypeDesc(
    name: string,                 // the CLR name, with a generic arity suffix such as List`1
    namespace: Option<string>,
    isArray: bool,
    implementsIDictionary: bool,
    baseType: Option<TypeId>,
    interfaces: seq<TypeId>,
    typeAttributes: seq<TypeAttribute.TypeAttr>,  // declared on this type only
    shape: TypeShape)

  datatype MemberDesc = MemberDesc(
    name: string,
    declaringType: TypeId,
    valueType: TypeId,
    shape: MemberShape,
    markers: MemberAttribute.SystemMarkers,
    attributes: seq<MemberAttribute.MemberAttr>,
    hasSerializeHook: bool,      // an instance method <Name>_CustomXmlSerialize()
    hasDeserializeHook: bool)    // an instance method <Name>_CustomXmlDeserialize(string)

  datatype Universe = Universe(types: map<TypeId, TypeDesc>)

  /** Every base type and interface is known, and bases are numbered below
      the types that derive from them. */
  ghost predicate Valid(u: Universe) {
    && ObjectType in u.types
    && (forall t :: t in u.types && u.types[t].baseType.Some? ==>
          u.types[t].baseType.value < t && u.types[t].baseType.value in u.types)
    && (forall t, i :: t in u.types && 0 <= i < |u.types[t].interfaces| ==> u.types[t].interfaces[i] in u.types)
  }

  predicate Distinct<T(==)>(s: seq<T>) {
    forall i, j :: 0 <= i < j < |s| ==> s[i] != s[j]
  }

  /** The walk from a type up its base types, stopping before `object`
      or when a type has no base. */
  function BaseChain(u: Universe, t: TypeId): (chain: seq<TypeId>)
    requires Valid(u) && t in u.types
    ensures t != ObjectType ==> |chain| > 0 && chain[0] == t
    ensures t == ObjectType ==> chain == []
    ensures forall i :: 0 <= i < |chain| ==> chain[i] in u.types && chain[i] != ObjectType
    ensures forall i :: 0 <= i < |chain| - 1 ==> u.types[chain[i]].baseType == Some(chain[i + 1])
    ensures forall i, j :: 0 <= i < j < |chain| ==> chain[j] < chain[i]
    decreases t
  {
    if t == ObjectType then []
    else match u.types[t].baseType
      case None => [t]
      case Some(b) => [t] + BaseChain(u, b)
  }

  /** Except as LINQ defines it: the distinct elements of `xs`, in order of
      first appearance, that are not in `excluded`. */
  function Except<T(==)>(xs: seq<T>, excluded: set<T>): (r: seq<T>)
    ensures Distinct(r)
    ensures forall i :: 0 <= i < |r| ==> r[i] in xs && r[i] !in excluded
    ensures forall x :: x in xs && x !in excluded ==> x in r
    decreases |xs|
  {
    if |xs| == 0 then []
    else if xs[0] in excluded then Except(xs[1..], excluded)
    else
      var rest := Except(xs[1..], excluded + {xs[0]});
      assert forall x :: x in xs[1..] ==> x in xs;
      assert forall x :: x in xs && x != xs[0] ==> x in xs[1..];
      [xs[0]] + rest
  }

  /** GetTypeHierarchy: the type, its base types up to but excluding
      `object`, then the interfaces it implements that are not already
      listed; an absent type has no hierarchy. */
  function GetTypeHierarchy(u: Universe, t: Option<TypeId>): (h: seq<TypeId>)
    requires Valid(u) && (t.Some? ==> t.value in u.types)
    ensures t.None? ==> h == []
    ensures t.Some? && t.value != ObjectType ==> |h| > 0 && h[0] == t.value
    ensures t.Some? ==> var chain := BaseChain(u, t.value);
              |chain| <= |h| && h[..|chain|] == chain
    ensures t.Some? ==> var chain := BaseChain(u, t.value);
              forall i :: |chain| <= i < |h| ==> h[i] in u.types[t.value].interfaces && h[i] !in chain
    ensures Distinct(h)
    ensures t.Some? ==> forall x :: x in u.types[t.value].interfaces ==> x in h
    ensures forall i :: 0 <= i < |h| ==> h[i] in u.types
  {
    match t
    case None => []
    case Some(ty) =>
      var chain := BaseChain(u, ty);
      var ifaces := Except(u.types[ty].interfaces, set x | x in chain);
      ChainDistinct(u, ty);
      InterfacesKnown(u, ty, set x | x in chain);
      ChainThenInterfaces(u, ty, chain, ifaces);
      chain + ifaces
  }

  /** The base chain followed by the interfaces not on it: no repeats,
      every interface present, only known types. */
  lemma ChainThenInterfaces(u: Universe, ty: TypeId, chain: seq<TypeId>, ifaces: seq<TypeId>)
    requires ty in u.types
    requires Distinct(chain) && forall i :: 0 <= i < |chain| ==> chain[i] in u.types
    requires Distinct(ifaces) && forall i :: 0 <= i < |ifaces| ==> ifaces[i] in u.types
    requires forall i :: 0 <= i < |ifaces| ==> ifaces[i] in u.types[ty].interfaces && ifaces[i] !in chain
    requires forall x :: x in u.types[ty].interfaces ==> x in chain || x in ifaces
    ensures |chain| <= |chain + ifaces| && (chain + ifaces)[..|chain|] == chain
    ensures forall i :: |chain| <= i < |chain + ifaces| ==> (chain + ifaces)[i] in u.types[ty].interfaces && (chain + ifaces)[i] !in chain
    ensures Distinct(chain + ifaces)
    ensures forall x :: x in u.types[ty].interfaces ==> x in chain + ifaces
    ensures forall i :: 0 <= i < |chain + ifaces| ==> (chain + ifaces)[i] in u.types
  {
    var h := chain + ifaces;
    assert h[..|chain|] == chain;
    DistinctAppend(chain, ifaces);
    assert forall i :: |chain| <= i < |h| ==> h[i] == ifaces[i - |chain|];
  }

  /** A base chain never repeats a type: its numbers strictly decrease. */
  lemma ChainDistinct(u: Universe, ty: TypeId)
    requires Valid(u) && ty in u.types
    ensures Distinct(BaseChain(u, ty))
  {
    var chain := BaseChain(u, ty);
    assert forall i, j :: 0 <= i < j < |chain| ==> chain[j] < chain[i];
  }

  /** The interfaces a known type lists, filtered, are known types. */
  lemma InterfacesKnown(u: Universe, ty: TypeId, excluded: set<TypeId>)
    requires Valid(u) && ty in u.types
    ensures var ifaces := Except(u.types[ty].interfaces, excluded);
            forall i :: 0 <= i < |ifaces| ==> ifaces[i] in u.types
  {
    var ifaces := Except(u.types[ty].interfaces, excluded);
    forall i | 0 <= i < |ifaces|
      ensures ifaces[i] in u.types
    {
      var k :| 0 <= k < |u.types[ty].interfaces| && u.types[ty].interfaces[k] == ifaces[i];
    }
  }

  /** Appending distinct elements that are new keeps a sequence distinct. */
  lemma DistinctAppend<T>(xs: seq<T>, ys: seq<T>)
    requires Distinct(xs) && Distinct(ys)
    requires forall j :: 0 <= j < |ys| ==> ys[j] !in xs
    ensures Distinct(xs + ys)
  {
    forall i, j | 0 <= i < j < |xs + ys| ensures (xs + ys)[i] != (xs + ys)[j] {
      if j >= |xs| && i < |xs| {
        assert (xs + ys)[j] == ys[j - |xs|];
      }
    }
  }

  function Declared(u: Universe, t: TypeId): seq<TypeAttribute.TypeAttr> {
    if t in u.types then u.types[t].typeAttributes else []
  }

  /** GetAttributes: the attributes declared on each type in turn, each
      added only when it is not already collected. */
  function CollectAttributes(u: Universe, acc: seq<TypeAttribute.TypeAttr>, ts: seq<TypeId>): (r: seq<TypeAttribute.TypeAttr>)
    ensures |acc| <= |r| && r[..|acc|] == acc
    ensures Distinct(acc) ==> Distinct(r)
    ensures forall i, a :: 0 <= i < |ts| && a in Declared(u, ts[i]) ==> a in r
    ensures forall a :: a in r ==> a in acc || exists i :: 0 <= i < |ts| && a in Declared(u, ts[i])
    decreases |ts|
  {
    if |ts| == 0 then acc
    else
      var added := Except(Declared(u, ts[0]), set a | a in acc);
      var next := acc + added;
      var r := CollectAttributes(u, next, ts[1..]);
      assert forall i :: 1 <= i < |ts| ==> ts[i] == ts[1..][i - 1];
      assert next[..|acc|] == acc;
      assert r[..|acc|] == acc by {
        assert r[..|next|] == next;
      }
      assert Distinct(acc) ==> Distinct(next) by {
        if Distinct(acc) {
          DistinctAppend(acc, added);
        }
      }
      assert forall i, a :: 0 <= i < |ts| && a in Declared(u, ts[i]) ==> a in r by {
        forall i, a | 0 <= i < |ts| && a in Declared(u, ts[i])
          ensures a in r
        {
          if i == 0 {
            assert a in next by {
              assert a in acc || a in added;
            }
            assert r[..|next|] == next;
          } else {
            assert a in Declared(u, ts[1..][i - 1]);
          }
        }
      }
      assert forall a :: a in r ==> a in acc || exists i :: 0 <= i < |ts| && a in Declared(u, ts[i]) by {
        forall a | a in r && a !in acc
          ensures exists i :: 0 <= i < |ts| && a in Declared(u, ts[i])
        {
          if a in added {
            assert a in Declared(u, ts[0]);
          } else {
            var i :| 0 <= i < |ts[1..]| && a in Declared(u, ts[1..][i]);
            assert a in Declared(u, ts[i + 1]);
          }
        }
      }
      r
  }

  function GetAttributes(u: Universe, ts: seq<TypeId>): seq<TypeAttribute.TypeAttr> {
    CollectAttributes(u, [], ts)
  }

  /** Every attribute declared along the types appears once, and nothing
      else does. */
  lemma GetAttributesCollectsEach(u: Universe, ts: seq<TypeId>)
    ensures Distinct(GetAttributes(u, ts))
    ensures forall a :: a in GetAttributes(u, ts) <==> exists i :: 0 <= i < |ts| && a in Declared(u, ts[i])
  {
  }

  /** The attributes of the types listed first come first. */
  lemma {:induction false} GetAttributesKeepsTypeOrder(u: Universe, ts: seq<TypeId>, t: TypeId)
    ensures GetAttributes(u, ts + [t]) == GetAttributes(u, ts) + Except(Declared(u, t), set a | a in GetAttributes(u, ts))
  {
    CollectSnoc(u, [], ts, t);
  }

  lemma {:induction false} CollectSnoc(u: Universe, acc: seq<TypeAttribute.TypeAttr>, ts: seq<TypeId>, t: TypeId)
    ensures CollectAttributes(u, acc, ts + [t])
         == CollectAttributes(u, acc, ts) + Except(Declared(u, t), set a | a in CollectAttributes(u, acc, ts))
    decreases |ts|
  {
    if |ts| == 0 {
      assert ts + [t] == [t];
      assert [t][1..] == [];
    } else {
      var added := Except(Declared(u, ts[0]), set a | a in acc);
      assert (ts + [t])[0] == ts[0];
      assert (ts + [t])[1..] == ts[1..] + [t];
      CollectSnoc(u, acc + added, ts[1..], t);
    }
  }

  /** InheritanceDepth: the number of steps from the declaring type up to
      `object`; `None` when the walk reaches a type without a base first,
      where the source dereferences a null base type. */
  function InheritanceDepth(u: Universe, t: TypeId): (d: Option<nat>)
    requires Valid(u) && t in u.types
    ensures t == ObjectType ==> d == Some(0)
    ensures d.Some? && t != ObjectType ==> d.value == |BaseChain(u, t)| && d.value > 0
    decreases t
  {
    if t == ObjectType then Some(0)
    else match u.types[t].baseType
      case None => Option.None
      case Some(b) =>
        match InheritanceDepth(u, b)
        case None => Option.None
        case Some(k) => Some(k + 1)
  }
}

=== FILE: serializer_factory.dfy ===
/** The serializer registry (SerializerFactory.cs): a cache from types to
    serializers, filled on first use by the compiler, and the typed holders
    `SerializerFactory<T>.Instance`, each set once from the cache. The
    concurrent dictionary is a map and every call runs alone. */
module SerializerFactory {
  import opened Wrappers
  import opened Reflection
  import opened ArgumentCheck

  /** `cache` is the shared dictionary; `instances` holds the typed
      holders whose static constructor has run. */
  datatype Factory<S> = Factory(cache: map<TypeId, S>, instances: map<TypeId, S>)

  /** Every typed holder agrees with the cache. */
  predicate Coherent<S(==)>(f: Factory<S>) {
    forall t :: t in f.instances ==> t in f.cache && f.instances[t] == f.cache[t]
  }

  /** The cache starts with the serializers of `object` and `byte[]`. */
  function Initial<S>(objectSerializer: S, byteArrayType: TypeId, byteArraySerializer: S): (f: Factory<S>)
    requires byteArrayType != ObjectType
    ensures f.cache.Keys == {ObjectType, byteArrayType} && f.instances == map[]
    ensures f.cache[ObjectType] == objectSerializer && f.cache[byteArrayType] == byteArraySerializer
  {
    Factory(map[ObjectType := objectSerializer, byteArrayType := byteArraySerializer], map[])
  }

  /** GetSerializer: the cached serializer, or the compiled one, which is
      then cached; a compile that fails caches nothing. */
  function GetSerializer<S>(f: Factory<S>, t: Option<TypeId>, compile: TypeId -> Result<S>): (r: Result<(S, Factory<S>)>)
    ensures t.None? ==> r == Failure(ArgumentNull("type"))
    ensures t.Some? && t.value in f.cache ==> r == Success((f.cache[t.value], f))
    ensures t.Some? && t.value !in f.cache ==>
              r == match compile(t.value)
                   case Failure(e) => Failure(e)
                   case Success(s) => Success((s, f.(cache := f.cache[t.value := s])))
    ensures r.Success? ==> t.Some? && t.value in r.value.1.cache && r.value.1.cache[t.value] == r.value.0
    ensures r.Success? ==> r.value.1.instances == f.instances && f.cache.Keys <= r.value.1.cache.Keys
    ensures r.Success? ==> forall u :: u in f.cache ==> r.value.1.cache[u] == f.cache[u]
  {
    var checked := NotNull(t, "type");
    :- checked;
    if t.value in f.cache then Success((f.cache[t.value], f))
    else
      var s :- compile(t.value);
      Success((s, f.(cache := f.cache[t.value := s])))
  }

  /** A later GetSerializer returns the serializer of the first, whatever
      the compiler would now produce. */
  lemma GetSerializerIsStable<S>(f: Factory<S>, t: TypeId, first: TypeId -> Result<S>, later: TypeId -> Result<S>)
    requires GetSerializer(f, Some(t), first).Success?
    ensures var (s, g) := GetSerializer(f, Some(t), first).value;
            GetSerializer(g, Some(t), later) == Success((s, g))
  {
  }

  /** GetSerializer keeps the typed holders coherent. */
  lemma GetSerializerKeepsCoherent<S>(f: Factory<S>, t: Option<TypeId>, compile: TypeId -> Result<S>)
    requires Coherent(f)
    requires GetSerializer(f, t, compile).Success?
    ensures Coherent(GetSerializer(f, t, compile).value.1)
  {
  }

  /** SerializerFactory<T>.Instance: set once, by the static constructor,
      from GetSerializer(T). */
  function Instance<S>(f: Factory<S>, t: TypeId, compile: TypeId -> Result<S>): (r: Result<(S, Factory<S>)>)
    ensures t in f.instances ==> r == Success((f.instances[t], f))
    ensures t !in f.instances ==>
              r == match GetSerializer(f, Some(t), compile)
                   case Failure(e) => Failure(e)
                   case Success((s, g)) => Success((s, g.(instances := g.instances[t := s])))
    ensures Coherent(f) && r.Success? ==> Coherent(r.value.1)
    ensures Coherent(f) && r.Success? ==> t in r.value.1.cache && r.value.1.cache[t] == r.value.0
  {
    if t in f.instances then Success((f.instances[t], f))
    else
      var (s, g) :- GetSerializer(f, Some(t), compile);
      Success((s, g.(instances := g.instances[t := s])))
  }

  /** Register as written: an uncached type gets the serializer; for a
      cached one the update retargets the typed holder (when its generic
      type resolves by name, its static constructor running first) but
      returns the old value, so the cache is left as it was. */
  function RegisterAsWritten<S>(f: Factory<S>, t: Option<TypeId>, s: Option<S>, holderResolves: TypeId -> bool): (r: Result<Factory<S>>)
    ensures t.None? ==> r == Failure(ArgumentNull("type"))
    ensures t.Some? && s.None? ==> r == Failure(ArgumentNull("serializer"))
    ensures t.Some? && s.Some? && t.value !in f.cache ==> r == Success(f.(cache := f.cache[t.value := s.value]))
    ensures t.Some? && s.Some? && t.value in f.cache ==> r.Success? && r.value.cache == f.cache
    ensures t.Some? && s.Some? && t.value in f.cache && holderResolves(t.value) ==> r.value.instances == f.instances[t.value := s.value]
  {
    var checked := NotNull(t, "type");
    :- checked;
    :- NotNull(s, "serializer");
    var key := t.value;
    if key !in f.cache then Success(f.(cache := f.cache[key := s.value]))
    else if holderResolves(key) then Success(f.(instances := f.instances[key := s.value]))
    else Success(f)
  }

  /** Register as its name and the comment in its update intend: the new
      serializer replaces the cached one, and the typed holder follows. */
  function Register<S>(f: Factory<S>, t: Option<TypeId>, s: Option<S>, holderResolves: TypeId -> bool): (r: Result<Factory<S>>)
    ensures t.None? ==> r == Failure(ArgumentNull("type"))
    ensures t.Some? && s.None? ==> r == Failure(ArgumentNull("serializer"))
    ensures t.Some? && s.Some? ==> r.Success? && r.value.cache == f.cache[t.value := s.value]
    ensures r.Success? ==> forall u :: u in f.instances && u != t.value ==> u in r.value.instances && r.value.instances[u] == f.instances[u]
  {
    var checked := NotNull(t, "type");
    :- checked;
    :- NotNull(s, "serializer");
    var key := t.value;
    if key in f.cache && holderResolves(key) then
      Success(Factory(f.cache[key := s.value], f.instances[key := s.value]))
    else Success(f.(cache := f.cache[key := s.value]))
  }

  /** After Register, GetSerializer returns the registered serializer and
      the typed holders still agree with the cache. */
  lemma RegisterIsSeen<S>(f: Factory<S>, t: TypeId, s: S, holderResolves: TypeId -> bool, compile: TypeId -> Result<S>)
    requires Coherent(f)
    requires t in f.instances ==> holderResolves(t)
    ensures Coherent(Register(f, Some(t), Some(s), holderResolves).value)
    ensures GetSerializer(Register(f, Some(t), Some(s), holderResolves).value, Some(t), compile).value.0 == s
  {
  }

  /** The input that shows it: `object` registered again after its typed
      holder was set leaves the cache with the old serializer while the
      holder has the new one, so the two disagree. */
  lemma RegisterAsWrittenCounterexample<S>(previous: S, replacement: S, byteArrayType: TypeId, byteArraySerializer: S, compile: TypeId -> Result<S>)
    requires previous != replacement && byteArrayType != ObjectType
    ensures var f := Instance(Initial(previous, byteArrayType, byteArraySerializer), ObjectType, compile).value.1;
            && Coherent(f)
            && var g := RegisterAsWritten(f, Some(ObjectType), Some(replacement), _ => true).value;
            && GetSerializer(g, Some(ObjectType), compile).value.0 == previous
            && g.instances[ObjectType] == replacement
            && !Coherent(g)
  {
  }
}

=== FILE: string_conversion.dfy ===
/** Which conversion the generated code uses to turn a value into text and
    back (Compiler.cs, AppendToString and AppendParseString). The
    conversions themselves are library calls and are not modelled; only the
    choice between them is. */
module StringConversion {
  import opened Reflection
  import opened CompilerTypeInfo

  /** How a value is written as text. `roundTripKind` is the DateTime mode
      that keeps the time zone kind; `invariantCulture` selects the
      culture-aware ToString overload with the invariant culture. */
  datatype WriteStrategy =
    | XmlConvertWrite(roundTripKind: bool)
    | ConverterWrite
    | IdentityWrite
    | ToStringWrite(invariantCulture: bool)

  /** How a value is read from text; `NoRead` when no conversion applies. */
  datatype ReadStrategy =
    | XmlConvertRead(roundTripKind: bool)
    | ConverterRead
    | IdentityRead
    | ParseRead(invariantCulture: bool)
    | NoRead

  /** The first applicable conversion, in the order XmlConvert, type
      converter, the string itself, ToString. */
  function Write(i: TypeInfo): (w: WriteStrategy)
    ensures w.XmlConvertWrite? <==> UseXmlConvertOnGet(i)
    ensures w.XmlConvertWrite? ==> (w.roundTripKind <==> ValueCaps(i).isDateTime)
    ensures w.ConverterWrite? <==> !UseXmlConvertOnGet(i) && i.conv.converterOnSer
    ensures w.IdentityWrite? <==> !UseXmlConvertOnGet(i) && !i.conv.converterOnSer && ValueCaps(i).isString
    ensures w.ToStringWrite? ==> (w.invariantCulture <==> i.conv.toStringCulture)
  {
    if UseXmlConvertOnGet(i) then XmlConvertWrite(ValueCaps(i).isDateTime)
    else if i.conv.converterOnSer then ConverterWrite
    else if ValueCaps(i).isString then IdentityWrite
    else ToStringWrite(i.conv.toStringCulture)
  }

  /** The first applicable conversion, in the order XmlConvert, type
      converter, the string itself, Parse, and none at all. */
  function Read(i: TypeInfo): (r: ReadStrategy)
    ensures r.XmlConvertRead? <==> UseXmlConvertOnSet(i)
    ensures r.XmlConvertRead? ==> (r.roundTripKind <==> ValueCaps(i).isDateTime)
    ensures r.ConverterRead? <==> !UseXmlConvertOnSet(i) && i.conv.converterOnDeser
    ensures r.IdentityRead? <==> !UseXmlConvertOnSet(i) && !i.conv.converterOnDeser && ValueCaps(i).isString
    ensures r.ParseRead? ==> i.conv.parse && (r.invariantCulture <==> i.conv.parseWithCulture)
  {
    if UseXmlConvertOnSet(i) then XmlConvertRead(ValueCaps(i).isDateTime)
    else if i.conv.converterOnDeser then ConverterRead
    else if ValueCaps(i).isString then IdentityRead
    else if i.conv.parse then ParseRead(i.conv.parseWithCulture)
    else NoRead
  }

  /** A type whose serializer is configured without a custom method is
      never written through the culture-blind ToString fallback. */
  lemma ConfiguredWriterHasConversion(i: TypeInfo)
    requires SerializerConfigured(i) && !i.customSer
    ensures Write(i) != ToStringWrite(false)
  {
  }

  /** Without a custom method, a value can be read from text exactly when
      its deserializer is configured. */
  lemma ReaderExistsIffConfigured(i: TypeInfo)
    requires !i.customDeser
    ensures Read(i) != NoRead <==> DeserializerConfigured(i)
  {
  }

  /** A string is written and read as itself. */
  lemma StringIsIdentity(shape: TypeShape)
    requires shape.caps.isString && !shape.caps.xmlConvertible && !shape.isValueType
    ensures Write(NewTypeInfo(shape)) == IdentityWrite
    ensures Read(NewTypeInfo(shape)) == IdentityRead
  {
  }

  /** A culture-aware ToString is only ever paired with a conversion that
      reads the value back. */
  lemma CultureWriteHasReader(shape: TypeShape)
    ensures Write(NewTypeInfo(shape)) == ToStringWrite(true) ==> Read(NewTypeInfo(shape)) != NoRead
  {
  }
}

=== FILE: template_blocks.dfy ===
/** Compiler.RemoveCodeBetweenComments: the code templates carry named
    blocks between a `//BEGIN: name` line and an `//END: name` marker. The
    compiler either keeps a block's body and drops its two marker lines, or
    replaces the whole block, markers included, with generated code. */
module TemplateBlocks {
  import opened Wrappers
  import opened TextSearch

  function StartMarker(name: string): string {
    "//BEGIN: " + name
  }

  function EndMarker(name: string): string {
    "//END: " + name
  }

  /** `a` and `b` agree on every index both have. */
  predicate Agrees(a: string, b: string) {
    forall i :: 0 <= i < |a| && i < |b| ==> a[i] == b[i]
  }

  /** No suffix of `repl` is the beginning of `marker`, and `repl` does not
      contain `marker`: once inserted, `repl` cannot be where the next
      search for `marker` stops. */
  predicate CannotStartMarker(repl: string, marker: string) {
    forall j :: 0 <= j < |repl| ==> !Agrees(repl[j..], marker)
  }

  /** A replacement that cannot start a marker holds no occurrence of it,
      whatever text surrounds it. */
  lemma NoMarkerInReplacement(pre: string, repl: string, post: string, marker: string)
    requires CannotStartMarker(repl, marker) && |marker| > 0
    ensures forall j: nat :: |pre| <= j < |pre| + |repl| ==> !OccursAt(pre + repl + post, marker, j)
  {
    forall j: nat | |pre| <= j < |pre| + |repl| ensures !OccursAt(pre + repl + post, marker, j) {
      var tail := repl[j - |pre|..];
      assert !Agrees(tail, marker);
    }
  }

  /** How the loop of RemoveCodeBetweenComments ends: with the code or an
      exception, or never, which is what happens when a pass leaves the
      code and the search position exactly as they were. */
  datatype Run = Ends(result: Result<string>) | Spins

  /** One pass of the loop of RemoveCodeBetweenComments on the block
      whose start marker `m` is at `s`, with end marker `en`: the new code
      and where the next search stops. In keeping mode a missing end
      marker, or a marker line without a line feed after it, makes a
      search start at -1 and throw; so does a search starting past the
      end. In replacing mode a missing end marker
      only shortens the span removed: it then reaches to `|en| - 1`, and
      the pass throws only when that is before `s` or past the end. */
  function Step(code: string, m: string, en: string, repl: Option<string>, s: nat): (r: Result<(string, int)>)
    ensures r.Failure? ==> r.error == ArgumentOutOfRange
    ensures repl.Some? && IndexOf(code, en, s) >= 0 ==> r.Success?
    ensures repl.None? && IndexOf(code, en, s) < 0 ==> r.Failure?
    ensures repl.Some? && IndexOf(code, en, s) < 0 ==> (r.Success? <==> s < |en| <= |code| + 1)
  {
    var e := IndexOf(code, en, s);
    if |code| < s then Failure(ArgumentOutOfRange)
    else if repl.None? then
      if e < 0 then Failure(ArgumentOutOfRange) else KeepPass(code, m, s, e)
    else ReplacePass(code, m, repl.value, s, e + |en|)
  }

  /** The keeping half of a pass, the end marker being at `e`: the end
      marker's line goes, then the start marker's line. */
  function KeepPass(code: string, m: string, s: nat, e: nat): (r: Result<(string, int)>)
    requires s <= e <= |code|
    ensures r.Failure? ==> r.error == ArgumentOutOfRange
  {
    var lf := IndexOfChar(code, '\n', e);
    if lf < 0 then Failure(ArgumentOutOfRange)
    else
      var code1 := code[..e] + code[lf + 1..];
      var lf2 := IndexOfChar(code1, '\n', s);
      if lf2 < 0 then Failure(ArgumentOutOfRange)
      else
        var code2 := code1[..s] + code1[lf2 + 1..];
        Success((code2, IndexOf(code2, m, s)))
  }

  /** The replacing half of a pass: String.Remove takes the characters
      from `s` up to `t`, the end of the end marker (a count of `t - s`),
      and throws when that count is negative or runs past the end; the
      replacement goes where they were. */
  function ReplacePass(code: string, m: string, block: string, s: nat, t: int): (r: Result<(string, int)>)
    requires s <= |code|
    ensures r.Failure? <==> t < s || |code| < t
    ensures r.Failure? ==> r.error == ArgumentOutOfRange
    ensures r.Success? ==> |r.value.0| == |code| - (t - s) + |block|
  {
    if t < s || |code| < t then Failure(ArgumentOutOfRange)
    else
      var code1 := code[..s] + block + code[t..];
      Success((code1, IndexOf(code1, m, s)))
  }

  /** A pass keeps the code before its marker and moves the search
      forward, past the replacement in replacing mode. Unless it changes
      nothing, it shrinks the code left to search, or keeps it as long
      while moving the search from before `|en|` to after it; keeping
      mode always shortens the code, and only an empty replacement can
      leave everything as it was. */
  lemma StepProgress(code: string, m: string, en: string, repl: Option<string>, s: nat)
    requires OccursAt(code, m, s) && |m| > 0 && |en| > 0
    requires repl.Some? ==> CannotStartMarker(repl.value, m)
    ensures var r := Step(code, m, en, repl, s);
            r.Success? ==> Advances(code, m, en, repl, s, r.value.0, r.value.1)
  {
    if repl.Some? {
      ReplaceStepProgress(code, m, en, repl.value, s);
    } else {
      KeepStepProgress(code, m, en, s);
    }
  }

  /** What a successful pass from the marker at `s` guarantees about the
      new code `code'` and the next search position `next`. */
  predicate Advances(code: string, m: string, en: string, repl: Option<string>, s: nat, code': string, next: int) {
    && (next == -1 || (s <= next && OccursAt(code', m, next)))
    && |code'| >= s && s <= |code| && code'[..s] == code[..s]
    && (repl.Some? && next >= 0 ==> s + |repl.value| <= next)
    && (next >= 0 && (code', next) != (code, s) ==>
          |code'| - next < |code| - s || (|code'| - next <= |code| - s && s < |en| <= next))
    && (repl.None? ==> |code'| < |code|)
    && ((code', next) == (code, s) ==> repl == Some(""))
  }

  lemma ReplaceStepProgress(code: string, m: string, en: string, block: string, s: nat)
    requires OccursAt(code, m, s) && |m| > 0 && |en| > 0 && CannotStartMarker(block, m)
    ensures var r := Step(code, m, en, Some(block), s);
            r.Success? ==> Advances(code, m, en, Some(block), s, r.value.0, r.value.1)
  {
    var t := IndexOf(code, en, s) + |en|;
    if s <= t <= |code| {
      ReplaceProgress(code, m, block, s, t);
    }
  }

  lemma KeepStepProgress(code: string, m: string, en: string, s: nat)
    requires OccursAt(code, m, s) && |m| > 0 && |en| > 0
    ensures var r := Step(code, m, en, Option.None, s);
            r.Success? ==> Advances(code, m, en, Option.None, s, r.value.0, r.value.1)
  {
    var e := IndexOf(code, en, s);
    if e >= 0 {
      KeepProgress(code, m, s, e);
    }
  }

  lemma ReplaceProgress(code: string, m: string, block: string, s: nat, t: nat)
    requires |m| > 0 && CannotStartMarker(block, m)
    requires s <= t <= |code|
    ensures var code1 := code[..s] + block + code[t..];
            var next := IndexOf(code1, m, s);
            && code1[..s] == code[..s]
            && (next == -1 || (s + |block| <= next && |code1| - next <= |code| - t))
            && (t == s && |block| == 0 ==> code1 == code)
  {
    NoMarkerInReplacement(code[..s], block, code[t..], m);
    var code1 := code[..s] + block + code[t..];
    assert code1[..s] == code[..s];
    if t == s && |block| == 0 {
      assert code1 == code[..s] + code[s..];
    }
  }

  lemma KeepProgress(code: string, m: string, s: nat, e: nat)
    requires OccursAt(code, m, s) && |m| > 0 && s <= e && e <= |code|
    ensures var lf := IndexOfChar(code, '\n', e);
            lf >= 0 ==>
              var code1 := code[..e] + code[lf + 1..];
              var lf2 := IndexOfChar(code1, '\n', s);
              lf2 >= 0 ==>
                var code2 := code1[..s] + code1[lf2 + 1..];
                |code2| >= s && code2[..s] == code[..s] && |code2| < |code|
  {
    var lf := IndexOfChar(code, '\n', e);
    if lf >= 0 {
      var code1 := code[..e] + code[lf + 1..];
      var lf2 := IndexOfChar(code1, '\n', s);
      if lf2 >= 0 {
        var code2 := code1[..s] + code1[lf2 + 1..];
        assert code1[..s] == code[..s];
        assert code2[..s] == code1[..s];
      }
    }
  }

  /** The loop of RemoveCodeBetweenComments from a start marker found at
      `s`, or from no marker (`s == -1`). */
  function BlocksFrom(code: string, m: string, en: string, repl: Option<string>, s: int): (r: Run)
    requires s == -1 || (0 <= s && OccursAt(code, m, s))
    requires |m| > 0 && |en| > 0
    requires repl.Some? ==> CannotStartMarker(repl.value, m)
    ensures s == -1 ==> r == Ends(Success(code))
    ensures r.Ends? && r.result.Failure? ==> r.result.error == ArgumentOutOfRange
    ensures s >= 0 && r.Ends? && r.result.Success? ==> |r.result.value| >= s && r.result.value[..s] == code[..s]
    ensures repl.None? && s >= 0 && r.Ends? && r.result.Success? ==> |r.result.value| < |code|
    ensures r.Spins? ==> repl == Some("")
    decreases if s < 0 then 0 else |code| - s + 1, if 0 <= s < |en| then 1 else 0
  {
    if s < 0 then Ends(Success(code))
    else
      var step := Step(code, m, en, repl, s);
      StepProgress(code, m, en, repl, s);
      if step.Failure? then Ends(Failure(step.error))
      else if step.value == (code, s) then Spins
      else
        var (code', next) := step.value;
        var r := BlocksFrom(code', m, en, repl, next);
        assert r.Ends? && r.result.Success? ==> r.result.value[..s] == code'[..s] by {
          if r.Ends? && r.result.Success? && next >= 0 {
            SharedPrefix(r.result.value, code', s, next);
          }
        }
        r
  }

  /** Strings that agree up to `n` agree up to any `k <= n`. */
  lemma SharedPrefix(a: string, b: string, k: nat, n: nat)
    requires k <= n <= |a| && n <= |b| && a[..n] == b[..n]
    ensures a[..k] == b[..k]
  {
    assert a[..k] == a[..n][..k];
    assert b[..k] == b[..n][..k];
  }

  /** The whole operation, from the first start marker in the code. */
  function RemoveCodeBetweenComments(code: string, name: string, repl: Option<string>): (r: Run)
    requires repl.Some? ==> CannotStartMarker(repl.value, StartMarker(name))
    ensures IndexOf(code, StartMarker(name), 0) == -1 ==> r == Ends(Success(code))
    ensures r.Ends? && r.result.Success? && IndexOf(code, StartMarker(name), 0) >= 0 ==>
              var s := IndexOf(code, StartMarker(name), 0);
              |r.result.value| >= s && r.result.value[..s] == code[..s]
    ensures repl.None? && r.Ends? && r.result.Success? && IndexOf(code, StartMarker(name), 0) >= 0 ==> |r.result.value| < |code|
    ensures r.Ends? && r.result.Failure? ==> r.result.error == ArgumentOutOfRange
    ensures r.Spins? ==> repl == Some("")
  {
    BlocksFrom(code, StartMarker(name), EndMarker(name), repl, IndexOf(code, StartMarker(name), 0))
  }

  /** The loop as the source runs it, rewriting one string pass by pass.
      A pass that changes nothing would be repeated forever; the method
      reports that instead of repeating it. */
  method RemoveBlocks(code0: string, name: string, repl: Option<string>) returns (r: Run)
    requires repl.Some? ==> CannotStartMarker(repl.value, StartMarker(name))
    ensures r == RemoveCodeBetweenComments(code0, name, repl)
  {
    var m := StartMarker(name);
    var en := EndMarker(name);
    var code := code0;
    var s := IndexOf(code, m, 0);
    while s >= 0
      invariant s == -1 || (0 <= s && OccursAt(code, m, s))
      invariant BlocksFrom(code, m, en, repl, s) == RemoveCodeBetweenComments(code0, name, repl)
      decreases if s < 0 then 0 else |code| - s + 1, if 0 <= s < |en| then 1 else 0
    {
      var step := Step(code, m, en, repl, s);
      StepProgress(code, m, en, repl, s);
      if step.Failure? {
        return Ends(Failure(step.error));
      }
      if step.value == (code, s) {
        return Spins;
      }
      code, s := step.value.0, step.value.1;
    }
    return Ends(Success(code));
  }

  /** IndexOf stops at the first occurrence at or after `from`. */
  lemma IndexOfIs(s: string, pat: string, from: nat, k: nat)
    requires from <= k && OccursAt(s, pat, k)
    requires forall i: nat :: from <= i < k ==> !OccursAt(s, pat, i)
    ensures IndexOf(s, pat, from) == k
  {
  }

  predicate NoLineFeed(s: string) {
    forall k :: 0 <= k < |s| ==> s[k] != '\n'
  }

  /** Both markers are non-empty, and free of line feeds when the block
      name is. */
  lemma MarkerFacts(name: string)
    ensures |StartMarker(name)| > 0 && |EndMarker(name)| > 0
    ensures NoLineFeed(name) ==> NoLineFeed(StartMarker(name)) && NoLineFeed(EndMarker(name))
  {
  }

  /** Keeping a block: when the first start marker is at `s` with the
      line feed ending its line at `x`, and the first end marker after it
      is at `p` with its line ending at `lf`, the body between the two
      lines stays, both lines go, and the code after them is kept; with no
      further marker, that is the whole result. */
  lemma KeepOneBlock(code: string, name: string, s: nat, x: nat, p: nat, lf: nat)
    requires s < x < p <= lf < |code|
    requires OccursAt(code, StartMarker(name), s) && (forall i: nat :: i < s ==> !OccursAt(code, StartMarker(name), i))
    requires OccursAt(code, EndMarker(name), p) && (forall i: nat :: s <= i < p ==> !OccursAt(code, EndMarker(name), i))
    requires code[x] == '\n' && (forall i :: s <= i < x ==> code[i] != '\n')
    requires code[lf] == '\n' && (forall i :: p <= i < lf ==> code[i] != '\n')
    requires var rest := code[..s] + code[x + 1..p] + code[lf + 1..];
             forall i: nat :: s <= i ==> !OccursAt(rest, StartMarker(name), i)
    ensures RemoveCodeBetweenComments(code, name, Option.None) == Ends(Success(code[..s] + code[x + 1..p] + code[lf + 1..]))
  {
    MarkerFacts(name);
    var m := StartMarker(name);
    IndexOfIs(code, m, 0, s);
    KeepPassAt(code, m, EndMarker(name), s, x, p, lf);
    var rest := code[..s] + code[x + 1..p] + code[lf + 1..];
    assert IndexOf(rest, m, s) == -1;
  }

  /** A keeping pass at `s`, in terms of positions: the marker line runs
      to the line feed at `x`, the end marker starts at `p` and its line
      ends at `lf`. */
  lemma KeepPassAt(code: string, m: string, en: string, s: nat, x: nat, p: nat, lf: nat)
    requires s < x < p <= lf < |code|
    requires OccursAt(code, m, s) && OccursAt(code, en, p)
    requires forall i: nat :: s <= i < p ==> !OccursAt(code, en, i)
    requires code[x] == '\n' && (forall i :: s <= i < x ==> code[i] != '\n')
    requires code[lf] == '\n' && (forall i :: p <= i < lf ==> code[i] != '\n')
    ensures var rest := code[..s] + code[x + 1..p] + code[lf + 1..];
            Step(code, m, en, Option.None, s) == Success((rest, IndexOf(rest, m, s)))
  {
    IndexOfIs(code, en, s, p);
    assert IndexOfChar(code, '\n', p) == lf;
    var code1 := code[..p] + code[lf + 1..];
    CutSlices(code, p, lf + 1, s, x + 1);
    assert IndexOfChar(code1, '\n', s) == x by {
      assert forall i :: s <= i <= x ==> code1[i] == code[i];
    }
    StepKeeps(code, m, en, s, p, lf, x);
  }

  /** A keeping pass, once its three searches are known. */
  lemma StepKeeps(code: string, m: string, en: string, s: nat, e: nat, lf: nat, lf2: nat)
    requires s <= e <= lf < |code|
    requires IndexOf(code, en, s) == e && IndexOfChar(code, '\n', e) == lf
    requires lf2 < e && IndexOfChar(code[..e] + code[lf + 1..], '\n', s) == lf2
    requires (code[..e] + code[lf + 1..])[..s] == code[..s]
    requires (code[..e] + code[lf + 1..])[lf2 + 1..] == code[lf2 + 1..e] + code[lf + 1..]
    ensures var rest := code[..s] + code[lf2 + 1..e] + code[lf + 1..];
            Step(code, m, en, Option.None, s) == Success((rest, IndexOf(rest, m, s)))
  {
    var code1 := code[..e] + code[lf + 1..];
    assert code1[..s] + code1[lf2 + 1..] == code[..s] + code[lf2 + 1..e] + code[lf + 1..];
    var rest := code[..s] + code[lf2 + 1..e] + code[lf + 1..];
    assert Step(code, m, en, Option.None, s) == KeepPass(code, m, s, e);
    assert KeepPass(code, m, s, e) == Success((rest, IndexOf(rest, m, s)));
  }

  /** Slicing code from which the span `[p, q)` was cut. */
  lemma CutSlices(code: string, p: nat, q: nat, s: nat, y: nat)
    requires s <= y <= p <= q <= |code|
    ensures (code[..p] + code[q..])[..s] == code[..s]
    ensures (code[..p] + code[q..])[y..] == code[y..p] + code[q..]
  {
    var c := code[..p] + code[q..];
    assert c[..s] == code[..s];
    assert c[y..] == code[y..p] + code[q..];
  }

  /** Replacing a block: when the first start marker is at `s` and the
      first end marker after it at `p`, everything from the start marker
      to the end of the end marker gives way to the replacement; with no
      marker after the replacement, that is the whole result. */
  lemma ReplaceOneBlock(code: string, name: string, repl: string, s: nat, p: nat)
    requires CannotStartMarker(repl, StartMarker(name))
    requires s <= p
    requires OccursAt(code, StartMarker(name), s) && (forall i: nat :: i < s ==> !OccursAt(code, StartMarker(name), i))
    requires OccursAt(code, EndMarker(name), p) && (forall i: nat :: s <= i < p ==> !OccursAt(code, EndMarker(name), i))
    requires var rest := code[..s] + repl + code[p + |EndMarker(name)|..];
             forall i: nat :: s + |repl| <= i ==> !OccursAt(rest, StartMarker(name), i)
    ensures RemoveCodeBetweenComments(code, name, Some(repl)) == Ends(Success(code[..s] + repl + code[p + |EndMarker(name)|..]))
  {
    MarkerFacts(name);
    ReplaceBlockAt(code, StartMarker(name), EndMarker(name), repl, s, p);
  }

  /** ReplaceOneBlock for any pair of non-empty markers. */
  lemma ReplaceBlockAt(code: string, m: string, en: string, repl: string, s: nat, p: nat)
    requires |m| > 0 && |en| > 0 && CannotStartMarker(repl, m)
    requires s <= p
    requires OccursAt(code, m, s) && (forall i: nat :: i < s ==> !OccursAt(code, m, i))
    requires OccursAt(code, en, p) && (forall i: nat :: s <= i < p ==> !OccursAt(code, en, i))
    requires var rest := code[..s] + repl + code[p + |en|..];
             forall i: nat :: s + |repl| <= i ==> !OccursAt(rest, m, i)
    ensures BlocksFrom(code, m, en, Some(repl), IndexOf(code, m, 0)) == Ends(Success(code[..s] + repl + code[p + |en|..]))
  {
    IndexOfIs(code, m, 0, s);
    IndexOfIs(code, en, s, p);
    var rest := code[..s] + repl + code[p + |en|..];
    assert IndexOf(rest, m, s) == -1 by {
      NoMarkerInReplacement(code[..s], repl, code[p + |en|..], m);
    }
    StepReplaces(code, m, en, repl, s, p);
  }

  /** A replacing pass, once its search is known. */
  lemma StepReplaces(code: string, m: string, en: string, repl: string, s: nat, e: nat)
    requires s <= e && e + |en| <= |code| && IndexOf(code, en, s) == e
    ensures var rest := code[..s] + repl + code[e + |en|..];
            Step(code, m, en, Some(repl), s) == Success((rest, IndexOf(rest, m, s)))
  {
  }

  /** Each block in turn: replacing the block at `s`, whose end marker is
      first found at `p`, and then going on from the first start marker
      after the replacement. */
  lemma ReplaceFirstBlock(code: string, m: string, en: string, repl: string, s: nat, p: nat)
    requires |m| > 0 && |en| > 0 && CannotStartMarker(repl, m)
    requires OccursAt(code, m, s) && s <= p
    requires OccursAt(code, en, p) && (forall i: nat :: s <= i < p ==> !OccursAt(code, en, i))
    ensures var rest := code[..s] + repl + code[p + |en|..];
            BlocksFrom(code, m, en, Some(repl), s) == BlocksFrom(rest, m, en, Some(repl), IndexOf(rest, m, s + |repl|))
  {
    var rest := code[..s] + repl + code[p + |en|..];
    var next := IndexOf(rest, m, s);
    assert Step(code, m, en, Some(repl), s) == Success((rest, next)) by {
      IndexOfIs(code, en, s, p);
      StepReplaces(code, m, en, repl, s, p);
    }
    assert next == IndexOf(rest, m, s + |repl|) by {
      NoMarkerInReplacement(code[..s], repl, code[p + |en|..], m);
      IndexOfSkips(rest, m, s, s + |repl|);
    }
    assert (rest, next) != (code, s) by {
      if |repl| == 0 {
        assert |rest| < |code|;
      }
    }
  }

  /** Each block in turn: keeping the block at `s`, whose marker line
      ends at `x` and whose end marker is first found at `p` with its line
      ending at `lf`, and then going on from the first start marker at or
      after `s`. */
  lemma KeepFirstBlock(code: string, m: string, en: string, s: nat, x: nat, p: nat, lf: nat)
    requires |m| > 0 && |en| > 0
    requires s < x < p <= lf < |code|
    requires OccursAt(code, m, s) && OccursAt(code, en, p)
    requires forall i: nat :: s <= i < p ==> !OccursAt(code, en, i)
    requires code[x] == '\n' && (forall i :: s <= i < x ==> code[i] != '\n')
    requires code[lf] == '\n' && (forall i :: p <= i < lf ==> code[i] != '\n')
    ensures var rest := code[..s] + code[x + 1..p] + code[lf + 1..];
            BlocksFrom(code, m, en, Option.None, s) == BlocksFrom(rest, m, en, Option.None, IndexOf(rest, m, s))
  {
    KeepPassAt(code, m, en, s, x, p, lf);
  }

  /** A pattern holding a character the text lacks occurs nowhere in it. */
  lemma AbsentChar(s: string, pat: string, c: char)
    requires c in pat && c !in s
    ensures forall i: nat :: !OccursAt(s, pat, i)
  {
    forall i: nat | i + |pat| <= |s| ensures !OccursAt(s, pat, i) {
      var k :| 0 <= k < |pat| && pat[k] == c;
      assert s[i..i + |pat|][k] == s[i + k] != c;
    }
  }

  /** A replaced block need not have an end marker: for `//BEGIN: X` at
      the start of the code and none after it, the span removed is the
      seven characters `//BEGIN`. */
  lemma ReplaceWithoutEndMarker(code: string)
    requires code == StartMarker("X") + "\nfoo"
    ensures CannotStartMarker("R", StartMarker("X"))
         && RemoveCodeBetweenComments(code, "X", Some("R")) == Ends(Success("R: X\nfoo"))
  {
    var m := StartMarker("X");
    var en := EndMarker("X");
    assert |en| == 8 && en[4] == 'D' && m[2] == 'B';
    IndexOfIs(code, m, 0, 0);
    AbsentChar(code, en, 'D');
    var rest := "R" + code[7..];
    assert rest == "R: X\nfoo";
    AbsentChar(rest, m, 'B');
    assert IndexOf(rest, m, 0) == -1;
    assert CannotStartMarker("R", m) by {
      assert !Agrees("R", m) by { assert "R"[0] != m[0]; }
    }
    assert code[..0] + "R" + code[7..] == rest;
    assert ReplacePass(code, m, "R", 0, 7) == Success((rest, -1));
    assert Step(code, m, en, Some("R"), 0) == Success((rest, -1));
  }

  /** An empty replacement for a block with no end marker that starts at
      `|en| - 1` removes nothing and inserts nothing, and the loop finds
      the same marker again forever. */
  lemma EmptyReplacementSpins(code: string)
    requires code == "1234567" + StartMarker("X")
    ensures RemoveCodeBetweenComments(code, "X", Some("")) == Spins
  {
    var m := StartMarker("X");
    var en := EndMarker("X");
    assert |en| == 8 && en[4] == 'D';
    forall i: nat | i < 7 ensures !OccursAt(code, m, i) {
      assert code[i] != m[0];
    }
    assert code[7..] == m;
    IndexOfIs(code, m, 0, 7);
    AbsentChar(code, en, 'D');
    assert code[..7] + "" + code[7..] == code;
    assert Step(code, m, en, Some(""), 7) == Success((code, 7));
  }

  /** A pattern differing from the text at one of its characters does not
      occur there. */
  lemma MismatchAt(s: string, pat: string, i: nat, k: nat)
    requires k < |pat| && i + k < |s| && s[i + k] != pat[k]
    ensures !OccursAt(s, pat, i)
  {
    if i + |pat| <= |s| {
      assert s[i..i + |pat|][k] == s[i + k];
    }
  }

  /** Blocks removed one after the other can leave a start marker behind,
      even at the position of the first one: here the first pass leaves
      `//BEG` in front of the second block, and removing that block joins
      it to `IN: X`. */
  lemma MarkerRebuilt(code: string)
    requires code == StartMarker("X") + EndMarker("X") + "//BEG" + StartMarker("X") + EndMarker("X") + "IN: X"
    ensures RemoveCodeBetweenComments(code, "X", Some("")) == Ends(Success(StartMarker("X")))
  {
    var m := StartMarker("X");
    var rest := "//BEG" + m + EndMarker("X") + "IN: X";
    assert code == m + EndMarker("X") + rest;
    IndexOfIs(code, m, 0, 0);
    RebuiltFirstPass(code, rest);
    RebuiltSecondPass(rest);
  }

  /** The first pass of MarkerRebuilt: the first block goes, and the
      search stops at the second. */
  lemma RebuiltFirstPass(code: string, rest: string)
    requires rest == "//BEG" + StartMarker("X") + EndMarker("X") + "IN: X"
    requires code == StartMarker("X") + EndMarker("X") + rest
    ensures OccursAt(code, StartMarker("X"), 0) && OccursAt(rest, StartMarker("X"), 5)
    ensures BlocksFrom(code, StartMarker("X"), EndMarker("X"), Some(""), 0)
         == BlocksFrom(rest, StartMarker("X"), EndMarker("X"), Some(""), 5)
  {
    var m := StartMarker("X");
    var en := EndMarker("X");
    assert |m| == 10 && |en| == 8 && en[4] == 'D';
    assert CannotStartMarker("", m);
    assert code[..18] == m + en && code[18..] == rest;
    EndAfterStart(code, m, en);
    ReplaceFirstBlock(code, m, en, "", 0, 10);
    assert code[..0] + "" + code[10 + |en|..] == rest;
    RestLayout(rest);
  }

  /** After the first pass, the next start marker is at 5. */
  lemma RestLayout(rest: string)
    requires rest == "//BEG" + StartMarker("X") + EndMarker("X") + "IN: X"
    ensures OccursAt(rest, StartMarker("X"), 5) && IndexOf(rest, StartMarker("X"), 0) == 5
  {
    var m := StartMarker("X");
    assert rest[5..15] == m;
    assert rest[..6] == "//BEG/";
    SecondMarkerFirst(rest, m);
  }

  /** In `//BEGIN: X//END: X…` the first `//END: X` is the one at 10. */
  lemma EndAfterStart(code: string, m: string, en: string)
    requires m == "//BEGIN: X" && en == "//END: X" && |code| >= 18 && code[..18] == m + en
    ensures OccursAt(code, m, 0) && OccursAt(code, en, 10)
    ensures forall i: nat :: i < 10 ==> !OccursAt(code, en, i)
  {
    assert code[..10] == m && code[10..18] == en;
    forall i: nat | i < 10 ensures !OccursAt(code, en, i) {
      assert code[..14] == m + "//EN";
      MismatchAt(code, en, i, 4);
    }
  }

  /** In `//BEG/…` the first `//BEGIN: X` at or after 0 is the one at 5. */
  lemma SecondMarkerFirst(rest: string, m: string)
    requires m == "//BEGIN: X" && |rest| >= 15 && rest[..6] == "//BEG/" && rest[5..15] == m
    ensures IndexOf(rest, m, 0) == 5
  {
    assert rest[2] == 'B' && rest[3] == 'E' && rest[4] == 'G' && rest[5] == '/';
    MismatchAt(rest, m, 0, 5);
    MismatchAt(rest, m, 1, 1);
    MismatchAt(rest, m, 2, 0);
    MismatchAt(rest, m, 3, 0);
    MismatchAt(rest, m, 4, 0);
    IndexOfIs(rest, m, 0, 5);
  }
  /** In `//BEG//BEGIN: X//END: X…` the first `//END: X` after 5 is the
      one at 15. */
  lemma EndAtFifteen(rest: string, m: string, en: string)
    requires m == "//BEGIN: X" && en == "//END: X" && |rest| >= 23
    requires rest[..19] == "//BEG" + m + "//EN" && rest[15..23] == en
    ensures OccursAt(rest, en, 15) && forall i: nat :: 5 <= i < 15 ==> !OccursAt(rest, en, i)
  {
    forall i: nat | 5 <= i < 15 ensures !OccursAt(rest, en, i) {
      MismatchAt(rest, en, i, 4);
    }
  }

  /** The second pass of MarkerRebuilt: the second block goes, joining
      `//BEG` to `IN: X`, and no search is left to make. */
  lemma RebuiltSecondPass(rest: string)
    requires rest == "//BEG" + StartMarker("X") + EndMarker("X") + "IN: X"
    requires OccursAt(rest, StartMarker("X"), 5)
    ensures BlocksFrom(rest, StartMarker("X"), EndMarker("X"), Some(""), 5) == Ends(Success(StartMarker("X")))
  {
    var m := StartMarker("X");
    var en := EndMarker("X");
    SecondLayout(rest, m, en);
    EndAtFifteen(rest, m, en);
    assert CannotStartMarker("", m);
    ReplaceFirstBlock(rest, m, en, "", 5, 15);
    assert rest[..5] + "" + rest[15 + |en|..] == m;
    assert IndexOf(m, m, 5) == -1;
  }

  /** Where the pieces of `//BEG//BEGIN: X//END: XIN: X` lie. */
  lemma SecondLayout(rest: string, m: string, en: string)
    requires m == "//BEGIN: X" && en == "//END: X"
    requires rest == "//BEG" + m + en + "IN: X"
    ensures |m| == 10 && |en| == 8 && |rest| == 28
    ensures rest[..19] == "//BEG" + m + "//EN" && rest[15..23] == en
    ensures rest[..5] + rest[23..] == m
  {
    assert rest[..5] == "//BEG" && rest[23..] == "IN: X";
  }
}

=== FILE: text_search.dfy ===
/** The string primitives the serializer uses on type names and code
    templates: ordinal substring search, counting a character, and
    left-to-right replacement. */
module TextSearch {

  /** `pat` occurs in `s` starting at index `i`. */
  predicate OccursAt(s: string, pat: string, i: nat) {
    i + |pat| <= |s| && s[i..i + |pat|] == pat
  }

  /** IndexOf(s, pat, from): the first index at or after `from` where `pat`
      occurs, or -1 when there is none. */
  function IndexOf(s: string, pat: string, from: nat): (r: int)
    ensures r == -1 || (from <= r && OccursAt(s, pat, r))
    ensures r == -1 ==> forall i: nat :: from <= i ==> !OccursAt(s, pat, i)
    ensures r >= 0 ==> forall i: nat :: from <= i < r ==> !OccursAt(s, pat, i)
    decreases |s| - from
  {
    if from + |pat| > |s| then -1
    else if s[from..from + |pat|] == pat then from
    else IndexOf(s, pat, from + 1)
  }

  /** IndexOf with a one-character pattern: the first index at or after
      `from` holding `c`, or -1. */
  function IndexOfChar(s: string, c: char, from: nat): (r: int)
    ensures r == -1 || (from <= r < |s| && s[r] == c)
    ensures r == -1 ==> forall i :: from <= i < |s| ==> s[i] != c
    ensures r >= 0 ==> forall i :: from <= i < r ==> s[i] != c
    decreases |s| - from
  {
    if from >= |s| then -1
    else if s[from] == c then from
    else IndexOfChar(s, c, from + 1)
  }

  /** Searching for a character is searching for the one-character string. */
  lemma {:induction false} IndexOfCharIsIndexOf(s: string, c: char, from: nat)
    ensures IndexOfChar(s, c, from) == IndexOf(s, [c], from)
    decreases |s| - from
  {
    if from < |s| {
      assert s[from..from + 1] == [s[from]];
      if s[from] != c {
        IndexOfCharIsIndexOf(s, c, from + 1);
      }
    }
  }

  /** The number of times `c` appears in `s`. */
  function CountChar(s: string, c: char): nat
    decreases |s|
  {
    if |s| == 0 then 0 else (if s[0] == c then 1 else 0) + CountChar(s[1..], c)
  }

  lemma {:induction false} CountCharConcat(a: string, b: string, c: char)
    ensures CountChar(a + b, c) == CountChar(a, c) + CountChar(b, c)
    decreases |a|
  {
    if |a| == 0 {
      assert a + b == b;
    } else {
      assert (a + b)[1..] == a[1..] + b;
      CountCharConcat(a[1..], b, c);
    }
  }

  lemma {:induction false} CountCharAbsent(s: string, c: char)
    requires forall i :: 0 <= i < |s| ==> s[i] != c
    ensures CountChar(s, c) == 0
    decreases |s|
  {
    if |s| > 0 {
      CountCharAbsent(s[1..], c);
    }
  }

  /** String.Replace: every occurrence of `pat`, found left to right and
      without overlap, is replaced by `repl`. */
  function ReplaceAll(s: string, pat: string, repl: string): string
    requires |pat| > 0
    decreases |s|
  {
    if |s| < |pat| then s
    else if s[..|pat|] == pat then repl + ReplaceAll(s[|pat|..], pat, repl)
    else [s[0]] + ReplaceAll(s[1..], pat, repl)
  }

  /** Removing a pattern changes the string exactly when the pattern occurs
      in it. */
  lemma {:induction false} RemoveAllChangesIffOccurs(s: string, pat: string)
    requires |pat| > 0
    ensures ReplaceAll(s, pat, "") == s <==> forall i: nat :: !OccursAt(s, pat, i)
    decreases |s|
  {
    if |s| < |pat| {
    } else if s[..|pat|] == pat {
      assert OccursAt(s, pat, 0);
      RemoveAllShorter(s[|pat|..], pat);
    } else {
      RemoveAllChangesIffOccurs(s[1..], pat);
      assert !OccursAt(s, pat, 0);
      forall i: nat
        ensures OccursAt(s, pat, i + 1) <==> OccursAt(s[1..], pat, i)
      {
        if i + 1 + |pat| <= |s| {
          ShiftedSlice(s, i, |pat|);
        }
      }
      assert (forall i: nat :: !OccursAt(s, pat, i)) <==> (forall i: nat :: !OccursAt(s[1..], pat, i)) by {
        if forall i: nat :: !OccursAt(s[1..], pat, i) {
          forall i: nat ensures !OccursAt(s, pat, i) {
            if i > 0 && i + |pat| <= |s| {
              assert !OccursAt(s[1..], pat, i - 1);
              ShiftedSlice(s, i - 1, |pat|);
            }
          }
        }
      }
      if ReplaceAll(s[1..], pat, "") != s[1..] {
        assert ReplaceAll(s, pat, "") == [s[0]] + ReplaceAll(s[1..], pat, "");
        assert ReplaceAll(s, pat, "")[1..] == ReplaceAll(s[1..], pat, "");
      }
    }
  }

  /** A slice of `s` read one character further on is the slice of `s[1..]`. */
  lemma ShiftedSlice(s: string, i: nat, n: nat)
    requires i + 1 + n <= |s|
    ensures s[i + 1..i + 1 + n] == s[1..][i..i + n]
  {
    var a, b := s[i + 1..i + 1 + n], s[1..][i..i + n];
    assert |a| == |b| && forall k :: 0 <= k < |a| ==> a[k] == b[k];
  }

  lemma {:induction false} RemoveAllShorter(s: string, pat: string)
    requires |pat| > 0
    ensures |ReplaceAll(s, pat, "")| <= |s|
    decreases |s|
  {
    if |s| < |pat| {
    } else if s[..|pat|] == pat {
      RemoveAllShorter(s[|pat|..], pat);
    } else {
      RemoveAllShorter(s[1..], pat);
    }
  }

  /** Removing a pattern that does not contain `c` keeps every `c`. */
  lemma {:induction false} RemoveAllKeepsChar(s: string, pat: string, c: char)
    requires |pat| > 0 && c !in pat
    ensures CountChar(ReplaceAll(s, pat, ""), c) == CountChar(s, c)
    decreases |s|
  {
    if |s| < |pat| {
    } else if s[..|pat|] == pat {
      RemoveAllKeepsChar(s[|pat|..], pat, c);
      assert s == s[..|pat|] + s[|pat|..];
      CountCharConcat(s[..|pat|], s[|pat|..], c);
      CountCharAbsent(s[..|pat|], c);
      assert "" + ReplaceAll(s[|pat|..], pat, "") == ReplaceAll(s[|pat|..], pat, "");
    } else {
      RemoveAllKeepsChar(s[1..], pat, c);
    }
  }

  /** A search in two texts that agree from `x` and from `y` on finds the
      same place, shifted by `x - y`. */
  lemma {:induction false} IndexOfShift(a: string, x: nat, b: string, y: nat, pat: string, d: nat)
    requires x <= |a| && y <= |b| && a[x..] == b[y..]
    ensures IndexOf(a, pat, x + d) == if IndexOf(b, pat, y + d) < 0 then -1 else IndexOf(b, pat, y + d) - y + x
    decreases |a| - x - d
  {
    assert |a| - x == |b| - y;
    if x + d + |pat| <= |a| {
      var sa, sb := a[x + d..x + d + |pat|], b[y + d..y + d + |pat|];
      forall k | 0 <= k < |sa| ensures sa[k] == sb[k] {
        assert a[x..][d + k] == b[y..][d + k];
      }
      assert sa == sb;
      if a[x + d..x + d + |pat|] != pat {
        IndexOfShift(a, x, b, y, pat, d + 1);
      }
    }
  }

  /** Searching a suffix is searching the whole text from where the suffix
      starts. */
  lemma SuffixIndexOf(s: string, p: nat, pat: string, d: nat)
    requires p <= |s|
    ensures IndexOf(s[p..], pat, d) == if IndexOf(s, pat, p + d) < 0 then -1 else IndexOf(s, pat, p + d) - p
  {
    IndexOfShift(s[p..], 0, s, p, pat, d);
  }

  /** A prefix without the pattern's first character is left alone. */
  lemma {:induction false} ReplaceAllPastPrefix(n: string, rest: string, pat: string, repl: string)
    requires |pat| > 0 && pat[0] !in n
    ensures ReplaceAll(n + rest, pat, repl) == n + ReplaceAll(rest, pat, repl)
    decreases |n|
  {
    if |n| > 0 {
      var s := n + rest;
      assert s[0] == n[0] && s[1..] == n[1..] + rest;
      if |s| >= |pat| {
        assert s[..|pat|][0] == n[0];
      }
      ReplaceAllPastPrefix(n[1..], rest, pat, repl);
      assert n == [n[0]] + n[1..];
    } else {
      assert n + rest == rest;
    }
  }

  /** A text missing one of the pattern's characters is left alone. */
  lemma {:induction false} ReplaceAllWithout(s: string, pat: string, repl: string, c: char)
    requires |pat| > 0 && c in pat && c !in s
    ensures ReplaceAll(s, pat, repl) == s
    decreases |s|
  {
    if |s| >= |pat| {
      assert s[..|pat|] != pat;
      ReplaceAllWithout(s[1..], pat, repl, c);
      assert s == [s[0]] + s[1..];
    }
  }

  /** A search can skip a stretch where the pattern does not occur. */
  lemma {:induction false} IndexOfSkips(s: string, pat: string, from: nat, k: nat)
    requires from <= k && forall i: nat :: from <= i < k ==> !OccursAt(s, pat, i)
    ensures IndexOf(s, pat, from) == IndexOf(s, pat, k)
    decreases k - from
  {
    if from < k {
      assert !OccursAt(s, pat, from);
      IndexOfSkips(s, pat, from + 1, k);
    }
  }

  /** Replacement is one pass: removing `, mscorlib` from
      `, msc, mscorliborlib` joins the pieces around it into a new
      `, mscorlib`. */
  lemma RemovalIsOnePass(s: string)
    requires s == ", msc" + ", mscorlib" + "orlib"
    ensures ReplaceAll(s, ", mscorlib", "") == ", mscorlib"
  {
    var pat, tail := ", mscorlib", "orlib";
    var joined := pat + tail;
    assert ReplaceAll(s, pat, "") == [','] + ReplaceAll(s[1..], pat, "") by {
      assert |s| == 20 && s[0] == ',' && s[5] == ',' && pat[5] == 'o';
      assert s[..|pat|][5] != pat[5];
    }
    assert ReplaceAll(s[1..], pat, "") == " msc" + ReplaceAll(joined, pat, "") by {
      assert s[1..] == " msc" + joined;
      ReplaceAllPastPrefix(" msc", joined, pat, "");
    }
    assert ReplaceAll(joined, pat, "") == tail by {
      assert joined[..|pat|] == pat && joined[|pat|..] == tail;
    }
    assert [','] + (" msc" + tail) == pat;
  }

}

=== FILE: type_attribute.dfy ===
/** The serialization attribute placed on a type: how the type itself and
    the keys and values of a collection of it are written
    (XmlSerializationTypeAttribute.cs). */
module TypeAttribute {
  import opened Wrappers
  import opened NodeTypes
  import opened AttributeBase
  import Folds

  datatype TypeAttr = TypeAttr(
    names: ChildNames,
    nodeType: NodeType,
    childKeyNodeType: NodeType,
    childValueNodeType: NodeType)

  /** A freshly constructed attribute: no names, every kind `Auto`. */
  const Fresh: TypeAttr := TypeAttr(NoNames, Auto, Auto, Auto)

  datatype KindField = NodeTypeField | ChildKeyTypeField | ChildValueTypeField

  function KindOf(a: TypeAttr, f: KindField): NodeType {
    match f
    case NodeTypeField => a.nodeType
    case ChildKeyTypeField => a.childKeyNodeType
    case ChildValueTypeField => a.childValueNodeType
  }

  function FillKind(mine: NodeType, other: NodeType): NodeType {
    if mine == Auto then other else mine
  }

  /** Merge: the base names, then each kind still `Auto` is taken from
      `other`; anything already chosen stays. */
  function Merge(mine: TypeAttr, other: TypeAttr): (r: TypeAttr)
    ensures r.names == MergeBase(mine.names, other.names)
    ensures forall f: KindField :: KindOf(mine, f) != Auto ==> KindOf(r, f) == KindOf(mine, f)
    ensures forall f: KindField :: KindOf(mine, f) == Auto ==> KindOf(r, f) == KindOf(other, f)
  {
    TypeAttr(
      MergeBase(mine.names, other.names),
      FillKind(mine.nodeType, other.nodeType),
      FillKind(mine.childKeyNodeType, other.childKeyNodeType),
      FillKind(mine.childValueNodeType, other.childValueNodeType))
  }

  /** Clone: a fresh attribute merged with this one. */
  function Clone(a: TypeAttr): TypeAttr {
    Merge(Fresh, a)
  }

  /** Merging in a list of attributes one after another. */
  function FoldMerge(acc: TypeAttr, layers: seq<TypeAttr>): TypeAttr {
    Folds.FoldLeft(Merge, acc, layers)
  }

  function NamesOf(a: TypeAttr): ChildNames {
    a.names
  }

  /** The child names of each layer, in order. */
  function Names(layers: seq<TypeAttr>): seq<ChildNames> {
    Folds.Project(NamesOf, layers)
  }

  /** The first chosen kind among the layers, `Auto` when none chose. */
  function FirstKind(layers: seq<TypeAttr>, f: KindField): (k: NodeType)
    ensures k != Auto <==> exists i :: 0 <= i < |layers| && KindOf(layers[i], f) != Auto
    decreases |layers|
  {
    if |layers| == 0 then Auto
    else if KindOf(layers[0], f) != Auto then KindOf(layers[0], f)
    else
      var k := FirstKind(layers[1..], f);
      assert forall i :: 1 <= i < |layers| ==> layers[i] == layers[1..][i - 1];
      k
  }

  /** In layers put one after the other, the first part decides a kind
      when it chooses one. */
  lemma {:induction false} FirstKindConcat(a: seq<TypeAttr>, b: seq<TypeAttr>, f: KindField)
    ensures FirstKind(a + b, f) == FillKind(FirstKind(a, f), FirstKind(b, f))
    decreases |a|
  {
    if |a| == 0 {
      assert a + b == b;
    } else {
      assert (a + b)[0] == a[0] && (a + b)[1..] == a[1..] + b;
      FirstKindConcat(a[1..], b, f);
    }
  }

  /** Precedence of a fold of merges, kind by kind: what the accumulator
      chose wins, then the earliest layer that chose. */
  lemma {:induction false} FoldMergeKind(acc: TypeAttr, layers: seq<TypeAttr>, f: KindField)
    ensures KindOf(FoldMerge(acc, layers), f) == FillKind(KindOf(acc, f), FirstKind(layers, f))
    decreases |layers|
  {
    if |layers| > 0 {
      FoldMergeKind(Merge(acc, layers[0]), layers[1..], f);
    }
  }

  /** `r` is what the layers give when the first layer that chooses a kind
      or gives a name wins; a name nobody gave stays unset. */
  ghost predicate Resolves(r: TypeAttr, layers: seq<TypeAttr>) {
    && (forall f: KindField :: KindOf(r, f) == FirstKind(layers, f))
    && (forall f: NameField :: FirstName(Names(layers), f).Some? ==> NameOf(r.names, f) == FirstName(Names(layers), f))
    && (forall f: NameField :: FirstName(Names(layers), f).None? ==> !IsSet(NameOf(r.names, f)))
  }

  /** A fold of merges from a fresh attribute resolves its layers. */
  lemma FoldFromFreshResolves(layers: seq<TypeAttr>)
    ensures Resolves(FoldMerge(Fresh, layers), layers)
  {
    forall f: KindField ensures KindOf(FoldMerge(Fresh, layers), f) == FirstKind(layers, f) {
      FoldMergeKind(Fresh, layers, f);
    }
    Folds.FoldProjects(Merge, MergeBase, NamesOf, Fresh, layers);
    forall f: NameField
      ensures FirstName(Names(layers), f).Some? ==> NameOf(FoldMerge(Fresh, layers).names, f) == FirstName(Names(layers), f)
      ensures FirstName(Names(layers), f).None? ==> !IsSet(NameOf(FoldMerge(Fresh, layers).names, f))
    {
      FoldMergeBaseName(NoNames, Names(layers), f);
    }
  }

  /** A clone of `first` merged with the fold of the other layers resolves
      all the layers with `first` in front. */
  lemma CloneInFrontResolves(first: TypeAttr, layers: seq<TypeAttr>)
    ensures Resolves(Merge(Clone(first), FoldMerge(Fresh, layers)), [first] + layers)
  {
    assert Clone(first) == first;
    Folds.MergeInFront(Merge, first, Fresh, layers);
    var all := [first] + layers;
    assert all[0] == first && all[1..] == layers;
    FrontKinds(first, layers);
    AttributeBase.FrontNames(Merge, NamesOf, Fresh, first, layers);
  }

  /** The kinds of a fold that starts by merging `first`. */
  lemma FrontKinds(first: TypeAttr, layers: seq<TypeAttr>)
    ensures forall f: KindField :: KindOf(FoldMerge(Merge(first, Fresh), layers), f) == FirstKind([first] + layers, f)
  {
    var all := [first] + layers;
    assert all[0] == first && all[1..] == layers;
    forall f: KindField ensures KindOf(FoldMerge(Merge(first, Fresh), layers), f) == FirstKind(all, f) {
      FoldMergeKind(Merge(first, Fresh), layers, f);
    }
  }
}

=== FILE: type_names.dfy ===
/** Type names as the serializer writes and looks them up: the `_type`
    attribute value without version information, the non-generic name used
    as a table key, and the memoised lookups (CachedTypeResolver.cs). */
module TypeNames {
  import opened Wrappers
  import opened TextSearch
  import Reflection

  const MscorlibSuffix: string := ", mscorlib"
  const VersionMarker: string := ", Version="

  /** The version cutting read as a scanner over the name, outside a
      block: characters are kept until `marker` opens a block. */
  function Kept(t: string, marker: string): string
    decreases |t|, 1
  {
    if |t| == 0 then ""
    else if OccursAt(t, marker, 0) then Skipped(t[1..], marker)
    else [t[0]] + Kept(t[1..], marker)
  }

  /** The scanner inside a block: characters are dropped up to the `]`
      that closes it, which is kept; a block no `]` closes runs to the end. */
  function Skipped(t: string, marker: string): string
    decreases |t|, 0
  {
    if |t| == 0 then ""
    else if t[0] == ']' then "]" + Kept(t[1..], marker)
    else Skipped(t[1..], marker)
  }

  /** The name the cutting leaves: the name itself when it starts with the
      marker (the cutting only starts at a marker found past index 0),
      otherwise what the scanner keeps. */
  function Stripped(s: string): string {
    if OccursAt(s, VersionMarker, 0) then s else Kept(s, VersionMarker)
  }

  /** The name GetNameForGetType returns: every `, mscorlib` removed, then
      the version blocks cut. */
  function NameForGetType(assemblyQualifiedName: string): string {
    Stripped(ReplaceAll(assemblyQualifiedName, MscorlibSuffix, ""))
  }

  /** GetNameForGetType: drop every `, mscorlib` from the assembly-qualified
      name, then cut each `, Version=...` block up to (not including) the
      next `]`, or to the end when no `]` follows. */
  method GetNameForGetType(assemblyQualifiedName: string) returns (name: string)
    ensures name == NameForGetType(assemblyQualifiedName)
    ensures !OccursAt(ReplaceAll(assemblyQualifiedName, MscorlibSuffix, ""), VersionMarker, 0) ==>
              forall i: nat :: !OccursAt(name, VersionMarker, i)
    ensures CountChar(name, ']') == CountChar(assemblyQualifiedName, ']')
    ensures |name| <= |assemblyQualifiedName|
    ensures (forall i: nat :: !OccursAt(assemblyQualifiedName, MscorlibSuffix, i) && !OccursAt(assemblyQualifiedName, VersionMarker, i))
              ==> name == assemblyQualifiedName
  {
    var cleaned := ReplaceAll(assemblyQualifiedName, MscorlibSuffix, "");
    RemoveAllShorter(assemblyQualifiedName, MscorlibSuffix);
    RemoveAllKeepsChar(assemblyQualifiedName, MscorlibSuffix, ']');
    RemoveAllChangesIffOccurs(assemblyQualifiedName, MscorlibSuffix);
    name := StripVersions(cleaned);
  }

  /** The version-cutting loop of GetNameForGetType. */
  method StripVersions(input: string) returns (name: string)
    ensures name == Stripped(input)
    ensures !OccursAt(input, VersionMarker, 0) ==> forall i: nat :: !OccursAt(name, VersionMarker, i)
    ensures CountChar(name, ']') == CountChar(input, ']')
    ensures |name| <= |input|
    ensures (forall i: nat :: !OccursAt(input, VersionMarker, i)) ==> name == input
  {
    name := input;
    var versionIndex := IndexOf(name, VersionMarker, 0);
    ghost var p: nat := 0;
    CuttingStarts(input);
    while versionIndex > 0
      invariant Cutting(input, name, versionIndex, p)
      decreases |name|
    {
      var endIndex := IndexOf(name, "]", versionIndex + 1);
      if endIndex > 0 {
        name, versionIndex, p := CutBlock(input, name, versionIndex, endIndex, p);
      } else {
        TruncateKeeps(input, name, versionIndex, p);
        name := name[..versionIndex];
        break;
      }
    }
    if versionIndex <= 0 {
      CuttingEnds(input, name, versionIndex, p);
    }
    NoMarkerNothingCut(input);
  }

  /** The state of the cutting loop: `versionIndex` is the marker it is
      at (-1 once none is left; 0 when the name starts with the marker and
      is left alone), and the part of the name before `p` is final while
      the rest is still to be scanned. */
  ghost predicate Cutting(input: string, name: string, versionIndex: int, p: nat) {
    && versionIndex >= -1
    && (versionIndex >= 0 ==> OccursAt(name, VersionMarker, versionIndex))
    && (versionIndex == -1 ==> forall i: nat :: !OccursAt(name, VersionMarker, i))
    && (versionIndex > 0 ==> forall i: nat :: i < versionIndex ==> !OccursAt(name, VersionMarker, i))
    && (versionIndex == 0 ==> name == input)
    && CountChar(name, ']') == CountChar(input, ']')
    && |name| <= |input|
    && p <= |name|
    && (versionIndex != 0 ==> versionIndex == IndexOf(name, VersionMarker, p))
    && (versionIndex != 0 ==> Stripped(input) == name[..p] + Kept(name[p..], VersionMarker))
  }

  lemma CuttingStarts(input: string)
    ensures Cutting(input, input, IndexOf(input, VersionMarker, 0), 0)
  {
    assert input[..0] + Kept(input[0..], VersionMarker) == Kept(input, VersionMarker);
  }

  /** The cut at a marker with a `]` after it: the name loses the block
      between them and the search for the next marker goes on after the
      `]`. */
  method CutBlock(input: string, name: string, at: nat, end: nat, ghost p: nat)
      returns (cut: string, next: int, ghost p2: nat)
    requires Cutting(input, name, at, p) && at > 0
    requires end == IndexOf(name, "]", at + 1) && end > 0
    ensures cut == name[..at] + name[end..] && next == IndexOf(cut, VersionMarker, at + 1)
    ensures Cutting(input, cut, next, p2) && next != 0 && |cut| < |name|
  {
    CutBlockKeeps(input, name, at, p);
    cut := name[..at] + name[end..];
    p2 := at + 1;
    next := IndexOf(cut, VersionMarker, at + 1);
  }

  /** Cutting the block at `at` up to the next `]` keeps the loop state. */
  lemma CutBlockKeeps(input: string, name: string, at: nat, p: nat)
    requires Cutting(input, name, at, p) && at > 0
    requires IndexOf(name, "]", at + 1) > 0
    ensures var end := IndexOf(name, "]", at + 1);
            var cut := name[..at] + name[end..];
            && |cut| < |name|
            && Cutting(input, cut, IndexOf(cut, VersionMarker, at + 1), at + 1)
  {
    var end := IndexOf(name, "]", at + 1);
    CutBlockPreserves(name, VersionMarker, p, at, Stripped(input));
    CutStep(name, at, end);
  }

  /** Truncating at a marker with no `]` after it finishes the cutting. */
  lemma TruncateKeeps(input: string, name: string, at: nat, p: nat)
    requires Cutting(input, name, at, p) && at > 0
    requires IndexOf(name, "]", at + 1) <= 0
    ensures Finished(input, name[..at])
  {
    TruncatePreserves(name, VersionMarker, p, at, Stripped(input));
    TruncateStep(name, at);
  }

  /** The loop leaves off with no marker past `p`, or never starts. */
  lemma CuttingEnds(input: string, name: string, versionIndex: int, p: nat)
    requires Cutting(input, name, versionIndex, p) && versionIndex <= 0
    ensures Finished(input, name)
  {
    if versionIndex < 0 {
      NothingLeftToCut(name, VersionMarker, p, Stripped(input));
    }
  }

  /** What the finished loop promises about its name. */
  ghost predicate Finished(input: string, name: string) {
    && name == Stripped(input)
    && (!OccursAt(input, VersionMarker, 0) ==> forall i: nat :: !OccursAt(name, VersionMarker, i))
    && CountChar(name, ']') == CountChar(input, ']')
    && |name| <= |input|
  }

  /** A name without the marker is kept whole. */
  lemma NoMarkerNothingCut(s: string)
    ensures (forall i: nat :: !OccursAt(s, VersionMarker, i)) ==> Stripped(s) == s
  {
    if forall i: nat :: !OccursAt(s, VersionMarker, i) {
      assert IndexOf(s, VersionMarker, 0) < 0;
      KeptUpToMarker(s, VersionMarker);
    }
  }

  lemma IndexOfPastFirst(t: string, marker: string)
    requires |t| > 0 && !OccursAt(t, marker, 0)
    ensures IndexOf(t, marker, 0) == if IndexOf(t[1..], marker, 0) < 0 then -1 else IndexOf(t[1..], marker, 0) + 1
  {
    assert IndexOf(t, marker, 0) == IndexOf(t, marker, 1);
    SuffixIndexOf(t, 1, marker, 0);
  }

  lemma {:induction false} KeptUpToMarker(t: string, marker: string)
    ensures IndexOf(t, marker, 0) < 0 ==> Kept(t, marker) == t
    ensures var k := IndexOf(t, marker, 0);
            k >= 0 ==> Kept(t, marker) == t[..k] + Kept(t[k..], marker)
    decreases |t|
  {
    if |t| > 0 && OccursAt(t, marker, 0) {
      assert IndexOf(t, marker, 0) == 0;
      assert t[..0] + Kept(t[0..], marker) == Kept(t, marker);
    } else if |t| > 0 {
      var k, k1 := IndexOf(t, marker, 0), IndexOf(t[1..], marker, 0);
      var rest := t[1..];
      KeptUpToMarker(rest, marker);
      IndexOfPastFirst(t, marker);
      assert Kept(t, marker) == [t[0]] + Kept(rest, marker);
      if k >= 0 {
        var tail := Kept(rest[k1..], marker);
        assert [t[0]] + (rest[..k1] + tail) == ([t[0]] + rest[..k1]) + tail;
        assert t[..k] == [t[0]] + rest[..k1];
        assert t[k..] == rest[k1..];
      } else {
        assert t == [t[0]] + rest;
      }
    }
  }

  /** Inside a block, everything up to the first `]` is dropped. */
  lemma {:induction false} SkippedToBracket(t: string, marker: string)
    ensures IndexOfChar(t, ']', 0) < 0 ==> Skipped(t, marker) == ""
    ensures var e := IndexOfChar(t, ']', 0);
            e >= 0 ==> Skipped(t, marker) == "]" + Kept(t[e + 1..], marker)
    decreases |t|
  {
    if |t| > 0 && t[0] != ']' {
      SkippedToBracket(t[1..], marker);
      assert IndexOfChar(t, ']', 0) == IndexOfChar(t, ']', 1);
      var e := IndexOfChar(t, ']', 0);
      if e >= 0 {
        assert t[e + 1..] == t[1..][e..];
      }
    }
  }

  /** Up to the marker at `at`, the rest of the name is kept as it is. */
  lemma KeptToMarker(name: string, marker: string, p: nat, at: nat)
    requires p <= |name| && at == IndexOf(name, marker, p)
    ensures Kept(name[p..], marker) == name[p..at] + Kept(name[at..], marker)
  {
    SuffixIndexOf(name, p, marker, 0);
    KeptUpToMarker(name[p..], marker);
    assert name[p..][..at - p] == name[p..at];
    assert name[p..][at - p..] == name[at..];
  }

  /** At the marker, the block up to the next `]` is dropped and the `]`
      kept; with no `]` after it, nothing more is kept. */
  lemma KeptAtMarker(name: string, marker: string, at: nat)
    requires |marker| > 0 && OccursAt(name, marker, at)
    ensures var e := IndexOf(name, "]", at + 1);
            Kept(name[at..], marker) == if e < 0 then "" else "]" + Kept(name[e + 1..], marker)
  {
    var t := name[at + 1..];
    var e := IndexOf(name, "]", at + 1);
    var eT := IndexOfChar(t, ']', 0);
    assert Kept(name[at..], marker) == Skipped(t, marker) by {
      assert name[at..][..|marker|] == name[at..at + |marker|];
      assert OccursAt(name[at..], marker, 0);
      assert name[at..][1..] == t;
    }
    assert eT == if e < 0 then -1 else e - at - 1 by {
      IndexOfCharIsIndexOf(t, ']', 0);
      SuffixIndexOf(name, at + 1, "]", 0);
    }
    SkippedToBracket(t, marker);
    if e >= 0 {
      assert t[eT + 1..] == name[e + 1..];
    }
  }

  /** Cutting the block at `at` up to the `]` at `e` keeps, in step with
      `target`, the name made so far. */
  lemma CutBlockPreserves(name: string, marker: string, p: nat, at: nat, target: string)
    requires p <= |name| && |marker| > 0 && at == IndexOf(name, marker, p)
    requires target == name[..p] + Kept(name[p..], marker)
    requires IndexOf(name, "]", at + 1) >= 0
    ensures var cut := name[..at] + name[IndexOf(name, "]", at + 1)..];
            at + 1 <= |cut| && target == cut[..at + 1] + Kept(cut[at + 1..], marker)
  {
    var e := IndexOf(name, "]", at + 1);
    var mid := Kept(name[at..], marker);
    KeptToMarker(name, marker, p, at);
    KeptAtClosedMarker(name, marker, at, e);
    CutAssembles(name, p, at, e, target, Kept(name[p..], marker), mid, Kept(name[e + 1..], marker));
  }

  /** The concatenations behind CutBlockPreserves, with what is kept given
      as plain strings. */
  lemma CutAssembles(name: string, p: nat, at: nat, e: nat, target: string, keptP: string, mid: string, after: string)
    requires p <= at < e < |name| && name[e] == ']'
    requires target == name[..p] + keptP && keptP == name[p..at] + mid && mid == "]" + after
    ensures var cut := name[..at] + name[e..];
            at + 1 <= |cut| && target == cut[..at + 1] + after && cut[at + 1..] == name[e + 1..]
  {
    var cut := name[..at] + name[e..];
    assert cut[..at + 1] == name[..at] + "]";
    assert cut[at + 1..] == name[e + 1..];
    assert name[..p] + name[p..at] == name[..at];
  }

  /** At a marker whose block a `]` at `e` closes, what is kept is that
      `]` and what is kept after it. */
  lemma KeptAtClosedMarker(name: string, marker: string, at: nat, e: int)
    requires |marker| > 0 && OccursAt(name, marker, at)
    requires e == IndexOf(name, "]", at + 1) && e >= 0
    ensures Kept(name[at..], marker) == "]" + Kept(name[e + 1..], marker)
  {
    KeptAtMarker(name, marker, at);
  }

  /** Cutting the block between `at` and the `]` at `e` leaves that `]` at
      `at`, followed by what came after it. */
  lemma CutLayout(name: string, at: nat, e: int)
    requires e == IndexOf(name, "]", at + 1) && e >= 0
    ensures (name[..at] + name[e..])[..at + 1] == name[..at] + "]"
    ensures (name[..at] + name[e..])[at + 1..] == name[e + 1..]
  {
    assert name[e..e + 1] == "]";
  }

  /** Truncating at a marker with no `]` after it finishes `target`. */
  lemma TruncatePreserves(name: string, marker: string, p: nat, at: nat, target: string)
    requires p <= |name| && |marker| > 0 && at == IndexOf(name, marker, p)
    requires target == name[..p] + Kept(name[p..], marker)
    requires IndexOf(name, "]", at + 1) < 0
    ensures target == name[..at]
  {
    KeptToMarker(name, marker, p, at);
    KeptAtMarker(name, marker, at);
    assert name[..p] + name[p..at] == name[..at];
  }

  /** With no marker left past `p`, the rest of the name is kept whole. */
  lemma NothingLeftToCut(name: string, marker: string, p: nat, target: string)
    requires p <= |name| && IndexOf(name, marker, p) < 0
    requires target == name[..p] + Kept(name[p..], marker)
    ensures target == name
  {
    SuffixIndexOf(name, p, marker, 0);
    KeptUpToMarker(name[p..], marker);
    assert name == name[..p] + name[p..];
  }

  /** Inside a block that no `]` closes, nothing is kept. */
  lemma SkippedUnclosed(t: string, marker: string)
    requires ']' !in t
    ensures Skipped(t, marker) == ""
  {
    SkippedToBracket(t, marker);
  }

  /** In a plain name followed by the marker, the first marker is the one
      after the name. */
  lemma MarkerAfterName(n: string, rest: string)
    requires ',' !in n
    ensures IndexOf(n + VersionMarker + rest, VersionMarker, 0) == |n|
  {
    var s := n + VersionMarker + rest;
    forall i: nat | i < |n| ensures !OccursAt(s, VersionMarker, i) {
      assert s[i] == n[i] && n[i] != VersionMarker[0];
      if i + |VersionMarker| <= |s| {
        assert s[i..i + |VersionMarker|][0] == s[i];
      }
    }
    IndexOfSkips(s, VersionMarker, 0, |n|);
    assert s[|n|..|n| + |VersionMarker|] == VersionMarker;
  }

  /** A plain name followed by a version block that no `]` closes keeps
      just the name. */
  lemma NameThenVersion(n: string, rest: string)
    requires |n| > 0 && ',' !in n && ']' !in rest
    ensures Stripped(n + VersionMarker + rest) == n
  {
    var s := n + VersionMarker + rest;
    MarkerAfterName(n, rest);
    assert !OccursAt(s, VersionMarker, 0);
    KeptUpToMarker(s, VersionMarker);
    assert s[..|n|] == n;
    var t := s[|n|..];
    assert t == VersionMarker + rest;
    assert OccursAt(t, VersionMarker, 0) by {
      assert t[..|VersionMarker|] == VersionMarker;
    }
    assert t[1..] == VersionMarker[1..] + rest;
    SkippedUnclosed(VersionMarker[1..] + rest, VersionMarker);
  }

  /** A plain type of mscorlib is written with neither its assembly nor its
      version: `n, mscorlib, Version=...` becomes `n`. */
  lemma CorlibTypeName(n: string, version: string)
    requires |n| > 0 && ',' !in n && ']' !in version && 'm' !in version
    ensures NameForGetType(n + MscorlibSuffix + VersionMarker + version) == n
  {
    var tail := VersionMarker + version;
    var rest := MscorlibSuffix + tail;
    assert ReplaceAll(rest, MscorlibSuffix, "") == tail by {
      assert rest[..|MscorlibSuffix|] == MscorlibSuffix;
      assert rest[|MscorlibSuffix|..] == tail;
      assert 'm' !in tail;
      ReplaceAllWithout(tail, MscorlibSuffix, "", 'm');
    }
    assert ReplaceAll(n + MscorlibSuffix + VersionMarker + version, MscorlibSuffix, "") == n + VersionMarker + version by {
      assert n + MscorlibSuffix + VersionMarker + version == n + rest;
      ReplaceAllPastPrefix(n, rest, MscorlibSuffix, "");
      assert n + tail == n + VersionMarker + version;
    }
    NameThenVersion(n, version);
  }

  /** The `_type` value written for `int` is `System.Int32` (the
      assembly-qualified name is given in its parts). */
  lemma Int32Name(aqn: string)
    requires aqn == "System.Int32" + ", mscorlib" + ", Version=" + "4.0.0.0, Culture=neutral" + ", PublicKeyToken=b77a5c561934e089"
    ensures NameForGetType(aqn) == "System.Int32"
  {
    var version := "4.0.0.0, Culture=neutral" + ", PublicKeyToken=b77a5c561934e089";
    Int32Version(version);
    assert aqn == "System.Int32" + MscorlibSuffix + VersionMarker + version;
    CorlibTypeName("System.Int32", version);
  }

  lemma Int32Version(version: string)
    requires version == "4.0.0.0, Culture=neutral" + ", PublicKeyToken=b77a5c561934e089"
    ensures ']' !in version && 'm' !in version
  {
    var culture, key := "4.0.0.0, Culture=neutral", ", PublicKeyToken=b77a5c561934e089";
    assert ']' !in culture && 'm' !in culture;
    assert ']' !in key && 'm' !in key;
  }

  /** Between a marker found at `at` and the next `]` at `end` (or the end
      of the text when `end` is -1) there is no `]`. */
  lemma NoBracketInBlock(name: string, at: nat, end: int)
    requires OccursAt(name, VersionMarker, at)
    requires end == IndexOf(name, "]", at + 1)
    ensures forall k :: at <= k < |name| && (end == -1 || k < end) ==> name[k] != ']'
    ensures end >= 0 ==> end >= at + |VersionMarker| && end < |name| && name[end] == ']'
  {
    forall k | at <= k < |name| && (end == -1 || k < end)
      ensures name[k] != ']'
    {
      if k < at + |VersionMarker| {
        assert name[at..at + |VersionMarker|] == VersionMarker;
        assert name[k] == VersionMarker[k - at];
      } else {
        assert !OccursAt(name, "]", k);
        assert name[k..k + 1] == [name[k]];
      }
    }
    if end >= 0 {
      assert name[end..end + 1] == [name[end]];
    }
  }

  /** Cutting the block between a marker and the next `]` keeps every `]`,
      shortens the text, and leaves no marker before the cut. */
  lemma CutStep(name: string, at: nat, end: int)
    requires OccursAt(name, VersionMarker, at)
    requires forall i: nat :: i < at ==> !OccursAt(name, VersionMarker, i)
    requires end == IndexOf(name, "]", at + 1) && end > 0
    ensures |name[..at] + name[end..]| < |name|
    ensures CountChar(name[..at] + name[end..], ']') == CountChar(name, ']')
    ensures forall i: nat :: i <= at ==> !OccursAt(name[..at] + name[end..], VersionMarker, i)
  {
    NoBracketInBlock(name, at, end);
    CutKeepsBrackets(name, at, end);
    var cut := name[..at] + name[end..];
    assert cut[at] == ']';
    assert cut[..at] == name[..at];
    NoMarkerAcrossCut(name, cut, at);
    assert !OccursAt(cut, VersionMarker, at) by {
      assert VersionMarker[0] == ',';
    }
  }

  lemma CutKeepsBrackets(name: string, at: nat, end: nat)
    requires at <= end <= |name|
    requires forall k :: at <= k < end ==> name[k] != ']'
    ensures CountChar(name[..at] + name[end..], ']') == CountChar(name, ']')
  {
    assert name[..at] + name[at..end] == name[..end];
    assert name == name[..end] + name[end..];
    CountCharConcat(name[..end], name[end..], ']');
    CountCharConcat(name[..at], name[at..end], ']');
    CountCharConcat(name[..at], name[end..], ']');
    CountCharAbsent(name[at..end], ']');
  }

  /** Truncating at a marker with no `]` after it keeps every `]` and leaves
      no marker at all. */
  lemma TruncateStep(name: string, at: nat)
    requires OccursAt(name, VersionMarker, at)
    requires forall i: nat :: i < at ==> !OccursAt(name, VersionMarker, i)
    requires IndexOf(name, "]", at + 1) <= 0
    ensures CountChar(name[..at], ']') == CountChar(name, ']')
    ensures forall i: nat :: !OccursAt(name[..at], VersionMarker, i)
  {
    NoBracketInBlock(name, at, -1);
    assert name == name[..at] + name[at..];
    CountCharConcat(name[..at], name[at..], ']');
    CountCharAbsent(name[at..], ']');
    forall i: nat ensures !OccursAt(name[..at], VersionMarker, i) {
      if OccursAt(name[..at], VersionMarker, i) {
        assert name[..at][i..i + |VersionMarker|] == name[i..i + |VersionMarker|];
        assert OccursAt(name, VersionMarker, i);
      }
    }
  }

  /** After the cut at `cut`, where the new text holds `]` (which the marker
      does not contain), no marker starts before `cut`. */
  lemma NoMarkerAcrossCut(before: string, after: string, cut: nat)
    requires cut < |after| && cut <= |before|
    requires after[..cut] == before[..cut]
    requires after[cut] == ']'
    requires forall i: nat :: i < cut ==> !OccursAt(before, VersionMarker, i)
    ensures forall i: nat :: i < cut ==> !OccursAt(after, VersionMarker, i)
  {
    forall i: nat | i < cut
      ensures !OccursAt(after, VersionMarker, i)
    {
      if i + |VersionMarker| <= cut {
        assert !OccursAt(before, VersionMarker, i);
        assert after[i..i + |VersionMarker|] == after[..cut][i..i + |VersionMarker|];
        assert before[i..i + |VersionMarker|] == before[..cut][i..i + |VersionMarker|];
      } else if i + |VersionMarker| <= |after| {
        assert after[i..i + |VersionMarker|][cut - i] == ']';
        assert ']' !in VersionMarker;
      }
    }
  }

  /** GetNonGenericName: `Array` for array types, otherwise the CLR name up
      to its first backquote. */
  function GetNonGenericName(t: Reflection.TypeDesc): (n: string)
    ensures t.isArray ==> n == "Array"
    ensures !t.isArray ==> n <= t.name && '`' !in n
    ensures !t.isArray && '`' !in t.name ==> n == t.name
    ensures !t.isArray && '`' in t.name ==> |n| < |t.name| && t.name[|n|] == '`'
  {
    if t.isArray then "Array" else UpToBackquote(t.name)
  }

  function UpToBackquote(s: string): (r: string)
    ensures r <= s && '`' !in r
    ensures '`' !in s ==> r == s
    ensures '`' in s ==> |r| < |s| && s[|r|] == '`'
    decreases |s|
  {
    if |s| == 0 || s[0] == '`' then "" else [s[0]] + UpToBackquote(s[1..])
  }

  /** GetNonGenericNameWithNamespace: namespace, a dot, and the non-generic
      name; a type without a namespace gives a leading dot. */
  function GetNonGenericNameWithNamespace(t: Reflection.TypeDesc): string {
    t.namespace.GetOr("") + "." + GetNonGenericName(t)
  }

  /** Two instantiations of the same generic definition (same namespace,
      same name before the arity suffix) share one key. */
  lemma InstantiationsShareKey(a: Reflection.TypeDesc, b: Reflection.TypeDesc, stem: string, arityA: string, arityB: string)
    requires !a.isArray && !b.isArray && a.namespace == b.namespace
    requires '`' !in stem
    requires a.name == stem + "`" + arityA && b.name == stem + "`" + arityB
    ensures GetNonGenericNameWithNamespace(a) == GetNonGenericNameWithNamespace(b)
    ensures GetNonGenericName(a) == stem
  {
    UpToBackquotePrefix(stem, arityA);
    UpToBackquotePrefix(stem, arityB);
  }

  lemma {:induction false} UpToBackquotePrefix(stem: string, rest: string)
    requires '`' !in stem
    ensures UpToBackquote(stem + "`" + rest) == stem
    decreases |stem|
  {
    if |stem| == 0 {
      assert (stem + "`" + rest)[0] == '`';
    } else {
      assert (stem + "`" + rest)[1..] == stem[1..] + "`" + rest;
      UpToBackquotePrefix(stem[1..], rest);
    }
  }

  /** A memo table as ConcurrentDictionary.GetOrAdd uses it: a cached key
      returns its cached value; otherwise the factory runs and, when it does
      not throw, its value is stored. */
  function GetOrAdd<K(==), V>(cache: map<K, V>, key: K, factory: K -> Result<V>): (r: (Result<V>, map<K, V>))
    ensures key in cache ==> r.0 == Success(cache[key]) && r.1 == cache
    ensures key !in cache && factory(key).Success? ==> r.0 == factory(key) && r.1 == cache[key := factory(key).value]
    ensures key !in cache && factory(key).Failure? ==> r.0 == factory(key) && r.1 == cache
  {
    if key in cache then (Success(cache[key]), cache)
    else match factory(key)
      case Success(v) => (Success(v), cache[key := v])
      case Failure(e) => (Failure(e), cache)
  }

  /** Once a key is cached, later lookups return the first value even if
      the factory would now answer differently; the cache only grows. */
  lemma GetOrAddIsStable<K, V>(cache: map<K, V>, key: K, first: K -> Result<V>, later: K -> Result<V>)
    requires GetOrAdd(cache, key, first).0.Success?
    ensures var (r1, c1) := GetOrAdd(cache, key, first);
            GetOrAdd(c1, key, later) == (r1, c1) && cache.Keys <= c1.Keys
  {
  }

  /** GetType by name, memoised; the factory is the reflection lookup. */
  function GetType(cache: map<string, Reflection.TypeId>, name: string, resolve: string -> Result<Reflection.TypeId>)
    : (r: (Result<Reflection.TypeId>, map<string, Reflection.TypeId>))
    ensures name in cache ==> r.0 == Success(cache[name]) && r.1 == cache
    ensures name !in cache ==> r.0 == resolve(name)
    ensures name !in cache && r.0.Success? ==> r.1 == cache[name := r.0.value]
    ensures r.0.Failure? ==> r.1 == cache
    ensures r.0.Success? ==> name in r.1 && r.1[name] == r.0.value
  {
    GetOrAdd(cache, name, resolve)
  }

  /** GetFriendlyNameForCode, memoised; the factory renders C# source for a
      type and cannot fail. */
  function GetFriendlyNameForCode(cache: map<Reflection.TypeId, string>, t: Reflection.TypeId, render: Reflection.TypeId -> string)
    : (r: (string, map<Reflection.TypeId, string>))
    ensures t in cache ==> r.0 == cache[t] && r.1 == cache
    ensures t !in cache ==> r.0 == render(t) && r.1 == cache[t := render(t)]
  {
    var (v, c) := GetOrAdd(cache, t, (k: Reflection.TypeId) => Success(render(k)));
    (v.value, c)
  }
}

=== FILE: value_type_compiler.dfy ===
/** Types written as text of their own (ValueTypeCompiler.cs): the kind is
    taken from the type attribute, the value is written as the element's
    text or as a CDATA section, and read back from the first text or CDATA
    node of the element. */
module ValueTypeCompiler {
  import opened Wrappers
  import opened NodeTypes
  import opened XmlModel
  import opened Codecs
  import opened Reflection
  import opened CompilerTypeInfo

  /** What the generated code depends on: the serialization method and
      the type information. */
  datatype ValueConfig = ValueConfig(kind: NodeType, info: TypeInfo)

  /** Initialize: `Auto` is read as `Text`; every other kind is kept. */
  function SerializationMethod(declared: NodeType): (k: NodeType)
    ensures k != Auto
    ensures declared != Auto ==> k == declared
    ensures declared == Auto ==> k == Text
  {
    if declared == Auto then Text else declared
  }

  /** The compiler for a type whose type attribute has kind `declared`,
      corrected to finalize the type information once. With kind `None` no
      type information is built, and generating the writer dereferences
      the missing information. */
  function Compile(declared: NodeType, shape: TypeShape): (r: Result<ValueConfig>)
    ensures r.Failure? <==> declared == NodeType.None
    ensures r.Failure? ==> r.error == NullReference
    ensures r.Success? ==> r.value.kind != NodeType.None && r.value.kind != Auto && r.value.info == NewTypeInfo(shape)
    ensures r.Success? && declared != Auto ==> r.value.kind == declared
  {
    if declared == NodeType.None then Failure(NullReference)
    else Success(ValueConfig(SerializationMethod(declared), NewTypeInfo(shape)))
  }

  /** The compiler as written: line 49 builds the type information with
      the constructor that finalizes twice; the kind is chosen as above. */
  function CompileAsWritten(declared: NodeType, shape: TypeShape): (r: Result<ValueConfig>)
    ensures r.Failure? <==> declared == NodeType.None
    ensures r.Failure? ==> r.error == NullReference
    ensures r.Success? ==> r.value == ValueConfig(Compile(declared, shape).value.kind, NewTypeInfoAsWritten(shape))
  {
    if declared == NodeType.None then Failure(NullReference)
    else Success(ValueConfig(SerializationMethod(declared), NewTypeInfoAsWritten(shape)))
  }

  /** ConfigureGetter: the getter reads `.Value` of a `Nullable<T>` unless
      a custom serialization method takes the value as it is. */
  function UnwrapsNullable(info: TypeInfo): (b: bool)
    ensures b <==> info.isNullableType && !info.customSer
  {
    if info.isNullableType then !info.customSer else false
  }

  /** A bare type has no custom method, so the getter unwraps exactly a
      `Nullable<T>`; and it does so only behind the null check, since such
      a type can be null. */
  lemma UnwrapIsGuarded(shape: TypeShape)
    ensures UnwrapsNullable(NewTypeInfo(shape)) <==> shape.isValueType && shape.nullableOf.Some?
    ensures UnwrapsNullable(NewTypeInfo(shape)) ==> NewTypeInfo(shape).canBeNull
  {
  }

  /** As written, the getter of a `Nullable<T>` reads `.Value` while the
      information says the type cannot be null, so the writer generates no
      null check before it: a null value is outside what the writer
      handles (the generated code throws InvalidOperationException on it),
      and an empty element is rejected where the corrected compiler reads
      null. */
  lemma UnwrapUnguardedAsWritten<T(!new)>(declared: NodeType, shape: TypeShape, c: Codec<T>)
    requires declared != NodeType.None && shape.isValueType && shape.nullableOf.Some?
    ensures var cfg := CompileAsWritten(declared, shape).value;
            && UnwrapsNullable(cfg.info) && !cfg.info.canBeNull
            && !Admissible(cfg, Option<T>.None)
            && Read(cfg, c, EmptyFragment) == Failure(Serialization(MissingValueText))
    ensures Admissible(Compile(declared, shape).value, Option<T>.None)
    ensures Read(Compile(declared, shape).value, c, EmptyFragment) == Success(Option.None)
  {
  }

  /** A value of a type that cannot be null is never null. */
  predicate Admissible<T>(cfg: ValueConfig, x: Option<T>) {
    x.None? ==> cfg.info.canBeNull
  }

  /** AppendWriteToXml: a null value writes nothing; otherwise its string
      form is written as CDATA for the CDATA kinds and as text for every
      other kind. */
  function Write<T(!new)>(cfg: ValueConfig, c: Codec<T>, x: Option<T>): (f: Fragment)
    requires Admissible(cfg, x)
    ensures f.attrs == []
    ensures x.None? <==> IsEmptyElement(f)
    ensures x.Some? && (IsCData(cfg.kind) || c.format(x.value) != "") ==> ValueAfterRead(f) == c.format(x.value)
    ensures x.Some? && !IsCData(cfg.kind) && c.format(x.value) == "" ==> NodesOf(f.content) == []
  {
    match x
    case None => EmptyFragment
    case Some(v) =>
      if IsCData(cfg.kind) then WriteCData(EmptyFragment, c.format(v))
      else WriteString(EmptyFragment, c.format(v))
  }

  /** The reader stands on a text or CDATA node after entering the element. */
  predicate HasText(f: Fragment) {
    var nodes := NodesOf(f.content);
    |nodes| > 0 && (nodes[0].TextNode? || nodes[0].CDataNode?)
  }

  /** The text reader, the null check and the empty-string fix: the text
      is parsed when there is some; without text a type that cannot be
      null is an error; a string still null after entering its element is
      the empty string. */
  function Read<T(!new)>(cfg: ValueConfig, c: Codec<T>, f: Fragment): (r: Result<Option<T>>)
    ensures HasText(f) ==> r == (match c.parse(ValueAfterRead(f)) case Success(v) => Success(Some(v)) case Failure(e) => Failure(e))
    ensures !HasText(f) && !cfg.info.canBeNull ==> r == Failure(Serialization(MissingValueText))
    ensures !HasText(f) && cfg.info.canBeNull && (IsEmptyElement(f) || !ValueCaps(cfg.info).isString) ==> r == Success(Option.None)
    ensures r.Success? && r.value.None? ==> cfg.info.canBeNull
  {
    if HasText(f) then
      var v :- c.parse(ValueAfterRead(f));
      Success(Some(v))
    else if !cfg.info.canBeNull then Failure(Serialization(MissingValueText))
    else if ValueCaps(cfg.info).isString && !IsEmptyElement(f) then
      var v :- c.parse("");
      Success(Some(v))
    else Success(Option.None)
  }

  /** When a value reads back: the conversion inverts itself, and a value
      whose string form is empty is written as CDATA or is a string, which
      can be null (plain empty text leaves nothing to read). */
  ghost predicate RoundTrips<T(!new)>(cfg: ValueConfig, c: Codec<T>, x: Option<T>) {
    && TextRoundTrip(c)
    && (x.Some? && c.format(x.value) == "" ==> IsCData(cfg.kind) || (ValueCaps(cfg.info).isString && cfg.info.canBeNull))
  }

  /** Reading gives back what was written, null and "" included. */
  lemma RoundTrip<T(!new)>(cfg: ValueConfig, c: Codec<T>, x: Option<T>)
    requires Admissible(cfg, x) && RoundTrips(cfg, c, x)
    ensures Read(cfg, c, Write(cfg, c, x)) == Success(x)
  {
    if x.Some? {
      var v := x.value;
      assert c.parse(c.format(v)) == Success(v);
      if !IsCData(cfg.kind) && c.format(v) == "" {
        assert x.Some? && c.format(x.value) == "";
        assert ValueCaps(cfg.info).isString;
        assert c.parse("") == Success(v);
      }
    }
  }

  /** A null `string` is written as a self-closed element and "" as an
      element closed by empty text; they read back as null and "". */
  lemma StringExample(cfg: ValueConfig)
    requires cfg.kind == Text && ValueCaps(cfg.info).isString && cfg.info.canBeNull
    ensures Write(cfg, StringCodec(), Option.None) == EmptyFragment
    ensures Write(cfg, StringCodec(), Some("")) == Fragment([], Body([]))
    ensures Write(cfg, StringCodec(), Some("A")) == Fragment([], Body([TextNode("A")]))
    ensures Read(cfg, StringCodec(), EmptyFragment) == Success(Option.None)
    ensures Read(cfg, StringCodec(), Fragment([], Body([]))) == Success(Some(""))
  {
  }
}

=== FILE: wrappers.dfy ===
/** Failure-compatible wrappers shared by every module of the model, and the
    exceptions of the serializer, named by what goes wrong rather than by
    their message text. */
module Wrappers {

  /** A value that may be missing; stands for a nullable reference. */
  datatype Option<+T> = None | Some(value: T) {

    predicate IsFailure() {
      None?
    }

    function PropagateFailure<U>(): Option<U>
      requires None?
    {
      None
    }

    function Extract(): T
      requires Some?
    {
      value
    }

    function GetOr(default: T): T {
      match this
      case Some(v) => v
      case None => default
    }
  }

  /** Why a serializer gave up on a document. */
  datatype SerializationFailure =
    | MissingTypeAttribute          // a boxed object without its `_type` attribute
    | UnresolvedType(name: string)  // a `_type` naming no known type
    | MissingValueElement           // an element-mode collection item without its value child
    | MissingValueAttribute         // an attribute-mode collection item without an attribute
    | MissingValueText              // a non-nullable text value with no text
    | MissingKey                    // a dictionary item without its key
    | MissingValue                  // a dictionary item without a value for a non-nullable type

  /** The message an argument check reports. */
  datatype Message =
    | ValidationFailed                 // the default message of a failed condition
    | MustNotBeEmpty                   // the message of an empty argument
    | Custom(text: string)
    | Formatted(template: string, arguments: seq<string>)

  /** The exceptions the modelled code raises. */
  datatype Error =
    | ArgumentNull(parameter: string)
    | ArgumentInvalid(parameter: string, message: Message)
    | ArgumentOutOfRange
    | NullReference
    | InvalidOperation
    | InvalidCast
    | NotSupported
    | Format
    | Serialization(failure: SerializationFailure)

  /** A computation that either produces a value or raises an exception. */
  datatype Result<+R> = Success(value: R) | Failure(error: Error) {

    predicate IsFailure() {
      Failure?
    }

    function PropagateFailure<U>(): Result<U>
      requires Failure?
    {
      Failure(error)
    }

    function Extract(): R
      requires Success?
    {
      value
    }
  }

  /** A check that either passes or raises an exception. */
  datatype Outcome = Pass | Fail(error: Error) {

    predicate IsFailure() {
      Fail?
    }

    function PropagateFailure<U>(): Result<U>
      requires Fail?
    {
      Failure(error)
    }
  }
}

=== FILE: xml_helper.dfy ===
/** The two reader extensions of XmlHelper.cs, over the nodes an XmlReader
    stops on. A reader is a position in the node sequence; the position
    `|toks|` is the end of input, where Read returns false and stays. */
module XmlHelper {
  import opened XmlModel

  /** A node as the reader reports it. `Element(true)` is `<a />`;
      `Other` stands for whitespace, comments and the like, which these
      methods treat as they treat text. */
  datatype Token = Element(isEmpty: bool) | EndElement | Text | CData | Other

  /** What a move leaves behind: the reader's position and what the
      method returned. */
  datatype Moved = Moved(pos: nat, result: bool)

  /** Neither a start tag nor an end tag. */
  predicate Plain(t: Token) {
    !t.Element? && t != EndElement
  }

  predicate IsElementAt(toks: seq<Token>, p: nat) {
    p < |toks| && toks[p].Element?
  }

  predicate IsEndAt(toks: seq<Token>, p: nat) {
    p < |toks| && toks[p] == EndElement
  }

  /** IsEmptyElement. */
  predicate IsEmptyAt(toks: seq<Token>, p: nat) {
    p < |toks| && toks[p] == Element(true)
  }

  /** Read: the next node, or the end of input. */
  function Next(toks: seq<Token>, p: nat): (q: nat)
    ensures q <= |toks|
    ensures p < |toks| ==> q == p + 1
    ensures p >= |toks| ==> q == |toks|
  {
    if p < |toks| then p + 1 else |toks|
  }

  /** The end tag that closes the element `depth` levels above position
      `j`: the first end tag from `j` on that is not matched by a start
      tag at or after `j`; `|toks|` when the input ends first. */
  function EndOfLevel(toks: seq<Token>, j: nat, depth: nat): (e: nat)
    ensures e <= |toks|
    ensures e < |toks| ==> j <= e && toks[e] == EndElement
    decreases |toks| - j
  {
    if j >= |toks| then |toks|
    else if toks[j] == Element(false) then EndOfLevel(toks, j + 1, depth + 1)
    else if toks[j] == EndElement then
      if depth == 0 then j else EndOfLevel(toks, j + 1, depth - 1)
    else EndOfLevel(toks, j + 1, depth)
  }

  /** Skip: from the start tag of an element with content, past its end
      tag; from any other node, one Read. */
  function Skip(toks: seq<Token>, p: nat): (q: nat)
    ensures q <= |toks|
    ensures p < |toks| ==> p < q
    ensures p < |toks| && toks[p] != Element(false) ==> q == p + 1
    ensures p < |toks| && toks[p] == Element(false) ==>
              (q == |toks| || (IsEndAt(toks, q - 1) && q - 1 == EndOfLevel(toks, p + 1, 0)))
  {
    if IsElementAt(toks, p) && !toks[p].isEmpty then Next(toks, EndOfLevel(toks, p + 1, 0))
    else Next(toks, p)
  }

  /** `while (reader.NodeType == XmlNodeType.Element) reader.Skip();` */
  function SkipElements(toks: seq<Token>, p: nat): (q: nat)
    requires p <= |toks|
    ensures p <= q <= |toks|
    ensures !IsElementAt(toks, q)
    decreases |toks| - p
  {
    if IsElementAt(toks, p) then SkipElements(toks, Skip(toks, p)) else p
  }

  /** The loop of MoveToFirstChild, entered at `p`: it reads until it
      stands on a start tag or an end tag, or the input ends. */
  function ChildLoop(toks: seq<Token>, p: nat): (e: nat)
    requires p <= |toks|
    ensures e <= |toks|
    ensures p < |toks| ==> p < e
    ensures forall j :: p < j < e ==> Plain(toks[j])
    ensures e < |toks| ==> !Plain(toks[e])
    decreases |toks| - p
  {
    var q := Next(toks, p);
    if q == |toks| || !Plain(toks[q]) then q else ChildLoop(toks, q)
  }

  /** MoveToFirstChild: true on the start tag of the first child element,
      passing over the text before it; false just past the element when it
      has no child element, and one node further when it is empty. */
  function MoveToFirstChild(toks: seq<Token>, pos: nat): (m: Moved)
    requires pos <= |toks|
    ensures m.pos <= |toks|
    ensures m.result ==> !IsEmptyAt(toks, pos) && IsElementAt(toks, m.pos) && pos < m.pos
    ensures m.result ==> forall j :: pos < j < m.pos ==> Plain(toks[j])
    ensures !m.result && IsEmptyAt(toks, pos) ==> m.pos == pos + 1
    ensures !m.result && !IsEmptyAt(toks, pos) ==>
              forall j :: pos < j < m.pos - 1 ==> Plain(toks[j])
    ensures !m.result && !IsEmptyAt(toks, pos) ==>
              (m.pos == |toks| && forall j :: pos < j < |toks| ==> Plain(toks[j]))
              || (pos + 1 < m.pos && IsEndAt(toks, m.pos - 1))
  {
    if IsEmptyAt(toks, pos) then Moved(Next(toks, pos), false)
    else
      var e := ChildLoop(toks, pos);
      if IsElementAt(toks, e) then Moved(e, true)
      else Moved(Next(toks, e), false)
  }

  /** The outer loop of MoveUpToNextElement as written, entered at `p`:
      after each Read it stops on an end tag, and otherwise skips the
      elements it stands on and reads again, even when the skip has just
      brought it onto the end tag it was looking for. */
  function UpLoopAsWritten(toks: seq<Token>, p: nat): (e: nat)
    requires p <= |toks|
    ensures p <= e <= |toks|
    ensures p < |toks| ==> p < e
    ensures e == |toks| || IsEndAt(toks, e)
    decreases |toks| - p
  {
    var q := Next(toks, p);
    if q == |toks| || IsEndAt(toks, q) then q
    else UpLoopAsWritten(toks, SkipElements(toks, q))
  }

  /** MoveUpToNextElement as written: the loop, unless already on an end
      tag, then one Read past the end tag. */
  function MoveUpToNextElementAsWritten(toks: seq<Token>, pos: nat): (m: Moved)
    requires pos <= |toks|
    ensures m.result <==> m.pos < |toks|
    ensures pos < |toks| ==> pos < m.pos
    ensures IsEndAt(toks, pos) ==> m.pos == pos + 1
    ensures !IsEndAt(toks, pos) ==> m.pos == |toks| || (0 < m.pos && IsEndAt(toks, m.pos - 1))
  {
    var e := if IsEndAt(toks, pos) then pos else UpLoopAsWritten(toks, pos);
    var q := Next(toks, e);
    Moved(q, q < |toks|)
  }

  /** The outer loop with the end-tag test after the skipping, where the
      comment on the method places it. */
  function UpLoop(toks: seq<Token>, p: nat): (e: nat)
    requires p <= |toks|
    ensures e <= |toks|
    decreases |toks| - p
  {
    var q := Next(toks, p);
    if q == |toks| then q
    else
      var r := SkipElements(toks, q);
      if r == |toks| || IsEndAt(toks, r) then r else UpLoop(toks, r)
  }

  /** MoveUpToNextElement as intended: on an end tag, one Read past it;
      elsewhere, past the end tag that closes the current level, the
      subtrees on the way skipped whole. */
  function MoveUpToNextElement(toks: seq<Token>, pos: nat): (m: Moved)
    requires pos <= |toks|
    ensures m.result <==> m.pos < |toks|
    ensures IsEndAt(toks, pos) ==> m.pos == pos + 1
    ensures !IsEndAt(toks, pos) ==> m.pos == Next(toks, EndOfLevel(toks, pos + 1, 0))
  {
    var e := if IsEndAt(toks, pos) then pos else UpLoop(toks, pos);
    UpLoopEndsLevel(toks, pos);
    var q := Next(toks, e);
    Moved(q, q < |toks|)
  }

  /** Closing `depth + 1` levels is closing `depth` levels, then one more
      from just past that end tag. */
  lemma {:induction false} EndOfLevelStep(toks: seq<Token>, j: nat, depth: nat)
    ensures EndOfLevel(toks, j, depth + 1) == EndOfLevel(toks, Next(toks, EndOfLevel(toks, j, depth)), 0)
    decreases |toks| - j
  {
    if j < |toks| {
      if toks[j] == Element(false) {
        EndOfLevelStep(toks, j + 1, depth + 1);
      } else if toks[j] == EndElement {
        if depth > 0 {
          EndOfLevelStep(toks, j + 1, depth - 1);
        }
      } else {
        EndOfLevelStep(toks, j + 1, depth);
      }
    }
  }

  /** Skipping the elements the reader stands on stays on the same level. */
  lemma {:induction false} SkipElementsKeepsLevel(toks: seq<Token>, p: nat)
    requires p <= |toks|
    ensures EndOfLevel(toks, SkipElements(toks, p), 0) == EndOfLevel(toks, p, 0)
    decreases |toks| - p
  {
    if IsElementAt(toks, p) {
      if !toks[p].isEmpty {
        EndOfLevelStep(toks, p + 1, 0);
      }
      SkipElementsKeepsLevel(toks, Skip(toks, p));
    }
  }

  /** The corrected loop stops on the end tag of the level it starts on. */
  lemma {:induction false} UpLoopEndsLevel(toks: seq<Token>, p: nat)
    requires p <= |toks|
    ensures UpLoop(toks, p) == EndOfLevel(toks, p + 1, 0)
    decreases |toks| - p
  {
    var q := Next(toks, p);
    if q < |toks| {
      var r := SkipElements(toks, q);
      SkipElementsKeepsLevel(toks, q);
      if r < |toks| && !IsEndAt(toks, r) {
        UpLoopEndsLevel(toks, r);
      }
    }
  }

  /** Where the current level holds no child element, the loop as
      written stops where the corrected one does. */
  lemma {:induction false} AsWrittenAgreesWithoutChildren(toks: seq<Token>, p: nat)
    requires p <= |toks|
    requires forall j :: p < j < EndOfLevel(toks, p + 1, 0) ==> !toks[j].Element?
    ensures UpLoopAsWritten(toks, p) == UpLoop(toks, p)
    decreases |toks| - p
  {
    var q := Next(toks, p);
    if q < |toks| && !IsEndAt(toks, q) {
      assert EndOfLevel(toks, q + 1, 0) == EndOfLevel(toks, p + 1, 0);
      AsWrittenAgreesWithoutChildren(toks, q);
    }
  }

  /** The nodes the reader reports for a tree node. */
  function NodeTokens(n: Node): (ts: seq<Token>)
    ensures |ts| > 0
    decreases n, 1
  {
    match n
    case ElementNode(_, _, content) =>
      (match content
       case SelfClosed => [Element(true)]
       case Body(nodes) => [Element(false)] + NodesTokens(nodes) + [EndElement])
    case TextNode(_) => [Text]
    case CDataNode(_) => [CData]
  }

  function NodesTokens(nodes: seq<Node>): seq<Token>
    decreases nodes, 0
  {
    if |nodes| == 0 then [] else NodeTokens(nodes[0]) + NodesTokens(nodes[1..])
  }

  /** The stretch of `toks` from `j` on is `s`. */
  predicate Holds(toks: seq<Token>, j: nat, s: seq<Token>) {
    j + |s| <= |toks| && toks[j..j + |s|] == s
  }

  lemma HoldsFirst(toks: seq<Token>, j: nat, s: seq<Token>)
    requires Holds(toks, j, s) && |s| > 0
    ensures toks[j] == s[0]
  {
    assert toks[j] == toks[j..j + |s|][0];
  }

  lemma Within(toks: seq<Token>, j: nat, whole: seq<Token>, lo: nat, hi: nat)
    requires Holds(toks, j, whole) && lo <= hi <= |whole|
    ensures Holds(toks, j + lo, whole[lo..hi])
  {
    forall i | 0 <= i < hi - lo
      ensures toks[j + lo..j + hi][i] == whole[lo..hi][i]
    {
      assert toks[j + lo + i] == toks[j..j + |whole|][lo + i];
    }
  }

  /** The tokens of a first node, then those of the nodes after it. */
  lemma HeadTail(toks: seq<Token>, j: nat, nodes: seq<Node>)
    requires |nodes| > 0 && Holds(toks, j, NodesTokens(nodes))
    ensures Holds(toks, j, NodeTokens(nodes[0]))
    ensures Holds(toks, j + |NodeTokens(nodes[0])|, NodesTokens(nodes[1..]))
  {
    var whole := NodesTokens(nodes);
    var head := NodeTokens(nodes[0]);
    Within(toks, j, whole, 0, |head|);
    assert whole[0..|head|] == head;
    Within(toks, j, whole, |head|, |whole|);
    assert whole[|head|..|whole|] == NodesTokens(nodes[1..]);
  }

  /** The start tag, content and end tag of an element with content. */
  lemma BodyParts(toks: seq<Token>, j: nat, n: Node)
    requires n.ElementNode? && n.content.Body? && Holds(toks, j, NodeTokens(n))
    ensures toks[j] == Element(false)
    ensures Holds(toks, j + 1, NodesTokens(n.content.nodes))
    ensures j + 1 + |NodesTokens(n.content.nodes)| < |toks|
    ensures toks[j + 1 + |NodesTokens(n.content.nodes)|] == EndElement
  {
    var whole := NodeTokens(n);
    var inner := NodesTokens(n.content.nodes);
    HoldsFirst(toks, j, whole);
    Within(toks, j, whole, 1, 1 + |inner|);
    assert whole[1..1 + |inner|] == inner;
    Within(toks, j, whole, 1 + |inner|, |whole|);
    HoldsFirst(toks, j + 1 + |inner|, whole[1 + |inner|..|whole|]);
  }

  /** A whole node read from `j` leaves every level as it found it. */
  lemma {:induction false} NodePassesLevel(n: Node, toks: seq<Token>, j: nat, depth: nat)
    requires Holds(toks, j, NodeTokens(n))
    ensures EndOfLevel(toks, j, depth) == EndOfLevel(toks, j + |NodeTokens(n)|, depth)
    decreases n, 1
  {
    HoldsFirst(toks, j, NodeTokens(n));
    if n.ElementNode? && n.content.Body? {
      BodyParts(toks, j, n);
      NodesPassLevel(n.content.nodes, toks, j + 1, depth + 1);
    }
  }

  lemma {:induction false} NodesPassLevel(nodes: seq<Node>, toks: seq<Token>, j: nat, depth: nat)
    requires Holds(toks, j, NodesTokens(nodes))
    ensures EndOfLevel(toks, j, depth) == EndOfLevel(toks, j + |NodesTokens(nodes)|, depth)
    decreases nodes, 0
  {
    if |nodes| > 0 {
      HeadTail(toks, j, nodes);
      NodePassesLevel(nodes[0], toks, j, depth);
      NodesPassLevel(nodes[1..], toks, j + |NodeTokens(nodes[0])|, depth);
    }
  }

  /** The nodes of an element with content, followed by whatever comes
      after it in the document. */
  function Document(name: string, attrs: seq<Attr>, nodes: seq<Node>, rest: seq<Token>): (toks: seq<Token>)
    ensures |toks| == 2 + |NodesTokens(nodes)| + |rest|
    ensures toks[0] == Element(false) && toks[1 + |NodesTokens(nodes)|] == EndElement
    ensures Holds(toks, 1, NodesTokens(nodes))
  {
    NodeTokens(ElementNode(name, attrs, Body(nodes))) + rest
  }

  lemma {:induction false} NodesTokensAppend(a: seq<Node>, b: seq<Node>)
    ensures NodesTokens(a + b) == NodesTokens(a) + NodesTokens(b)
    decreases |a|
  {
    if |a| > 0 {
      assert (a + b)[1..] == a[1..] + b;
      NodesTokensAppend(a[1..], b);
    } else {
      assert a + b == b;
    }
  }

  /** The tokens of the nodes around one node. */
  lemma AroundNode(before: seq<Node>, x: Node, after: seq<Node>)
    ensures NodesTokens(before + [x] + after) == NodesTokens(before) + NodeTokens(x) + NodesTokens(after)
  {
    NodesTokensAppend(before + [x], after);
    NodesTokensAppend(before, [x]);
    assert [x][1..] == [];
  }

  /** The reader on a node that is not an end tag, followed by `nodes`
      and an end tag: the corrected method stops just past that end tag. */
  lemma UpPastNodes(toks: seq<Token>, nodes: seq<Node>, pos: nat)
    requires !IsEndAt(toks, pos)
    requires Holds(toks, pos + 1, NodesTokens(nodes))
    requires pos + 1 + |NodesTokens(nodes)| < |toks| && toks[pos + 1 + |NodesTokens(nodes)|] == EndElement
    ensures var e := pos + 1 + |NodesTokens(nodes)|;
            MoveUpToNextElement(toks, pos) == Moved(e + 1, e + 1 < |toks|)
  {
    NodesPassLevel(nodes, toks, pos + 1, 0);
  }

  /** From the element's start tag, the corrected method stops on the node
      after the element. */
  lemma ConsumesFromStart(name: string, attrs: seq<Attr>, nodes: seq<Node>, rest: seq<Token>)
    ensures MoveUpToNextElement(Document(name, attrs, nodes, rest), 0) == Moved(2 + |NodesTokens(nodes)|, |rest| > 0)
  {
    UpPastNodes(Document(name, attrs, nodes, rest), nodes, 0);
  }

  /** From any node directly inside the element other than a child
      element with content, the corrected method stops on the node after
      the element. */
  lemma ConsumesFromChild(name: string, attrs: seq<Attr>, before: seq<Node>, x: Node, after: seq<Node>, rest: seq<Token>)
    requires !(x.ElementNode? && x.content.Body?)
    ensures var toks := Document(name, attrs, before + [x] + after, rest);
            var pos := 1 + |NodesTokens(before)|;
            pos < |toks| && MoveUpToNextElement(toks, pos) == Moved(2 + |NodesTokens(before + [x] + after)|, |rest| > 0)
  {
    var toks := Document(name, attrs, before + [x] + after, rest);
    AroundNode(before, x, after);
    SingleToken(x);
    UpFromOne(toks, 1, NodesTokens(before), NodeTokens(x), after);
  }

  /** The reader on a single token that is not an end tag, inside a known
      stretch of nodes that an end tag closes. */
  lemma UpFromOne(toks: seq<Token>, j: nat, pre: seq<Token>, one: seq<Token>, after: seq<Node>)
    requires |one| == 1 && one[0] != EndElement
    requires Holds(toks, j, pre + one + NodesTokens(after))
    requires j + |pre| + 1 + |NodesTokens(after)| < |toks| && toks[j + |pre| + 1 + |NodesTokens(after)|] == EndElement
    ensures var e := j + |pre| + 1 + |NodesTokens(after)|;
            MoveUpToNextElement(toks, j + |pre|) == Moved(e + 1, e + 1 < |toks|)
  {
    Around(toks, j, pre, one, NodesTokens(after));
    HoldsFirst(toks, j + |pre|, one);
    UpPastNodes(toks, after, j + |pre|);
  }

  /** A node other than an element with content is one token, never an
      end tag. */
  lemma SingleToken(n: Node)
    requires !(n.ElementNode? && n.content.Body?)
    ensures |NodeTokens(n)| == 1 && NodeTokens(n)[0] != EndElement
  {
  }

  /** The three parts of a known stretch of `toks`. */
  lemma Around(toks: seq<Token>, j: nat, before: seq<Token>, x: seq<Token>, after: seq<Token>)
    requires Holds(toks, j, before + x + after)
    ensures Holds(toks, j + |before|, x)
    ensures Holds(toks, j + |before| + |x|, after)
  {
    var whole := before + x + after;
    Within(toks, j, whole, |before|, |before| + |x|);
    assert whole[|before|..|before| + |x|] == x;
    Within(toks, j, whole, |before| + |x|, |whole|);
    assert whole[|before| + |x|..|whole|] == after;
  }

  /** From an element's start tag, MoveToFirstChild finds the element
      FirstChildElement names, or returns false just past the element. */
  lemma FindsFirstChild(n: Node, rest: seq<Token>)
    requires n.ElementNode?
    ensures var toks := NodeTokens(n) + rest;
            var m := MoveToFirstChild(toks, 0);
            && (m.result <==> FirstChildElement(FragmentOf(n)).Some?)
            && (m.result ==> Holds(toks, m.pos, NodeTokens(FirstChildElement(FragmentOf(n)).value)))
            && (!m.result ==> m.pos == |NodeTokens(n)|)
  {
    var toks := NodeTokens(n) + rest;
    if n.content.Body? {
      assert Holds(toks, 0, NodeTokens(n));
      BodyParts(toks, 0, n);
      FirstChildScan(n.content.nodes, toks, 0);
    }
  }

  /** From just before the tokens of `nodes`, the child loop stops on the
      first element among them, or on the token after them when there is
      none. */
  lemma {:induction false} FirstChildScan(nodes: seq<Node>, toks: seq<Token>, p: nat)
    requires Holds(toks, p + 1, NodesTokens(nodes))
    requires p + 1 + |NodesTokens(nodes)| < |toks| && !Plain(toks[p + 1 + |NodesTokens(nodes)|])
    ensures var e := ChildLoop(toks, p);
            match FirstElementIn(nodes)
            case None => e == p + 1 + |NodesTokens(nodes)|
            case Some(c) => Holds(toks, e, NodeTokens(c))
    decreases |nodes|
  {
    if |nodes| > 0 {
      HeadTail(toks, p + 1, nodes);
      var head := NodeTokens(nodes[0]);
      HoldsFirst(toks, p + 1, head);
      if !nodes[0].ElementNode? {
        assert |head| == 1 && Plain(head[0]);
        FirstChildScan(nodes[1..], toks, p + 1);
      } else {
        assert !Plain(head[0]);
      }
    }
  }

  /** The input that shows it: `<p>a<c /></p><q />`, read from the text of
      `p`. The loop as written skips `c`, lands on `</p>`, reads on and
      consumes the sibling `q` as well; the corrected method stops on
      `<q />`. */
  lemma MoveUpCounterexample()
    ensures var toks := Document("p", [], [TextNode("a"), ElementNode("c", [], SelfClosed)], NodeTokens(ElementNode("q", [], SelfClosed)));
            && toks == [Element(false), Text, Element(true), EndElement, Element(true)]
            && MoveUpToNextElementAsWritten(toks, 1) == Moved(5, false)
            && MoveUpToNextElement(toks, 1) == Moved(4, true)
  {
    var nodes := [TextNode("a"), ElementNode("c", [], SelfClosed)];
    assert NodesTokens(nodes[1..]) == [Element(true)] by {
      assert nodes[1..][1..] == [];
    }
    var toks := [Element(false), Text, Element(true), EndElement, Element(true)];
    assert SkipElements(toks, 2) == 3;
    assert SkipElements(toks, 4) == 5;
    assert UpLoopAsWritten(toks, 3) == 5;
    assert UpLoopAsWritten(toks, 1) == 5;
  }
}

=== FILE: xml_model.dfy ===
/** The document the generated serializers write and read, as a tree: an
    element has a name, an ordered attribute list, and content that is
    either self-closed (`<a />`) or a body of nodes (`<a>...</a>`). The
    writer operations are those of XmlWriter that the generated code uses;
    the reader operations are what the generated code observes through
    XmlReader on an element. */
module XmlModel {
  import opened Wrappers

  datatype Attr = Attr(name: string, value: string)

  datatype Node =
    | ElementNode(name: string, attrs: seq<Attr>, content: Content)
    | TextNode(text: string)
    | CDataNode(text: string)

  /** `Body([])` is `<a></a>`: an element whose start tag was closed by
      writing an empty string; `SelfClosed` is `<a />`. */
  datatype Content = SelfClosed | Body(nodes: seq<Node>)

  /** What is written into, or read from, one element: its attributes and
      its content. A serializer is handed the element its caller opened. */
  datatype Fragment = Fragment(attrs: seq<Attr>, content: Content)

  const EmptyFragment: Fragment := Fragment([], SelfClosed)

  function NodesOf(c: Content): seq<Node> {
    match c
    case SelfClosed => []
    case Body(nodes) => nodes
  }

  function AsElement(name: string, f: Fragment): Node {
    ElementNode(name, f.attrs, f.content)
  }

  function FragmentOf(n: Node): Fragment
    requires n.ElementNode?
  {
    Fragment(n.attrs, n.content)
  }

  /** WriteAttributeString: allowed only while the start tag is open. */
  function WriteAttribute(f: Fragment, name: string, value: string): (r: Result<Fragment>)
    ensures r.Success? <==> f.content == SelfClosed
    ensures r.Success? ==> r.value == Fragment(f.attrs + [Attr(name, value)], SelfClosed)
    ensures r.Failure? ==> r.error == InvalidOperation
  {
    if f.content.SelfClosed? then Success(f.(attrs := f.attrs + [Attr(name, value)]))
    else Failure(InvalidOperation)
  }

  /** WriteString: closes the start tag even when the text is empty. */
  function WriteString(f: Fragment, s: string): (r: Fragment)
    ensures r.attrs == f.attrs && r.content.Body?
    ensures NodesOf(r.content) == NodesOf(f.content) + (if s == "" then [] else [TextNode(s)])
  {
    Fragment(f.attrs, Body(NodesOf(f.content) + (if s == "" then [] else [TextNode(s)])))
  }

  /** WriteCData: a CDATA section, written even when empty. */
  function WriteCData(f: Fragment, s: string): (r: Fragment)
    ensures r.attrs == f.attrs && NodesOf(r.content) == NodesOf(f.content) + [CDataNode(s)]
  {
    Fragment(f.attrs, Body(NodesOf(f.content) + [CDataNode(s)]))
  }

  /** WriteStartElement, whatever is written inside, WriteEndElement. */
  function WriteElement(f: Fragment, name: string, inner: Fragment): (r: Fragment)
    ensures r.attrs == f.attrs && NodesOf(r.content) == NodesOf(f.content) + [AsElement(name, inner)]
  {
    Fragment(f.attrs, Body(NodesOf(f.content) + [AsElement(name, inner)]))
  }

  /** Letting a nested serializer write into the element being written:
      its attributes are refused once content has started. */
  function WriteInto(f: Fragment, inner: Fragment): (r: Result<Fragment>)
    ensures r.Success? <==> |inner.attrs| == 0 || f.content == SelfClosed
    ensures r.Failure? ==> r.error == InvalidOperation
    ensures r.Success? ==> r.value.attrs == f.attrs + inner.attrs
    ensures r.Success? ==> NodesOf(r.value.content) == NodesOf(f.content) + NodesOf(inner.content)
    ensures r.Success? ==> (r.value.content == SelfClosed <==> f.content == SelfClosed && inner.content == SelfClosed)
  {
    if |inner.attrs| > 0 && f.content.Body? then Failure(InvalidOperation)
    else if f.content == SelfClosed && inner.content == SelfClosed then Success(Fragment(f.attrs + inner.attrs, SelfClosed))
    else Success(Fragment(f.attrs + inner.attrs, Body(NodesOf(f.content) + NodesOf(inner.content))))
  }

  /** IsEmptyElement. */
  predicate IsEmptyElement(f: Fragment) {
    f.content.SelfClosed?
  }

  /** MoveToFirstAttribute, reading the attribute it lands on. */
  function FirstAttribute(f: Fragment): (a: Option<Attr>)
    ensures a.Some? <==> |f.attrs| > 0
    ensures a.Some? ==> a.value == f.attrs[0]
  {
    if |f.attrs| == 0 then Option.None else Some(f.attrs[0])
  }

  /** `Value` after one Read into a non-empty element: the text of a first
      text or CDATA node, and "" when the reader lands on anything else. */
  function ValueAfterRead(f: Fragment): string {
    var nodes := NodesOf(f.content);
    if |nodes| > 0 && (nodes[0].TextNode? || nodes[0].CDataNode?) then nodes[0].text else ""
  }

  /** The first child element, as MoveToFirstChild finds it. */
  function FirstChildElement(f: Fragment): (r: Option<Node>)
    ensures r.Some? ==> r.value.ElementNode? && r.value in NodesOf(f.content)
    ensures r.None? <==> forall i :: 0 <= i < |NodesOf(f.content)| ==> !NodesOf(f.content)[i].ElementNode?
  {
    FirstElementIn(NodesOf(f.content))
  }

  function FirstElementIn(nodes: seq<Node>): (r: Option<Node>)
    ensures r.Some? ==> r.value.ElementNode? && r.value in nodes
    ensures r.None? <==> forall i :: 0 <= i < |nodes| ==> !nodes[i].ElementNode?
    ensures r.Some? ==> exists k :: 0 <= k < |nodes| && nodes[k] == r.value && forall i :: 0 <= i < k ==> !nodes[i].ElementNode?
    decreases |nodes|
  {
    if |nodes| == 0 then Option.None
    else if nodes[0].ElementNode? then Some(nodes[0])
    else
      var r := FirstElementIn(nodes[1..]);
      assert r.Some? ==> exists k :: 0 <= k < |nodes| && nodes[k] == r.value && forall i :: 0 <= i < k ==> !nodes[i].ElementNode? by {
        if r.Some? {
          var k :| 0 <= k < |nodes[1..]| && nodes[1..][k] == r.value && forall i :: 0 <= i < k ==> !nodes[1..][i].ElementNode?;
          assert nodes[k + 1] == r.value;
          assert forall i :: 1 <= i < k + 1 ==> nodes[i] == nodes[1..][i - 1];
        }
      }
      r
  }

  /** Text written into an element is read back after one Read, whether
      written plain or as CDATA, and never leaves the element empty. */
  lemma TextReadsBack(s: string)
    ensures ValueAfterRead(WriteString(EmptyFragment, s)) == s
    ensures ValueAfterRead(WriteCData(EmptyFragment, s)) == s
    ensures !IsEmptyElement(WriteString(EmptyFragment, s)) && !IsEmptyElement(WriteCData(EmptyFragment, s))
  {
  }
}
